=== FILE: README.md ===
# CKIIParsers, modelled in Dafny

CKIIParsers is the reading layer of CK2Utils. It loads Crusader Kings II
game data into objects. The model covers these readers:

- **Generic option tree** (`Option`): a recursive tree of values (groups,
  dated events, strings, integers, floats, booleans and dates). It is built
  on a shared static stack while a script file is read, and can be printed
  back.
- **Dynasties, provinces, titles, cultures and religions.** Each is read from
  one script file, or from every file of a folder, into id-keyed tables. Errors
  are collected, not raised. After loading, references are linked:
  - dynasties to cultures;
  - religions to their parent and reformed religions;
  - counties to their provinces;
  - provinces to their neighbours, merging the adjacency table with the
    game's setup log.
- **Map** (`default.map`): sea zones, the tree and major rivers.
- **Mods** (`.mod` files): read line by line.
- **Localisation tables** (`.csv` files).
- **Helpers:**
  - date-of-tag parsing, colour parsing, clamping and random picks;
  - the event date comparer;
  - the dynasty-by-culture lookup.

Each file is given to the model already tokenised, as a sequence of
`Entry(tag, value)` pairs. A value is one of:

- a word;
- a bracketed list of words;
- a bracketed block of entries.

The readers' calls into the tokenizer (`ReadString`, `ReadInt32`,
`ReadBool`, `ReadDouble`, `ReadStringList`, `ReadIntList`) become functions
on those values. See the `Tokens` module.

Reader state is an immutable value that is threaded through the model:

- **Exceptions.** A step that throws returns `Thrown(state, message)`. The
  state keeps whatever was changed before the throw, as it does in the
  source. The catch block in each `Parse` turns the message into an entry of
  `Errors`.
- **Object references.** Titles, cultures and religions live in arenas
  addressed by handle. A `Dictionary` is an ordered dictionary: its keys in
  insertion order plus a map. The ordering is what `Values`, `First` and
  `ElementAt` see.
- **The option stack.** The static stack and last root of `Option` are a
  `GenState` that every reader carries.

The model keeps these behaviours of the code as written:

- `ToDateTime` takes the day from the month part: `"1066.9.15"` is 9
  September 1066.
- An event prints its child count after its closing brace.
- A neighbour learned from the setup log is added to one side only.
- `""` and `"-"` pass the numeric test. `ParseSingle` then fails on them.
- A failure inside a nested block does not pop the option stack or the
  title-parent stack. Later options and titles attach to the abandoned
  ones (`Options.StaleStack`, `Titles.StaleParentAdopts`).
- A comment line in a `.mod` file does not advance the line counter that is
  used in error messages.
- An `archive` line sets both `Path` and `UserDir`.

## Model

| member | source | states |
|---|---|---|
| EventComparer.Compare | CKIIParsers/Options/EventOptionDateComparer.cs:12-15 | the comparer returns -1, 0 or 1: negative exactly when the first event's date is earlier, zero exactly when the dates are equal, positive exactly when it is later |
| EventComparer.CompareReflexive | CKIIParsers/Options/EventOptionDateComparer.cs:12-15 | every event compares equal to itself |
| EventComparer.CompareAntisymmetric | CKIIParsers/Options/EventOptionDateComparer.cs:12-15 | swapping the arguments negates the result |
| EventComparer.CompareTransitive | CKIIParsers/Options/EventOptionDateComparer.cs:12-15 | "not after" is transitive, so the comparer is a total preorder usable for sorting |
| EventComparer.DayNumberIff | CKIIParsers/Options/EventOptionDateComparer.cs:14 | counting days from 1 January of year 1 preserves the calendar order of valid dates and is one-to-one |
| EventComparer.CompareDottedTags | CKIIParsers/Options/EventOptionDateComparer.cs:12-15 | two events opened from dotted tags are ordered by year, then by month (the day copies the month) |
| EventComparer.EventDate | CKIIParsers/Options/Option.cs:156-157 | the event opened for a tag with two or more dots carries the tag's `ToDateTime` date |
| Extensions.Clamp | CKIIParsers/Extensions.cs:47-54 | above `max` gives `max`; otherwise below `min` gives `min`; otherwise the input; in range whenever `min <= max` |
| Extensions.ClampIdempotent | CKIIParsers/Extensions.cs:47-54 | clamping twice is clamping once |
| Extensions.ClampMonotone | CKIIParsers/Extensions.cs:47-54 | clamping preserves order |
| Extensions.NewDate | CKIIParsers/Extensions.cs:94 | constructing a `DateTime` fails exactly when the year, month or day is out of the calendar's range |
| Extensions.ToDateTime | CKIIParsers/Extensions.cs:88-95 | text with fewer than two dots gives `DateTime.MinValue`; any date produced is valid and has day equal to month |
| Extensions.ToDateTimeDotted | CKIIParsers/Extensions.cs:90-94 | with two or more dots the conversion succeeds exactly when the first two pieces are 32-bit integers in 1..9999 and 1..12, and yields (year, month, month) |
| Extensions.YearMonth | CKIIParsers/Extensions.cs:93-94 | a date is built exactly when both pieces parsed and are in range |
| Extensions.ParseColour | CKIIParsers/Extensions.cs:56-86 | fewer than three entries give white; any dotted entry gives a fractional colour; otherwise the colour exists exactly when the three entries are integers, each clamped to 0..255 |
| Extensions.ColourChannelsInRange | CKIIParsers/Extensions.cs:63-85 | an integer colour has every channel in 0..255, and entries after the third do not change the result |
| Extensions.RandomItem | CKIIParsers/Extensions.cs:30-45 | the pick fails only on an empty list, and any item returned is a member |
| Extensions.RandomItemReaches | CKIIParsers/Extensions.cs:30-45 | every position of the list can be drawn |
| Extensions.RandomEntry | CKIIParsers/Extensions.cs:22-28 | the pick fails only on an empty dictionary, and any pair returned is one of its entries |
| Options.AddSub | CKIIParsers/Options/Option.cs:176-178 | adding a child appends it to the option's children and keeps the option's id or date |
| Options.IsNumberType | CKIIParsers/Options/Option.cs:127-138 | accepts exactly the texts whose first `-`, if any, is the first character and that hold no letter and no underscore |
| Options.ParseSingle | CKIIParsers/Options/Option.cs:102-125 | numeric text without a dot gives the 32-bit integer and fails exactly when it is not one; with two or more dots it gives the `ToDateTime` date and fails exactly when that does; with one dot it gives the float literal and fails exactly when it is not a decimal literal; other text gives a `yes`/`no` boolean or a string; the result carries the tag as its id |
| Options.AccentedWordIsText | CKIIParsers/Options/Option.cs:127-138 | a word with an accented letter, such as `\U{C9}tienne`, is text, not a number |
| Options.ParseSingleByDots | CKIIParsers/Options/Option.cs:106-115 | numeric text becomes a date with two or more dots, a float with one dot, an integer with none |
| Options.NumericWithoutDigits | CKIIParsers/Options/Option.cs:106-138 | `""` and `"-"` pass the numeric test, and parsing them then fails |
| Options.OutputHead | CKIIParsers/Options/Option.cs:59-61 | every printed option starts with `level` copies of the prefix character, its id and ` = ` |
| Options.OutputTail | CKIIParsers/Options/Option.cs:63-94 | a printed group ends with `}`; a printed event ends with `}` followed by its child count |
| Options.OutputLeafReadsBack | CKIIParsers/Options/Option.cs:55-97 | `Output` of a boolean or 32-bit integer option at level 0 prints its id, ` = ` and then a value text that `ParseSingle` reads back, under that id, to the same option |
| Options.ValueStringCounts | CKIIParsers/Options/Option.cs:204-208 | `GetValueString` of a group or event (lines 204-208, 250-254) and of an integer or string list (lines 510-515, 544) is its item count, which reads back as that count whenever it fits in 32 bits |
| Options.ValueStringQuotes | CKIIParsers/Options/Option.cs:289-293 | `GetValueString` of a string option is its text between double quotes, and stripping the quotes gives the text back |
| Options.ValueRoundTrip | CKIIParsers/Options/Option.cs:102-125 | parsing a printed boolean or 32-bit integer option's id and value gives back the option |
| Options.IntegerRoundTrip | CKIIParsers/Options/Option.cs:321-332 | parsing a printed integer option's value gives back the integer option |
| Options.BooleanRoundTrip | CKIIParsers/Options/Option.cs:360-370 | parsing a printed boolean option's value gives back the boolean option |
| Options.PrintedIntNumeric | CKIIParsers/Options/Option.cs:127-138 | every printed integer passes the numeric test and has no dot |
| Options.Pad | CKIIParsers/Options/Option.cs:59 | the indentation is exactly `level` copies of the prefix character |
| Options.Attach | CKIIParsers/Options/Option.cs:170-179 | a finished option becomes the last root when the stack is empty, and otherwise is appended to the children of the option on top, leaving the rest of the stack alone |
| Options.OpenBlock | CKIIParsers/Options/Option.cs:156-159 | a bracketed tag opens an event exactly when it has two or more dots, and a group named by the tag otherwise; both start with no children |
| Options.ParseGeneric | CKIIParsers/Options/Option.cs:145-180 | a completed read leaves the stack as deep as before; a thrown read leaves it at least that deep |
| Options.ParseBlock | CKIIParsers/Options/Option.cs:154-179 | a thrown block leaves its option, and possibly nested ones, pushed above the caller's stack |
| Options.ParseEntries | CKIIParsers/Options/Option.cs:160-163 | reading a block's entries touches only the option on top of the stack |
| Options.GenericIsConvert | CKIIParsers/Options/Option.cs:145-180 | the stack-based read builds the same tree as a direct recursive conversion and attaches it, and throws exactly when the conversion fails |
| Options.BlockIsConvert | CKIIParsers/Options/Option.cs:154-179 | the same agreement for a block and its children |
| Options.EntriesIsConvert | CKIIParsers/Options/Option.cs:160-163 | the same agreement for a run of entries inside a block |
| Options.GetLastRoot | CKIIParsers/Options/Option.cs:48-53 | returns the last finished root and clears it, leaving the stack alone |
| Options.GetLastRootTwice | CKIIParsers/Options/Option.cs:48-53 | a second call returns nothing |
| Options.ParseOption | CKIIParsers/Options/Option.cs:145-180 | a completed read followed by `GetLastRoot` leaves no root pending and the stack as deep as before |
| Options.ParseOptionAtRoot | CKIIParsers/Options/Option.cs:145-180 | from an empty stack a reader receives the directly converted tree, or an exception when conversion fails |
| Options.StaleStack | CKIIParsers/Options/Option.cs:161-163 | after a throw inside a block the stack is not unwound, and the next successful read returns the stale last root, not what it parsed |
| Options.AsGroup | CKIIParsers/Dynasty/DynastyReader.cs:100 | the cast of a root to a group succeeds exactly for no root or a group root |
| Options.AsEvent | CKIIParsers/Province/ProvinceReader.cs:100 | the cast of a root to an event succeeds exactly for no root or an event root |
| Maps.ParseMapEntry | CKIIParsers/Map/MapReader.cs:58-129 | `sea_zones`, `tree` and `major_rivers` append what they read; unknown keys change nothing; a read failure throws |
| Maps.ParseMapEntries | CKIIParsers/Map/MapReader.cs:58-129 | reading the entries in order from a map completes with a map that keeps every sea zone, tree and river already read, in order, and records no error; an entry that fails on the map as it stands ends the read with exactly that entry's error |
| Maps.Parse | CKIIParsers/Map/MapReader.cs:34-56 | a missing file gives an empty map with one "File not found" error; a found file records no error exactly when every entry reads; the map is then the one the entries make, and otherwise the map holds what was read before the failing entry and exactly that entry's error |
| Maps.ParseUntilFailure | CKIIParsers/Map/MapReader.cs:44-53 | reading stops at the first failure, and at most one error is added; an entry that fails on the map as it stands adds exactly its own error and nothing else |
| Maps.UntilFailureAgrees | CKIIParsers/Map/MapReader.cs:44-53 | the catching read equals the all-or-nothing read of the entries when that completes; when it fails, the catching read adds exactly that failure's error and keeps every sea zone, tree and river read before it, in order |
| Maps.SeaZonesAccumulate | CKIIParsers/Map/MapReader.cs:113-116 | sea zones only ever accumulate: earlier zones stay, in order |
| Maps.IsSeaProvinceIff | CKIIParsers/Map/MapReader.cs:132-135 | a province is a sea province exactly when some zone's inclusive range holds its id |
| Maps.ZoneEquals | CKIIParsers/Map/MapReader.cs:151-158 | a zone equals another exactly when that zone is present and has the same bounds |
| Maps.OpEquals | CKIIParsers/Map/MapReader.cs:179-182 | `==` on zones delegates to `Equals` when the left side is present |
| Maps.OpNotEquals | CKIIParsers/Map/MapReader.cs:184-187 | `!=` is the negation of `==` |
| Maps.OpEqualsIsValueEquality | CKIIParsers/Map/MapReader.cs:151-187 | `==` is value equality including null, so it is symmetric, and `!=` is its negation |
| Maps.ToInt32 | CKIIParsers/Map/MapReader.cs:171-177 | reading a 32-bit pattern as a signed value gives a 32-bit integer, non-negative exactly for the patterns up to 2^31-1, and equal to the pattern or the pattern less 2^32 |
| Maps.Hash | CKIIParsers/Map/MapReader.cs:171-177 | the hash code is a signed 32-bit integer |
| Maps.XorZero | CKIIParsers/Map/MapReader.cs:175 | exclusive or with zero keeps the low bits of the other operand, on either side |
| Maps.HashOfEnd | CKIIParsers/Map/MapReader.cs:171-177 | a zone that starts at 0 hashes to its end |
| Maps.HashOfStart | CKIIParsers/Map/MapReader.cs:171-177 | a zone that ends at 0 hashes to `start * 397` when the product fits in 32 bits, and to the product less 2^32 when it overflows past the largest 32-bit value |
| Maps.HashOverflowExamples | CKIIParsers/Map/MapReader.cs:171-177 | start 6000000 overflows and wraps to -1912967296; start -1 gives -397 |
| Provinces.ProvinceField | CKIIParsers/Province/ProvinceReader.cs:89-123 | a `b_` key appends a settlement named by the key and needs a word; an empty key throws; a digit key reads its value as an option and appends it to the history exactly when it reads and is an event, and a failure leaves the province as it was; `max_settlements` stores the integer and fails exactly when the value is not one; `title`, `culture`, `religion` and `terrain` store the word and fail exactly when the value is not a word; any other key changes nothing; only `title` changes the title; id, file and neighbours are kept |
| Provinces.ProvinceFields | CKIIParsers/Province/ProvinceReader.cs:89-123 | reading the entries keeps id, file and neighbours, and a completed read leaves the word of the last `title` entry as the title, or the title it started with when there is none |
| Provinces.LastTitleWithoutEntry | CKIIParsers/Province/ProvinceReader.cs:110-111 | entries without a `title` key leave the title as it was |
| Provinces.Parse | CKIIParsers/Province/ProvinceReader.cs:31-63 | a missing file records "Unable to find file: " and the name and changes nothing else; a file name whose part before `-` is not an integer records the format error and registers nothing; otherwise the file is loaded under that id; any change to the table is that registration, and at most one error is added |
| Provinces.Load | CKIIParsers/Province/ProvinceReader.cs:39-62 | a read that throws records its message and registers nothing; a read that leaves no title (null or blank) registers nothing and records nothing; a titled read puts the province under the id, replacing any earlier one, with the word of the file's last `title` entry as its title |
| Provinces.UntitledNotRegistered | CKIIParsers/Province/ProvinceReader.cs:50-55 | a file without a `title` entry never changes the table |
| Provinces.ParseFolder | CKIIParsers/Province/ProvinceReader.cs:70-86 | a missing folder records one error and changes nothing else; otherwise every listed file is read, adding at most one error each (with `ParseFolderOne` and `ParseFolderAppend`, the listing is read file by file, in order) |
| Provinces.ParseFolderAppend | CKIIParsers/Province/ProvinceReader.cs:80-85 | reading a listing `a + b` is reading `a`, then `b` |
| Provinces.ParseFolderOne | CKIIParsers/Province/ProvinceReader.cs:80-85 | a found folder listing one file is exactly the reading of that file, and an empty listing changes nothing |
| Provinces.AddNeighbour | CKIIParsers/Province/ProvinceReader.cs:185-188 | adding a neighbour appends exactly that id to one province's list unless it is there already, keeps the earlier list in order, changes no other field and no other province, and keeps the lists sound |
| Provinces.SetCoastal | CKIIParsers/Province/ProvinceReader.cs:239-243 | marks the province coastal and leaves every neighbour list alone |
| Provinces.Link | CKIIParsers/Province/ProvinceReader.cs:185-188 | a line of the adjacency table makes both provinces neighbours of each other |
| Provinces.LinkKeepsSymmetry | CKIIParsers/Province/ProvinceReader.cs:185-188 | linking both ways keeps the neighbour relation symmetric |
| Provinces.ReadRow | CKIIParsers/Province/ProvinceReader.cs:158-176 | a header line (trimmed and lower-cased, starting with `from` or `-1`) has no ids; otherwise the line has ids exactly when its first `;` field is a 32-bit integer; it has only the first id exactly when there is no second field; the second id is the second field's integer, when it is one |
| Provinces.ReadWrittenRow | CKIIParsers/Province/ProvinceReader.cs:163-176 | a line written as `a;b;...` with `a` not negative reads back as the pair `(a, b)` |
| Provinces.AdjacencyLine | CKIIParsers/Province/ProvinceReader.cs:158-188 | a header or a line whose first field is not an integer changes nothing; an unknown first or second id records "Adjacencies: Unable to find province ID: " and the id; a registered first id without a second field throws the index error; a second field that is not an integer changes nothing; two registered ids become neighbours of each other; the keys, soundness and symmetry are kept |
| Provinces.AdjacencyLines | CKIIParsers/Province/ProvinceReader.cs:156-189 | the whole adjacency table keeps the keys, soundness and symmetry, and every earlier neighbour list stays at the front of the new one |
| Provinces.AdjacencyLinesEdges | CKIIParsers/Province/ProvinceReader.cs:156-189 | after a completed merge of the table both ids of every line naming two registered provinces are neighbours of each other, and every neighbour the merge adds comes from such a line, whether or not it completed |
| Provinces.Candidate | CKIIParsers/Province/ProvinceReader.cs:233-254 | a candidate that is not an integer or is a major river changes nothing; a sea zone makes the province being read coastal; an unknown id records an error; a registered land province is appended to the neighbours of the province being read, and of no other, unless it is there already |
| Provinces.Candidates | CKIIParsers/Province/ProvinceReader.cs:231-255 | the candidates of a log line change only the province being read, and keep its earlier neighbours in order |
| Provinces.CandidatesEffect | CKIIParsers/Province/ProvinceReader.cs:231-255 | every registered land candidate becomes a neighbour of the province being read and any sea candidate makes it coastal; every neighbour or coastal flag it gains comes from such a candidate |
| Provinces.LogLine | CKIIParsers/Province/ProvinceReader.cs:198-255 | a line not starting, once trimmed, with `[map.cpp:` or not holding `Adjacencies for`, or a `NONE` listing, changes nothing; a line without the expected separators throws the index error; a source that is not an integer or is a sea zone is skipped; an unknown source is recorded; otherwise the candidates are merged in turn |
| Provinces.ReadLogRow | CKIIParsers/Province/ProvinceReader.cs:200-214 | a listing's source is the integer left after removing `Adjacencies for` from the first `==>` side of the third `:` field, and its candidates are the space-separated pieces of the second side, which is not `NONE` |
| Provinces.LogLineEdges | CKIIParsers/Province/ProvinceReader.cs:213-255 | one log line adds only the edges it lists, to its source, and adds all of them when it completes |
| Provinces.LogLines | CKIIParsers/Province/ProvinceReader.cs:198-257 | the whole log keeps the keys and soundness, and every earlier neighbour list stays at the front of the new one |
| Provinces.LogLinesEdges | CKIIParsers/Province/ProvinceReader.cs:198-257 | after a completed merge of the log every listed source has its registered land candidates as neighbours, and every neighbour the merge adds comes from such a listing |
| Provinces.ParseAdjacencies | CKIIParsers/Province/ProvinceReader.cs:132-259 | a missing log, a missing table or no provinces throws before any change; otherwise the provinces and the soundness of their lists are kept |
| Provinces.ParseAdjacenciesAddsOnlyListed | CKIIParsers/Province/ProvinceReader.cs:132-259 | every neighbour the merge adds comes from a table line naming both provinces or a log listing of the province |
| Provinces.ParseAdjacenciesLinksListed | CKIIParsers/Province/ProvinceReader.cs:132-259 | a completed merge makes both ids of every table line neighbours of each other and gives every log source its listed land neighbours |
| Provinces.LogEdgeIsOneWay | CKIIParsers/Province/ProvinceReader.cs:251-254 | a land neighbour learned from the log is added to the province being read and not to the neighbour |
| Dynasties.DynastyField | CKIIParsers/Dynasty/DynastyReader.cs:84-92 | `name` and `culture` store a word and need one; `coat_of_arms` adds an option; other keys change nothing; id, file and linked culture are kept |
| Dynasties.DynastyFields | CKIIParsers/Dynasty/DynastyReader.cs:84-92 | reading the entries keeps id, file and linked culture |
| Dynasties.ParseDynasty | CKIIParsers/Dynasty/DynastyReader.cs:75-95 | a tag that is not a 32-bit integer throws with nothing changed; otherwise a dynasty with that id and file, not yet linked, is put in the table |
| Dynasties.TopLevel | CKIIParsers/Dynasty/DynastyReader.cs:75-81 | reading a file's top-level entries keeps the dynasty table well formed and leaves the file name and error list alone (what it registers is stated by `TopLevelRegisters`) |
| Dynasties.ParseFile | CKIIParsers/Dynasty/DynastyReader.cs:30-50 | a missing file records one error; otherwise the table is the one the file's entries make, no error is added exactly when every entry reads, a failure adds exactly its own error, and after a complete read every top-level tag is a 32-bit integer with a dynasty of that id from that file in the table |
| Dynasties.TopLevelRegisters | CKIIParsers/Dynasty/DynastyReader.cs:75-81 | a completed read leaves, under every top-level tag, a dynasty with that id read from the file |
| Dynasties.BadTagAborts | CKIIParsers/Dynasty/DynastyReader.cs:40-48 | a tag that is not an integer, reached after the entries before it completed, ends the read with the integer format failure and what those entries registered |
| Dynasties.BadTagAbortsFile | CKIIParsers/Dynasty/DynastyReader.cs:40-48 | such a tag makes the file keep what the entries before it registered and record that one error, and nothing after it is read |
| Dynasties.BadTagAbandonsFile | CKIIParsers/Dynasty/DynastyReader.cs:42-48 | a first tag that is not an integer abandons the whole file with one error |
| Dynasties.ParseFolder | CKIIParsers/Dynasty/DynastyReader.cs:56-72 | a missing folder records one error and changes nothing else; otherwise every listed file is read, adding at most one error each (with `ParseFolderOne` and `ParseFolderAppend`, the listing is read file by file, in order) |
| Dynasties.ParseFolderAppend | CKIIParsers/Dynasty/DynastyReader.cs:68-71 | reading a listing `a + b` is reading `a`, then `b` |
| Dynasties.ParseFolderOne | CKIIParsers/Dynasty/DynastyReader.cs:68-71 | a found folder listing one file is exactly the reading of that file, and an empty listing changes nothing |
| Dynasties.LinkCultures | CKIIParsers/Dynasty/DynastyReader.cs:144-149 | every dynasty whose culture name is known is linked to that culture; no dynasty is added or removed |
| Dynasties.LinkCulturesIdempotent | CKIIParsers/Dynasty/DynastyReader.cs:144-149 | linking twice is linking once |
| Dynasties.ByCulture | CKIIParsers/Dynasty/DynastyReader.cs:134-142 | the list holds exactly the available dynasties of the culture |
| Dynasties.Matching | CKIIParsers/Dynasty/DynastyReader.cs:137-139 | the matching positions are increasing, in range, and are exactly the positions whose dynasty has the culture |
| Dynasties.ByCultureInKeyOrder | CKIIParsers/Dynasty/DynastyReader.cs:134-142 | the list is the dynasties at the matching positions, one for one, in the order the table enumerates them |
| Dynasties.ByCultureEmpty | CKIIParsers/Dynasty/DynastyReader.cs:134-142 | the list is empty exactly when no available dynasty has the culture |
| Dynasties.RemoveFirst | CKIIParsers/Dynasty/DynastyReader.cs:120 | `List.Remove` takes out one occurrence, as a multiset difference |
| Dynasties.RemoveFirstMembers | CKIIParsers/Dynasty/DynastyReader.cs:120 | every other member survives the removal |
| Dynasties.Fallback | CKIIParsers/Dynasty/DynastyReader.cs:121-129 | the fallback finds an available dynasty of a candidate culture exactly when one exists |
| Dynasties.GetDynastyByCulture | CKIIParsers/Dynasty/DynastyReader.cs:110-132 | returns a dynasty of the culture when there is one, else one of another culture of its group; returns nothing exactly when neither exists |
| Dynasties.FallbackCandidates | CKIIParsers/Dynasty/DynastyReader.cs:119-120 | the fallback candidates are members of the culture's group, without the culture when it is listed there once |
| Cultures.NewCulture | CKIIParsers/Culture/Culture.cs:9-75 | a new culture has only `used_for_random` set, no parent and no names |
| Cultures.ScalarField | CKIIParsers/Culture/CultureReader.cs:142-231 | text, flag and chance keys each store exactly their own field and fail exactly when the value is unreadable |
| Cultures.ListField | CKIIParsers/Culture/CultureReader.cs:127-140 | name lists append every name cut at its first underscore |
| Cultures.ScalarKeyField | CKIIParsers/Culture/CultureReader.cs:143-231 | a text, flag or chance key fails exactly when its value does not read and otherwise stores what it read, as `ScalarField` does; a failure keeps the loading state and throws the reader's error |
| Cultures.CultureField | CKIIParsers/Culture/CultureReader.cs:125-237 | `parent` resolves through the registry; the name lists grow; unknown keys add an option exactly when the option reads |
| Cultures.CultureFields | CKIIParsers/Culture/CultureReader.cs:125-237 | reading the entries keeps the culture's identity; from an empty option stack a completed read appends to the misc options exactly the converted option of each entry with an unknown key, in entry order |
| Cultures.MiscInEntryOrder | CKIIParsers/Culture/CultureReader.cs:233-236 | the misc options read earlier stay, in order, at the front of the list, whether or not the read completes |
| Cultures.ParseCulture | CKIIParsers/Culture/CultureReader.cs:106-119 | the culture is registered under its tag and in its group before its entries are read; a non-block value throws |
| Cultures.OwnNameIsRegistered | CKIIParsers/Culture/CultureReader.cs:113-119 | a culture may name itself as parent and resolves to itself |
| Cultures.GroupField | CKIIParsers/Culture/CultureReader.cs:93-101 | group keys change only their group; other keys read a culture of the group |
| Cultures.GroupFields | CKIIParsers/Culture/CultureReader.cs:93-101 | reading a group's entries changes only that group among the groups, keeping its name and file; `GroupFieldsRegisters` and `GroupFieldsKeeps` state which cultures it ends up holding |
| Cultures.GroupFieldAdds | CKIIParsers/Culture/CultureReader.cs:113-119 | an entry with every key other than `graphical_culture` and `second_graphical_culture` reads a culture of that name into the group: it is in the registry and in the group's cultures under the same handle, and records the group as its own |
| Cultures.GroupFieldKeeps | CKIIParsers/Culture/CultureReader.cs:93-101 | any entry, completed or not, keeps every culture already in the group, as registered, in the group |
| Cultures.GroupFieldsKeeps | CKIIParsers/Culture/CultureReader.cs:93-101 | reading the rest of a group's entries keeps every culture already in the group |
| Cultures.GroupFieldsRegisters | CKIIParsers/Culture/CultureReader.cs:93-101 | when a group's entries all read, every entry with every key other than `graphical_culture` and `second_graphical_culture` names a culture that is registered and in that group |
| Cultures.ParseGroup | CKIIParsers/Culture/CultureReader.cs:83-104 | a new group with the tag and file is appended and registered under its tag (replacing an earlier group of that name), earlier groups are kept; a non-block value throws with just the empty group added; a completed group holds, registered and as its own, a culture for every entry with every key other than `graphical_culture` and `second_graphical_culture` |
| Cultures.ParseGroupNames | CKIIParsers/Culture/CultureReader.cs:89-91 | after a group is read its tag names a group of that name, and every name that named a group still does |
| Cultures.TopLevel | CKIIParsers/Culture/CultureReader.cs:53-57 | reading a file's groups keeps the reader valid and only grows it, leaving its file name and errors alone |
| Cultures.TopLevelKeeps | CKIIParsers/Culture/CultureReader.cs:53-57 | reading the rest of a file's groups keeps every group name already known |
| Cultures.TopLevelRegisters | CKIIParsers/Culture/CultureReader.cs:53-57 | when every group of a file reads, every top-level tag of the file names a group of that name |
| Cultures.ParseFile | CKIIParsers/Culture/CultureReader.cs:39-59 | a missing file records one error; a found file is read from its top-level entries under its name: a completed read is kept as it is, adds no error and leaves every top-level tag naming a group; a failed read keeps what was read before the failure and adds exactly its error; the reader only grows |
| Cultures.ParseFolder | CKIIParsers/Culture/CultureReader.cs:65-81 | a missing folder records one error and changes nothing else; otherwise every listed file is read, adding at most one error each (with `ParseFolderOne` and `ParseFolderAppend`, the listing is read file by file, in order) |
| Cultures.ParseFolderAppend | CKIIParsers/Culture/CultureReader.cs:77-80 | reading a listing `a + b` is reading `a`, then `b` |
| Cultures.ParseFolderOne | CKIIParsers/Culture/CultureReader.cs:77-80 | a found folder listing one file is exactly the reading of that file, and an empty listing changes nothing |
| Cultures.GroupMembers | CKIIParsers/Dynasty/DynastyReader.cs:119 | the list holds exactly the cultures of the culture's group |
| Religions.NewReligion | CKIIParsers/Religion/Religion.cs:26-61 | a new religion has the source's default flags, one wife, no parent and no reformed religion |
| Religions.ScalarField | CKIIParsers/Religion/ReligionReader.cs:205-373 | text, number and flag keys each store exactly their own field and fail exactly when the value is unreadable |
| Religions.WordField | CKIIParsers/Religion/ReligionReader.cs:182-230 | `parent` and `reformed` store the word; `intermarry` appends it; each fails exactly when the value is not a word; `god_names` and `evil_god_names` append the list read and fail exactly when it does not read; `color` stores the parsed colour and fails exactly when the list or the colour does not parse |
| Religions.ReligionField | CKIIParsers/Religion/ReligionReader.cs:180-379 | known keys keep the religion's identity; unknown keys add an option exactly when the option reads |
| Religions.ScalarKeyField | CKIIParsers/Religion/ReligionReader.cs:206-372 | a text, number, decimal or flag key fails exactly when its value does not read and otherwise stores what it read, as `ScalarField` does; a failure keeps the loading state |
| Religions.WordKeyField | CKIIParsers/Religion/ReligionReader.cs:182-230 | `color`, `god_names`, `evil_god_names`, `parent`, `reformed` and `intermarry` fail exactly when `WordField` does and otherwise store what it read; a failure keeps the loading state |
| Religions.ModifierKeyField | CKIIParsers/Religion/ReligionReader.cs:192-203 | a modifier key stores its option under the key exactly when the option reads and is a group; a failure keeps the religion |
| Religions.ReligionFields | CKIIParsers/Religion/ReligionReader.cs:180-379 | reading the entries keeps the religion's identity; from an empty option stack a completed read appends to the misc options exactly the converted option of each entry with an unknown key, in entry order |
| Religions.MiscStep | CKIIParsers/Religion/ReligionReader.cs:375-378 | one entry read from an empty option stack leaves it empty and appends only an unknown key's own option |
| Religions.InterMarryAccumulates | CKIIParsers/Religion/ReligionReader.cs:228-230 | the intermarry list only grows while entries are read |
| Religions.InterMarryOnlyThere | CKIIParsers/Religion/ReligionReader.cs:228-230 | no key other than `intermarry` changes that list |
| Religions.ParseReligion | CKIIParsers/Religion/ReligionReader.cs:161-174 | the religion is registered under its tag and in its group, with no links yet; a non-block value throws |
| Religions.GroupScalar | CKIIParsers/Religion/ReligionReader.cs:106-150 | text keys store the word, flag keys the boolean and number keys the integer, under their key, each failing exactly when the value does not read; `male_names` and `female_names` append the name stems and fail exactly when the list does not read; name, file and religions are kept |
| Religions.GroupField | CKIIParsers/Religion/ReligionReader.cs:106-155 | group keys change only their group; other keys read a religion of the group |
| Religions.GroupFields | CKIIParsers/Religion/ReligionReader.cs:106-155 | reading a group's entries changes only that group among the groups, keeping its name and file; `GroupFieldsRegisters` and `GroupFieldsKeeps` state which religions it ends up holding |
| Religions.GroupFieldAdds | CKIIParsers/Religion/ReligionReader.cs:168-170 | an entry with every key that is not one of the group's own keys reads a religion of that name into the group: it is in the registry and in the group's religions under the same handle, and records the group as its own |
| Religions.GroupFieldKeeps | CKIIParsers/Religion/ReligionReader.cs:106-155 | any entry, completed or not, keeps every religion already in the group, as registered, in the group |
| Religions.GroupFieldsKeeps | CKIIParsers/Religion/ReligionReader.cs:106-155 | reading the rest of a group's entries keeps every religion already in the group |
| Religions.GroupFieldsRegisters | CKIIParsers/Religion/ReligionReader.cs:106-155 | when a group's entries all read, every entry with every key that is not one of the group's own keys names a religion that is registered and in that group |
| Religions.ParseGroup | CKIIParsers/Religion/ReligionReader.cs:92-159 | a new group with the tag and file is appended and registered under its tag (replacing an earlier group of that name), earlier groups are kept; a non-block value throws with just the empty group added; a completed group holds, registered and as its own, a religion for every entry with every key that is not one of the group's own keys |
| Religions.ParseGroupNames | CKIIParsers/Religion/ReligionReader.cs:98-100 | after a group is read its tag names a group of that name, and every name that named a group still does |
| Religions.TopLevel | CKIIParsers/Religion/ReligionReader.cs:49-55 | reading a file's groups keeps the reader valid and only grows it, leaving its file name and errors alone |
| Religions.TopLevelKeeps | CKIIParsers/Religion/ReligionReader.cs:49-55 | reading the rest of a file's groups keeps every group name already known |
| Religions.TopLevelRegisters | CKIIParsers/Religion/ReligionReader.cs:49-55 | when every group of a file reads, every top-level tag of the file names a group of that name |
| Religions.LinkReligions | CKIIParsers/Religion/ReligionReader.cs:81-90 | every registered religion's parent and reformed names that are known are resolved; nothing else changes |
| Religions.LinkReligionsIdempotent | CKIIParsers/Religion/ReligionReader.cs:81-90 | linking twice is linking once |
| Religions.ParseFile | CKIIParsers/Religion/ReligionReader.cs:35-57 | a missing file records one error; a found file is read from its top-level entries under its name: a completed read is then linked, adds no error, leaves every religion linked and every top-level tag naming a group; a failed read keeps what was read before the failure, unlinked, and adds exactly its error |
| Religions.ParseFolder | CKIIParsers/Religion/ReligionReader.cs:63-79 | a missing folder records one error and changes nothing else; otherwise every listed file is read, adding at most one error each (with `ParseFolderOne` and `ParseFolderAppend`, the listing is read file by file, in order) |
| Religions.ParseFolderAppend | CKIIParsers/Religion/ReligionReader.cs:75-78 | reading a listing `a + b` is reading `a`, then `b` |
| Religions.ParseFolderOne | CKIIParsers/Religion/ReligionReader.cs:75-78 | a found folder listing one file is exactly the reading of that file, and an empty listing changes nothing |
| Titles.TierOfPrefix | CKIIParsers/Title/TitleReader.cs:298-313 | a title's tier is determined by exactly its `e_`, `k_`, `d_`, `c_` or `b_` prefix |
| Titles.NewTitle | CKIIParsers/Title/Title.cs:20-78 | a new title has no capital, dignity or county id (-1), no sub-titles, black colours and the default flags |
| Titles.ToStringReadsBack | CKIIParsers/Title/Title.cs:95-101 | `ToString` names the title, and a positive county id can be read back from its text |
| Titles.RemoveSub | CKIIParsers/Title/TitleReader.cs:316-331 | the id is dropped from the sub-titles of every title of the tier above |
| Titles.Swept | CKIIParsers/Title/TitleReader.cs:316-331 | the id is dropped from every higher tier's sub-titles |
| Titles.Insert | CKIIParsers/Title/TitleReader.cs:316-331 | a title is registered under its id, replacing any earlier one; a title without a tier prefix is not registered |
| Titles.InsertValid | CKIIParsers/Title/TitleReader.cs:316-331 | registering a title after sweeping its id from the tier above keeps every registered title under its own id with a title prefix, every sub-title handle allocated, and every title still being read unregistered |
| Titles.InsertLeavesUnlisted | CKIIParsers/Title/TitleReader.cs:316-331 | a title not registered is untouched by registering another |
| Titles.InsertTiers | CKIIParsers/Title/TitleReader.cs:316-331 | registering changes only the table of the title's own tier |
| Titles.RestrictUpdate | CKIIParsers/Title/TitleReader.cs:316-331 | a tier's table sees an update exactly when the id has that tier |
| Titles.InsertSparesParents | CKIIParsers/Title/TitleReader.cs:296-313 | registering a title leaves the enclosing titles still being read alone |
| Titles.ScalarField | CKIIParsers/Title/TitleReader.cs:135-277 | flag, text and quoted keys each store exactly their own field and fail exactly when the value is unreadable |
| Titles.OtherField | CKIIParsers/Title/TitleReader.cs:137-262 | colours, holy sites and capital are read into their own fields |
| Titles.HolySitesStayDistinct | CKIIParsers/Title/TitleReader.cs:178-182 | holy sites are added only when absent, so the list has no repeats |
| Titles.ParseTitle | CKIIParsers/Title/TitleReader.cs:119-314 | the read throws with nothing changed exactly when the current parent already has a sub-title with the tag; otherwise a new title with the tag is created under the current parent; on success the parent stack is restored, the title is registered under its tag when it has a tier, and the parent lists it among its sub-titles under the tag; no title outside the new ones and the parent changes |
| Titles.Allocate | CKIIParsers/Title/TitleReader.cs:121-129 | the new title is fresh, unregistered, and has the current parent |
| Titles.Fields | CKIIParsers/Title/TitleReader.cs:135-296 | reading a title's entries changes only that title and its new descendants and restores the parent stack on success; `FieldsRegisters` and `FieldsKeepsSub` state which sub-titles a completed read leaves it |
| Titles.Field | CKIIParsers/Title/TitleReader.cs:135-293 | scalar keys complete exactly when their field reader does and then store just that field; a non-group key shorter than two characters throws with nothing changed; `FieldDispatch` gives the other branches |
| Titles.FieldDispatch | CKIIParsers/Title/TitleReader.cs:135-293 | an entry that is not a scalar key is read as a group field when its key is `allow`, `gain_effect` or `pagan_coa`, as a sub-title when its key of two or more characters has a tier prefix, and as a misc option otherwise |
| Titles.FieldAddsSub | CKIIParsers/Title/TitleReader.cs:279-285 | a completed sub-title entry leaves the title listing, under the key, a title with that id whose parent is the title |
| Titles.FieldKeepsSub | CKIIParsers/Title/TitleReader.cs:135-293 | a completed entry of any kind keeps every sub-title the title already lists |
| Titles.FieldsRegisters | CKIIParsers/Title/TitleReader.cs:279-285 | when a title's entries all read, every sub-title entry is listed among its sub-titles, with that id and the title as parent |
| Titles.FieldsKeepsSub | CKIIParsers/Title/TitleReader.cs:135-296 | a completed read of the rest of the entries keeps every sub-title already listed |
| Titles.GroupField | CKIIParsers/Title/TitleReader.cs:151-162 | the read completes exactly when the option reads and is a group (or nothing); `allow`, `gain_effect` and `pagan_coa` each store the option read in their own field; no other title changes |
| Titles.MiscField | CKIIParsers/Title/TitleReader.cs:287-291 | unknown keys add an option exactly when the option reads |
| Titles.SubTitle | CKIIParsers/Title/TitleReader.cs:279-285 | a sub-title is read with the title pushed as parent; on a throw the parent stays pushed |
| Titles.Replace | CKIIParsers/Title/TitleReader.cs:135-293 | updating a title's fields keeps the reader valid |
| Titles.FinishTitle | CKIIParsers/Title/TitleReader.cs:296-313 | registering the finished title and recording it with its parent keeps the reader valid |
| Titles.CheckLandless | CKIIParsers/Title/TitleReader.cs:107-117 | a registered title other than a barony is titular exactly when it has no sub-titles; nothing else changes |
| Titles.CheckLandlessIdempotent | CKIIParsers/Title/TitleReader.cs:107-117 | checking twice is checking once |
| Titles.BaroniesKeepTitular | CKIIParsers/Title/TitleReader.cs:107-117 | baronies are left alone |
| Titles.FirstTitled | CKIIParsers/Title/TitleReader.cs:339 | finds the first province, in table order, whose title is the county |
| Titles.LinkCounties | CKIIParsers/Title/TitleReader.cs:334-347 | each county takes the id of the first province naming it as both county id and capital; other titles are unchanged |
| Titles.LinkCountiesIdempotent | CKIIParsers/Title/TitleReader.cs:334-347 | linking twice is linking once |
| Titles.TopLevel | CKIIParsers/Title/TitleReader.cs:73-76 | reading a file's titles keeps the reader valid and only grows it: registered titles stay registered, file and errors are kept, and the parent stack is restored on success |
| Titles.TopLevelRegisters | CKIIParsers/Title/TitleReader.cs:73-76 | when every title of a file reads, every top-level tag with a tier prefix is registered |
| Titles.ParseFile | CKIIParsers/Title/TitleReader.cs:61-83 | a missing file records one error; a found file is read from its top-level entries under its name: a completed read is then checked for landless titles, adds no error, registers every top-level tag with a tier prefix and makes every registered non-barony titular exactly when it has no sub-titles; a failed read keeps what was read and adds exactly its error |
| Titles.StaleParentAdopts | CKIIParsers/Title/TitleReader.cs:78-81 | after a failure the parent stack is not unwound, so the next file's first title becomes a child of the abandoned title |
| Titles.ParseFolder | CKIIParsers/Title/TitleReader.cs:89-105 | a missing folder records one error and changes nothing else; otherwise every listed file is read, adding at most one error each (with `ParseFolderOne` and `ParseFolderAppend`, the listing is read file by file, in order) |
| Titles.ParseFolderAppend | CKIIParsers/Title/TitleReader.cs:101-104 | reading a listing `a + b` is reading `a`, then `b` |
| Titles.ParseFolderOne | CKIIParsers/Title/TitleReader.cs:101-104 | a found folder listing one file is exactly the reading of that file, and an empty listing changes nothing |
| Titles.ShallowCopy | CKIIParsers/Title/Title.cs:103-108 | the copy is a new, unregistered title equal to the original |
| Mods.FieldRaw | CKIIParsers/Mod/ModReader.cs:57 | a value exists exactly when the line has `=`, and it has no `#` |
| Mods.Clean | CKIIParsers/Mod/ModReader.cs:57 | the cleaned value has no quotes and no surrounding white space |
| Mods.DependencyNames | CKIIParsers/Mod/ModReader.cs:70-77 | no dependency name is blank |
| Mods.NotBlank | CKIIParsers/Mod/ModReader.cs:71-76 | keeps exactly the pieces that are not blank |
| Mods.Store | CKIIParsers/Mod/ModReader.cs:56-78 | each key changes only its own field |
| Mods.ApplyLine | CKIIParsers/Mod/ModReader.cs:54-82 | a line throws exactly when it names a known key and has no `=`, and then changes nothing |
| Mods.StatementsAgree | CKIIParsers/Mod/ModReader.cs:54-82 | the key-by-key run of the statements equals the one-step description |
| Mods.ApplyLineSets | CKIIParsers/Mod/ModReader.cs:56-61 | `name`, `path` and `user_dir` are set to the cleaned value exactly when their key starts the line |
| Mods.ApplyLineAppends | CKIIParsers/Mod/ModReader.cs:63-78 | extensions, replacements and dependencies grow exactly when their key starts the line |
| Mods.AssignedValue | CKIIParsers/Mod/ModReader.cs:57 | the value of `key=v` is `v` for a plain value |
| Mods.NameRoundTrip | CKIIParsers/Mod/ModReader.cs:56-57 | a written `name=v` line reads back as name `v` |
| Mods.NameKey | CKIIParsers/Mod/ModReader.cs:56-61 | a `name=` line applies only to the name |
| Mods.ArchiveRoundTrip | CKIIParsers/Mod/ModReader.cs:58-61 | a written `archive=v` line sets both path and user directory to `v` |
| Mods.ArchiveKey | CKIIParsers/Mod/ModReader.cs:58-61 | an `archive=` line applies to path and user directory |
| Mods.ReplaceRoundTrip | CKIIParsers/Mod/ModReader.cs:65-66 | a written `replace_path=v` line appends `v` with `/` turned into `\` |
| Mods.ReplaceKey | CKIIParsers/Mod/ModReader.cs:65-66 | a `replace_path=` line applies only to replacements |
| Mods.DependencyNamesOfQuote | CKIIParsers/Mod/ModReader.cs:70-77 | quoting names and splitting them back gives the names |
| Mods.DependenciesRoundTrip | CKIIParsers/Mod/ModReader.cs:68-78 | a written `dependencies={ "a" "b" }` line appends exactly those names |
| Mods.DependenciesKey | CKIIParsers/Mod/ModReader.cs:68-78 | a `dependencies=` line applies only to dependencies |
| Mods.ReadLine | CKIIParsers/Mod/ModReader.cs:48-84 | a throwing line records one error naming the file and line and leaves the mod alone |
| Mods.ReadLines | CKIIParsers/Mod/ModReader.cs:48-84 | the counter advances once per line that is not a comment; errors are only added, at most one per counted line |
| Mods.ReadLinesFailures | CKIIParsers/Mod/ModReader.cs:48-84 | the errors added are exactly one per counted line that names a known key without `=`, each naming the file and that line's number, in line order |
| Mods.ReadLinesMod | CKIIParsers/Mod/ModReader.cs:48-84 | the mod read is the one the non-comment lines make applied in order, whatever the errors |
| Mods.ModAfterFields | CKIIParsers/Mod/ModReader.cs:54-78 | after the lines, name, path and user directory hold the cleaned value of the last line setting them with `=`, or what they held; extensions, replacements and dependencies have gained the values of their lines with `=`, in line order; the mod file and path type are kept |
| Mods.ReadLinesErrors | CKIIParsers/Mod/ModReader.cs:79-83 | every error names the file and a line number within the range read |
| Mods.OnlyComments | CKIIParsers/Mod/ModReader.cs:50-52 | comment lines change nothing |
| Mods.ParseMod | CKIIParsers/Mod/ModReader.cs:30-87 | a missing file records one error; otherwise exactly one mod is added, named by the file, with the folder's path type, whose name, path and user directory are the last values set and whose lists are the values of their lines in order, and the errors added are exactly those of the failing lines |
| Mods.ParseFolder | CKIIParsers/Mod/ModReader.cs:99-110 | a missing folder changes nothing; mods are only added, each with the folder's path type |
| Mods.ParseFolderCount | CKIIParsers/Mod/ModReader.cs:99-110 | a folder of found files adds exactly one mod per file |
| Localisations.Key | CKIIParsers/Localisations/LocalisationReader.cs:31 | the key is the text before the first `;`, or the whole line without one |
| Localisations.KeyOfEntry | CKIIParsers/Localisations/LocalisationReader.cs:31 | the key of `key;rest` is `key` |
| Localisations.Fold | CKIIParsers/Localisations/LocalisationReader.cs:30-31 | every line's key is in the table, and earlier keys stay |
| Localisations.FoldLastWins | CKIIParsers/Localisations/LocalisationReader.cs:30-31 | a key holds the last line with that key |
| Localisations.FoldUntouched | CKIIParsers/Localisations/LocalisationReader.cs:30-31 | a key that no line has keeps its entry or its absence |
| Localisations.FoldAppend | CKIIParsers/Localisations/LocalisationReader.cs:30-31 | reading two runs of lines is reading their concatenation |
| Localisations.Parse | CKIIParsers/Localisations/LocalisationReader.cs:17-34 | a missing file records one error naming it; otherwise every line's key is stored |
| Localisations.ParseFolder | CKIIParsers/Localisations/LocalisationReader.cs:36-50 | a missing folder records one error naming it; keys and errors are only added |
| Localisations.ParseFolderFolds | CKIIParsers/Localisations/LocalisationReader.cs:36-50 | a folder of found files is one fold over all their lines, so the last file wins |
| Text.RepeatsIffTwice | CKIIParsers/Options/Option.cs:110 | "first index differs from last index" means exactly "occurs at least twice" |
| Text.Stems | CKIIParsers/Culture/CultureReader.cs:134 | each name is cut at its first underscore, and a name without one is kept whole |
| Text.ParsePrintedInt | CKIIParsers/Options/Option.cs:115 | `Int32.Parse` of a printed 32-bit integer gives the integer back |
| Text.JoinSplit | CKIIParsers/Extensions.cs:93 | splitting loses nothing: joining the pieces gives back the text |

## Left out

- The script tokenizer is not part of this model. Its observable reads are modelled on pre-tokenised input:
  - brackets, comments and quoting are already resolved;
  - its exception messages are fixed strings.
- File and folder I/O:
  - Whether a file or folder exists, and the files a folder lists, are parameters.
  - The listing is taken as already filtered by `*.txt` or `*.mod`, and already ordered.
  - A `FileInfo.FullName` is the path as given.
  - Text encodings (Windows-1252, the default encoding) are not modelled.
  - `ModReader.Parse(filename)` is modelled through `Parse(filename, MyDocs)`, which is all it does.
- Floating point:
  - `Double.Parse` is modelled only as a check of the literal's shape; the literal is kept as text;
  - fractional colours keep their three literals, and their scaling to bytes is not modelled;
  - `ReadDouble` fields keep the literal.
- Rendering of `DateTime` and `double` values:
  - `GetValueString` of date, event and float options takes the text from a renderer parameter;
  - `Color` values are kept as channel triples.
- `Random` is replaced by explicit draw numbers. Every draw is in range modulo the list's length.
- `ocean_region` entries of `default.map`: the source reads them into a list of lists that nothing uses.
- Fields that the readers store but that no property here depends on are kept with their key, or read and discarded. Examples are province settlement details and religion decimal fields.
- Title.ShallowCopy is modelled as a copy of the title value. Aliasing of its lists with the original's is not modelled, since arenas hold values.
- Titles.Fields: the sub-titles are a map, so their enumeration order is not modelled.
- Options.ParseGeneric: a value that is neither a word nor a block is reported with a fixed message, not the tokenizer's own.
- Exception messages: `ex.ToString()` in the catch blocks is modelled as the exception message, because stack traces are not modelled.
- Text.Trim and Text.ParseInt32: the white-space set is the ASCII one, not the full Unicode set.
- Text.ToLower: lower-cases ASCII letters only; culture-sensitive case mapping is not modelled.
- Text.StartsWith: compares ordinally; `String.StartsWith(string)` is culture-sensitive.
- Mods.NotBlank: states that every kept piece is not blank and that every non-blank piece is kept. It does not state that the order is kept.
- Text.NonEmpty: states the same two directions of membership, without order.
- Provinces.ParseAdjacencies: states that soundness is kept; which edges the merge adds is stated by `Provinces.ParseAdjacenciesAddsOnlyListed` and `Provinces.ParseAdjacenciesLinksListed`. Symmetry is stated only for the adjacency table (`Provinces.AdjacencyLines`), because log edges are one-way (`Provinces.LogEdgeIsOneWay`).
- Options.IsNumberType: a letter is a letter of the Windows-1252 repertoire (ASCII, Latin-1 and the letters at 0x80-0x9F), which is what a Windows-1252 script file can hold. `Char.IsLetter` also accepts letters outside that repertoire; the model counts them as non-letters.
- Options.ParseSingle: uses that letter test, so a value whose only letters lie outside Windows-1252 is taken as numeric and fails to parse, where the source gives a string.
- Provinces.ProvinceField: a digit is an ASCII digit. `Char.IsDigit` also accepts the other Unicode decimal digits, none of which Windows-1252 can hold; a key starting with one is read as an event by the source and ignored by the model.
- Text.IsDecimalLiteral: accepts only a sign, digits and one decimal point. `Double.Parse` under the current culture also accepts group separators (`1,000.5`), exponents and the culture's own symbols, so the model rejects such a literal where the source reads it.
- Options.Output: `AppendLine` writes `Environment.NewLine`, modelled as the Windows terminator `\r\n`; on other platforms it is `\n`.

=== FILE: comparer.dfy ===
/** `EventOptionDateComparer`: history events ordered by their dates, where
    `DateTime.CompareTo` compares tick counts, that is day numbers for the
    midnight dates the readers build. */
module EventComparer {
  import opened Extensions
  import opened Options

  function YearLength(y: int): int
  {
    if IsLeap(y) then 366 else 365
  }

  /** Days from 0001-01-01 to the first day of year `y`. */
  function DaysBeforeYear(y: int): int
    requires y >= 1
  {
    if y == 1 then 0 else DaysBeforeYear(y - 1) + YearLength(y - 1)
  }

  /** Days from the first day of year `y` to the first day of month `m`
      (month 13 stands for the next year). */
  function DaysBeforeMonth(y: int, m: int): (r: int)
    requires 1 <= m <= 13
    ensures 0 <= r <= 31 * (m - 1)
  {
    if m == 1 then 0 else DaysBeforeMonth(y, m - 1) + DaysInMonth(y, m - 1)
  }

  /** The day number of a date: days since 0001-01-01. */
  function DayNumber(d: Date): int
    requires ValidDate(d)
  {
    DaysBeforeYear(d.year) + DaysBeforeMonth(d.year, d.month) + d.day - 1
  }

  /** Calendar order: year first, then month, then day. */
  predicate Before(a: Date, b: Date)
  {
    a.year < b.year
    || (a.year == b.year && a.month < b.month)
    || (a.year == b.year && a.month == b.month && a.day < b.day)
  }

  lemma MonthsFillYear(y: int)
    ensures DaysBeforeMonth(y, 13) == YearLength(y)
  {
    assert DaysBeforeMonth(y, 2) == 31;
    assert DaysBeforeMonth(y, 3) == 31 + DaysInMonth(y, 2);
    assert DaysBeforeMonth(y, 4) == DaysBeforeMonth(y, 3) + 31;
    assert DaysBeforeMonth(y, 5) == DaysBeforeMonth(y, 4) + 30;
    assert DaysBeforeMonth(y, 6) == DaysBeforeMonth(y, 5) + 31;
    assert DaysBeforeMonth(y, 7) == DaysBeforeMonth(y, 6) + 30;
    assert DaysBeforeMonth(y, 8) == DaysBeforeMonth(y, 7) + 31;
    assert DaysBeforeMonth(y, 9) == DaysBeforeMonth(y, 8) + 31;
    assert DaysBeforeMonth(y, 10) == DaysBeforeMonth(y, 9) + 30;
    assert DaysBeforeMonth(y, 11) == DaysBeforeMonth(y, 10) + 31;
    assert DaysBeforeMonth(y, 12) == DaysBeforeMonth(y, 11) + 30;
    assert DaysBeforeMonth(y, 13) == DaysBeforeMonth(y, 12) + 31;
  }

  /** A later month starts after the whole of an earlier one. */
  lemma {:induction false} MonthsAscend(y: int, m1: int, m2: int)
    requires 1 <= m1 < m2 <= 13
    ensures DaysBeforeMonth(y, m1) + DaysInMonth(y, m1) <= DaysBeforeMonth(y, m2)
    decreases m2
  {
    if m2 > m1 + 1 {
      MonthsAscend(y, m1, m2 - 1);
    }
  }

  /** A later year starts after the whole of an earlier one. */
  lemma {:induction false} YearsAscend(y1: int, y2: int)
    requires 1 <= y1 < y2
    ensures DaysBeforeYear(y1) + YearLength(y1) <= DaysBeforeYear(y2)
    decreases y2
  {
    if y2 > y1 + 1 {
      YearsAscend(y1, y2 - 1);
    }
  }

  /** A date's day number stays inside its year. */
  lemma InsideYear(d: Date)
    requires ValidDate(d)
    ensures DaysBeforeYear(d.year) <= DayNumber(d) < DaysBeforeYear(d.year) + YearLength(d.year)
  {
    MonthsFillYear(d.year);
    MonthsAscend(d.year, d.month, 13);
  }

  /** Day numbers follow calendar order. */
  lemma DayNumberOrder(a: Date, b: Date)
    requires ValidDate(a) && ValidDate(b)
    ensures Before(a, b) ==> DayNumber(a) < DayNumber(b)
  {
    if a.year < b.year {
      InsideYear(a);
      InsideYear(b);
      YearsAscend(a.year, b.year);
    } else if a.year == b.year && a.month < b.month {
      MonthsAscend(a.year, a.month, b.month);
    }
  }

  /** Distinct valid dates have distinct day numbers, ordered as the dates. */
  lemma DayNumberIff(a: Date, b: Date)
    requires ValidDate(a) && ValidDate(b)
    ensures DayNumber(a) < DayNumber(b) <==> Before(a, b)
    ensures DayNumber(a) == DayNumber(b) <==> a == b
  {
    DayNumberOrder(a, b);
    DayNumberOrder(b, a);
  }

  /** `Compare(x, y)`: `x.Date.CompareTo(y.Date)`, which is -1, 0 or 1. */
  function Compare(x: Node, y: Node): (r: int)
    requires x.Event? && y.Event? && ValidDate(x.date) && ValidDate(y.date)
    ensures -1 <= r <= 1
    ensures r < 0 <==> Before(x.date, y.date)
    ensures r == 0 <==> x.date == y.date
    ensures r > 0 <==> Before(y.date, x.date)
  {
    DayNumberIff(x.date, y.date);
    DayNumberIff(y.date, x.date);
    var a := DayNumber(x.date);
    var b := DayNumber(y.date);
    if a < b then -1 else if a > b then 1 else 0
  }

  /** Every event compares equal to itself. */
  lemma CompareReflexive(x: Node)
    requires x.Event? && ValidDate(x.date)
    ensures Compare(x, x) == 0
  {
  }

  /** Swapping the arguments negates the result. */
  lemma CompareAntisymmetric(x: Node, y: Node)
    requires x.Event? && y.Event? && ValidDate(x.date) && ValidDate(y.date)
    ensures Compare(x, y) == -Compare(y, x)
  {
  }

  /** The order is transitive. */
  lemma CompareTransitive(x: Node, y: Node, z: Node)
    requires x.Event? && y.Event? && z.Event?
    requires ValidDate(x.date) && ValidDate(y.date) && ValidDate(z.date)
    requires Compare(x, y) <= 0 && Compare(y, z) <= 0
    ensures Compare(x, z) <= 0
  {
  }

  /** Events read from dated tags are ordered by year and then month (the
      day always repeats the month). */
  lemma CompareDottedTags(x: Node, y: Node, tx: string, ty: string)
    requires OpenBlock(tx).Ok? && OpenBlock(tx).value == x && x.Event?
    requires OpenBlock(ty).Ok? && OpenBlock(ty).value == y && y.Event?
    ensures ToDateTime(tx).Ok? && ToDateTime(ty).Ok?
    ensures Compare(x, y) < 0 <==>
      x.date.year < y.date.year || (x.date.year == y.date.year && x.date.month < y.date.month)
  {
    EventDate(tx);
    EventDate(ty);
  }

  lemma EventDate(tag: string)
    requires OpenBlock(tag).Ok? && OpenBlock(tag).value.Event?
    ensures ToDateTime(tag).Ok? && OpenBlock(tag).value.date == ToDateTime(tag).value
  {
  }
}

=== FILE: cultures.dfy ===
/** `CultureReader`: culture groups and the cultures inside them, both
    registered by name with the last one read winning. A culture's parent
    is looked up among the cultures read so far, once, when its `parent`
    entry is read. Cultures and groups live in arenas addressed by handle:
    a replaced culture can still be some other culture's parent, and a
    replaced group can still be some culture's group. */
module Cultures {
  import opened Wrappers
  import opened Text
  import opened Dicts
  import opened Tokens
  import opened Extensions
  import opened Options

  type Handle = nat

  /** A culture. The boolean fields are kept by their key in `flags`, the
      text fields in `texts` and the name chances in `chances`; a key not
      present holds its default. The colour starts as the empty colour,
      whose channels are all zero. */
  datatype Culture = Culture(
    name: string,
    file: string,
    group: Handle,
    parent: Option<Handle>,
    colour: Colour,
    maleNames: seq<string>,
    femaleNames: seq<string>,
    texts: map<string, string>,
    flags: map<string, bool>,
    chances: map<string, int>,
    misc: seq<Option<Node>>)

  /** A culture group; `cultures` maps each culture name to the culture
      last read under it in this group. */
  datatype CultureGroup = CultureGroup(
    name: string,
    file: string,
    graphicalCulture: Option<string>,
    cultures: Dict<string, Handle>)

  const TextKeys: set<string> := {
    "graphical_culture", "modifier", "graphical_unit_culture", "grammar_transform",
    "second_graphical_culture", "from_dynasty_prefix", "male_patronym", "female_patronym",
    "bastard_dynasty_prefix"
  }

  const BoolKeys: set<string> := {
    "prefix", "horde", "dynasty_title_names", "founder_named_dynasties", "dukes_called_kings",
    "baron_titles_hidden", "count_titles_hidden", "disinherit_from_blinding", "used_for_random"
  }

  const ChanceKeys: set<string> := {
    "pat_grf_name_chance", "mat_grf_name_chance", "father_name_chance",
    "pat_grm_name_chance", "mat_grm_name_chance", "mother_name_chance"
  }

  /** The keys of the culture switch that have a case of their own. */
  predicate IsKnownKey(key: string)
  {
    IsScalarKey(key) || key in {"color", "male_names", "female_names", "parent"}
  }

  /** The keys read into a text, boolean or number field. */
  predicate IsScalarKey(key: string)
  {
    key in TextKeys || key in BoolKeys || key in ChanceKeys
  }

  /** The value of a boolean field: only `used_for_random` starts out true. */
  function Flag(c: Culture, key: string): bool
  {
    if key in c.flags then c.flags[key] else key == "used_for_random"
  }

  function NewCulture(name: string, file: string, group: Handle): (c: Culture)
    ensures c.name == name && c.file == file && c.group == group && c.parent.None?
    ensures forall key :: Flag(c, key) <==> key == "used_for_random"
    ensures c.maleNames == [] && c.femaleNames == [] && c.misc == []
  {
    Culture(name, file, group, None, Black, [], [], map[], map[], map[], [])
  }

  function NewGroup(name: string, file: string): CultureGroup
  {
    CultureGroup(name, file, None, Empty())
  }

  datatype CultureReader = CultureReader(
    groups: seq<CultureGroup>,
    groupIndex: map<string, Handle>,
    cultures: seq<Culture>,
    registry: map<string, Handle>,
    file: string,
    gen: GenState,
    errors: seq<string>)

  const NewReader := CultureReader([], map[], [], map[], "", InitialGen, [])

  // ---------------------------------------------------------------------
  // Invariant

  /** Every registered name leads to a culture of that name. */
  ghost predicate RegistryOk(cultures: seq<Culture>, registry: map<string, Handle>)
  {
    forall k :: k in registry ==> registry[k] < |cultures| && cultures[registry[k]].name == k
  }

  /** Every group name leads to a group, every culture's group exists, and
      every group's dictionary is well formed. */
  ghost predicate GroupsOk(groups: seq<CultureGroup>, groupIndex: map<string, Handle>, cultures: seq<Culture>)
  {
    && (forall k :: k in groupIndex ==> groupIndex[k] < |groups|)
    && (forall i :: 0 <= i < |cultures| ==> cultures[i].group < |groups|)
    && (forall g :: 0 <= g < |groups| ==> groups[g].cultures.Valid())
  }

  ghost predicate Valid(rd: CultureReader)
  {
    RegistryOk(rd.cultures, rd.registry) && GroupsOk(rd.groups, rd.groupIndex, rd.cultures)
  }

  // ---------------------------------------------------------------------
  // Culture fields

  /** The culture being read together with the shared option state. */
  datatype Loading = Loading(cul: Culture, gen: GenState)

  /** What no case of the culture switch changes. */
  predicate Keeps(c: Culture, d: Culture)
  {
    d.name == c.name && d.file == c.file && d.group == c.group
  }

  /** The text, boolean and number cases of the culture switch. */
  function ScalarField(c: Culture, key: string, v: Token): (r: Result<Culture>)
    requires key in TextKeys || key in BoolKeys || key in ChanceKeys
    ensures r.Ok? ==> Keeps(c, r.value) && r.value.parent == c.parent
    ensures key in TextKeys ==> (r.Ok? <==> v.Word?)
    ensures key in TextKeys && r.Ok? ==> r.value == c.(texts := c.texts[key := v.text])
    ensures key !in TextKeys && key in BoolKeys ==> (r.Ok? <==> v.Word?)
    ensures key !in TextKeys && key in BoolKeys && r.Ok? ==>
      r.value == c.(flags := c.flags[key := v.text == "yes"])
    ensures key !in TextKeys && key !in BoolKeys ==> (r.Ok? <==> ReadInt32(v).Ok?)
    ensures key !in TextKeys && key !in BoolKeys && r.Ok? ==>
      r.value == c.(chances := c.chances[key := ReadInt32(v).value])
  {
    if key in TextKeys then
      match ReadString(v)
      case Ok(s) => Ok(c.(texts := c.texts[key := s]))
      case Err(e) => Err(e)
    else if key in BoolKeys then
      match ReadBool(v)
      case Ok(b) => Ok(c.(flags := c.flags[key := b]))
      case Err(e) => Err(e)
    else
      match ReadInt32(v)
      case Ok(n) => Ok(c.(chances := c.chances[key := n]))
      case Err(e) => Err(e)
  }

  /** One entry of a culture's block. `parent` is looked up in the
      registry as it stands; a name not (yet) registered gives no parent,
      and replaces any parent set before. Name lists keep each name's
      stem. Any other key is an option kept with the culture's other
      options. The key sets are disjoint; the list and parent cases are
      stated for keys outside the scalar sets. */
  function CultureField(ld: Loading, registry: map<string, Handle>, key: string, v: Token): (r: Outcome<Loading>)
    ensures r.Done? ==> Keeps(ld.cul, r.state.cul)
    ensures r.Thrown? ==> r.state.cul == ld.cul
    ensures !IsScalarKey(key) && key == "parent" ==> (r.Done? <==> v.Word?)
    ensures !IsScalarKey(key) && key == "parent" && r.Done? ==>
      r.state.cul.parent == (if v.text in registry then Some(registry[v.text]) else None)
    ensures !IsScalarKey(key) && key == "male_names" ==> (r.Done? <==> ReadStringList(v).Ok?)
    ensures !IsScalarKey(key) && key == "male_names" && r.Done? ==>
      r.state.cul == ld.cul.(maleNames := ld.cul.maleNames + Stems(ReadStringList(v).value))
    ensures !IsScalarKey(key) && key == "female_names" ==> (r.Done? <==> ReadStringList(v).Ok?)
    ensures !IsScalarKey(key) && key == "female_names" && r.Done? ==>
      r.state.cul == ld.cul.(femaleNames := ld.cul.femaleNames + Stems(ReadStringList(v).value))
    ensures !IsKnownKey(key) ==> (r.Done? <==> ParseOption(ld.gen, key, v).Done?)
    ensures !IsKnownKey(key) && r.Done? ==>
      r.state.cul == ld.cul.(misc := ld.cul.misc + [ParseOption(ld.gen, key, v).state.root])
    ensures IsKnownKey(key) ==> r.state.gen == ld.gen
  {
    var c := ld.cul;
    if IsScalarKey(key) then
      match ScalarField(c, key, v)
      case Ok(d) => Done(ld.(cul := d))
      case Err(e) => Thrown(ld, e)
    else if key == "color" || key == "male_names" || key == "female_names" then
      match ListField(c, key, v)
      case Ok(d) => Done(ld.(cul := d))
      case Err(e) => Thrown(ld, e)
    else if key == "parent" then
      match ReadString(v)
      case Err(e) => Thrown(ld, e)
      case Ok(s) => Done(ld.(cul := c.(parent := if s in registry then Some(registry[s]) else None)))
    else
      match ParseOption(ld.gen, key, v)
      case Thrown(p, e) => Thrown(ld.(gen := p.gen), e)
      case Done(p) => Done(Loading(c.(misc := c.misc + [p.root]), p.gen))
  }

  /** A text, boolean or number key reads as `ScalarField` does: the entry
      fails exactly when the value does not read, and otherwise the
      culture is the one `ScalarField` gives, with the option state kept. */
  lemma ScalarKeyField(ld: Loading, registry: map<string, Handle>, key: string, v: Token)
    requires IsScalarKey(key)
    ensures var r := CultureField(ld, registry, key, v);
      && (r.Done? <==> ScalarField(ld.cul, key, v).Ok?)
      && (r.Done? ==> r.state == ld.(cul := ScalarField(ld.cul, key, v).value))
      && (r.Thrown? ==> r.state == ld && r.error == ScalarField(ld.cul, key, v).error)
  {
  }

  /** The cases reading a bracketed list: the colour and the name lists. */
  function ListField(c: Culture, key: string, v: Token): (r: Result<Culture>)
    requires key == "color" || key == "male_names" || key == "female_names"
    ensures r.Ok? ==> Keeps(c, r.value)
    ensures key != "color" ==> (r.Ok? <==> ReadStringList(v).Ok?)
    ensures key == "male_names" && r.Ok? ==>
      r.value == c.(maleNames := c.maleNames + Stems(ReadStringList(v).value))
    ensures key == "female_names" && r.Ok? ==>
      r.value == c.(femaleNames := c.femaleNames + Stems(ReadStringList(v).value))
  {
    match ReadStringList(v)
    case Err(e) => Err(e)
    case Ok(xs) =>
      if key == "male_names" then Ok(c.(maleNames := c.maleNames + Stems(xs)))
      else if key == "female_names" then Ok(c.(femaleNames := c.femaleNames + Stems(xs)))
      else
        match ParseColour(xs)
        case Err(e) => Err(e)
        case Ok(col) => Ok(c.(colour := col))
  }

  /** `parser.Parse(getOptions)` over a culture's entries from `i` on. */
  function CultureFields(ld: Loading, registry: map<string, Handle>, es: seq<Entry>, i: nat): (r: Outcome<Loading>)
    requires i <= |es|
    ensures Keeps(ld.cul, r.state.cul)
    ensures ld.gen.stack == [] && r.Done? ==> r.state.cul.misc == ld.cul.misc + MiscOptions(es, i)
    decreases |es| - i
  {
    if i == |es| then Done(ld)
    else
      MiscStep(ld, registry, es[i].tag, es[i].value);
      match CultureField(ld, registry, es[i].tag, es[i].value)
      case Thrown(s, e) => Thrown(s, e)
      case Done(s) =>
        assert MiscOptions(es, i) == MiscOption(es[i].tag, es[i].value) + MiscOptions(es, i + 1);
        CultureFields(s, registry, es, i + 1)
  }

  /** The option an entry adds to the misc options when it is read with an
      empty option stack: none for a known key, else its own conversion. */
  function MiscOption(key: string, v: Token): seq<Option<Node>>
  {
    if IsKnownKey(key) || Convert(key, v).Err? then [] else [Some(Convert(key, v).value)]
  }

  /** The options the entries `es[i..]` with unknown keys make, each
      converted on its own, in entry order. */
  function MiscOptions(es: seq<Entry>, i: nat): seq<Option<Node>>
    requires i <= |es|
    decreases |es| - i
  {
    if i == |es| then [] else MiscOption(es[i].tag, es[i].value) + MiscOptions(es, i + 1)
  }

  /** Misc options are kept in the order their entries appear: whatever is
      read keeps the options already there in front. */
  lemma {:induction false} MiscInEntryOrder(ld: Loading, registry: map<string, Handle>, es: seq<Entry>, i: nat)
    requires i <= |es|
    ensures var r := CultureFields(ld, registry, es, i);
      |r.state.cul.misc| >= |ld.cul.misc| && r.state.cul.misc[..|ld.cul.misc|] == ld.cul.misc
    decreases |es| - i
  {
    if i < |es| {
      var r1 := CultureField(ld, registry, es[i].tag, es[i].value);
      if r1.Done? {
        assert r1.state.cul.misc[..|ld.cul.misc|] == ld.cul.misc by {
          if !IsKnownKey(es[i].tag) {
            assert r1.state.cul.misc == ld.cul.misc + [ParseOption(ld.gen, es[i].tag, es[i].value).state.root];
          }
        }
        MiscInEntryOrder(r1.state, registry, es, i + 1);
        var r := CultureFields(r1.state, registry, es, i + 1);
        assert r.state.cul.misc[..|ld.cul.misc|] == r.state.cul.misc[..|r1.state.cul.misc|][..|ld.cul.misc|];
      }
    }
  }

  /** One entry read with an empty option stack: the stack stays empty and
      an unknown key appends its option, converted on its own. */
  lemma MiscStep(ld: Loading, registry: map<string, Handle>, key: string, v: Token)
    ensures var r := CultureField(ld, registry, key, v);
      ld.gen.stack == [] && r.Done? ==> r.state.gen.stack == [] && r.state.cul.misc == ld.cul.misc + MiscOption(key, v)
  {
    if ld.gen.stack == [] && !IsKnownKey(key) {
      ParseOptionAtRoot(ld.gen, key, v);
    }
  }

  // ---------------------------------------------------------------------
  // ParseCultures

  /** `ParseCultures(cg, parser, tag)`: a new culture named `tag` in group
      `g` is registered, replacing an earlier one of that name, both in the
      group and in the global registry, before its entries are read. Its
      entries then fill it in; a failure leaves it registered as far as it
      was read. No other culture changes. */
  function ParseCulture(rd: CultureReader, g: Handle, tag: string, v: Token): (r: Outcome<CultureReader>)
    requires Valid(rd) && g < |rd.groups|
    ensures Valid(r.state)
    ensures var n := |rd.cultures|;
      && |r.state.cultures| == n + 1 && r.state.cultures[..n] == rd.cultures
      && r.state.registry == rd.registry[tag := n]
      && r.state.cultures[n].name == tag && r.state.cultures[n].group == g && r.state.cultures[n].file == rd.file
      && r.state.groups == rd.groups[g := rd.groups[g].(cultures := Put(rd.groups[g].cultures, tag, n))]
    ensures r.state.groupIndex == rd.groupIndex && r.state.file == rd.file && r.state.errors == rd.errors
    ensures !IsBlock(v) ==> r.Thrown?
  {
    var n := |rd.cultures|;
    var c := NewCulture(tag, rd.file, g);
    var grp := rd.groups[g];
    var groups := rd.groups[g := grp.(cultures := Put(grp.cultures, tag, n))];
    var rd1 := rd.(groups := groups, cultures := rd.cultures + [c], registry := rd.registry[tag := n]);
    if !IsBlock(v) then Thrown(rd1, NotABlock)
    else
      var out := CultureFields(Loading(c, rd.gen), rd1.registry, EntriesOf(v), 0);
      var rd2 := rd1.(cultures := rd1.cultures[n := out.state.cul], gen := out.state.gen);
      assert rd2.cultures[..n] == rd.cultures;
      if out.Done? then Done(rd2) else Thrown(rd2, out.error)
  }

  /** A culture may name itself as its parent: it is registered before its
      entries are read. */
  lemma OwnNameIsRegistered(rd: CultureReader, g: Handle, tag: string)
    requires Valid(rd) && g < |rd.groups|
    ensures var r := ParseCulture(rd, g, tag, Block([Entry("parent", Word(tag))]));
      r.Done? && r.state.cultures[|rd.cultures|].parent == Some(|rd.cultures|)
  {
    var c := NewCulture(tag, rd.file, g);
    var n := |rd.cultures|;
    var reg := rd.registry[tag := n];
    var es := [Entry("parent", Word(tag))];
    var ld := Loading(c, rd.gen);
    assert !IsScalarKey("parent");
    var s1 := CultureField(ld, reg, "parent", Word(tag));
    assert s1 == Done(ld.(cul := c.(parent := Some(n))));
    assert CultureFields(ld, reg, es, 0) == CultureFields(s1.state, reg, es, 1);
  }

  // ---------------------------------------------------------------------
  // ParseCultureGroups

  /** One entry of a group's block: `graphical_culture` sets the group's
      field, `second_graphical_culture` is read and dropped, and every
      other key is a culture of the group. */
  function GroupField(rd: CultureReader, g: Handle, key: string, v: Token): (r: Outcome<CultureReader>)
    requires Valid(rd) && g < |rd.groups|
    ensures Valid(r.state) && Grows(rd, r.state)
    ensures |r.state.groups| == |rd.groups| && r.state.groupIndex == rd.groupIndex
    ensures forall j :: 0 <= j < |rd.groups| && j != g ==> r.state.groups[j] == rd.groups[j]
    ensures r.state.groups[g].name == rd.groups[g].name && r.state.groups[g].file == rd.groups[g].file
    ensures r.state.file == rd.file && r.state.errors == rd.errors
    ensures key == "graphical_culture" ==> (r.Done? <==> v.Word?)
    ensures key == "graphical_culture" && r.Done? ==>
      r.state == rd.(groups := rd.groups[g := rd.groups[g].(graphicalCulture := Some(v.text))])
    ensures key == "second_graphical_culture" ==> (r.Done? <==> v.Word?) && r.state == rd
    ensures key != "graphical_culture" && key != "second_graphical_culture" ==>
      r == ParseCulture(rd, g, key, v)
  {
    if key == "graphical_culture" then
      match ReadString(v)
      case Err(e) => Thrown(rd, e)
      case Ok(s) => Done(rd.(groups := rd.groups[g := rd.groups[g].(graphicalCulture := Some(s))]))
    else if key == "second_graphical_culture" then
      match ReadString(v)
      case Err(e) => Thrown(rd, e)
      case Ok(_) => Done(rd)
    else
      var r := ParseCulture(rd, g, key, v);
      assert r.state.cultures[..|rd.cultures|] == rd.cultures;
      r
  }

  /** `b` extends `a`: earlier cultures are unchanged and registered
      names stay registered. */
  ghost predicate Grows(a: CultureReader, b: CultureReader)
  {
    |a.cultures| <= |b.cultures| && b.cultures[..|a.cultures|] == a.cultures
    && (forall k :: k in a.registry ==> k in b.registry)
  }

  lemma GrowsTrans(a: CultureReader, b: CultureReader, c: CultureReader)
    requires Grows(a, b) && Grows(b, c)
    ensures Grows(a, c)
  {
    assert c.cultures[..|a.cultures|] == c.cultures[..|b.cultures|][..|a.cultures|];
  }

  function GroupFields(rd: CultureReader, g: Handle, es: seq<Entry>, i: nat): (r: Outcome<CultureReader>)
    requires Valid(rd) && g < |rd.groups| && i <= |es|
    ensures Valid(r.state) && Grows(rd, r.state)
    ensures |r.state.groups| == |rd.groups| && r.state.groupIndex == rd.groupIndex
    ensures forall j :: 0 <= j < |rd.groups| && j != g ==> r.state.groups[j] == rd.groups[j]
    ensures r.state.groups[g].name == rd.groups[g].name && r.state.groups[g].file == rd.groups[g].file
    ensures r.state.file == rd.file && r.state.errors == rd.errors
    decreases |es| - i
  {
    if i == |es| then Done(rd)
    else
      match GroupField(rd, g, es[i].tag, es[i].value)
      case Thrown(s, e) => Thrown(s, e)
      case Done(s) =>
        var r := GroupFields(s, g, es, i + 1);
        GrowsTrans(rd, s, r.state);
        r
  }

  /** A key of a group's block that names a culture: every key the group
      switch does not read into the group itself. */
  predicate IsCultureKey(key: string)
  {
    key != "graphical_culture" && key != "second_graphical_culture"
  }

  /** `tag` names the same culture in group `g` and in the global
      registry, and that culture belongs to `g`. */
  ghost predicate InGroup(rd: CultureReader, g: Handle, tag: string)
    requires Valid(rd) && g < |rd.groups|
  {
    && tag in rd.registry && tag in rd.groups[g].cultures.entries
    && rd.groups[g].cultures.entries[tag] == rd.registry[tag]
    && rd.cultures[rd.registry[tag]].group == g
  }

  /** A culture entry of group `g` registers its culture in the group and
      globally. */
  lemma GroupFieldAdds(rd: CultureReader, g: Handle, key: string, v: Token)
    requires Valid(rd) && g < |rd.groups| && IsCultureKey(key)
    ensures InGroup(GroupField(rd, g, key, v).state, g, key)
  {
    assert GroupField(rd, g, key, v) == ParseCulture(rd, g, key, v);
  }

  /** Any culture registered in group `g` stays registered. */
  lemma GroupFieldKeeps(rd: CultureReader, g: Handle, key: string, v: Token, t: string)
    requires Valid(rd) && g < |rd.groups| && InGroup(rd, g, t)
    ensures InGroup(GroupField(rd, g, key, v).state, g, t)
  {
    if IsCultureKey(key) {
      assert GroupField(rd, g, key, v) == ParseCulture(rd, g, key, v);
      var r := ParseCulture(rd, g, key, v).state;
      if key != t {
        assert r.cultures[rd.registry[t]] == rd.cultures[rd.registry[t]];
      }
    }
  }

  lemma {:induction false} GroupFieldsKeeps(rd: CultureReader, g: Handle, es: seq<Entry>, i: nat, t: string)
    requires Valid(rd) && g < |rd.groups| && i <= |es| && InGroup(rd, g, t)
    ensures InGroup(GroupFields(rd, g, es, i).state, g, t)
    decreases |es| - i
  {
    if i < |es| {
      GroupFieldKeeps(rd, g, es[i].tag, es[i].value, t);
      var s := GroupField(rd, g, es[i].tag, es[i].value);
      if s.Done? {
        GroupFieldsKeeps(s.state, g, es, i + 1, t);
      }
    }
  }

  /** A completed read of a group's block has every culture key of the
      block registered, in the group and globally, as a culture of the
      group. */
  lemma GroupFieldsStep(rd: CultureReader, g: Handle, es: seq<Entry>, i: nat)
    requires Valid(rd) && g < |rd.groups| && i < |es|
    ensures var s := GroupField(rd, g, es[i].tag, es[i].value);
      s.Done? ==> GroupFields(rd, g, es, i) == GroupFields(s.state, g, es, i + 1)
  {
  }

  /** Pure bookkeeping of the induction step below: the entry at `i` and
      the entries after it together are the entries from `i` on. */
  lemma RegistersJoin(r: CultureReader, g: Handle, es: seq<Entry>, i: nat)
    requires Valid(r) && g < |r.groups| && i < |es|
    requires IsCultureKey(es[i].tag) ==> InGroup(r, g, es[i].tag)
    requires forall j :: i + 1 <= j < |es| && IsCultureKey(es[j].tag) ==> InGroup(r, g, es[j].tag)
    ensures forall j :: i <= j < |es| && IsCultureKey(es[j].tag) ==> InGroup(r, g, es[j].tag)
  {
  }

  /** A completed read of a group's block has every culture key of the
      block registered, in the group and globally, as a culture of the
      group. */
  lemma {:induction false} GroupFieldsRegisters(rd: CultureReader, g: Handle, es: seq<Entry>, i: nat)
    requires Valid(rd) && g < |rd.groups| && i <= |es|
    ensures var r := GroupFields(rd, g, es, i);
      r.Done? ==> forall j :: i <= j < |es| && IsCultureKey(es[j].tag) ==> InGroup(r.state, g, es[j].tag)
    decreases |es| - i
  {
    if i < |es| {
      var s := GroupField(rd, g, es[i].tag, es[i].value);
      if s.Done? {
        GroupFieldsStep(rd, g, es, i);
        var r := GroupFields(s.state, g, es, i + 1);
        if r.Done? {
          GroupFieldsRegisters(s.state, g, es, i + 1);
          if IsCultureKey(es[i].tag) {
            GroupFieldAdds(rd, g, es[i].tag, es[i].value);
            GroupFieldsKeeps(s.state, g, es, i + 1, es[i].tag);
          }
          RegistersJoin(r.state, g, es, i);
        }
      }
    }
  }

  /** `ParseCultureGroups(parser, tag)`: a new group named `tag` replaces
      any earlier group of that name, and its entries are read into it.
      Earlier groups and cultures are never changed. */
  function ParseGroup(rd: CultureReader, tag: string, v: Token): (r: Outcome<CultureReader>)
    requires Valid(rd)
    ensures Valid(r.state) && Grows(rd, r.state)
    ensures var g := |rd.groups|;
      && |r.state.groups| == g + 1 && r.state.groups[..g] == rd.groups
      && r.state.groupIndex == rd.groupIndex[tag := g]
      && r.state.groups[g].name == tag && r.state.groups[g].file == rd.file
    ensures r.state.file == rd.file && r.state.errors == rd.errors
    ensures !IsBlock(v) ==> r == Thrown(rd.(groups := rd.groups + [NewGroup(tag, rd.file)],
                                            groupIndex := rd.groupIndex[tag := |rd.groups|]), NotABlock)
    ensures IsBlock(v) && r.Done? ==> forall j :: 0 <= j < |EntriesOf(v)| && IsCultureKey(EntriesOf(v)[j].tag) ==>
      InGroup(r.state, |rd.groups|, EntriesOf(v)[j].tag)
  {
    var g := |rd.groups|;
    var rd1 := rd.(groups := rd.groups + [NewGroup(tag, rd.file)], groupIndex := rd.groupIndex[tag := g]);
    assert Valid(rd1) by {
      assert forall j :: 0 <= j < g ==> rd1.groups[j] == rd.groups[j];
    }
    if !IsBlock(v) then Thrown(rd1, NotABlock)
    else
      var r := GroupFields(rd1, g, EntriesOf(v), 0);
      GroupFieldsRegisters(rd1, g, EntriesOf(v), 0);
      assert r.state.groups[..g] == rd.groups by {
        assert forall j :: 0 <= j < g ==> r.state.groups[j] == rd1.groups[j];
      }
      r
  }

  function TopLevel(rd: CultureReader, es: seq<Entry>, i: nat): (r: Outcome<CultureReader>)
    requires Valid(rd) && i <= |es|
    ensures Valid(r.state) && Grows(rd, r.state)
    ensures r.state.file == rd.file && r.state.errors == rd.errors
    decreases |es| - i
  {
    if i == |es| then Done(rd)
    else
      match ParseGroup(rd, es[i].tag, es[i].value)
      case Thrown(s, e) => Thrown(s, e)
      case Done(s) =>
        var r := TopLevel(s, es, i + 1);
        GrowsTrans(rd, s, r.state);
        r
  }

  /** `tag` names a group of that name. */
  ghost predicate GroupNamed(rd: CultureReader, tag: string)
    requires Valid(rd)
  {
    tag in rd.groupIndex && rd.groups[rd.groupIndex[tag]].name == tag
  }

  /** Reading a group names it, and keeps every group named before. */
  lemma ParseGroupNames(rd: CultureReader, tag: string, v: Token, t: string)
    requires Valid(rd)
    ensures GroupNamed(ParseGroup(rd, tag, v).state, tag)
    ensures GroupNamed(rd, t) ==> GroupNamed(ParseGroup(rd, tag, v).state, t)
  {
    var r := ParseGroup(rd, tag, v).state;
    if GroupNamed(rd, t) && t != tag {
      assert r.groups[rd.groupIndex[t]] == r.groups[..|rd.groups|][rd.groupIndex[t]];
    }
  }

  lemma {:induction false} TopLevelKeeps(rd: CultureReader, es: seq<Entry>, i: nat, t: string)
    requires Valid(rd) && i <= |es| && GroupNamed(rd, t)
    ensures GroupNamed(TopLevel(rd, es, i).state, t)
    decreases |es| - i
  {
    if i < |es| {
      ParseGroupNames(rd, es[i].tag, es[i].value, t);
      var s := ParseGroup(rd, es[i].tag, es[i].value);
      if s.Done? {
        TopLevelKeeps(s.state, es, i + 1, t);
      }
    }
  }

  lemma TopLevelStep(rd: CultureReader, es: seq<Entry>, i: nat)
    requires Valid(rd) && i < |es|
    ensures var s := ParseGroup(rd, es[i].tag, es[i].value);
      s.Done? ==> TopLevel(rd, es, i) == TopLevel(s.state, es, i + 1)
  {
  }

  /** A completed read of a file has a group under every top-level tag,
      named by it. */
  lemma {:induction false} TopLevelRegisters(rd: CultureReader, es: seq<Entry>, i: nat)
    requires Valid(rd) && i <= |es|
    ensures var r := TopLevel(rd, es, i);
      r.Done? ==> forall j :: i <= j < |es| ==> GroupNamed(r.state, es[j].tag)
    decreases |es| - i
  {
    if i < |es| {
      var s := ParseGroup(rd, es[i].tag, es[i].value);
      if s.Done? {
        TopLevelStep(rd, es, i);
        var r := TopLevel(s.state, es, i + 1);
        if r.Done? {
          TopLevelRegisters(s.state, es, i + 1);
          ParseGroupNames(rd, es[i].tag, es[i].value, es[i].tag);
          TopLevelKeeps(s.state, es, i + 1, es[i].tag);
          assert forall j :: i <= j < |es| ==> GroupNamed(r.state, es[j].tag) by {
            forall j | i <= j < |es| ensures GroupNamed(r.state, es[j].tag) {
              if j > i {}
            }
          }
        }
      }
    }
  }

  /** `Parse(filename)`: a missing file records one error; otherwise the
      groups of the file are read, and a failure records one error and
      abandons the rest of the file. Cultures read earlier are never
      changed, so a parent named before it is read stays unresolved. */
  function ParseFile(rd: CultureReader, f: SourceFile): (r: CultureReader)
    requires Valid(rd)
    ensures Valid(r) && Grows(rd, r)
    ensures !f.found ==> r == rd.(errors := rd.errors + ["File not found: " + f.name])
    ensures f.found ==> r.file == f.name && (r.errors == rd.errors || |r.errors| == |rd.errors| + 1)
    ensures f.found ==> var t := TopLevel(rd.(file := f.name), f.entries, 0);
      && (t.Done? ==> r == t.state)
      && (t.Thrown? ==> r == t.state.(errors := t.state.errors + [t.error]))
      && (r.errors == rd.errors <==> t.Done?)
      && (t.Done? ==> forall j :: 0 <= j < |f.entries| ==> GroupNamed(r, f.entries[j].tag))
  {
    if !f.found then rd.(errors := rd.errors + ["File not found: " + f.name])
    else
      TopLevelRegisters(rd.(file := f.name), f.entries, 0);
      match TopLevel(rd.(file := f.name), f.entries, 0)
      case Done(s) => s
      case Thrown(s, e) => s.(errors := s.errors + [e])
  }

  /** The cultures of a culture's own group, in the group's order (the
      group's current member under each name). */
  function GroupMembers(rd: CultureReader, c: Handle): (r: seq<Handle>)
    requires Valid(rd) && c < |rd.cultures|
    ensures forall x :: x in r <==> x in rd.groups[rd.cultures[c].group].cultures.entries.Values
  {
    var d := rd.groups[rd.cultures[c].group].cultures;
    var vs := d.Values();
    assert forall x :: x in d.entries.Values ==> x in vs by {
      forall x | x in d.entries.Values ensures x in vs {
        var k :| k in d.entries && d.entries[k] == x;
        var i :| 0 <= i < |d.keys| && d.keys[i] == k;
        assert vs[i] == x;
      }
    }
    vs
  }

  // ---------------------------------------------------------------------
  // Folders

  /** `ParseFolder(folder)`: a missing folder records one error naming it;
      otherwise every file it lists ending in `.txt` is read in turn. */
  function ParseFolder(rd: CultureReader, folderExists: bool, folder: string, files: seq<SourceFile>): (r: CultureReader)
    requires Valid(rd)
    ensures Valid(r)
    ensures !folderExists ==> r == rd.(errors := rd.errors + ["Unable to find folder: " + folder])
    ensures folderExists ==> |r.errors| <= |rd.errors| + |files|
    decreases |files|
  {
    if !folderExists then rd.(errors := rd.errors + ["Unable to find folder: " + folder])
    else if |files| == 0 then rd
    else ParseFolder(ParseFile(rd, files[0]), true, folder, files[1..])
  }

  /** Reading a folder that lists one file reads that file, and one that
      lists none changes nothing. */
  lemma ParseFolderOne(rd: CultureReader, folder: string, f: SourceFile)
    requires Valid(rd)
    ensures ParseFolder(rd, true, folder, [f]) == ParseFile(rd, f)
    ensures ParseFolder(rd, true, folder, []) == rd
  {
    assert [f][1..] == [];
  }

  /** Reading a folder whose listing is `a` then `b` reads `a`, then `b`. */
  lemma {:induction false} ParseFolderAppend(rd: CultureReader, folder: string, a: seq<SourceFile>, b: seq<SourceFile>)
    requires Valid(rd)
    ensures ParseFolder(rd, true, folder, a + b) == ParseFolder(ParseFolder(rd, true, folder, a), true, folder, b)
    decreases |a|
  {
    if |a| == 0 {
      assert a + b == b;
    } else {
      assert (a + b)[0] == a[0];
      assert (a + b)[1..] == a[1..] + b;
      ParseFolderAppend(ParseFile(rd, a[0]), folder, a[1..], b);
    }
  }
}

=== FILE: dicts.dfy ===
/** .NET `Dictionary` as the readers use it: a keyed collection whose
    enumeration order is the order in which keys were first added. Replacing
    the value of a present key (directly, or by Remove immediately followed
    by Add, which reuses the freed slot) keeps the key's position. */
module Dicts {

  datatype Dict<K(==), V> = Dict(keys: seq<K>, entries: map<K, V>)
  {
    /** Keys are listed once each, and exactly the keys of `entries` are listed. */
    ghost predicate Valid()
    {
      && (forall i, j :: 0 <= i < j < |keys| ==> keys[i] != keys[j])
      && (forall i :: 0 <= i < |keys| ==> keys[i] in entries)
      && (forall k :: k in entries ==> k in keys)
    }

    /** The values in enumeration order. */
    function Values(): (vs: seq<V>)
      requires Valid()
      ensures |vs| == |keys|
      ensures forall i :: 0 <= i < |keys| ==> vs[i] == entries[keys[i]]
    {
      seq(|keys|, i requires 0 <= i < |keys| => entries[keys[i]])
    }
  }

  function Empty<K(==), V>(): (d: Dict<K, V>)
    ensures d.Valid() && |d.keys| == 0 && d.entries == map[]
  {
    Dict([], map[])
  }

  /** `d[k] = v`: the value under `k` is `v`, every other entry is kept, and
      a new key goes last in the enumeration order. */
  function Put<K(==), V>(d: Dict<K, V>, k: K, v: V): (r: Dict<K, V>)
    requires d.Valid()
    ensures r.Valid()
    ensures r.entries == d.entries[k := v]
    ensures k in d.entries ==> r.keys == d.keys
    ensures k !in d.entries ==> r.keys == d.keys + [k]
  {
    if k in d.entries then Dict(d.keys, d.entries[k := v])
    else Dict(d.keys + [k], d.entries[k := v])
  }
}

=== FILE: dynasties.dfy ===
/** `DynastyReader`: dynasties registered by their integer id, their
    culture linked by name after loading, and the lookup of a dynasty for
    a culture that falls back to the other cultures of its group. A
    dynasty's culture is a handle into the culture reader's arena. */
module Dynasties {
  import opened Wrappers
  import opened Text
  import opened Dicts
  import opened Tokens
  import opened Extensions
  import opened Options
  import Cultures

  datatype Dynasty = Dynasty(
    id: int,
    file: string,
    name: Option<string>,
    cultureString: Option<string>,
    culture: Option<Cultures.Handle>,
    coatOfArms: Option<Node>)

  function NewDynasty(id: int, file: string): Dynasty
  {
    Dynasty(id, file, None, None, None, None)
  }

  datatype DynastyReader = DynastyReader(dynasties: Dict<int, Dynasty>, file: string, gen: GenState, errors: seq<string>)

  const NewReader := DynastyReader(Empty(), "", InitialGen, [])

  /** `Int32.Parse` on a text that is not a 32-bit integer. */
  const BadInteger := "Input string was not in a correct format."

  // ---------------------------------------------------------------------
  // ParseDynasties

  /** The dynasty being read together with the shared option state. */
  datatype Loading = Loading(dyn: Dynasty, gen: GenState)

  /** One entry of a dynasty's block: only `name`, `culture` (kept as its
      name) and `coat_of_arms` (an option block) are recorded; any other
      entry is passed over. */
  function DynastyField(ld: Loading, key: string, v: Token): (r: Outcome<Loading>)
    ensures r.state.dyn.id == ld.dyn.id && r.state.dyn.file == ld.dyn.file
    ensures r.state.dyn.culture == ld.dyn.culture
    ensures key == "name" ==> (r.Done? <==> v.Word?)
    ensures key == "name" && r.Done? ==> r.state == ld.(dyn := ld.dyn.(name := Some(v.text)))
    ensures key == "culture" ==> (r.Done? <==> v.Word?)
    ensures key == "culture" && r.Done? ==> r.state == ld.(dyn := ld.dyn.(cultureString := Some(v.text)))
    ensures key == "coat_of_arms" && r.Done? ==>
      ParseOption(ld.gen, key, v).Done? && r.state.dyn.coatOfArms == ParseOption(ld.gen, key, v).state.root
    ensures key !in {"name", "culture", "coat_of_arms"} ==> r == Done(ld)
  {
    var d := ld.dyn;
    if key == "name" then
      match ReadString(v)
      case Err(e) => Thrown(ld, e)
      case Ok(s) => Done(ld.(dyn := d.(name := Some(s))))
    else if key == "culture" then
      match ReadString(v)
      case Err(e) => Thrown(ld, e)
      case Ok(s) => Done(ld.(dyn := d.(cultureString := Some(s))))
    else if key == "coat_of_arms" then
      match ParseOption(ld.gen, key, v)
      case Thrown(p, e) => Thrown(ld.(gen := p.gen), e)
      case Done(p) =>
        match AsGroup(p.root)
        case Err(e) => Thrown(ld.(gen := p.gen), e)
        case Ok(g) => Done(Loading(d.(coatOfArms := g), p.gen))
    else Done(ld)
  }

  function DynastyFields(ld: Loading, es: seq<Entry>, i: nat): (r: Outcome<Loading>)
    requires i <= |es|
    ensures r.state.dyn.id == ld.dyn.id && r.state.dyn.file == ld.dyn.file
    ensures r.state.dyn.culture == ld.dyn.culture
    decreases |es| - i
  {
    if i == |es| then Done(ld)
    else
      match DynastyField(ld, es[i].tag, es[i].value)
      case Thrown(s, e) => Thrown(s, e)
      case Done(s) => DynastyFields(s, es, i + 1)
  }

  /** `ParseDynasties(parser, tag)`: the tag is the dynasty's id; a tag
      that is not an integer fails before anything is registered.
      Otherwise a new dynasty is put under the id, replacing an earlier
      one, and filled in from its entries; a failure leaves it registered
      as far as it was read. No other dynasty changes. */
  function ParseDynasty(rd: DynastyReader, tag: string, v: Token): (r: Outcome<DynastyReader>)
    requires rd.dynasties.Valid()
    ensures r.state.dynasties.Valid()
    ensures ParseInt32(tag).None? ==> r == Thrown(rd, BadInteger)
    ensures ParseInt32(tag).Some? ==> var id := ParseInt32(tag).value;
      && id in r.state.dynasties.entries
      && r.state.dynasties == Put(rd.dynasties, id, r.state.dynasties.entries[id])
      && r.state.dynasties.entries[id].id == id && r.state.dynasties.entries[id].file == rd.file
      && r.state.dynasties.entries[id].culture.None?
    ensures r.state.file == rd.file && r.state.errors == rd.errors
  {
    match ParseInt32(tag)
    case None => Thrown(rd, BadInteger)
    case Some(id) =>
      var d := NewDynasty(id, rd.file);
      if !IsBlock(v) then Thrown(rd.(dynasties := Put(rd.dynasties, id, d)), NotABlock)
      else
        var out := DynastyFields(Loading(d, rd.gen), EntriesOf(v), 0);
        var rd1 := rd.(dynasties := Put(rd.dynasties, id, out.state.dyn), gen := out.state.gen);
        if out.Done? then Done(rd1) else Thrown(rd1, out.error)
  }

  function TopLevel(rd: DynastyReader, es: seq<Entry>, i: nat): (r: Outcome<DynastyReader>)
    requires rd.dynasties.Valid() && i <= |es|
    ensures r.state.dynasties.Valid()
    ensures r.state.file == rd.file && r.state.errors == rd.errors
    decreases |es| - i
  {
    if i == |es| then Done(rd)
    else
      match ParseDynasty(rd, es[i].tag, es[i].value)
      case Thrown(s, e) => Thrown(s, e)
      case Done(s) => TopLevel(s, es, i + 1)
  }

  /** Whether `tag` is an integer id under which `d` holds a dynasty with
      that id, read from `file`. */
  predicate Registered(d: Dict<int, Dynasty>, tag: string, file: string)
  {
    && ParseInt32(tag).Some?
    && ParseInt32(tag).value in d.entries
    && d.entries[ParseInt32(tag).value].id == ParseInt32(tag).value
    && d.entries[ParseInt32(tag).value].file == file
  }

  /** Reading one more dynasty keeps every dynasty registered before it:
      either its id differs, or it is replaced by one with the same id and
      file. */
  lemma ParseDynastyKeeps(rd: DynastyReader, tag: string, v: Token, t: string)
    requires rd.dynasties.Valid() && Registered(rd.dynasties, t, rd.file)
    ensures Registered(ParseDynasty(rd, tag, v).state.dynasties, t, rd.file)
  {
  }

  lemma {:induction false} TopLevelKeeps(rd: DynastyReader, es: seq<Entry>, i: nat, t: string)
    requires rd.dynasties.Valid() && i <= |es| && Registered(rd.dynasties, t, rd.file)
    ensures Registered(TopLevel(rd, es, i).state.dynasties, t, rd.file)
    decreases |es| - i
  {
    if i < |es| {
      ParseDynastyKeeps(rd, es[i].tag, es[i].value, t);
      var s := ParseDynasty(rd, es[i].tag, es[i].value);
      if s.Done? {
        TopLevelKeeps(s.state, es, i + 1, t);
      }
    }
  }

  /** A completed read has registered a dynasty under every top-level tag,
      each of which is therefore an integer. */
  lemma {:induction false} TopLevelRegisters(rd: DynastyReader, es: seq<Entry>, i: nat)
    requires rd.dynasties.Valid() && i <= |es|
    ensures TopLevel(rd, es, i).Done? ==>
      forall j :: i <= j < |es| ==> Registered(TopLevel(rd, es, i).state.dynasties, es[j].tag, rd.file)
    decreases |es| - i
  {
    if i < |es| {
      var s := ParseDynasty(rd, es[i].tag, es[i].value);
      if s.Done? {
        var r := TopLevel(s.state, es, i + 1);
        assert TopLevel(rd, es, i) == r;
        if r.Done? {
          TopLevelRegisters(s.state, es, i + 1);
          TopLevelKeeps(s.state, es, i + 1, es[i].tag);
          assert forall j :: i < j < |es| ==> Registered(r.state.dynasties, es[j].tag, rd.file);
        }
      }
    }
  }

  /** The top-level loop over the entries from `i` up to, not including,
      `k`: what the loop has done when it reaches entry `k`. */
  function ReadUpTo(rd: DynastyReader, es: seq<Entry>, i: nat, k: nat): (r: Outcome<DynastyReader>)
    requires rd.dynasties.Valid() && i <= k <= |es|
    ensures r.state.dynasties.Valid()
    decreases k - i
  {
    if i == k then Done(rd)
    else
      match ParseDynasty(rd, es[i].tag, es[i].value)
      case Thrown(s, e) => Thrown(s, e)
      case Done(s) => ReadUpTo(s, es, i + 1, k)
  }

  /** One step of the loop up to `k`. */
  lemma ReadUpToStep(rd: DynastyReader, es: seq<Entry>, i: nat, k: nat)
    requires rd.dynasties.Valid() && i < k <= |es|
    ensures var s := ParseDynasty(rd, es[i].tag, es[i].value);
      ReadUpTo(rd, es, i, k) == if s.Done? then ReadUpTo(s.state, es, i + 1, k) else s
  {
  }

  /** One step of the top-level loop. */
  lemma TopLevelStep(rd: DynastyReader, es: seq<Entry>, i: nat)
    requires rd.dynasties.Valid() && i < |es|
    ensures var s := ParseDynasty(rd, es[i].tag, es[i].value);
      TopLevel(rd, es, i) == if s.Done? then TopLevel(s.state, es, i + 1) else s
  {
  }

  /** A tag that is not an integer, reached after the entries before it
      were read, abandons the rest of the entries with that failure. */
  lemma {:induction false} BadTagAborts(rd: DynastyReader, es: seq<Entry>, i: nat, k: nat)
    requires rd.dynasties.Valid() && i <= k < |es| && ParseInt32(es[k].tag).None?
    requires ReadUpTo(rd, es, i, k).Done?
    ensures TopLevel(rd, es, i) == Thrown(ReadUpTo(rd, es, i, k).state, BadInteger)
    decreases k - i
  {
    if i < k {
      var s := ParseDynasty(rd, es[i].tag, es[i].value);
      ReadUpToStep(rd, es, i, k);
      assert s.Done?;
      BadTagAborts(s.state, es, i + 1, k);
      TopLevelStep(rd, es, i);
    } else {
      TopLevelStep(rd, es, i);
    }
  }

  /** `Parse(filename)`: a missing file records one error; otherwise the
      dynasties of the file are read, and a failure records one error and
      abandons the rest of the file. */
  function ParseFile(rd: DynastyReader, f: SourceFile): (r: DynastyReader)
    requires rd.dynasties.Valid()
    ensures r.dynasties.Valid()
    ensures !f.found ==> r == rd.(errors := rd.errors + ["File not found: " + f.name])
    ensures f.found ==> r.file == f.name && (r.errors == rd.errors || |r.errors| == |rd.errors| + 1)
    ensures f.found ==> var t := TopLevel(rd.(file := f.name), f.entries, 0);
      && r.dynasties == t.state.dynasties
      && (r.errors == rd.errors <==> t.Done?)
      && (t.Thrown? ==> r.errors == rd.errors + [t.error])
      && (t.Done? ==> forall j :: 0 <= j < |f.entries| ==> Registered(r.dynasties, f.entries[j].tag, f.name))
  {
    if !f.found then rd.(errors := rd.errors + ["File not found: " + f.name])
    else
      TopLevelRegisters(rd.(file := f.name), f.entries, 0);
      match TopLevel(rd.(file := f.name), f.entries, 0)
      case Done(s) => s
      case Thrown(s, e) => s.(errors := s.errors + [e])
  }

  /** A file whose tag `k` is not an integer keeps what its first `k`
      entries registered, records that one failure, and reads nothing
      after it. */
  lemma BadTagAbortsFile(rd: DynastyReader, f: SourceFile, k: nat)
    requires rd.dynasties.Valid() && f.found && k < |f.entries| && ParseInt32(f.entries[k].tag).None?
    requires ReadUpTo(rd.(file := f.name), f.entries, 0, k).Done?
    ensures ParseFile(rd, f) ==
      ReadUpTo(rd.(file := f.name), f.entries, 0, k).state.(errors := rd.errors + [BadInteger])
  {
    BadTagAborts(rd.(file := f.name), f.entries, 0, k);
  }

  /** A file whose first tag is not an integer adds nothing. */
  lemma BadTagAbandonsFile(rd: DynastyReader, f: SourceFile)
    requires rd.dynasties.Valid() && f.found && |f.entries| > 0 && ParseInt32(f.entries[0].tag).None?
    ensures ParseFile(rd, f) == rd.(file := f.name, errors := rd.errors + [BadInteger])
  {
  }

  // ---------------------------------------------------------------------
  // LinkCultures

  /** The culture a dynasty's culture name resolves to, if it resolves. */
  function LinkOne(d: Dynasty, cultures: map<string, Cultures.Handle>): Dynasty
  {
    if d.cultureString.Some? && d.cultureString.value in cultures
    then d.(culture := Some(cultures[d.cultureString.value])) else d
  }

  /** `LinkCultures(cultures)`: every dynasty whose culture name is a key
      of `cultures` gets that culture; every other dynasty is unchanged. */
  function LinkCultures(rd: DynastyReader, cultures: map<string, Cultures.Handle>): (r: DynastyReader)
    requires rd.dynasties.Valid()
    ensures r.dynasties.Valid() && r.dynasties.keys == rd.dynasties.keys
    ensures r.dynasties.entries.Keys == rd.dynasties.entries.Keys
    ensures forall k :: k in rd.dynasties.entries ==>
      var d := rd.dynasties.entries[k];
      if d.cultureString.Some? && d.cultureString.value in cultures
      then r.dynasties.entries[k] == d.(culture := Some(cultures[d.cultureString.value]))
      else r.dynasties.entries[k] == d
    ensures r.file == rd.file && r.gen == rd.gen && r.errors == rd.errors
  {
    var entries := map k | k in rd.dynasties.entries :: LinkOne(rd.dynasties.entries[k], cultures);
    rd.(dynasties := Dict(rd.dynasties.keys, entries))
  }

  /** Linking twice is linking once. */
  lemma LinkCulturesIdempotent(rd: DynastyReader, cultures: map<string, Cultures.Handle>)
    requires rd.dynasties.Valid()
    ensures LinkCultures(LinkCultures(rd, cultures), cultures) == LinkCultures(rd, cultures)
  {
    var r1 := LinkCultures(rd, cultures);
    var r2 := LinkCultures(r1, cultures);
    assert r2.dynasties.entries == r1.dynasties.entries;
  }

  // ---------------------------------------------------------------------
  // GetDynastyListByCulture

  /** `GetDynastyListByCulture(availDynasties, cul)`, over the dynasties
      from enumeration position `i` on: those whose culture is `cul`, in
      enumeration order. */
  function ByCulture(avail: Dict<int, Dynasty>, cul: Cultures.Handle, i: nat): (r: seq<Dynasty>)
    requires avail.Valid() && i <= |avail.keys|
    ensures forall d :: d in r ==> d.culture == Some(cul)
    ensures forall j :: i <= j < |avail.keys| && avail.entries[avail.keys[j]].culture == Some(cul) ==>
      avail.entries[avail.keys[j]] in r
    ensures forall d :: d in r ==> exists j :: i <= j < |avail.keys| && avail.entries[avail.keys[j]] == d
    decreases |avail.keys| - i
  {
    if i == |avail.keys| then []
    else
      var d := avail.entries[avail.keys[i]];
      (if d.culture == Some(cul) then [d] else []) + ByCulture(avail, cul, i + 1)
  }

  /** The enumeration positions, from `i` on, of the dynasties whose
      culture is `cul`, in increasing order. */
  function Matching(avail: Dict<int, Dynasty>, cul: Cultures.Handle, i: nat): (ks: seq<nat>)
    requires avail.Valid() && i <= |avail.keys|
    ensures forall a :: 0 <= a < |ks| ==> i <= ks[a] < |avail.keys|
    ensures forall a, b :: 0 <= a < b < |ks| ==> ks[a] < ks[b]
    ensures forall j :: i <= j < |avail.keys| ==> (j in ks <==> avail.entries[avail.keys[j]].culture == Some(cul))
    decreases |avail.keys| - i
  {
    if i == |avail.keys| then []
    else (if avail.entries[avail.keys[i]].culture == Some(cul) then [i] else []) + Matching(avail, cul, i + 1)
  }

  /** The list holds exactly the dynasties at the matching positions, in
      enumeration order. */
  lemma {:induction false} ByCultureInKeyOrder(avail: Dict<int, Dynasty>, cul: Cultures.Handle, i: nat)
    requires avail.Valid() && i <= |avail.keys|
    ensures AtPositions(avail, ByCulture(avail, cul, i), Matching(avail, cul, i))
    decreases |avail.keys| - i
  {
    if i < |avail.keys| {
      ByCultureInKeyOrder(avail, cul, i + 1);
      var r := ByCulture(avail, cul, i + 1);
      var ks := Matching(avail, cul, i + 1);
      var d := avail.entries[avail.keys[i]];
      if d.culture == Some(cul) {
        assert ByCulture(avail, cul, i) == [d] + r;
        assert Matching(avail, cul, i) == [i] + ks;
        PrependInOrder(avail, r, ks, i);
      } else {
        assert ByCulture(avail, cul, i) == r;
        assert Matching(avail, cul, i) == ks;
      }
    }
  }

  /** The dynasties listed at the positions `ks`, one for one. */
  ghost predicate AtPositions(avail: Dict<int, Dynasty>, r: seq<Dynasty>, ks: seq<nat>)
  {
    && avail.Valid() && |r| == |ks|
    && forall a :: 0 <= a < |ks| ==> ks[a] < |avail.keys| && r[a] == avail.entries[avail.keys[ks[a]]]
  }

  lemma PrependInOrder(avail: Dict<int, Dynasty>, r: seq<Dynasty>, ks: seq<nat>, i: nat)
    requires avail.Valid() && i < |avail.keys| && AtPositions(avail, r, ks)
    ensures AtPositions(avail, [avail.entries[avail.keys[i]]] + r, [i] + ks)
  {
    var r0 := [avail.entries[avail.keys[i]]] + r;
    var ks0 := [i] + ks;
    forall a | 0 <= a < |ks0| ensures ks0[a] < |avail.keys| && r0[a] == avail.entries[avail.keys[ks0[a]]] {
      if a > 0 {
        assert r0[a] == r[a - 1] && ks0[a] == ks[a - 1];
      }
    }
  }

  /** The list is empty exactly when no available dynasty has the culture. */
  lemma ByCultureEmpty(avail: Dict<int, Dynasty>, cul: Cultures.Handle)
    requires avail.Valid()
    ensures ByCulture(avail, cul, 0) == [] <==> forall k :: k in avail.entries ==> avail.entries[k].culture != Some(cul)
  {
    var r := ByCulture(avail, cul, 0);
    if r != [] {
      assert r[0] in r;
      var j :| 0 <= j < |avail.keys| && avail.entries[avail.keys[j]] == r[0];
      var k := avail.keys[j];
      assert k in avail.entries && avail.entries[k].culture == Some(cul);
    } else {
      forall k | k in avail.entries ensures avail.entries[k].culture != Some(cul) {
        assert k in avail.keys;
        var j :| 0 <= j < |avail.keys| && avail.keys[j] == k;
        assert avail.entries[avail.keys[j]] !in r;
      }
    }
  }

  // ---------------------------------------------------------------------
  // GetDynastyByCulture

  /** `List.Remove(x)`: the first occurrence of `x` is dropped. */
  function RemoveFirst(s: seq<Cultures.Handle>, x: Cultures.Handle): (r: seq<Cultures.Handle>)
    ensures multiset(r) == multiset(s) - multiset{x}
    ensures x in s ==> |r| == |s| - 1
    ensures x !in s ==> r == s
  {
    if |s| == 0 then []
    else if s[0] == x then
      assert s == [s[0]] + s[1..];
      s[1..]
    else
      assert s == [s[0]] + s[1..];
      [s[0]] + RemoveFirst(s[1..], x)
  }

  /** Removal keeps every other element and adds none. */
  lemma RemoveFirstMembers(s: seq<Cultures.Handle>, x: Cultures.Handle)
    ensures forall y :: y in RemoveFirst(s, x) ==> y in s
    ensures forall y :: y in s && y != x ==> y in RemoveFirst(s, x)
  {
    var r := RemoveFirst(s, x);
    forall y | y in r ensures y in s {
      assert multiset(r)[y] > 0;
    }
    forall y | y in s && y != x ensures y in r {
      var ms: multiset<Cultures.Handle> := multiset(s);
      var mr: multiset<Cultures.Handle> := multiset(r);
      assert ms[y] > 0;
      assert mr[y] == ms[y];
    }
  }

  /** The `k`-th draw of the random source, as an arbitrary number. */
  function Draw(draws: seq<nat>, k: nat): nat
  {
    if k < |draws| then draws[k] else 0
  }

  /** The `while` loop of `GetDynastyByCulture`: a culture drawn from the
      candidates is removed from them and a dynasty of it drawn, until one
      is found or no candidate is left. */
  function Fallback(avail: Dict<int, Dynasty>, cands: seq<Cultures.Handle>, draws: seq<nat>, k: nat): (r: Option<Dynasty>)
    requires avail.Valid()
    ensures r.Some? ==> r.value.culture.Some? && r.value.culture.value in cands
    ensures r.Some? ==> r.value in avail.entries.Values
    ensures r.None? <==> forall c :: c in cands ==> ByCulture(avail, c, 0) == []
    decreases |cands|
  {
    match RandomItem(cands, Draw(draws, k))
    case None => None
    case Some(c) =>
      var rest := RemoveFirst(cands, c);
      match RandomItem(ByCulture(avail, c, 0), Draw(draws, k + 1))
      case Some(d) =>
        InAvail(avail, c, d);
        Some(d)
      case None =>
        RemoveFirstMembers(cands, c);
        Fallback(avail, rest, draws, k + 2)
  }

  lemma InAvail(avail: Dict<int, Dynasty>, c: Cultures.Handle, d: Dynasty)
    requires avail.Valid() && d in ByCulture(avail, c, 0)
    ensures d in avail.entries.Values
  {
    var j :| 0 <= j < |avail.keys| && avail.entries[avail.keys[j]] == d;
    assert avail.keys[j] in avail.entries;
  }

  /** `GetDynastyByCulture(availDynasties, cul, rand)`: a dynasty of the
      culture itself when there is one; otherwise one of another culture
      of the culture's group (the culture's own first occurrence removed
      from the group's list); `None` only when no available dynasty has a
      culture of either kind. */
  function GetDynastyByCulture(avail: Dict<int, Dynasty>, cr: Cultures.CultureReader, cul: Cultures.Handle,
                               draws: seq<nat>): (r: Option<Dynasty>)
    requires avail.Valid() && Cultures.Valid(cr) && cul < |cr.cultures|
    ensures ByCulture(avail, cul, 0) != [] ==> r.Some? && r.value.culture == Some(cul)
    ensures r.Some? ==> r.value in avail.entries.Values
    ensures r.Some? ==>
      r.value.culture.Some? && (r.value.culture.value == cul
      || r.value.culture.value in RemoveFirst(Cultures.GroupMembers(cr, cul), cul))
    ensures r.None? <==> (ByCulture(avail, cul, 0) == []
      && forall c :: c in RemoveFirst(Cultures.GroupMembers(cr, cul), cul) ==> ByCulture(avail, c, 0) == [])
  {
    var own := ByCulture(avail, cul, 0);
    match RandomItem(own, Draw(draws, 0))
    case Some(d) =>
      InAvail(avail, cul, d);
      Some(d)
    case None => Fallback(avail, RemoveFirst(Cultures.GroupMembers(cr, cul), cul), draws, 1)
  }

  /** The fallback candidates are members of the culture's group, and when
      the culture is listed in its group once, it is not among them. */
  lemma FallbackCandidates(cr: Cultures.CultureReader, cul: Cultures.Handle)
    requires Cultures.Valid(cr) && cul < |cr.cultures|
    ensures var ms := Cultures.GroupMembers(cr, cul);
      (forall c :: c in RemoveFirst(ms, cul) ==> c in cr.groups[cr.cultures[cul].group].cultures.entries.Values)
      && (multiset(ms)[cul] <= 1 ==> cul !in RemoveFirst(ms, cul))
  {
    var ms := Cultures.GroupMembers(cr, cul);
    var rest := RemoveFirst(ms, cul);
    RemoveFirstMembers(ms, cul);
    var m: multiset<Cultures.Handle> := multiset(ms);
    var mr: multiset<Cultures.Handle> := multiset(rest);
    if m[cul] <= 1 {
      assert mr[cul] == 0;
    }
  }

  // ---------------------------------------------------------------------
  // Folders

  /** `ParseFolder(folder)`: a missing folder records one error naming it;
      otherwise every file it lists ending in `.txt` is read in turn. */
  function ParseFolder(rd: DynastyReader, folderExists: bool, folder: string, files: seq<SourceFile>): (r: DynastyReader)
    requires rd.dynasties.Valid()
    ensures r.dynasties.Valid()
    ensures !folderExists ==> r == rd.(errors := rd.errors + ["Unable to find folder: " + folder])
    ensures folderExists ==> |r.errors| <= |rd.errors| + |files|
    decreases |files|
  {
    if !folderExists then rd.(errors := rd.errors + ["Unable to find folder: " + folder])
    else if |files| == 0 then rd
    else ParseFolder(ParseFile(rd, files[0]), true, folder, files[1..])
  }

  /** Reading a folder that lists one file reads that file, and one that
      lists none changes nothing. */
  lemma ParseFolderOne(rd: DynastyReader, folder: string, f: SourceFile)
    requires rd.dynasties.Valid()
    ensures ParseFolder(rd, true, folder, [f]) == ParseFile(rd, f)
    ensures ParseFolder(rd, true, folder, []) == rd
  {
    assert [f][1..] == [];
  }

  /** Reading a folder whose listing is `a` then `b` reads `a`, then `b`. */
  lemma {:induction false} ParseFolderAppend(rd: DynastyReader, folder: string, a: seq<SourceFile>, b: seq<SourceFile>)
    requires rd.dynasties.Valid()
    ensures ParseFolder(rd, true, folder, a + b) == ParseFolder(ParseFolder(rd, true, folder, a), true, folder, b)
    decreases |a|
  {
    if |a| == 0 {
      assert a + b == b;
    } else {
      assert (a + b)[0] == a[0];
      assert (a + b)[1..] == a[1..] + b;
      ParseFolderAppend(ParseFile(rd, a[0]), folder, a[1..], b);
    }
  }
}

=== FILE: extensions.dfy ===
/** The static helpers of `Extensions`: integer clamping, dotted-date
    parsing, colour decoding and the choice of a random element, plus the
    calendar date that `DateTime` stands for here (midnight of a
    proleptic Gregorian day, years 1 to 9999). */
module Extensions {
  import opened Wrappers
  import opened Text
  import opened Dicts

  // ---------------------------------------------------------------------
  // Calendar dates

  datatype Date = Date(year: int, month: int, day: int)

  /** `new DateTime(1, 1, 1)`, also `DateTime.MinValue`. */
  const MinDate := Date(1, 1, 1)

  predicate IsLeap(y: int)
  {
    (y % 4 == 0 && y % 100 != 0) || y % 400 == 0
  }

  function DaysInMonth(y: int, m: int): (r: int)
    requires 1 <= m <= 12
    ensures 28 <= r <= 31
  {
    if m == 2 then (if IsLeap(y) then 29 else 28)
    else if m == 4 || m == 6 || m == 9 || m == 11 then 30
    else 31
  }

  /** The dates a `DateTime` can hold. */
  predicate ValidDate(d: Date)
  {
    1 <= d.year <= 9999 && 1 <= d.month <= 12 && 1 <= d.day <= DaysInMonth(d.year, d.month)
  }

  /** `new DateTime(y, m, d)`: throws for an unrepresentable date. */
  function NewDate(y: int, m: int, d: int): (r: Result<Date>)
    ensures r.Ok? <==> ValidDate(Date(y, m, d))
    ensures r.Ok? ==> r.value == Date(y, m, d)
  {
    if ValidDate(Date(y, m, d)) then Ok(Date(y, m, d))
    else Err("Year, Month, and Day parameters describe an un-representable DateTime.")
  }

  // ---------------------------------------------------------------------
  // Clamp

  /** `n.Clamp(min, max)`: the upper bound is tested first. */
  function Clamp(n: int, min: int, max: int): (r: int)
    ensures n > max ==> r == max
    ensures n <= max && n < min ==> r == min
    ensures min <= n <= max ==> r == n
    ensures min <= max ==> min <= r <= max
  {
    if n > max then max else if n < min then min else n
  }

  /** With an ordered range, clamping twice is clamping once. */
  lemma ClampIdempotent(n: int, min: int, max: int)
    requires min <= max
    ensures Clamp(Clamp(n, min, max), min, max) == Clamp(n, min, max)
  {
  }

  /** Clamping preserves the order of its inputs. */
  lemma ClampMonotone(a: int, b: int, min: int, max: int)
    requires a <= b
    ensures min <= max ==> Clamp(a, min, max) <= Clamp(b, min, max)
  {
  }

  // ---------------------------------------------------------------------
  // ToDateTime

  /** `str.ToDateTime()`: text with fewer than two dots is 0001-01-01;
      otherwise the year is the first dotted part and the month the second,
      and the day is taken from the second part as well. The third part is
      never read. */
  function ToDateTime(s: string): (r: Result<Date>)
    ensures !Repeats(s, '.') ==> r == Ok(MinDate)
    ensures r.Ok? ==> ValidDate(r.value)
    ensures r.Ok? ==> r.value.day == r.value.month
  {
    if !Repeats(s, '.') then Ok(MinDate)
    else
      var parts := Split(s, '.');
      YearMonth(ParseInt32(parts[0]), ParseInt32(parts[1]))
  }

  /** The date from the parsed first two parts; the month doubles as the
      day. A part that is not an integer is a format error. */
  function YearMonth(y: Option<int>, m: Option<int>): (r: Result<Date>)
    ensures r.Ok? <==> y.Some? && m.Some? && 1 <= y.value <= 9999 && 1 <= m.value <= 12
    ensures r.Ok? ==> r.value == Date(y.value, m.value, m.value)
  {
    match (y, m)
    case (Some(y), Some(m)) =>
      NewDate(y, m, m)
    case (_, _) => Err("Input string was not in a correct format.")
  }

  /** With two or more dots, the parse fails exactly when one of the first
      two parts is not an integer or they are not a valid year and month;
      the day never causes a failure. */
  lemma ToDateTimeDotted(s: string)
    requires Repeats(s, '.')
    ensures |Split(s, '.')| >= 2
    ensures var parts := Split(s, '.');
      ToDateTime(s).Ok? <==>
        ParseInt32(parts[0]).Some? && ParseInt32(parts[1]).Some?
        && 1 <= ParseInt32(parts[0]).value <= 9999
        && 1 <= ParseInt32(parts[1]).value <= 12
    ensures var parts := Split(s, '.');
      ToDateTime(s).Ok? ==>
        ToDateTime(s).value == Date(ParseInt32(parts[0]).value, ParseInt32(parts[1]).value, ParseInt32(parts[1]).value)
  {
    assert '.' in s;
  }

  // ---------------------------------------------------------------------
  // ParseColour

  /** A colour: integer channels, or the three fractional channel literals
      whose scaling and rounding by floating point are not modelled. */
  datatype Colour =
    | Rgb(r: int, g: int, b: int)
    | Fractional(red: string, green: string, blue: string)

  const White := Rgb(255, 255, 255)

  /** `Color.Black`, the default colour of a title. */
  const Black := Rgb(0, 0, 0)

  /** Some entry of the list contains a dot. */
  predicate AnyDotted(xs: seq<string>)
  {
    exists i :: 0 <= i < |xs| && '.' in xs[i]
  }

  /** `stringList.ParseColour()`: fewer than three entries give white; if
      any entry (not only the first three) holds a dot all three channels
      are fractions; otherwise the first three entries are 32-bit integers,
      each clamped to [0, 255]. */
  function ParseColour(xs: seq<string>): (r: Result<Colour>)
    ensures |xs| < 3 ==> r == Ok(White)
    ensures |xs| >= 3 && AnyDotted(xs) ==> r.Ok? ==> r.value.Fractional?
    ensures |xs| >= 3 && !AnyDotted(xs) ==>
      (r.Ok? <==> ParseInt32(xs[0]).Some? && ParseInt32(xs[1]).Some? && ParseInt32(xs[2]).Some?)
    ensures |xs| >= 3 && !AnyDotted(xs) && r.Ok? ==>
      r.value == Rgb(Clamp(ParseInt32(xs[0]).value, 0, 255),
                     Clamp(ParseInt32(xs[1]).value, 0, 255),
                     Clamp(ParseInt32(xs[2]).value, 0, 255))
  {
    if |xs| < 3 then Ok(White)
    else if AnyDotted(xs) then
      if IsDecimalLiteral(xs[0]) && IsDecimalLiteral(xs[1]) && IsDecimalLiteral(xs[2])
      then Ok(Fractional(xs[0], xs[1], xs[2]))
      else Err("Input string was not in a correct format.")
    else
      match (ParseInt32(xs[0]), ParseInt32(xs[1]), ParseInt32(xs[2]))
      case (Some(r), Some(g), Some(b)) => Ok(Rgb(Clamp(r, 0, 255), Clamp(g, 0, 255), Clamp(b, 0, 255)))
      case (_, _, _) => Err("Input string was not in a correct format.")
  }

  /** Every decoded integer colour is a valid RGB triple, and entries after
      the third do not matter unless they hold a dot. */
  lemma ColourChannelsInRange(xs: seq<string>, extra: seq<string>)
    requires |xs| == 3 && !AnyDotted(xs + extra)
    ensures ParseColour(xs + extra) == ParseColour(xs)
    ensures ParseColour(xs).Ok? ==>
      var c := ParseColour(xs).value;
      c.Rgb? && 0 <= c.r <= 255 && 0 <= c.g <= 255 && 0 <= c.b <= 255
  {
    assert !AnyDotted(xs) by {
      forall i | 0 <= i < |xs| ensures '.' !in xs[i] {
        assert (xs + extra)[i] == xs[i];
      }
    }
    assert (xs + extra)[0] == xs[0] && (xs + extra)[1] == xs[1] && (xs + extra)[2] == xs[2];
  }

  // ---------------------------------------------------------------------
  // RandomItem

  /** `list.RandomItem(rand)` on a list or sequence: the default value for
      an empty collection, otherwise the element at the drawn index. The
      draw `rand.Next(count)` is the parameter `pick`, reduced into range. */
  function RandomItem<T>(xs: seq<T>, pick: nat): (r: Option<T>)
    ensures r.None? <==> |xs| == 0
    ensures r.Some? ==> r.value in xs
  {
    if |xs| == 0 then None else Some(xs[pick % |xs|])
  }

  /** Every element of a non-empty collection can be drawn. */
  lemma RandomItemReaches<T>(xs: seq<T>, i: nat)
    requires i < |xs|
    ensures RandomItem(xs, i) == Some(xs[i])
  {
  }

  /** `dictionary.RandomItem(rand)`: a key/value pair in enumeration order,
      or the default pair for an empty dictionary. */
  function RandomEntry<K, V>(d: Dict<K, V>, pick: nat): (r: Option<(K, V)>)
    requires d.Valid()
    ensures r.None? <==> |d.keys| == 0
    ensures r.Some? ==> r.value.0 in d.entries && d.entries[r.value.0] == r.value.1
  {
    match RandomItem(d.keys, pick)
    case None => None
    case Some(k) => Some((k, d.entries[k]))
  }
}

=== FILE: localisations.dfy ===
/** `LocalisationReader`: a table from key to line, filled from `.csv`
    files. Every line is stored whole under the text before its first `;`,
    so a later line with the same key, in the same file or a later one,
    replaces the earlier entry. */
module Localisations {
  import opened Text

  /** A `.csv` file: its path as given, whether it exists, its lines. */
  datatype CsvSource = CsvSource(name: string, found: bool, lines: seq<string>)

  datatype LocalisationReader = LocalisationReader(strings: map<string, string>, errors: seq<string>)

  const NewReader := LocalisationReader(map[], [])

  /** `input.Split(';')[0]`: the text before the first `;`, or the whole
      line when it has none. */
  function Key(line: string): (r: string)
    ensures ';' !in r && StartsWith(line, r)
    ensures |r| < |line| ==> line[|r|] == ';'
    ensures ';' !in line <==> r == line
  {
    Before(line, ';')
  }

  /** The key of `key;rest` is `key`. */
  lemma KeyOfEntry(key: string, rest: string)
    requires ';' !in key
    ensures Key(key + ";" + rest) == key
  {
    assert key + ";" + rest == key + ([';'] + rest);
    SplitFront(key, ';', rest);
  }

  /** The `while` loop of `Parse`: each line stored under its key, in order. */
  function Fold(table: map<string, string>, lines: seq<string>): (r: map<string, string>)
    ensures table.Keys <= r.Keys
    ensures forall i :: 0 <= i < |lines| ==> Key(lines[i]) in r
    decreases |lines|
  {
    if |lines| == 0 then table
    else
      var r := Fold(table[Key(lines[0]) := lines[0]], lines[1..]);
      assert forall i :: 1 <= i < |lines| ==> lines[i] == lines[1..][i - 1];
      r
  }

  /** The entry under a key is the last line with that key. */
  lemma {:induction false} FoldLastWins(table: map<string, string>, lines: seq<string>, i: nat)
    requires i < |lines|
    requires forall j :: i < j < |lines| ==> Key(lines[j]) != Key(lines[i])
    ensures Key(lines[i]) in Fold(table, lines) && Fold(table, lines)[Key(lines[i])] == lines[i]
    decreases |lines|
  {
    var t := table[Key(lines[0]) := lines[0]];
    if i == 0 {
      FoldUntouched(t, lines[1..], Key(lines[0]));
    } else {
      forall j | i - 1 < j < |lines[1..]|
        ensures Key(lines[1..][j]) != Key(lines[1..][i - 1])
      {
        assert lines[1..][j] == lines[j + 1];
      }
      FoldLastWins(t, lines[1..], i - 1);
    }
  }

  /** A key no line has keeps its entry, or its absence. */
  lemma {:induction false} FoldUntouched(table: map<string, string>, lines: seq<string>, k: string)
    requires forall j :: 0 <= j < |lines| ==> Key(lines[j]) != k
    ensures k in Fold(table, lines) <==> k in table
    ensures k in table ==> Fold(table, lines)[k] == table[k]
    decreases |lines|
  {
    if |lines| > 0 {
      var t := table[Key(lines[0]) := lines[0]];
      forall j | 0 <= j < |lines[1..]|
        ensures Key(lines[1..][j]) != k
      {
        assert lines[1..][j] == lines[j + 1];
      }
      FoldUntouched(t, lines[1..], k);
    }
  }

  /** Reading two runs of lines one after the other reads their concatenation. */
  lemma {:induction false} FoldAppend(table: map<string, string>, a: seq<string>, b: seq<string>)
    ensures Fold(table, a + b) == Fold(Fold(table, a), b)
    decreases |a|
  {
    if |a| > 0 {
      assert (a + b)[0] == a[0];
      assert (a + b)[1..] == a[1..] + b;
      FoldAppend(table[Key(a[0]) := a[0]], a[1..], b);
    } else {
      assert a + b == b;
    }
  }

  /** `Parse(filename)`: a missing file records one error naming the file
      and leaves the table as it was; otherwise every line is stored and
      nothing is recorded. */
  function Parse(rd: LocalisationReader, f: CsvSource): (r: LocalisationReader)
    ensures !f.found ==> r.strings == rd.strings && r.errors == rd.errors + ["Unable to find file: " + BaseName(f.name)]
    ensures f.found ==> r.errors == rd.errors
    ensures rd.strings.Keys <= r.strings.Keys
    ensures f.found ==> forall i :: 0 <= i < |f.lines| ==> Key(f.lines[i]) in r.strings
  {
    if !f.found then rd.(errors := rd.errors + ["Unable to find file: " + BaseName(f.name)])
    else rd.(strings := Fold(rd.strings, f.lines))
  }

  /** `ParseFolder(folder)`: a missing folder records one error naming it;
      otherwise every `.csv` file it lists is read in turn. */
  function ParseFolder(rd: LocalisationReader, folderExists: bool, folder: string, files: seq<CsvSource>): (r: LocalisationReader)
    ensures !folderExists ==> r.strings == rd.strings && r.errors == rd.errors + ["Folder not found: " + folder]
    ensures rd.strings.Keys <= r.strings.Keys
    ensures |rd.errors| <= |r.errors| && r.errors[..|rd.errors|] == rd.errors
    decreases |files|
  {
    if !folderExists then rd.(errors := rd.errors + ["Folder not found: " + folder])
    else if |files| == 0 then rd
    else
      var s := Parse(rd, files[0]);
      var r := ParseFolder(s, true, folder, files[1..]);
      assert r.errors[..|rd.errors|] == r.errors[..|s.errors|][..|rd.errors|];
      r
  }

  /** Every line of the files, in the order they are read. */
  function AllLines(files: seq<CsvSource>): seq<string>
  {
    if |files| == 0 then [] else files[0].lines + AllLines(files[1..])
  }

  /** When every listed file exists, reading the folder is one fold over
      all their lines, so a key's entry is the last line with that key in
      the last file that has it; nothing is recorded. */
  lemma {:induction false} ParseFolderFolds(rd: LocalisationReader, folder: string, files: seq<CsvSource>)
    requires forall i :: 0 <= i < |files| ==> files[i].found
    ensures ParseFolder(rd, true, folder, files).strings == Fold(rd.strings, AllLines(files))
    ensures ParseFolder(rd, true, folder, files).errors == rd.errors
    decreases |files|
  {
    if |files| == 0 {
      assert AllLines(files) == [];
    } else {
      var s := Parse(rd, files[0]);
      assert files[0].found;
      assert s.strings == Fold(rd.strings, files[0].lines);
      ParseFolderFolds(s, folder, files[1..]);
      FoldAppend(rd.strings, files[0].lines, AllLines(files[1..]));
    }
  }
}

=== FILE: maps.dfy ===
/** `Map` (the `default.map` reader) and `SeaZone`: the file-name entries,
    the ranges of sea provinces, the tree and major-river lists, and the
    sea-zone equality members. */
module Maps {
  import opened Wrappers
  import opened Text
  import opened Tokens

  datatype SeaZone = SeaZone(start: int, end: int)

  /** The entries naming the map's other files, all `string.Empty` until set. */
  const FileKeys: set<string> := {
    "definitions", "provinces", "positions", "terrain", "rivers", "terrain_definition",
    "heightmap", "tree_definition", "continent", "adjacencies", "climate", "region", "static"
  }

  datatype Map = Map(
    maxProvinces: int,
    files: map<string, string>,
    seaZones: seq<SeaZone>,
    tree: seq<int>,
    majorRivers: seq<int>,
    errors: seq<string>)

  const EmptyMap := Map(0, map[], [], [], [], [])

  /** The value of a file-name field, `string.Empty` when never set. */
  function FileName(m: Map, key: string): string
  {
    if key in m.files then m.files[key] else ""
  }

  /** The zones, trees and rivers of `r` continue those of `m`. */
  predicate Extends(m: Map, r: Map)
  {
    |r.seaZones| >= |m.seaZones| && r.seaZones[..|m.seaZones|] == m.seaZones &&
    |r.tree| >= |m.tree| && r.tree[..|m.tree|] == m.tree &&
    |r.majorRivers| >= |m.majorRivers| && r.majorRivers[..|m.majorRivers|] == m.majorRivers
  }

  lemma ExtendsTrans(a: Map, b: Map, c: Map)
    requires Extends(a, b) && Extends(b, c)
    ensures Extends(a, c)
  {
    assert c.seaZones[..|a.seaZones|] == c.seaZones[..|b.seaZones|][..|a.seaZones|];
    assert c.tree[..|a.tree|] == c.tree[..|b.tree|][..|a.tree|];
    assert c.majorRivers[..|a.majorRivers|] == c.majorRivers[..|b.majorRivers|][..|a.majorRivers|];
  }

  /** `ParseMap(parser, s)` for one entry. Entries not listed are skipped. */
  function ParseMapEntry(m: Map, tag: string, v: Token): (r: Result<Map>)
    ensures r.Ok? ==> r.value.errors == m.errors && Extends(m, r.value)
    ensures tag == "sea_zones" ==>
      (r.Ok? <==> ReadIntList(v).Ok? && |ReadIntList(v).value| >= 2)
    ensures tag == "sea_zones" && r.Ok? ==>
      r.value == m.(seaZones := m.seaZones + [SeaZone(ReadIntList(v).value[0], ReadIntList(v).value[1])])
    ensures tag == "major_rivers" ==> (r.Ok? <==> ReadIntList(v).Ok?)
    ensures tag == "major_rivers" && r.Ok? ==>
      r.value == m.(majorRivers := m.majorRivers + ReadIntList(v).value)
    ensures tag == "tree" ==> (r.Ok? <==> ReadIntList(v).Ok?)
    ensures tag == "tree" && r.Ok? ==> r.value == m.(tree := m.tree + ReadIntList(v).value)
    ensures tag !in FileKeys && tag !in {"max_provinces", "sea_zones", "tree", "major_rivers"} ==> r == Ok(m)
  {
    if tag == "sea_zones" then
      match ReadIntList(v)
      case Ok(xs) =>
        if |xs| < 2 then Err("Index was out of range. Must be non-negative and less than the size of the collection.")
        else Ok(m.(seaZones := m.seaZones + [SeaZone(xs[0], xs[1])]))
      case Err(e) => Err(e)
    else if tag == "tree" then
      match ReadIntList(v)
      case Ok(xs) => Ok(m.(tree := m.tree + xs))
      case Err(e) => Err(e)
    else if tag == "major_rivers" then
      match ReadIntList(v)
      case Ok(xs) => Ok(m.(majorRivers := m.majorRivers + xs))
      case Err(e) => Err(e)
    else if tag == "max_provinces" then
      match ReadInt32(v)
      case Ok(n) => Ok(m.(maxProvinces := n))
      case Err(e) => Err(e)
    else if tag in FileKeys then
      match ReadString(v)
      case Ok(s) => Ok(m.(files := m.files[tag := s]))
      case Err(e) => Err(e)
    else Ok(m)
  }

  /** `ParadoxParser.Parse(fs, m.ParseMap)` over the entries from `i` on. */
  function ParseMapEntries(m: Map, es: seq<Entry>, i: nat): (r: Result<Map>)
    requires i <= |es|
    ensures r.Ok? ==> r.value.errors == m.errors && Extends(m, r.value)
    ensures i < |es| && ParseMapEntry(m, es[i].tag, es[i].value).Err? ==>
      r == Err(ParseMapEntry(m, es[i].tag, es[i].value).error)
    decreases |es| - i
  {
    if i == |es| then Ok(m)
    else
      match ParseMapEntry(m, es[i].tag, es[i].value)
      case Ok(m1) =>
        var r := ParseMapEntries(m1, es, i + 1);
        assert r.Ok? ==> Extends(m, r.value) by {
          if r.Ok? { ExtendsTrans(m, m1, r.value); }
        }
        r
      case Err(e) => Err(e)
  }

  /** `Map.Parse(filename)`: a missing file or a failing entry is recorded
      in the map's errors; entries read before a failure are kept. */
  function Parse(f: SourceFile): (r: Map)
    ensures !f.found ==> r == EmptyMap.(errors := ["File not found: " + f.name])
    ensures f.found ==> |r.errors| <= 1
    ensures f.found ==> (r.errors == [] <==> ParseMapEntries(EmptyMap, f.entries, 0).Ok?)
    ensures f.found && ParseMapEntries(EmptyMap, f.entries, 0).Ok? ==>
      r == ParseMapEntries(EmptyMap, f.entries, 0).value
    ensures f.found && ParseMapEntries(EmptyMap, f.entries, 0).Err? ==>
      r.errors == [ParseMapEntries(EmptyMap, f.entries, 0).error]
  {
    if !f.found then EmptyMap.(errors := ["File not found: " + f.name])
    else
      UntilFailureAgrees(EmptyMap, f.entries, 0);
      ParseUntilFailure(EmptyMap, f.entries, 0)
  }

  /** Like `ParseMapEntries`, but a failure keeps the entries read so far
      and records the error. */
  function ParseUntilFailure(m: Map, es: seq<Entry>, i: nat): (r: Map)
    requires i <= |es|
    ensures |r.errors| <= |m.errors| + 1
    ensures i < |es| && ParseMapEntry(m, es[i].tag, es[i].value).Err? ==>
      r == m.(errors := m.errors + [ParseMapEntry(m, es[i].tag, es[i].value).error])
    decreases |es| - i
  {
    if i == |es| then m
    else
      match ParseMapEntry(m, es[i].tag, es[i].value)
      case Ok(m1) => ParseUntilFailure(m1, es, i + 1)
      case Err(e) => m.(errors := m.errors + [e])
  }

  /** Reading until the first failure is reading every entry when none
      fails; otherwise it records the failing entry's error and keeps the
      zones, trees and rivers read before it. */
  lemma {:induction false} UntilFailureAgrees(m: Map, es: seq<Entry>, i: nat)
    requires i <= |es|
    ensures ParseMapEntries(m, es, i).Ok? ==> ParseUntilFailure(m, es, i) == ParseMapEntries(m, es, i).value
    ensures ParseMapEntries(m, es, i).Err? ==>
      ParseUntilFailure(m, es, i).errors == m.errors + [ParseMapEntries(m, es, i).error] &&
      Extends(m, ParseUntilFailure(m, es, i))
    decreases |es| - i
  {
    if i < |es| {
      var p := ParseMapEntry(m, es[i].tag, es[i].value);
      if p.Ok? {
        UntilFailureAgrees(p.value, es, i + 1);
        if ParseMapEntries(p.value, es, i + 1).Err? {
          ExtendsTrans(m, p.value, ParseUntilFailure(p.value, es, i + 1));
        }
      }
    }
  }

  /** Sea zones accumulate over the entries in file order. */
  lemma {:induction false} SeaZonesAccumulate(m: Map, es: seq<Entry>, i: nat)
    requires i <= |es|
    ensures var r := ParseMapEntries(m, es, i);
      r.Ok? ==> |r.value.seaZones| >= |m.seaZones| && r.value.seaZones[..|m.seaZones|] == m.seaZones
    decreases |es| - i
  {
    if i < |es| {
      var r1 := ParseMapEntry(m, es[i].tag, es[i].value);
      if r1.Ok? {
        SeaZonesAccumulate(r1.value, es, i + 1);
        assert r1.value.seaZones[..|m.seaZones|] == m.seaZones;
      }
    }
  }

  /** `IsSeaProvince(provinceID)`: some zone contains the id, both bounds
      inclusive. */
  function IsSeaProvince(m: Map, id: int): bool
  {
    AnyZoneHolds(m.seaZones, id)
  }

  function AnyZoneHolds(zones: seq<SeaZone>, id: int): bool
  {
    if |zones| == 0 then false
    else (zones[0].start <= id <= zones[0].end) || AnyZoneHolds(zones[1..], id)
  }

  lemma {:induction false} AnyZoneHoldsIff(zones: seq<SeaZone>, id: int)
    ensures AnyZoneHolds(zones, id) <==> exists i :: 0 <= i < |zones| && zones[i].start <= id <= zones[i].end
  {
    if |zones| > 0 {
      AnyZoneHoldsIff(zones[1..], id);
      if !(zones[0].start <= id <= zones[0].end) {
        assert forall i :: 1 <= i < |zones| ==> zones[i] == zones[1..][i - 1];
      }
    }
  }

  /** A province is a sea province exactly when some zone's inclusive range
      holds its id. */
  lemma IsSeaProvinceIff(m: Map, id: int)
    ensures IsSeaProvince(m, id) <==>
      exists i :: 0 <= i < |m.seaZones| && m.seaZones[i].start <= id <= m.seaZones[i].end
  {
    AnyZoneHoldsIff(m.seaZones, id);
  }

  // ---------------------------------------------------------------------
  // SeaZone equality. A null reference is `None`; two references to the
  // same zone hold equal fields, so reference equality needs no separate case.

  /** `SeaZone.Equals(other)` (both overloads). */
  function ZoneEquals(z: SeaZone, other: Option<SeaZone>): (r: bool)
    ensures other.None? ==> !r
    ensures r <==> other == Some(z)
  {
    other.Some? && z.start == other.value.start && z.end == other.value.end
  }

  /** `operator ==`, through `object.Equals(left, right)`: two nulls are
      equal, one null is not, otherwise `left.Equals(right)`. */
  function OpEquals(left: Option<SeaZone>, right: Option<SeaZone>): (r: bool)
    ensures left.Some? ==> (r <==> ZoneEquals(left.value, right))
  {
    if left.None? && right.None? then true
    else if left.None? || right.None? then false
    else ZoneEquals(left.value, right)
  }

  /** `operator !=`. */
  function OpNotEquals(left: Option<SeaZone>, right: Option<SeaZone>): (r: bool)
    ensures r <==> !OpEquals(left, right)
  {
    !OpEquals(left, right)
  }

  /** `==` is value equality of the (nullable) zones: reflexive,
      symmetric, and it treats null == null as true. */
  lemma OpEqualsIsValueEquality(left: Option<SeaZone>, right: Option<SeaZone>)
    ensures OpEquals(left, right) <==> left == right
    ensures OpEquals(left, right) == OpEquals(right, left)
    ensures OpNotEquals(left, right) <==> left != right
  {
  }

  // ---------------------------------------------------------------------
  // Hash code

  const Two32: int := 0x1_0000_0000

  function Pow2(k: nat): (r: nat)
    ensures r > 0
  {
    if k == 0 then 1 else 2 * Pow2(k - 1)
  }

  lemma {:induction false} Pow2Add(a: nat, b: nat)
    ensures Pow2(a + b) == Pow2(a) * Pow2(b)
  {
    if a > 0 {
      Pow2Add(a - 1, b);
    }
  }

  lemma Pow2Of32()
    ensures Pow2(32) == Two32
  {
    assert Pow2(4) == 16;
    Pow2Add(4, 4);
    Pow2Add(8, 8);
    Pow2Add(16, 16);
  }

  /** The low 32 bits of an integer, read as an unsigned value. */
  function Low32(n: int): (r: nat)
    ensures r < Two32 && (n - r) % Two32 == 0
  {
    n % Two32
  }

  /** The signed 32-bit value of an unsigned 32-bit pattern. */
  function ToInt32(u: nat): (r: int)
    requires u < Two32
    ensures MinInt32 <= r <= MaxInt32
    ensures r >= 0 <==> u <= MaxInt32
    ensures r == u || r == u - Two32
  {
    if u <= MaxInt32 then u else u - Two32
  }

  /** Bitwise exclusive or of the low `k` bits of `a` and `b`. */
  function Xor(a: nat, b: nat, k: nat): (r: nat)
    ensures r < Pow2(k)
  {
    if k == 0 then 0
    else (if a % 2 == b % 2 then 0 else 1) + 2 * Xor(a / 2, b / 2, k - 1)
  }

  /** `GetHashCode()`: `(Start * 397) ^ End` in unchecked 32-bit arithmetic. */
  function Hash(z: SeaZone): (r: int)
    ensures MinInt32 <= r <= MaxInt32
  {
    Pow2Of32();
    ToInt32(Xor(Low32(z.start * 397), Low32(z.end), 32))
  }

  lemma ModUnique(a: int, d: int, q: int, r: int)
    requires d > 0 && a == q * d + r && 0 <= r < d
    ensures a % d == r
  {
    var k := q - a / d;
    assert k * d == a % d - r;
    assert k == 0 by {
      if k > 0 {
        assert false;
      }
    }
  }

  lemma ModSplit(a: nat, m: nat)
    requires m > 0
    ensures a % (2 * m) == a % 2 + 2 * ((a / 2) % m)
  {
    var h := a / 2;
    var q := h / m;
    var r := h % m;
    assert a == q * (2 * m) + (2 * r + a % 2);
    ModUnique(a, 2 * m, q, 2 * r + a % 2);
  }

  /** Exclusive or with zero keeps the low bits of the other operand. */
  lemma {:induction false} XorZero(a: nat, k: nat)
    ensures Xor(a, 0, k) == a % Pow2(k) && Xor(0, a, k) == a % Pow2(k)
  {
    if k > 0 {
      XorZero(a / 2, k - 1);
      ModSplit(a, Pow2(k - 1));
    }
  }

  /** With a zero start the hash code is the end itself. */
  lemma HashOfEnd(e: int)
    requires MinInt32 <= e <= MaxInt32
    ensures Hash(SeaZone(0, e)) == e
  {
    var u := Low32(e);
    assert Low32(0 * 397) == 0;
    Pow2Of32();
    XorZero(u, 32);
    ModUnique(u, Two32, 0, u);
    assert Xor(0, u, 32) == u;
    SignedOfLow(e);
  }

  /** With a zero end the hash code is `start * 397` when the product fits
      in 32 bits, and the product less 2^32 when it overflows past the
      largest 32-bit value. */
  lemma HashOfStart(s: int)
    ensures MinInt32 <= s * 397 <= MaxInt32 ==> Hash(SeaZone(s, 0)) == s * 397
    ensures MaxInt32 < s * 397 < MaxInt32 + Two32 ==> Hash(SeaZone(s, 0)) == s * 397 - Two32
  {
    var n := s * 397;
    var u := Low32(n);
    assert Low32(0) == 0;
    Pow2Of32();
    XorZero(u, 32);
    ModUnique(u, Two32, 0, u);
    assert Xor(u, 0, 32) == u;
    SignedOfLow(n);
  }

  /** Reading the low 32 bits back as a signed value is the identity on the
      32-bit range and subtracts 2^32 just above it. */
  lemma SignedOfLow(n: int)
    ensures MinInt32 <= n <= MaxInt32 ==> ToInt32(Low32(n)) == n
    ensures MaxInt32 < n < MaxInt32 + Two32 ==> ToInt32(Low32(n)) == n - Two32
  {
    if MinInt32 <= n < 0 {
      ModUnique(n, Two32, -1, n + Two32);
    } else if 0 <= n < Two32 {
      ModUnique(n, Two32, 0, n);
    } else if Two32 <= n < MaxInt32 + Two32 {
      ModUnique(n, Two32, 1, n - Two32);
    }
  }

  /** The product overflows for large starts and wraps to a negative code;
      a negative start gives a negative product. */
  lemma HashOverflowExamples()
    ensures Hash(SeaZone(6000000, 0)) == -1912967296
    ensures Hash(SeaZone(-1, 0)) == -397
  {
    HashOfStart(6000000);
    HashOfStart(-1);
  }
}

=== FILE: mods.dfy ===
/** `ModReader`: a `.mod` descriptor is read line by line. Each line is
    trimmed, comment lines are skipped, and a line starting with one of the
    known keys has the text after its first `=` (up to a `#`, with quotes
    removed and trimmed) stored in the mod. A line that starts with a key
    but has no `=` fails on its own: the failure is recorded with the line
    number, and reading goes on with the next line. */
module Mods {
  import opened Wrappers
  import opened Text

  /** `ModReader.Folder`: where the mod's paths are rooted. */
  datatype Folder = CKDir | MyDocs | DLC

  datatype Mod = Mod(
    name: string,
    modFile: string,
    path: string,
    userDir: string,
    pathType: Folder,
    dependencies: seq<string>,
    extensions: seq<string>,
    replacements: seq<string>)

  function NewMod(modFile: string, dir: Folder): Mod
  {
    Mod("", modFile, "", "", dir, [], [], [])
  }

  /** A descriptor file: its path as given, whether it exists, its lines. */
  datatype ModSource = ModSource(name: string, found: bool, lines: seq<string>)

  datatype ModReader = ModReader(mods: seq<Mod>, errors: seq<string>)

  const NewReader := ModReader([], [])

  /** The message of the exception an out-of-range index raises. */
  const OutOfRange := "Index was outside the bounds of the array."

  // ---------------------------------------------------------------------
  // Text of a line

  /** `line.Split('=')[1].Split('#')[0]`: the text after the first `=` and
      before the next `=` or `#`; `None` where indexing the pieces throws. */
  function FieldRaw(line: string): (r: Option<string>)
    ensures r.Some? <==> '=' in line
    ensures r.Some? ==> '#' !in r.value
  {
    if '=' !in line then None else Some(Before(Split(line, '=')[1], '#'))
  }

  /** `.Replace("\"", "").Trim()`. */
  function Clean(raw: string): (r: string)
    ensures '"' !in r
    ensures |r| == 0 || (!IsWhite(r[0]) && !IsWhite(r[|r| - 1]))
  {
    var s := Remove(raw, '"');
    TrimKeepsAbsent(s, '"');
    Trim(s)
  }

  lemma TrimKeepsAbsent(s: string, c: char)
    requires c !in s
    ensures c !in Trim(s)
  {
    var a := TrimStart(s);
    assert c !in a by {
      assert a == s[|s| - |a|..];
    }
    var b := TrimEnd(a);
    assert c !in b by {
      assert b == a[..|b|];
    }
    assert Trim(s) == b;
  }

  /** The dependency names of a `dependencies` value: braces removed, the
      text trimmed and cut at every quote, and the pieces that are not
      blank kept as they are (untrimmed). */
  function DependencyNames(raw: string): (r: seq<string>)
    ensures forall i :: 0 <= i < |r| ==> Trim(r[i]) != ""
  {
    NotBlank(Split(Trim(Remove(Remove(raw, '{'), '}')), '"'))
  }

  /** The pieces whose trimmed text is not empty, in order. */
  function NotBlank(parts: seq<string>): (r: seq<string>)
    ensures forall i :: 0 <= i < |r| ==> Trim(r[i]) != ""
    ensures forall j :: 0 <= j < |parts| && Trim(parts[j]) != "" ==> parts[j] in r
  {
    if |parts| == 0 then []
    else (if Trim(parts[0]) == "" then [] else [parts[0]]) + NotBlank(parts[1..])
  }

  // ---------------------------------------------------------------------
  // One line

  /** The statements of the line loop, in the order they run. */
  datatype Slot = NameSlot | PathSlot | UserDirSlot | ExtendSlot | ReplaceSlot | DependencySlot

  /** Whether the statement of `slot` runs for a trimmed line. An `archive`
      line sets both the path and the user directory. */
  predicate Applies(slot: Slot, line: string)
  {
    match slot
    case NameSlot => StartsWith(line, "name")
    case PathSlot => StartsWith(line, "path") || StartsWith(line, "archive")
    case UserDirSlot => StartsWith(line, "user_dir") || StartsWith(line, "archive")
    case ExtendSlot => StartsWith(line, "extend")
    case ReplaceSlot => StartsWith(line, "replace")
    case DependencySlot => StartsWith(line, "dependencies")
  }

  /** The statement of `slot` applied to the text after the `=`. */
  function Store(m: Mod, slot: Slot, raw: string): (r: Mod)
    ensures r.modFile == m.modFile && r.pathType == m.pathType
    ensures slot != NameSlot ==> r.name == m.name
    ensures slot != PathSlot ==> r.path == m.path
    ensures slot != UserDirSlot ==> r.userDir == m.userDir
    ensures slot != ExtendSlot ==> r.extensions == m.extensions
    ensures slot != ReplaceSlot ==> r.replacements == m.replacements
    ensures slot != DependencySlot ==> r.dependencies == m.dependencies
  {
    match slot
    case NameSlot => m.(name := Clean(raw))
    case PathSlot => m.(path := Clean(raw))
    case UserDirSlot => m.(userDir := Clean(raw))
    case ExtendSlot => m.(extensions := m.extensions + [Clean(raw)])
    case ReplaceSlot => m.(replacements := m.replacements + [ReplaceChar(Clean(raw), '/', '\\')])
    case DependencySlot => m.(dependencies := m.dependencies + DependencyNames(raw))
  }

  /** Runs one statement unless an earlier one threw. */
  function Run(o: Outcome<Mod>, slot: Slot, line: string): (r: Outcome<Mod>)
  {
    if o.Thrown? || !Applies(slot, line) then o
    else
      match FieldRaw(line)
      case None => Thrown(o.state, OutOfRange)
      case Some(raw) => Done(Store(o.state, slot, raw))
  }

  /** The body of the `try` for one trimmed line, statement by statement. */
  function Statements(m: Mod, line: string): Outcome<Mod>
  {
    var o := Done(m);
    var o := Run(o, NameSlot, line);
    var o := Run(o, PathSlot, line);
    var o := Run(o, UserDirSlot, line);
    var o := Run(o, ExtendSlot, line);
    var o := Run(o, ReplaceSlot, line);
    Run(o, DependencySlot, line)
  }

  /** Whether any statement runs for the line. */
  predicate Claimed(line: string)
  {
    Applies(NameSlot, line) || Applies(PathSlot, line) || Applies(UserDirSlot, line)
    || Applies(ExtendSlot, line) || Applies(ReplaceSlot, line) || Applies(DependencySlot, line)
  }

  /** The statement of `slot` on a line that has an `=`. */
  function Stage(m: Mod, slot: Slot, line: string, raw: string): Mod
  {
    if Applies(slot, line) then Store(m, slot, raw) else m
  }

  /** What the statements of one line amount to. Every statement that runs
      reads the same text after the first `=`, so on a line without one the
      first statement that runs throws before anything is stored, and on a
      line with one no statement throws. */
  function ApplyLine(m: Mod, line: string): (r: Outcome<Mod>)
    ensures r.Thrown? <==> Claimed(line) && '=' !in line
    ensures r.Thrown? ==> r.state == m
    ensures r.state.modFile == m.modFile && r.state.pathType == m.pathType
  {
    if '=' !in line then
      if Claimed(line) then Thrown(m, OutOfRange) else Done(m)
    else
      var raw := FieldRaw(line).value;
      var m1 := Stage(m, NameSlot, line, raw);
      var m2 := Stage(m1, PathSlot, line, raw);
      var m3 := Stage(m2, UserDirSlot, line, raw);
      var m4 := Stage(m3, ExtendSlot, line, raw);
      var m5 := Stage(m4, ReplaceSlot, line, raw);
      Done(Stage(m5, DependencySlot, line, raw))
  }

  /** On a line without `=`, a statement either passes the outcome on or,
      when it runs, throws with the state untouched. */
  lemma RunWithoutValue(m: Mod, o: Outcome<Mod>, slot: Slot, line: string)
    requires '=' !in line && (o == Done(m) || o == Thrown(m, OutOfRange))
    ensures Run(o, slot, line) == if o.Done? && Applies(slot, line) then Thrown(m, OutOfRange) else o
  {
  }

  /** On a line with `=`, a statement never throws. */
  lemma RunWithValue(m: Mod, slot: Slot, line: string)
    requires '=' in line
    ensures Run(Done(m), slot, line) == Done(Stage(m, slot, line, FieldRaw(line).value))
  {
  }

  /** The statements run one after the other, with an exception ending the
      `try`, do what `ApplyLine` says. */
  lemma StatementsAgree(m: Mod, line: string)
    ensures Statements(m, line) == ApplyLine(m, line)
  {
    var o1 := Run(Done(m), NameSlot, line);
    var o2 := Run(o1, PathSlot, line);
    var o3 := Run(o2, UserDirSlot, line);
    var o4 := Run(o3, ExtendSlot, line);
    var o5 := Run(o4, ReplaceSlot, line);
    var o6 := Run(o5, DependencySlot, line);
    assert Statements(m, line) == o6;
    if '=' !in line {
      var t := Thrown(m, OutOfRange);
      RunWithoutValue(m, Done(m), NameSlot, line);
      RunWithoutValue(m, o1, PathSlot, line);
      RunWithoutValue(m, o2, UserDirSlot, line);
      RunWithoutValue(m, o3, ExtendSlot, line);
      RunWithoutValue(m, o4, ReplaceSlot, line);
      RunWithoutValue(m, o5, DependencySlot, line);
      assert o6 == if Claimed(line) then t else Done(m);
    } else {
      var raw := FieldRaw(line).value;
      RunWithValue(m, NameSlot, line);
      var m1 := Stage(m, NameSlot, line, raw);
      RunWithValue(m1, PathSlot, line);
      var m2 := Stage(m1, PathSlot, line, raw);
      RunWithValue(m2, UserDirSlot, line);
      var m3 := Stage(m2, UserDirSlot, line, raw);
      RunWithValue(m3, ExtendSlot, line);
      var m4 := Stage(m3, ExtendSlot, line, raw);
      RunWithValue(m4, ReplaceSlot, line);
      var m5 := Stage(m4, ReplaceSlot, line, raw);
      RunWithValue(m5, DependencySlot, line);
    }
  }

  /** The single-valued fields: each is set from the line exactly when its
      key starts the line, and kept otherwise. */
  lemma ApplyLineSets(m: Mod, line: string)
    ensures var r := ApplyLine(m, line);
      && (r.Done? && Applies(NameSlot, line) ==> r.state.name == Clean(FieldRaw(line).value))
      && (!Applies(NameSlot, line) ==> r.state.name == m.name)
      && (r.Done? && Applies(PathSlot, line) ==> r.state.path == Clean(FieldRaw(line).value))
      && (!Applies(PathSlot, line) ==> r.state.path == m.path)
      && (r.Done? && Applies(UserDirSlot, line) ==> r.state.userDir == Clean(FieldRaw(line).value))
      && (!Applies(UserDirSlot, line) ==> r.state.userDir == m.userDir)
  {
    if '=' in line {
      var raw := FieldRaw(line).value;
      var m1 := Stage(m, NameSlot, line, raw);
      var m2 := Stage(m1, PathSlot, line, raw);
      var m3 := Stage(m2, UserDirSlot, line, raw);
      var m4 := Stage(m3, ExtendSlot, line, raw);
      var m5 := Stage(m4, ReplaceSlot, line, raw);
      var m6 := Stage(m5, DependencySlot, line, raw);
      assert ApplyLine(m, line) == Done(m6);
      assert m6.name == m5.name == m4.name == m3.name == m2.name == m1.name;
      assert m1.name == if Applies(NameSlot, line) then Clean(raw) else m.name;
      assert m6.path == m5.path == m4.path == m3.path == m2.path;
      assert m2.path == if Applies(PathSlot, line) then Clean(raw) else m.path;
      assert m6.userDir == m5.userDir == m4.userDir == m3.userDir;
      assert m3.userDir == if Applies(UserDirSlot, line) then Clean(raw) else m.userDir;
    }
  }

  /** The list fields: each gains the line's values exactly when its key
      starts the line, and is kept otherwise. */
  lemma ApplyLineAppends(m: Mod, line: string)
    ensures var r := ApplyLine(m, line);
      && (r.Done? && Applies(ExtendSlot, line) ==> r.state.extensions == m.extensions + [Clean(FieldRaw(line).value)])
      && (!Applies(ExtendSlot, line) ==> r.state.extensions == m.extensions)
      && (r.Done? && Applies(ReplaceSlot, line) ==>
            r.state.replacements == m.replacements + [ReplaceChar(Clean(FieldRaw(line).value), '/', '\\')])
      && (!Applies(ReplaceSlot, line) ==> r.state.replacements == m.replacements)
      && (r.Done? && Applies(DependencySlot, line) ==>
            r.state.dependencies == m.dependencies + DependencyNames(FieldRaw(line).value))
      && (!Applies(DependencySlot, line) ==> r.state.dependencies == m.dependencies)
  {
    if '=' in line {
      var raw := FieldRaw(line).value;
      var m1 := Stage(m, NameSlot, line, raw);
      var m2 := Stage(m1, PathSlot, line, raw);
      var m3 := Stage(m2, UserDirSlot, line, raw);
      var m4 := Stage(m3, ExtendSlot, line, raw);
      var m5 := Stage(m4, ReplaceSlot, line, raw);
      var m6 := Stage(m5, DependencySlot, line, raw);
      assert ApplyLine(m, line) == Done(m6);
      assert m3.extensions == m.extensions;
      assert m6.extensions == m5.extensions == m4.extensions;
      assert m4.extensions == if Applies(ExtendSlot, line) then m.extensions + [Clean(raw)] else m.extensions;
      assert m4.replacements == m.replacements;
      assert m6.replacements == m5.replacements;
      assert m5.replacements == if Applies(ReplaceSlot, line)
        then m.replacements + [ReplaceChar(Clean(raw), '/', '\\')] else m.replacements;
      assert m5.dependencies == m.dependencies;
      assert m6.dependencies == if Applies(DependencySlot, line)
        then m.dependencies + DependencyNames(raw) else m.dependencies;
    }
  }

  // ---------------------------------------------------------------------
  // Round trips

  /** A value written after `=` that reads back unchanged: no `=`, `#` or
      quote inside and no white space at either end. */
  predicate Plain(v: string)
  {
    '=' !in v && '#' !in v && '"' !in v && (|v| == 0 || (!IsWhite(v[0]) && !IsWhite(v[|v| - 1])))
  }

  /** `key=value` gives back `value` for a key without `=`. */
  lemma FieldRawOfAssignment(key: string, v: string)
    requires '=' !in key && '=' !in v && '#' !in v
    ensures FieldRaw(key + "=" + v) == Some(v)
  {
    var line := key + "=" + v;
    var i := |key|;
    assert forall j :: 0 <= j < i ==> line[j] == key[j];
    FirstAt(line, '=', i);
    assert line[..i] == key && line[i + 1..] == v;
    assert Split(line, '=') == [key] + Split(v, '=');
    assert Split(v, '=') == [v];
  }

  /** The value of `key=value` reads back as `value`. */
  lemma AssignedValue(key: string, v: string)
    requires '=' !in key && Plain(v)
    ensures FieldRaw(key + "=" + v).Some? && Clean(FieldRaw(key + "=" + v).value) == v
  {
    FieldRawOfAssignment(key, v);
    CleanPlain(v);
  }

  lemma CleanPlain(v: string)
    requires Plain(v)
    ensures Clean(v) == v
  {
    assert Remove(v, '"') == v;
    assert Clean(v) == Trim(v);
    if |v| > 0 { TrimUnchanged(v); } else { assert v == ""; }
  }

  /** A line `key=value` whose key starts only the name statement sets
      the name to the value and changes nothing else. */
  lemma NameRoundTrip(m: Mod, key: string, v: string)
    requires '=' !in key && Plain(v)
    requires Applies(NameSlot, key + "=" + v)
    requires !Applies(PathSlot, key + "=" + v) && !Applies(UserDirSlot, key + "=" + v) && !Applies(ExtendSlot, key + "=" + v)
      && !Applies(ReplaceSlot, key + "=" + v) && !Applies(DependencySlot, key + "=" + v)
    ensures ApplyLine(m, key + "=" + v) == Done(m.(name := v))
  {
    AssignedValue(key, v);
  }

  /** `name=` starts only the name statement. */
  lemma NameKey(v: string)
    ensures Applies(NameSlot, "name=" + v)
    ensures !Applies(PathSlot, "name=" + v) && !Applies(UserDirSlot, "name=" + v) && !Applies(ExtendSlot, "name=" + v)
      && !Applies(ReplaceSlot, "name=" + v) && !Applies(DependencySlot, "name=" + v)
  {
    var line := "name=" + v;
    assert line[..4] == "name";
    assert line[0] == 'n';
  }

  /** A line `key=value` whose key starts the path and the user directory
      statements, as an `archive` key does, sets both to the value. */
  lemma ArchiveRoundTrip(m: Mod, key: string, v: string)
    requires '=' !in key && Plain(v)
    requires Applies(PathSlot, key + "=" + v) && Applies(UserDirSlot, key + "=" + v)
    requires !Applies(NameSlot, key + "=" + v) && !Applies(ExtendSlot, key + "=" + v)
      && !Applies(ReplaceSlot, key + "=" + v) && !Applies(DependencySlot, key + "=" + v)
    ensures ApplyLine(m, key + "=" + v) == Done(m.(path := v, userDir := v))
  {
    AssignedValue(key, v);
  }

  /** `archive=` starts both the path and the user directory statements. */
  lemma ArchiveKey(v: string)
    ensures Applies(PathSlot, "archive=" + v) && Applies(UserDirSlot, "archive=" + v)
    ensures !Applies(NameSlot, "archive=" + v) && !Applies(ExtendSlot, "archive=" + v)
      && !Applies(ReplaceSlot, "archive=" + v) && !Applies(DependencySlot, "archive=" + v)
  {
    var line := "archive=" + v;
    assert line[..7] == "archive";
    assert line[0] == 'a';
  }

  /** A line `key=value` whose key starts only the replace statement
      appends the value with its forward slashes turned into backslashes. */
  lemma ReplaceRoundTrip(m: Mod, key: string, v: string)
    requires '=' !in key && Plain(v)
    requires Applies(ReplaceSlot, key + "=" + v)
    requires !Applies(NameSlot, key + "=" + v) && !Applies(PathSlot, key + "=" + v) && !Applies(UserDirSlot, key + "=" + v)
      && !Applies(ExtendSlot, key + "=" + v) && !Applies(DependencySlot, key + "=" + v)
    ensures ApplyLine(m, key + "=" + v) == Done(m.(replacements := m.replacements + [ReplaceChar(v, '/', '\\')]))
  {
    AssignedValue(key, v);
  }

  /** `replace_path=` starts only the replace statement. */
  lemma ReplaceKey(v: string)
    ensures Applies(ReplaceSlot, "replace_path=" + v)
    ensures !Applies(NameSlot, "replace_path=" + v) && !Applies(PathSlot, "replace_path=" + v)
      && !Applies(UserDirSlot, "replace_path=" + v) && !Applies(ExtendSlot, "replace_path=" + v)
      && !Applies(DependencySlot, "replace_path=" + v)
  {
    var line := "replace_path=" + v;
    assert line[..7] == "replace";
    assert line[0] == 'r';
  }

  /** Dependency names written each between quotes. */
  function Quote(ds: seq<string>): string
  {
    if |ds| == 0 then "" else "\"" + (ds[0] + ("\"" + Quote(ds[1..])))
  }

  /** A name that survives the reading of a `dependencies` line. */
  predicate DependencyName(d: string)
  {
    Trim(d) != "" && '"' !in d && '{' !in d && '}' !in d && '#' !in d && '=' !in d
  }

  /** The quote-separated pieces of quoted names: an empty piece before
      each name, and one at the end. */
  function QuotePieces(ds: seq<string>): seq<string>
  {
    if |ds| == 0 then [""] else [""] + ([ds[0]] + QuotePieces(ds[1..]))
  }

  lemma {:induction false} SplitQuote(ds: seq<string>)
    requires forall i :: 0 <= i < |ds| ==> '"' !in ds[i]
    ensures Split(Quote(ds), '"') == QuotePieces(ds)
  {
    if |ds| == 0 {
      assert Quote(ds) == "";
      assert IndexOf("", '"') == -1;
    } else {
      var d := ds[0];
      var rest := Quote(ds[1..]);
      var t := d + ("\"" + rest);
      assert Split(Quote(ds), '"') == [""] + Split(t, '"') by {
        SplitFront([], '"', t);
        assert [] + ("\"" + t) == Quote(ds);
      }
      assert Split(t, '"') == [d] + Split(rest, '"') by {
        SplitFront(d, '"', rest);
      }
      assert Split(rest, '"') == QuotePieces(ds[1..]) by {
        SplitQuote(ds[1..]);
      }
    }
  }

  lemma {:induction false} NotBlankQuotePieces(ds: seq<string>)
    requires forall i :: 0 <= i < |ds| ==> Trim(ds[i]) != ""
    ensures NotBlank(QuotePieces(ds)) == ds
  {
    if |ds| == 0 {
      NotBlankEmpty();
    } else {
      var tail := ds[1..];
      NotBlankPair(ds[0], QuotePieces(tail));
      forall i | 0 <= i < |tail|
        ensures Trim(tail[i]) != ""
      {
        assert tail[i] == ds[i + 1];
      }
      NotBlankQuotePieces(tail);
    }
  }

  lemma NotBlankEmpty()
    ensures NotBlank([""]) == []
  {
    assert Trim("") == "";
  }

  /** An empty piece is dropped and a non-blank one kept. */
  lemma NotBlankPair(d: string, tail: seq<string>)
    requires Trim(d) != ""
    ensures NotBlank([""] + ([d] + tail)) == [d] + NotBlank(tail)
  {
    assert Trim("") == "";
    var ps := [""] + ([d] + tail);
    assert ps[1..] == [d] + tail;
    assert ps[1..][1..] == tail;
  }

  lemma {:induction false} QuoteAbsent(ds: seq<string>, c: char)
    requires c != '"' && forall i :: 0 <= i < |ds| ==> c !in ds[i]
    ensures c !in Quote(ds)
  {
    if |ds| > 0 {
      QuoteAbsent(ds[1..], c);
    }
  }

  lemma {:induction false} QuoteEnds(ds: seq<string>)
    requires |ds| > 0
    ensures |Quote(ds)| >= 2 && Quote(ds)[0] == '"' && Quote(ds)[|Quote(ds)| - 1] == '"'
  {
    if |ds| > 1 {
      QuoteEnds(ds[1..]);
    }
  }

  /** Quoted names read back as exactly those names, in order. */
  lemma DependencyNamesOfQuote(ds: seq<string>)
    requires forall i :: 0 <= i < |ds| ==> DependencyName(ds[i])
    ensures DependencyNames(Quote(ds)) == ds
  {
    var q := Quote(ds);
    assert Remove(Remove(q, '{'), '}') == q by {
      QuoteAbsent(ds, '{');
      QuoteAbsent(ds, '}');
    }
    assert Trim(q) == q by {
      TrimQuote(ds);
    }
    assert Split(q, '"') == QuotePieces(ds) by {
      SplitQuote(ds);
    }
    assert NotBlank(QuotePieces(ds)) == ds by {
      NotBlankQuotePieces(ds);
    }
  }

  /** Quoted names have no white space at either end. */
  lemma TrimQuote(ds: seq<string>)
    ensures Trim(Quote(ds)) == Quote(ds)
  {
    var q := Quote(ds);
    if |ds| > 0 {
      assert |q| > 0 && !IsWhite(q[0]) && !IsWhite(q[|q| - 1]) by {
        QuoteEnds(ds);
      }
      TrimUnchanged(q);
    } else {
      assert q == "";
      assert Trim("") == "";
    }
  }

  /** A line `key=` followed by quoted names, whose key starts only the
      dependencies statement, appends exactly those names. */
  lemma DependenciesRoundTrip(m: Mod, key: string, ds: seq<string>)
    requires '=' !in key && forall i :: 0 <= i < |ds| ==> DependencyName(ds[i])
    requires Applies(DependencySlot, key + "=" + Quote(ds))
    requires !Applies(NameSlot, key + "=" + Quote(ds)) && !Applies(PathSlot, key + "=" + Quote(ds))
      && !Applies(UserDirSlot, key + "=" + Quote(ds)) && !Applies(ExtendSlot, key + "=" + Quote(ds))
      && !Applies(ReplaceSlot, key + "=" + Quote(ds))
    ensures ApplyLine(m, key + "=" + Quote(ds)) == Done(m.(dependencies := m.dependencies + ds))
  {
    QuoteAbsent(ds, '=');
    QuoteAbsent(ds, '#');
    FieldRawOfAssignment(key, Quote(ds));
    DependencyNamesOfQuote(ds);
  }

  /** `dependencies=` starts only the dependencies statement. */
  lemma DependenciesKey(v: string)
    ensures Applies(DependencySlot, "dependencies=" + v)
    ensures !Applies(NameSlot, "dependencies=" + v) && !Applies(PathSlot, "dependencies=" + v)
      && !Applies(UserDirSlot, "dependencies=" + v) && !Applies(ExtendSlot, "dependencies=" + v)
      && !Applies(ReplaceSlot, "dependencies=" + v)
  {
    var line := "dependencies=" + v;
    assert line[..12] == "dependencies";
    assert line[0] == 'd';
  }

  // ---------------------------------------------------------------------
  // The line loop

  predicate IsComment(line: string)
  {
    StartsWith(Trim(line), "#")
  }

  /** The number of lines that are not comments: the lines that advance
      the line counter. */
  function Counted(lines: seq<string>): nat
  {
    if |lines| == 0 then 0 else (if IsComment(lines[0]) then 0 else 1) + Counted(lines[1..])
  }

  function ErrorText(file: string, lineNum: int): string
  {
    "Error parsing file " + file + " on line " + IntToString(lineNum)
  }

  datatype Progress = Progress(mod: Mod, errors: seq<string>, lineNum: int)

  /** Whether a trimmed line fails: a known key starts it but it has no
      `=` to split at. */
  predicate Fails(line: string)
  {
    Claimed(line) && '=' !in line
  }

  /** The failures recorded for `lines[i..]` with the counter at `lineNum`:
      one for each failing line that is not a comment, numbered by the
      counter, in line order. */
  function FailureTexts(file: string, lines: seq<string>, i: nat, lineNum: int): seq<string>
    requires i <= |lines|
    decreases |lines| - i
  {
    if i == |lines| then []
    else if IsComment(lines[i]) then FailureTexts(file, lines, i + 1, lineNum)
    else
      var own := if Fails(Trim(lines[i])) then [ErrorText(file, lineNum)] else [];
      own + FailureTexts(file, lines, i + 1, lineNum + 1)
  }

  /** Whether line `i` is a line that is not a comment, starts with the key
      of `slot` and has an `=`: a line whose value `slot` stores. */
  predicate Sets(slot: Slot, lines: seq<string>, i: nat)
    requires i < |lines|
  {
    !IsComment(lines[i]) && Applies(slot, Trim(lines[i])) && '=' in Trim(lines[i])
  }

  /** What a single-valued slot holds after `lines[i..]`, starting from `v`:
      the cleaned value of the last line that sets it. */
  function LastValue(slot: Slot, lines: seq<string>, i: nat, v: string): string
    requires i <= |lines|
    decreases |lines| - i
  {
    if i == |lines| then v
    else LastValue(slot, lines, i + 1, if Sets(slot, lines, i) then Clean(FieldRaw(Trim(lines[i])).value) else v)
  }

  /** What one value adds to a list slot. */
  function Added(slot: Slot, raw: string): seq<string>
  {
    match slot
    case ExtendSlot => [Clean(raw)]
    case ReplaceSlot => [ReplaceChar(Clean(raw), '/', '\\')]
    case DependencySlot => DependencyNames(raw)
    case _ => []
  }

  /** What a list slot gains from `lines[i..]`, in line order. */
  function AddedValues(slot: Slot, lines: seq<string>, i: nat): seq<string>
    requires i <= |lines|
    decreases |lines| - i
  {
    if i == |lines| then []
    else
      var own := if Sets(slot, lines, i) then Added(slot, FieldRaw(Trim(lines[i])).value) else [];
      own + AddedValues(slot, lines, i + 1)
  }

  /** One line that is not a comment: its statements run, a failure is
      recorded with the current number, and the counter moves on. */
  function ReadLine(p: Progress, file: string, line: string): (r: Progress)
    ensures r.lineNum == p.lineNum + 1
    ensures r.mod.modFile == p.mod.modFile && r.mod.pathType == p.mod.pathType
    ensures ApplyLine(p.mod, line).Thrown? ==> r.mod == p.mod && r.errors == p.errors + [ErrorText(file, p.lineNum)]
    ensures ApplyLine(p.mod, line).Done? ==> r.mod == ApplyLine(p.mod, line).state && r.errors == p.errors
  {
    match ApplyLine(p.mod, line)
    case Done(m) => Progress(m, p.errors, p.lineNum + 1)
    case Thrown(_, _) => Progress(p.mod, p.errors + [ErrorText(file, p.lineNum)], p.lineNum + 1)
  }

  /** The loop from line `i` with the counter at `lineNum`. The counter
      advances once per line that is not a comment, and at most one
      failure is recorded per counted line. */
  function ReadLines(p: Progress, file: string, lines: seq<string>, i: nat): (r: Progress)
    requires i <= |lines|
    ensures r.lineNum == p.lineNum + Counted(lines[i..])
    ensures r.mod.modFile == p.mod.modFile && r.mod.pathType == p.mod.pathType
    ensures |p.errors| <= |r.errors| && r.errors[..|p.errors|] == p.errors
    ensures |r.errors| - |p.errors| <= Counted(lines[i..])
    decreases |lines| - i
  {
    if i == |lines| then p
    else
      assert lines[i..][1..] == lines[i + 1..];
      var line := Trim(lines[i]);
      if StartsWith(line, "#") then ReadLines(p, file, lines, i + 1)
      else
        var q := ReadLine(p, file, line);
        var r := ReadLines(q, file, lines, i + 1);
        assert r.errors[..|p.errors|] == r.errors[..|q.errors|][..|p.errors|];
        r
  }

  /** The loop records exactly the failures of its failing lines: a
      failing line does not stop the loop, and the lines after it are read
      with the counter moved on. */
  lemma {:induction false} ReadLinesFailures(p: Progress, file: string, lines: seq<string>, i: nat)
    requires i <= |lines|
    ensures ReadLines(p, file, lines, i).errors == p.errors + FailureTexts(file, lines, i, p.lineNum)
    decreases |lines| - i
  {
    if i == |lines| {
      assert p.errors + [] == p.errors;
    } else {
      var line := Trim(lines[i]);
      if StartsWith(line, "#") {
        assert ReadLines(p, file, lines, i) == ReadLines(p, file, lines, i + 1);
        ReadLinesFailures(p, file, lines, i + 1);
      } else {
        ReadLinesFailures(ReadLine(p, file, line), file, lines, i + 1);
        FailuresStep(p, file, lines, i);
      }
    }
  }

  /** One line that is not a comment, given the failures of the lines
      after it. */
  lemma FailuresStep(p: Progress, file: string, lines: seq<string>, i: nat)
    requires i < |lines| && !IsComment(lines[i])
    requires var q := ReadLine(p, file, Trim(lines[i]));
      ReadLines(q, file, lines, i + 1).errors == q.errors + FailureTexts(file, lines, i + 1, q.lineNum)
    ensures ReadLines(p, file, lines, i).errors == p.errors + FailureTexts(file, lines, i, p.lineNum)
  {
    var line := Trim(lines[i]);
    var q := ReadLine(p, file, line);
    var own := if Fails(line) then [ErrorText(file, p.lineNum)] else [];
    var rest := FailureTexts(file, lines, i + 1, p.lineNum + 1);
    assert ReadLines(p, file, lines, i) == ReadLines(q, file, lines, i + 1);
    assert q.errors == p.errors + own;
    assert FailureTexts(file, lines, i, p.lineNum) == own + rest;
    ConcatAssoc(p.errors, own, rest);
  }

  /** The mod after the lines `lines[i..]` that are not comments, each
      applied in turn; a failing line leaves it as it was. */
  function ModAfter(m: Mod, lines: seq<string>, i: nat): Mod
    requires i <= |lines|
    decreases |lines| - i
  {
    if i == |lines| then m
    else if IsComment(lines[i]) then ModAfter(m, lines, i + 1)
    else ModAfter(ApplyLine(m, Trim(lines[i])).state, lines, i + 1)
  }

  /** The loop's mod does not depend on the counter or the failures. */
  lemma {:induction false} ReadLinesMod(p: Progress, file: string, lines: seq<string>, i: nat)
    requires i <= |lines|
    ensures ReadLines(p, file, lines, i).mod == ModAfter(p.mod, lines, i)
    decreases |lines| - i
  {
    if i < |lines| {
      var line := Trim(lines[i]);
      if StartsWith(line, "#") {
        ReadLinesMod(p, file, lines, i + 1);
      } else {
        ReadLinesMod(ReadLine(p, file, line), file, lines, i + 1);
      }
    }
  }

  /** The mod after the lines: each single-valued field holds the value of
      the last line that sets it, and each list gains the values of the
      lines that set it, in line order. */
  lemma ModAfterFields(m: Mod, lines: seq<string>, i: nat)
    requires i <= |lines|
    ensures var r := ModAfter(m, lines, i);
      && r.modFile == m.modFile && r.pathType == m.pathType
      && r.name == LastValue(NameSlot, lines, i, m.name)
      && r.path == LastValue(PathSlot, lines, i, m.path)
      && r.userDir == LastValue(UserDirSlot, lines, i, m.userDir)
      && r.extensions == m.extensions + AddedValues(ExtendSlot, lines, i)
      && r.replacements == m.replacements + AddedValues(ReplaceSlot, lines, i)
      && r.dependencies == m.dependencies + AddedValues(DependencySlot, lines, i)
  {
    var r := ModAfter(m, lines, i);
    ModAfterKeeps(m, lines, i);
    ModAfterValue(m, lines, i, NameSlot);
    ModAfterValue(m, lines, i, PathSlot);
    ModAfterValue(m, lines, i, UserDirSlot);
    ModAfterList(m, lines, i, ExtendSlot);
    ModAfterList(m, lines, i, ReplaceSlot);
    ModAfterList(m, lines, i, DependencySlot);
    assert r.name == ValueOf(r, NameSlot) && r.path == ValueOf(r, PathSlot) && r.userDir == ValueOf(r, UserDirSlot);
    assert r.extensions == ListOf(r, ExtendSlot) && r.replacements == ListOf(r, ReplaceSlot);
    assert r.dependencies == ListOf(r, DependencySlot);
  }

  lemma {:induction false} ModAfterKeeps(m: Mod, lines: seq<string>, i: nat)
    requires i <= |lines|
    ensures ModAfter(m, lines, i).modFile == m.modFile && ModAfter(m, lines, i).pathType == m.pathType
    decreases |lines| - i
  {
    if i < |lines| {
      if IsComment(lines[i]) {
        ModAfterKeeps(m, lines, i + 1);
      } else {
        ModAfterKeeps(ApplyLine(m, Trim(lines[i])).state, lines, i + 1);
      }
    }
  }

  /** The value a single-valued slot fills. */
  function ValueOf(m: Mod, slot: Slot): string
    requires slot.NameSlot? || slot.PathSlot? || slot.UserDirSlot?
  {
    match slot
    case NameSlot => m.name
    case PathSlot => m.path
    case UserDirSlot => m.userDir
  }

  /** The list a list slot fills. */
  function ListOf(m: Mod, slot: Slot): seq<string>
  {
    match slot
    case ExtendSlot => m.extensions
    case ReplaceSlot => m.replacements
    case DependencySlot => m.dependencies
    case _ => []
  }

  lemma {:induction false} ModAfterValue(m: Mod, lines: seq<string>, i: nat, slot: Slot)
    requires i <= |lines| && (slot.NameSlot? || slot.PathSlot? || slot.UserDirSlot?)
    ensures ValueOf(ModAfter(m, lines, i), slot) == LastValue(slot, lines, i, ValueOf(m, slot))
    decreases |lines| - i
  {
    if i < |lines| {
      if IsComment(lines[i]) {
        ModAfterValue(m, lines, i + 1, slot);
      } else {
        var n := ApplyLine(m, Trim(lines[i])).state;
        ModAfterValue(n, lines, i + 1, slot);
        LineSets(m, lines, i, slot);
      }
    }
  }

  lemma {:induction false} ModAfterList(m: Mod, lines: seq<string>, i: nat, slot: Slot)
    requires i <= |lines|
    ensures ListOf(ModAfter(m, lines, i), slot) == ListOf(m, slot) + AddedValues(slot, lines, i)
    decreases |lines| - i
  {
    if i == |lines| {
      assert ListOf(m, slot) + [] == ListOf(m, slot);
    } else {
      if IsComment(lines[i]) {
        var rest := AddedValues(slot, lines, i + 1);
        assert AddedValues(slot, lines, i) == [] + rest == rest;
        assert ModAfter(m, lines, i) == ModAfter(m, lines, i + 1);
        ModAfterList(m, lines, i + 1, slot);
      } else {
        var line := Trim(lines[i]);
        var n := ApplyLine(m, line).state;
        var own := if Sets(slot, lines, i) then Added(slot, FieldRaw(line).value) else [];
        var rest := AddedValues(slot, lines, i + 1);
        assert ListOf(ModAfter(m, lines, i), slot) == ListOf(n, slot) + rest by {
          assert ModAfter(m, lines, i) == ModAfter(n, lines, i + 1);
          ModAfterList(n, lines, i + 1, slot);
        }
        assert ListOf(n, slot) == ListOf(m, slot) + own by {
          LineAppends(m, lines, i, slot);
        }
        assert AddedValues(slot, lines, i) == own + rest;
        ConcatAssoc(ListOf(m, slot), own, rest);
      }
    }
  }

  lemma ConcatAssoc(a: seq<string>, b: seq<string>, c: seq<string>)
    ensures a + b + c == a + (b + c)
  {
  }

  /** A single-valued field after one line that is not a comment, in the
      terms of `Sets`. */
  lemma LineSets(m: Mod, lines: seq<string>, i: nat, slot: Slot)
    requires i < |lines| && !IsComment(lines[i])
    requires slot.NameSlot? || slot.PathSlot? || slot.UserDirSlot?
    ensures var line := Trim(lines[i]);
      ValueOf(ApplyLine(m, line).state, slot) ==
        if Sets(slot, lines, i) then Clean(FieldRaw(line).value) else ValueOf(m, slot)
  {
    var line := Trim(lines[i]);
    if '=' in line {
      assert ApplyLine(m, line).Done?;
      ApplyLineSets(m, line);
    } else {
      assert ApplyLine(m, line).state == m;
    }
  }

  /** A list field after one line that is not a comment, in the terms of
      `Sets`. */
  lemma LineAppends(m: Mod, lines: seq<string>, i: nat, slot: Slot)
    requires i < |lines| && !IsComment(lines[i])
    ensures var line := Trim(lines[i]);
      ListOf(ApplyLine(m, line).state, slot) ==
        ListOf(m, slot) + if Sets(slot, lines, i) then Added(slot, FieldRaw(line).value) else []
  {
    var line := Trim(lines[i]);
    if '=' in line {
      assert ApplyLine(m, line).Done?;
      ApplyLineAppends(m, line);
    } else {
      assert ApplyLine(m, line).state == m;
      assert ListOf(m, slot) + [] == ListOf(m, slot);
    }
  }

  /** A failure recorded for some line number in `[lo, hi)`. */
  predicate ErrorIn(e: string, file: string, lo: int, hi: int)
  {
    exists k :: lo <= k < hi && e == ErrorText(file, k)
  }

  lemma ErrorInWider(e: string, file: string, lo: int, lo': int, hi: int)
    requires ErrorIn(e, file, lo, hi) && lo' <= lo
    ensures ErrorIn(e, file, lo', hi)
  {
  }

  predicate AllErrorsIn(errors: seq<string>, from: int, file: string, lo: int, hi: int)
  {
    forall j :: from <= j < |errors| && 0 <= j ==> ErrorIn(errors[j], file, lo, hi)
  }

  /** Every failure the loop records names the file and a counter value
      the loop passed through. */
  lemma {:induction false} ReadLinesErrors(p: Progress, file: string, lines: seq<string>, i: nat)
    requires i <= |lines|
    ensures AllErrorsIn(ReadLines(p, file, lines, i).errors, |p.errors|, file, p.lineNum, ReadLines(p, file, lines, i).lineNum)
    decreases |lines| - i
  {
    if i < |lines| {
      var line := Trim(lines[i]);
      if StartsWith(line, "#") {
        ReadLinesErrors(p, file, lines, i + 1);
      } else {
        var q := ReadLine(p, file, line);
        var r := ReadLines(q, file, lines, i + 1);
        assert ReadLines(p, file, lines, i) == r;
        ReadLinesErrors(q, file, lines, i + 1);
        assert AllErrorsIn(r.errors, |q.errors|, file, q.lineNum, r.lineNum);
        forall j | |p.errors| <= j < |r.errors|
          ensures ErrorIn(r.errors[j], file, p.lineNum, r.lineNum)
        {
          if j < |q.errors| {
            assert r.errors[j] == r.errors[..|q.errors|][j] == q.errors[j];
            assert q.errors[j] == ErrorText(file, p.lineNum);
          } else {
            ErrorInWider(r.errors[j], file, q.lineNum, p.lineNum, r.lineNum);
          }
        }
      }
    }
  }

  /** `Parse(filename, dir)`: a missing file records one error and adds
      no mod; otherwise exactly one mod is added, named after the file and
      rooted in `dir`, and each failing line records one error naming the
      file and the line's number, counting from 1 and skipping comments. */
  function ParseMod(rd: ModReader, f: ModSource, dir: Folder): (r: ModReader)
    ensures !f.found ==> r == rd.(errors := rd.errors + ["File not found: " + f.name])
    ensures f.found ==> |r.mods| == |rd.mods| + 1 && r.mods[..|rd.mods|] == rd.mods
    ensures f.found ==> r.mods[|rd.mods|].modFile == BaseName(f.name) && r.mods[|rd.mods|].pathType == dir
    ensures |rd.errors| <= |r.errors| && r.errors[..|rd.errors|] == rd.errors
    ensures f.found ==> |r.errors| - |rd.errors| <= Counted(f.lines)
    ensures f.found ==> AllErrorsIn(r.errors, |rd.errors|, BaseName(f.name), 1, 1 + Counted(f.lines))
    ensures f.found ==> r.errors == rd.errors + FailureTexts(BaseName(f.name), f.lines, 0, 1)
    ensures f.found ==> r.mods[|rd.mods|] == Mod(
      LastValue(NameSlot, f.lines, 0, ""), BaseName(f.name),
      LastValue(PathSlot, f.lines, 0, ""), LastValue(UserDirSlot, f.lines, 0, ""), dir,
      AddedValues(DependencySlot, f.lines, 0), AddedValues(ExtendSlot, f.lines, 0),
      AddedValues(ReplaceSlot, f.lines, 0))
  {
    if !f.found then rd.(errors := rd.errors + ["File not found: " + f.name])
    else
      var file := BaseName(f.name);
      assert f.lines[0..] == f.lines;
      var start := Progress(NewMod(file, dir), rd.errors, 1);
      ReadLinesErrors(start, file, f.lines, 0);
      var p := ReadLines(start, file, f.lines, 0);
      assert p.lineNum == 1 + Counted(f.lines);
      ReadLinesMod(start, file, f.lines, 0);
      ReadLinesFailures(start, file, f.lines, 0);
      ModAfterFields(start.mod, f.lines, 0);
      assert [] + AddedValues(DependencySlot, f.lines, 0) == AddedValues(DependencySlot, f.lines, 0);
      assert [] + AddedValues(ExtendSlot, f.lines, 0) == AddedValues(ExtendSlot, f.lines, 0);
      assert [] + AddedValues(ReplaceSlot, f.lines, 0) == AddedValues(ReplaceSlot, f.lines, 0);
      ModReader(rd.mods + [p.mod], p.errors)
  }

  /** Comment lines change nothing: neither the mod, nor the failures,
      nor the counter. */
  lemma {:induction false} OnlyComments(p: Progress, file: string, lines: seq<string>, i: nat)
    requires i <= |lines| && forall k :: i <= k < |lines| ==> IsComment(lines[k])
    ensures ReadLines(p, file, lines, i) == p
    decreases |lines| - i
  {
    if i < |lines| {
      OnlyComments(p, file, lines, i + 1);
    }
  }

  /** `ParseFolder(folder, dirType)`: every descriptor of an existing
      folder is read in turn; a missing folder changes nothing and
      records nothing. */
  function ParseFolder(rd: ModReader, folderExists: bool, files: seq<ModSource>, dir: Folder): (r: ModReader)
    ensures !folderExists ==> r == rd
    ensures |rd.mods| <= |r.mods| && r.mods[..|rd.mods|] == rd.mods
    ensures forall i :: |rd.mods| <= i < |r.mods| ==> r.mods[i].pathType == dir
    decreases |files|
  {
    if !folderExists || |files| == 0 then rd
    else
      var s := ParseMod(rd, files[0], dir);
      var r := ParseFolder(s, true, files[1..], dir);
      assert r.mods[..|rd.mods|] == r.mods[..|s.mods|][..|rd.mods|];
      assert forall i :: |rd.mods| <= i < |s.mods| ==> r.mods[i].pathType == dir by {
        forall i | |rd.mods| <= i < |s.mods|
          ensures r.mods[i].pathType == dir
        {
          assert r.mods[i] == r.mods[..|s.mods|][i] == s.mods[i];
        }
      }
      r
  }

  /** Each descriptor the folder lists adds exactly one mod. */
  lemma {:induction false} ParseFolderCount(rd: ModReader, files: seq<ModSource>, dir: Folder)
    requires forall i :: 0 <= i < |files| ==> files[i].found
    ensures |ParseFolder(rd, true, files, dir).mods| == |rd.mods| + |files|
    decreases |files|
  {
    if |files| > 0 {
      var s := ParseMod(rd, files[0], dir);
      assert files[0].found;
      ParseFolderCount(s, files[1..], dir);
    }
  }
}

=== FILE: options.dfy ===
/** The generic option tree (`Option` and its subclasses): scalar
    classification of `tag = data` pairs, the tree builder `ParseGeneric`
    with its process-wide context stack and "last root" slot, and the text
    rendering `Output`. */
module Options {
  import opened Wrappers
  import opened Text
  import opened Tokens
  import opened Extensions

  /** One option. Group and Event options own their children in order; the
      others are scalars or lists. An Event's id is derived from its date. */
  datatype Node =
    | Group(id: string, subs: seq<Node>)
    | Event(date: Date, subs: seq<Node>)
    | Str(id: string, text: string)
    | Boolean(id: string, flag: bool)
    | Integer(id: string, number: int)
    | Float(id: string, literal: string)
    | DateValue(id: string, when: Date)
    | IntList(id: string, ints: seq<int>)
    | StringList(id: string, strings: seq<string>)

  predicate HasChildren(n: Node) { n.Group? || n.Event? }

  /** `SubOptions.Add(child)` on a Group or Event option. */
  function AddSub(n: Node, child: Node): (r: Node)
    requires HasChildren(n)
    ensures HasChildren(r) && r.subs == n.subs + [child]
    ensures n.Group? ==> r == Group(n.id, n.subs + [child])
    ensures n.Event? ==> r == Event(n.date, n.subs + [child])
  {
    n.(subs := n.subs + [child])
  }

  // ---------------------------------------------------------------------
  // Scalars

  /** What `IsNumberType` tests: no `-` past the first
      character, and no letter or underscore anywhere. Text with no digit
      at all, such as the empty text or a lone `-`, is numeric. */
  predicate NumericText(data: string)
  {
    IndexOf(data, '-') <= 0 && forall i :: 0 <= i < |data| ==> !IsLetter(data[i]) && data[i] != '_'
  }

  /** `IsNumberType(data)`, with its early returns. */
  method IsNumberType(data: string) returns (r: bool)
    ensures r <==> NumericText(data)
  {
    var index := IndexOf(data, '-');
    if index > 0 {
      return false;
    }
    var i := 0;
    while i < |data|
      invariant 0 <= i <= |data|
      invariant forall j :: 0 <= j < i ==> !IsLetter(data[j]) && data[j] != '_'
    {
      if IsLetter(data[i]) || data[i] == '_' {
        return false;
      }
      i := i + 1;
    }
    return true;
  }

  /** `ParseSingle(tag, data)`: numeric text becomes a date (two or more
      dots), a float (one dot) or an integer (no dot); otherwise `yes` and
      `no` are booleans and anything else is a string option. The parse of
      numeric text can fail. */
  function ParseSingle(tag: string, data: string): (r: Result<Node>)
    ensures r.Ok? ==> IdString(r.value) == tag
    ensures NumericText(data) && '.' !in data ==>
      (r.Ok? <==> ParseInt32(data).Some?) && (r.Ok? ==> r.value == Integer(tag, ParseInt32(data).value))
    ensures NumericText(data) && Count(data, '.') >= 2 ==>
      (r.Ok? <==> ToDateTime(data).Ok?) && (r.Ok? ==> r.value == DateValue(tag, ToDateTime(data).value))
    ensures NumericText(data) && Count(data, '.') == 1 ==>
      (r.Ok? <==> IsDecimalLiteral(data)) && (r.Ok? ==> r.value == Float(tag, data))
    ensures !NumericText(data) ==> r.Ok?
    ensures !NumericText(data) && (data == "yes" || data == "no") ==> r.value == Boolean(tag, data == "yes")
    ensures !NumericText(data) && data != "yes" && data != "no" ==> r.value == Str(tag, data)
  {
    if NumericText(data) then ParseNumber(tag, data)
    else if data == "yes" || data == "no" then Ok(Boolean(tag, data == "yes"))
    else Ok(Str(tag, data))
  }

  /** The numeric branch of `ParseSingle`: the dots decide between a date,
      a float and an integer. */
  function ParseNumber(tag: string, data: string): (r: Result<Node>)
    ensures r.Ok? ==> IdString(r.value) == tag
    ensures '.' !in data ==>
      (r.Ok? <==> ParseInt32(data).Some?) && (r.Ok? ==> r.value == Integer(tag, ParseInt32(data).value))
    ensures Count(data, '.') >= 2 ==>
      (r.Ok? <==> ToDateTime(data).Ok?) && (r.Ok? ==> r.value == DateValue(tag, ToDateTime(data).value))
    ensures Count(data, '.') == 1 ==>
      (r.Ok? <==> IsDecimalLiteral(data)) && (r.Ok? ==> r.value == Float(tag, data))
  {
    RepeatsIffTwice(data, '.');
    CountZero(data, '.');
    if '.' in data then
      if Repeats(data, '.') then
        match ToDateTime(data)
        case Ok(d) => Ok(DateValue(tag, d))
        case Err(e) => Err(e)
      else if IsDecimalLiteral(data) then Ok(Float(tag, data))
      else Err("Input string was not in a correct format.")
    else
      match ParseInt32(data)
      case Some(n) => Ok(Integer(tag, n))
      case None => Err("Input string was not in a correct format.")
  }

  /** The kind of a parsed numeric option follows the number of dots: two
      or more make a date, exactly one a float, none an integer. */
  lemma ParseSingleByDots(tag: string, data: string)
    requires NumericText(data) && ParseSingle(tag, data).Ok?
    ensures ParseSingle(tag, data).value.DateValue? <==> Count(data, '.') >= 2
    ensures ParseSingle(tag, data).value.Float? <==> Count(data, '.') == 1
    ensures ParseSingle(tag, data).value.Integer? <==> Count(data, '.') == 0
  {
    RepeatsIffTwice(data, '.');
    CountZero(data, '.');
  }

  /** A word with an accented letter is text, not a number. */
  lemma AccentedWordIsText()
    ensures ParseSingle("name", "\U{C9}tienne") == Ok(Str("name", "\U{C9}tienne"))
  {
    assert IsLetter("\U{C9}tienne"[0]);
  }

  /** The empty text and a lone `-` are numeric, so they reach the integer
      parse and fail there instead of becoming string options. */
  lemma NumericWithoutDigits(tag: string)
    ensures NumericText("") && NumericText("-")
    ensures ParseSingle(tag, "").Err? && ParseSingle(tag, "-").Err?
  {
    assert NumericText("-") by {
      assert IndexOf("-", '-') == 0;
    }
    assert NumericText("");
    assert ParseInt32("-").None? by {
      assert Trim("-") == "-" by { TrimUnchanged("-"); }
      var t := "-";
      assert t[1..] == "";
    }
    assert ParseInt32("").None? by {
      assert Trim("") == "";
    }
    assert '.' !in "" && '.' !in "-";
  }

  // ---------------------------------------------------------------------
  // Rendering

  /** The line terminator `AppendLine` writes. */
  const NewLine: string := "\r\n"

  /** The renderings delegated to the framework: `double.ToString` of a
      float rounded to three decimals, and `DateTime.ToString`. */
  datatype Renderer = Renderer(float: string -> string, date: Date -> string)

  /** `GetIDString`: the tag, or `Y.M.D` for an Event. */
  function IdString(n: Node): string
  {
    if n.Event? then
      IntToString(n.date.year) + "." + IntToString(n.date.month) + "." + IntToString(n.date.day)
    else n.id
  }

  /** `GetValueString`: the child or item count for containers and lists,
      the quoted text of a string option, `yes`/`no`, decimal integers. */
  function ValueString(n: Node, rd: Renderer): string
  {
    match n
    case Group(_, subs) => IntToString(|subs|)
    case Event(_, subs) => IntToString(|subs|)
    case Str(_, text) => "\"" + text + "\""
    case Boolean(_, flag) => if flag then "yes" else "no"
    case Integer(_, number) => IntToString(number)
    case Float(_, literal) => rd.float(literal)
    case DateValue(_, when) => rd.date(when)
    case IntList(_, ints) => IntToString(|ints|)
    case StringList(_, strings) => IntToString(|strings|)
  }

  function Pad(c: char, level: nat): (r: string)
    ensures |r| == level && forall i :: 0 <= i < level ==> r[i] == c
  {
    seq(level, _ => c)
  }

  /** `Output(opt, prefixChar, level, newLine)`. An Event falls through
      into the non-Group branch after its closing brace and so also writes
      its value string, the child count. */
  function Output(n: Node, c: char, level: nat, newLine: bool, rd: Renderer): string
    decreases n, 1
  {
    var head := Pad(c, level) + IdString(n) + " = ";
    var close := Pad(c, level) + (if newLine then "}" + NewLine else "}");
    var value := if newLine then ValueString(n, rd) + NewLine else ValueString(n, rd);
    if n.Event? then head + "{" + NewLine + Lines(n, 0, c, level + 1, rd) + close + value
    else if n.Group? then head + "{" + NewLine + Lines(n, 0, c, level + 1, rd) + close
    else head + value
  }

  /** The children of `parent` from index `i` on, one per line. */
  function Lines(parent: Node, i: nat, c: char, level: nat, rd: Renderer): string
    requires HasChildren(parent) && i <= |parent.subs|
    decreases parent, 0, |parent.subs| - i
  {
    if i == |parent.subs| then ""
    else Output(parent.subs[i], c, level, false, rd) + NewLine + Lines(parent, i + 1, c, level, rd)
  }

  /** Every option's text opens with `level` prefix characters, its id and
      ` = `. */
  lemma OutputHead(n: Node, c: char, level: nat, newLine: bool, rd: Renderer)
    ensures StartsWith(Output(n, c, level, newLine, rd), Pad(c, level) + IdString(n) + " = ")
  {
    var head := Pad(c, level) + IdString(n) + " = ";
    var out := Output(n, c, level, newLine, rd);
    assert out == head + out[|head|..];
  }

  /** A Group's text ends with its closing brace, while an Event's closing
      brace is followed by its child count. */
  lemma OutputTail(n: Node, c: char, level: nat, rd: Renderer)
    requires HasChildren(n)
    ensures var out := Output(n, c, level, false, rd);
      var tail := if n.Event? then "}" + IntToString(|n.subs|) else "}";
      |tail| <= |out| && out[|out| - |tail|..] == tail
  {
    var out := Output(n, c, level, false, rd);
    var tail := if n.Event? then "}" + IntToString(|n.subs|) else "}";
    var head := Pad(c, level) + IdString(n) + " = " + "{" + NewLine + Lines(n, 0, c, level + 1, rd) + Pad(c, level);
    assert out == head + tail;
  }

  /** Round trip: the value text a Bool or 32-bit Integer option prints
      parses back, under the option's id, into the same option. */
  lemma ValueRoundTrip(n: Node, rd: Renderer)
    requires n.Boolean? || (n.Integer? && MinInt32 <= n.number <= MaxInt32)
    ensures ParseSingle(IdString(n), ValueString(n, rd)) == Ok(n)
  {
    if n.Integer? {
      IntegerRoundTrip(n, rd);
    } else {
      BooleanRoundTrip(n, rd);
    }
  }

  /** The value text of a container or a list is its child or item count,
      which reads back as that number. */
  lemma ValueStringCounts(n: Node, rd: Renderer)
    requires HasChildren(n) || n.IntList? || n.StringList?
    ensures var k := if HasChildren(n) then |n.subs| else if n.IntList? then |n.ints| else |n.strings|;
      k <= MaxInt32 ==> ParseInt32(ValueString(n, rd)) == Some(k)
  {
    var k := if HasChildren(n) then |n.subs| else if n.IntList? then |n.ints| else |n.strings|;
    assert ValueString(n, rd) == IntToString(k);
    if k <= MaxInt32 {
      ParsePrintedInt(k);
    }
  }

  /** A string option's value text is its text in quotes. */
  lemma ValueStringQuotes(n: Node, rd: Renderer)
    requires n.Str?
    ensures var s := ValueString(n, rd);
      |s| >= 2 && s[0] == '"' && s[|s| - 1] == '"' && s[1..|s| - 1] == n.text
  {
    var q := ValueString(n, rd);
    assert q == "\"" + n.text + "\"";
    assert q[1..|q| - 1] == n.text;
  }

  /** A printed boolean or 32-bit integer option at the top level is its
      id, ` = ` and a value text that parses back into the option. */
  lemma OutputLeafReadsBack(n: Node, c: char, rd: Renderer)
    requires n.Boolean? || (n.Integer? && MinInt32 <= n.number <= MaxInt32)
    ensures var out := Output(n, c, 0, false, rd);
      var head := IdString(n) + " = ";
      |head| <= |out| && out[..|head|] == head && ParseSingle(IdString(n), out[|head|..]) == Ok(n)
  {
    var head := IdString(n) + " = ";
    var out := Output(n, c, 0, false, rd);
    assert Pad(c, 0) == "";
    assert out == head + ValueString(n, rd);
    assert out[|head|..] == ValueString(n, rd);
    ValueRoundTrip(n, rd);
  }

  lemma IntegerRoundTrip(n: Node, rd: Renderer)
    requires n.Integer? && MinInt32 <= n.number <= MaxInt32
    ensures ParseSingle(IdString(n), ValueString(n, rd)) == Ok(n)
  {
    var s := IntToString(n.number);
    assert ValueString(n, rd) == s;
    ParsePrintedInt(n.number);
    PrintedIntNumeric(n.number);
  }

  lemma BooleanRoundTrip(n: Node, rd: Renderer)
    requires n.Boolean?
    ensures ParseSingle(IdString(n), ValueString(n, rd)) == Ok(n)
  {
    assert !NumericText("yes") by { assert IsLetter("yes"[0]); }
    assert !NumericText("no") by { assert IsLetter("no"[0]); }
  }

  lemma PrintedIntNumeric(n: int)
    ensures NumericText(IntToString(n)) && '.' !in IntToString(n)
  {
    var s := IntToString(n);
    if n < 0 {
      assert s == "-" + NatToString(-n);
      assert forall i :: 1 <= i < |s| ==> s[i] == NatToString(-n)[i - 1];
      assert IndexOf(s, '-') == 0;
    } else {
      assert '-' !in s;
    }
  }

  // ---------------------------------------------------------------------
  // Tree building

  /** The static state shared by every reader: the stack of options whose
      blocks are being read (top last) and the last finished root. */
  datatype GenState = GenState(stack: seq<Node>, lastRoot: Option<Node>)

  const InitialGen := GenState([], None)

  /** Finishing an option: it is added to the option on top of the stack,
      or becomes the last root when the stack is empty. */
  function Attach(gs: GenState, n: Node): (r: GenState)
    ensures |r.stack| == |gs.stack|
    ensures |gs.stack| == 0 ==> r.lastRoot == Some(n)
    ensures |gs.stack| > 0 ==> r.lastRoot == gs.lastRoot
    ensures |gs.stack| > 0 ==> r.stack[..|gs.stack| - 1] == gs.stack[..|gs.stack| - 1]
    ensures |gs.stack| > 0 && HasChildren(gs.stack[|gs.stack| - 1]) ==>
      r.stack[|gs.stack| - 1] == AddSub(gs.stack[|gs.stack| - 1], n)
  {
    if |gs.stack| == 0 then gs.(lastRoot := Some(n))
    else
      var top := gs.stack[|gs.stack| - 1];
      if HasChildren(top) then gs.(stack := gs.stack[..|gs.stack| - 1] + [AddSub(top, n)])
      else gs
  }

  /** The option a bracketed tag opens: an Event when the tag has two or
      more dots (its date is the tag's `ToDateTime`), a Group otherwise. */
  function OpenBlock(tag: string): (r: Result<Node>)
    ensures r.Ok? ==> HasChildren(r.value) && r.value.subs == []
    ensures r.Ok? ==> (r.value.Event? <==> Count(tag, '.') >= 2)
    ensures r.Ok? && r.value.Group? ==> r.value.id == tag
    ensures Count(tag, '.') < 2 ==> r.Ok?
  {
    RepeatsIffTwice(tag, '.');
    if '.' in tag && Repeats(tag, '.') then
      match ToDateTime(tag)
      case Ok(d) => Ok(Event(d, []))
      case Err(e) => Err(e)
    else Ok(Group(tag, []))
  }

  const NotABlock := "A bracketed list of values where a block of options was expected"

  /** The stack below its top element. */
  function Below(stack: seq<Node>): seq<Node>
    requires |stack| > 0
  {
    stack[..|stack| - 1]
  }

  /** `ParseGeneric(parser, tag)` on the value `v` that follows the tag. A
      bracketed value under `data` is an integer list; any other bracketed
      value opens a Group or Event that is pushed while its entries are
      read and popped afterwards; a bare word is a scalar. A failure keeps
      the state at the point of failure, pushed options included: the
      source has no handler that unwinds the stack. */
  function ParseGeneric(gs: GenState, tag: string, v: Token): (r: Outcome<GenState>)
    ensures r.Done? ==> |r.state.stack| == |gs.stack|
    ensures r.Done? && |gs.stack| > 0 ==>
      Below(r.state.stack) == Below(gs.stack) && r.state.lastRoot == gs.lastRoot
    ensures r.Thrown? ==> |r.state.stack| >= |gs.stack|
    ensures r.Thrown? && |gs.stack| > 0 ==>
      r.state.stack[..|gs.stack| - 1] == Below(gs.stack)
    decreases v, 2
  {
    if v.Word? then
      match ParseSingle(tag, v.text)
      case Ok(n) => Done(Attach(gs, n))
      case Err(e) => Thrown(gs, e)
    else if tag == "data" then
      match ReadIntList(v)
      case Ok(xs) => Done(Attach(gs, IntList(tag, xs)))
      case Err(e) => Thrown(gs, e)
    else
      match OpenBlock(tag)
      case Err(e) => Thrown(gs, e)
      case Ok(n) =>
        if !IsBlock(v) then Thrown(gs.(stack := gs.stack + [n]), NotABlock)
        else ParseBlock(gs, n, v)
  }

  /** The option `n` pushed while the entries of `block` are read, then
      popped and attached. */
  function ParseBlock(gs: GenState, n: Node, block: Token): (r: Outcome<GenState>)
    requires IsBlock(block)
    ensures r.Done? ==> |r.state.stack| == |gs.stack|
    ensures r.Done? && |gs.stack| > 0 ==>
      Below(r.state.stack) == Below(gs.stack) && r.state.lastRoot == gs.lastRoot
    ensures r.Thrown? ==> |r.state.stack| > |gs.stack| && r.state.stack[..|gs.stack|] == gs.stack
    decreases block, 1
  {
    var pushed := gs.(stack := gs.stack + [n]);
    assert Below(pushed.stack) == gs.stack;
    match ParseEntries(pushed, block, 0)
    case Thrown(s, e) =>
      assert s.stack[..|gs.stack|] == pushed.stack[..|gs.stack|];
      Thrown(s, e)
    case Done(s) =>
      var popped := s.(stack := Below(s.stack));
      Done(Attach(popped, s.stack[|s.stack| - 1]))
  }

  /** `parser.Parse(ParseGeneric)` over the entries of `block` from index `i` on. */
  function ParseEntries(gs: GenState, block: Token, i: nat): (r: Outcome<GenState>)
    requires IsBlock(block) && i <= |EntriesOf(block)|
    requires |gs.stack| > 0
    ensures r.Done? ==> |r.state.stack| == |gs.stack|
    ensures r.Done? ==> Below(r.state.stack) == Below(gs.stack) && r.state.lastRoot == gs.lastRoot
    ensures r.Thrown? ==> |r.state.stack| >= |gs.stack|
    ensures r.Thrown? ==> r.state.stack[..|gs.stack| - 1] == Below(gs.stack)
    decreases block, 0, |EntriesOf(block)| - i
  {
    var es := EntriesOf(block);
    if i == |es| then Done(gs)
    else
      assert es[i] in block.entries;
      match ParseGeneric(gs, es[i].tag, es[i].value)
      case Thrown(s, e) => Thrown(s, e)
      case Done(s) => ParseEntries(s, block, i + 1)
  }

  // A reference builder without the shared state: the tree that
  // ParseGeneric attaches, or the failure it runs into.

  function Convert(tag: string, v: Token): Result<Node>
    decreases v, 2
  {
    if v.Word? then ParseSingle(tag, v.text)
    else if tag == "data" then
      match ReadIntList(v)
      case Ok(xs) => Ok(IntList(tag, xs))
      case Err(e) => Err(e)
    else
      match OpenBlock(tag)
      case Err(e) => Err(e)
      case Ok(n) =>
        if !IsBlock(v) then Err(NotABlock)
        else ConvertBlock(n, v)
  }

  /** The option `n` with the options of `block` as its children. */
  function ConvertBlock(n: Node, block: Token): Result<Node>
    requires IsBlock(block) && HasChildren(n)
    decreases block, 1
  {
    match ConvertEntries(block, 0)
    case Err(e) => Err(e)
    case Ok(cs) => Ok(n.(subs := cs))
  }

  function ConvertEntries(block: Token, i: nat): Result<seq<Node>>
    requires IsBlock(block) && i <= |EntriesOf(block)|
    decreases block, 0, |EntriesOf(block)| - i
  {
    var es := EntriesOf(block);
    if i == |es| then Ok([])
    else
      assert es[i] in block.entries;
      match Convert(es[i].tag, es[i].value)
      case Err(e) => Err(e)
      case Ok(n) =>
        match ConvertEntries(block, i + 1)
        case Err(e) => Err(e)
        case Ok(cs) => Ok([n] + cs)
  }

  /** `ParseGeneric` attaches exactly the tree the reference builder makes
      (to the top of the stack, or as the last root), and it fails exactly
      when the reference builder does. */
  lemma {:induction false} GenericIsConvert(gs: GenState, tag: string, v: Token)
    ensures Convert(tag, v).Ok? ==> ParseGeneric(gs, tag, v) == Done(Attach(gs, Convert(tag, v).value))
    ensures Convert(tag, v).Err? ==> ParseGeneric(gs, tag, v).Thrown?
    decreases v, 2
  {
    if !v.Word? && tag != "data" && OpenBlock(tag).Ok? && IsBlock(v) {
      var n := OpenBlock(tag).value;
      assert ParseGeneric(gs, tag, v) == ParseBlock(gs, n, v);
      assert Convert(tag, v) == ConvertBlock(n, v);
      BlockIsConvert(gs, n, v);
    }
  }

  lemma {:induction false} BlockIsConvert(gs: GenState, n: Node, block: Token)
    requires IsBlock(block) && HasChildren(n) && n.subs == []
    ensures ConvertBlock(n, block).Ok? ==> ParseBlock(gs, n, block) == Done(Attach(gs, ConvertBlock(n, block).value))
    ensures ConvertBlock(n, block).Err? ==> ParseBlock(gs, n, block).Thrown?
    decreases block, 1
  {
    var pushed := gs.(stack := gs.stack + [n]);
    EntriesIsConvert(pushed, block, 0);
    if ConvertEntries(block, 0).Ok? {
      var cs := ConvertEntries(block, 0).value;
      var s := ParseEntries(pushed, block, 0).state;
      assert s.stack == gs.stack + [n.(subs := n.subs + cs)];
      assert n.subs + cs == cs;
      assert Below(s.stack) == gs.stack;
    }
  }

  lemma {:induction false} EntriesIsConvert(gs: GenState, block: Token, i: nat)
    requires IsBlock(block) && i <= |EntriesOf(block)|
    requires |gs.stack| > 0 && HasChildren(gs.stack[|gs.stack| - 1])
    ensures var top := gs.stack[|gs.stack| - 1];
      ConvertEntries(block, i).Ok? ==>
        ParseEntries(gs, block, i) ==
          Done(gs.(stack := Below(gs.stack) + [top.(subs := top.subs + ConvertEntries(block, i).value)]))
    ensures ConvertEntries(block, i).Err? ==> ParseEntries(gs, block, i).Thrown?
    decreases block, 0, |EntriesOf(block)| - i
  {
    var es := EntriesOf(block);
    var top := gs.stack[|gs.stack| - 1];
    if i == |es| {
      assert top.subs + [] == top.subs;
      assert gs.stack == Below(gs.stack) + [top];
    } else {
      assert es[i] in block.entries;
      GenericIsConvert(gs, es[i].tag, es[i].value);
      if Convert(es[i].tag, es[i].value).Ok? {
        var n := Convert(es[i].tag, es[i].value).value;
        var s := Attach(gs, n);
        assert ParseEntries(gs, block, i) == ParseEntries(s, block, i + 1);
        EntriesIsConvert(s, block, i + 1);
        if ConvertEntries(block, i + 1).Ok? {
          StepAppend(gs, n, ConvertEntries(block, i + 1).value);
        }
      }
    }
  }

  /** Attaching `n` and then the children `cs` attaches `[n] + cs`. */
  lemma StepAppend(gs: GenState, n: Node, cs: seq<Node>)
    requires |gs.stack| > 0 && HasChildren(gs.stack[|gs.stack| - 1])
    ensures var top := gs.stack[|gs.stack| - 1];
      var s := Attach(gs, n);
      var top1 := s.stack[|s.stack| - 1];
      s.(stack := Below(s.stack) + [top1.(subs := top1.subs + cs)])
        == gs.(stack := Below(gs.stack) + [top.(subs := top.subs + ([n] + cs))])
  {
    var top := gs.stack[|gs.stack| - 1];
    assert (top.subs + [n]) + cs == top.subs + ([n] + cs);
  }

  /** `GetLastRoot()`: hands out the last root and clears the slot. */
  function GetLastRoot(gs: GenState): (r: (Option<Node>, GenState))
    ensures r.0 == gs.lastRoot
    ensures r.1.lastRoot == None && r.1.stack == gs.stack
  {
    (gs.lastRoot, gs.(lastRoot := None))
  }

  /** A second `GetLastRoot()` with nothing parsed in between returns null. */
  lemma GetLastRootTwice(gs: GenState)
    ensures GetLastRoot(GetLastRoot(gs).1).0 == None
  {
  }

  /** What a reader sees after `ParseGeneric(p, tag)` followed by
      `GetLastRoot()`. */
  datatype Parsed = Parsed(gen: GenState, root: Option<Node>)

  function ParseOption(gs: GenState, tag: string, v: Token): (r: Outcome<Parsed>)
    ensures r.Done? ==> r.state.gen.lastRoot == None && |r.state.gen.stack| == |gs.stack|
  {
    match ParseGeneric(gs, tag, v)
    case Thrown(s, e) => Thrown(Parsed(s, None), e)
    case Done(s) =>
      var (root, s1) := GetLastRoot(s);
      Done(Parsed(s1, root))
  }

  /** With an empty stack a reader receives the reference tree. */
  lemma ParseOptionAtRoot(gs: GenState, tag: string, v: Token)
    requires gs.stack == []
    ensures Convert(tag, v).Ok? ==> ParseOption(gs, tag, v) == Done(Parsed(GenState([], None), Some(Convert(tag, v).value)))
    ensures Convert(tag, v).Err? ==> ParseOption(gs, tag, v).Thrown?
  {
    GenericIsConvert(gs, tag, v);
  }

  /** After a failure inside a block the pushed options stay on the stack,
      so later options are attached to a stale option and readers receive
      the slot's old content instead of what they parsed. */
  lemma StaleStack(gs: GenState, tag: string, v: Token, tag2: string, v2: Token)
    requires gs.stack == [] && ParseGeneric(gs, tag, v).Thrown?
    requires !v.Word? && tag != "data" && OpenBlock(tag).Ok?
    ensures var s := ParseGeneric(gs, tag, v).state;
      |s.stack| >= 1
      && (ParseOption(s, tag2, v2).Done? ==> ParseOption(s, tag2, v2).state.root == s.lastRoot)
  {
  }

  /** `(GroupOption)root`: null passes, any other kind fails the cast. */
  function AsGroup(root: Option<Node>): (r: Result<Option<Node>>)
    ensures r.Ok? <==> root.None? || root.value.Group?
    ensures r.Ok? ==> r.value == root
  {
    if root.Some? && !root.value.Group? then Err("Unable to cast object to type 'GroupOption'.")
    else Ok(root)
  }

  /** `(EventOption)root`. */
  function AsEvent(root: Option<Node>): (r: Result<Option<Node>>)
    ensures r.Ok? <==> root.None? || root.value.Event?
    ensures r.Ok? ==> r.value == root
  {
    if root.Some? && !root.value.Event? then Err("Unable to cast object to type 'EventOption'.")
    else Ok(root)
  }
}

=== FILE: provinces.dfy ===
/** `ProvinceReader`: one province per history file, registered under the
    id taken from the file name when it names a title, and the merge of
    the adjacency table and the game's setup log into each province's
    list of neighbours. Neighbours are held by province id; while the
    adjacencies are merged every registered province object is the one
    registered under its id, so an id stands for the reference. */
module Provinces {
  import opened Wrappers
  import opened Text
  import opened Dicts
  import opened Tokens
  import opened Options
  import opened Maps

  datatype Settlement = Settlement(title: string, kind: string)

  datatype Province = Province(
    id: int,
    file: string,
    title: Option<string>,
    culture: Option<string>,
    religion: Option<string>,
    terrain: Option<string>,
    maxSettlements: int,
    settlements: seq<Settlement>,
    history: seq<Option<Node>>,
    adjacencies: seq<int>,
    isCoastal: bool)

  function NewProvince(id: int, file: string): Province
  {
    Province(id, file, None, None, None, None, 0, [], [], [], false)
  }

  datatype ProvinceReader = ProvinceReader(provinces: Dict<int, Province>, gen: GenState, errors: seq<string>)

  // ---------------------------------------------------------------------
  // Loading one province

  /** The province id a file name gives: the integer before the first `-`. */
  function IdFromFileName(path: string): Option<int>
  {
    ParseInt32(Trim(Before(BaseName(path), '-')))
  }

  /** The province being read together with the shared option state. */
  datatype Loading = Loading(prov: Province, gen: GenState)

  /** `ParseProvinceData(parser, tag)`: `b_` tags are settlements, tags that
      start with a digit are dated history blocks, five fields are stored
      and every other tag is skipped. */
  function ProvinceField(ld: Loading, tag: string, v: Token): (r: Outcome<Loading>)
    ensures r.Done? ==> r.state.prov.id == ld.prov.id && r.state.prov.file == ld.prov.file
    ensures r.Done? ==> r.state.prov.adjacencies == ld.prov.adjacencies
    ensures StartsWith(tag, "b_") ==> (r.Done? <==> v.Word?)
    ensures StartsWith(tag, "b_") && r.Done? ==>
      r.state == ld.(prov := ld.prov.(settlements := ld.prov.settlements + [Settlement(tag, v.text)]))
    ensures !StartsWith(tag, "b_") && |tag| == 0 ==> r.Thrown?
    ensures !StartsWith(tag, "b_") && |tag| > 0 && IsDigit(tag[0]) && r.Done? ==>
      |r.state.prov.history| == |ld.prov.history| + 1
      && var h := r.state.prov.history[|ld.prov.history|]; h.None? || h.value.Event?
    ensures !StartsWith(tag, "b_") && |tag| > 0 && IsDigit(tag[0]) ==>
      var p := ParseOption(ld.gen, tag, v);
      (r.Done? <==> p.Done? && AsEvent(p.state.root).Ok?) &&
      (r.Done? ==> r.state == Loading(ld.prov.(history := ld.prov.history + [p.state.root]), p.state.gen)) &&
      (r.Thrown? ==> r.state.prov == ld.prov)
    ensures tag == "title" && r.Done? ==> v.Word? && r.state == ld.(prov := ld.prov.(title := Some(v.text)))
    ensures tag == "max_settlements" ==> (r.Done? <==> ReadInt32(v).Ok?)
    ensures tag == "max_settlements" && r.Done? ==> r.state == ld.(prov := ld.prov.(maxSettlements := ReadInt32(v).value))
    ensures tag in {"title", "culture", "religion", "terrain"} ==> (r.Done? <==> v.Word?)
    ensures tag == "culture" && r.Done? ==> v.Word? && r.state == ld.(prov := ld.prov.(culture := Some(v.text)))
    ensures tag == "religion" && r.Done? ==> v.Word? && r.state == ld.(prov := ld.prov.(religion := Some(v.text)))
    ensures tag == "terrain" && r.Done? ==> v.Word? && r.state == ld.(prov := ld.prov.(terrain := Some(v.text)))
    ensures tag != "title" && r.Done? ==> r.state.prov.title == ld.prov.title
    ensures (!StartsWith(tag, "b_") && |tag| > 0 && !IsDigit(tag[0])
      && tag !in {"max_settlements", "title", "culture", "religion", "terrain"}) ==> r == Done(ld)
  {
    var p := ld.prov;
    if StartsWith(tag, "b_") then
      assert tag[0] == 'b';
      match ReadString(v)
      case Ok(s) => Done(ld.(prov := p.(settlements := p.settlements + [Settlement(tag, s)])))
      case Err(e) => Thrown(ld, e)
    else if |tag| == 0 then Thrown(ld, IndexError)
    else if IsDigit(tag[0]) then
      match ParseOption(ld.gen, tag, v)
      case Thrown(s, e) => Thrown(ld.(gen := s.gen), e)
      case Done(parsed) =>
        match AsEvent(parsed.root)
        case Err(e) => Thrown(ld.(gen := parsed.gen), e)
        case Ok(ev) => Done(Loading(p.(history := p.history + [ev]), parsed.gen))
    else if tag == "max_settlements" then
      match ReadInt32(v)
      case Ok(n) => Done(ld.(prov := p.(maxSettlements := n)))
      case Err(e) => Thrown(ld, e)
    else if tag == "title" || tag == "culture" || tag == "religion" || tag == "terrain" then
      match ReadString(v)
      case Err(e) => Thrown(ld, e)
      case Ok(s) =>
        Done(ld.(prov :=
          if tag == "title" then p.(title := Some(s))
          else if tag == "culture" then p.(culture := Some(s))
          else if tag == "religion" then p.(religion := Some(s))
          else p.(terrain := Some(s))))
    else Done(ld)
  }

  function ProvinceFields(ld: Loading, es: seq<Entry>, i: nat): (r: Outcome<Loading>)
    requires i <= |es|
    ensures r.Done? ==> r.state.prov.id == ld.prov.id && r.state.prov.file == ld.prov.file
    ensures r.Done? ==> r.state.prov.adjacencies == ld.prov.adjacencies
    ensures r.Done? ==> r.state.prov.title == LastTitle(es, i, ld.prov.title)
    decreases |es| - i
  {
    if i == |es| then Done(ld)
    else
      match ProvinceField(ld, es[i].tag, es[i].value)
      case Thrown(s, e) => Thrown(s, e)
      case Done(s) => ProvinceFields(s, es, i + 1)
  }

  /** The title a province ends with after reading `es[i..]`, starting
      from `t`: the word of the last `title` entry, if there is one. */
  function LastTitle(es: seq<Entry>, i: nat, t: Option<string>): Option<string>
    requires i <= |es|
    decreases |es| - i
  {
    if i == |es| then t
    else LastTitle(es, i + 1, if es[i].tag == "title" && es[i].value.Word? then Some(es[i].value.text) else t)
  }

  /** With no `title` entry the title stays as it was. */
  lemma {:induction false} LastTitleWithoutEntry(es: seq<Entry>, i: nat, t: Option<string>)
    requires i <= |es| && forall j :: i <= j < |es| ==> es[j].tag != "title"
    ensures LastTitle(es, i, t) == t
    decreases |es| - i
  {
    if i < |es| {
      LastTitleWithoutEntry(es, i + 1, t);
    }
  }

  /** `String.IsNullOrWhiteSpace(Title)`. */
  predicate NoTitle(p: Province)
  {
    p.title.None? || IsBlank(p.title.value)
  }

  /** `Parse(filename)`: the id comes from the file name; the province is
      registered under it, replacing an earlier one, only when it names a
      title. Failures are recorded and register nothing. */
  function Parse(rd: ProvinceReader, f: SourceFile): (r: ProvinceReader)
    requires rd.provinces.Valid()
    ensures r.provinces.Valid()
    ensures !f.found ==> r == rd.(errors := rd.errors + ["Unable to find file: " + f.name])
    ensures IdFromFileName(f.name).None? ==> r.provinces == rd.provinces
    ensures |r.errors| <= |rd.errors| + 1
    ensures r.provinces != rd.provinces ==>
      (f.found && IdFromFileName(f.name).Some?
       && Registered(rd.provinces, r.provinces, IdFromFileName(f.name).value, f.name))
    ensures f.found && IdFromFileName(f.name).None? ==>
      r == rd.(errors := rd.errors + ["Input string was not in a correct format."])
    ensures f.found && IdFromFileName(f.name).Some? ==> r == Load(rd, IdFromFileName(f.name).value, f)
  {
    if !f.found then rd.(errors := rd.errors + ["Unable to find file: " + f.name])
    else
      match IdFromFileName(f.name)
      case None => rd.(errors := rd.errors + ["Input string was not in a correct format."])
      case Some(id) => Load(rd, id, f)
  }

  /** `after` is `before` with a titled province read from `file` put
      under `id`. */
  ghost predicate Registered(before: Dict<int, Province>, after: Dict<int, Province>, id: int, file: string)
    requires before.Valid()
  {
    id in after.entries && after == Put(before, id, after.entries[id])
    && after.entries[id].id == id && after.entries[id].file == file && !NoTitle(after.entries[id])
  }

  function Load(rd: ProvinceReader, id: int, f: SourceFile): (r: ProvinceReader)
    requires rd.provinces.Valid()
    ensures r.provinces.Valid()
    ensures r.provinces != rd.provinces ==> Registered(rd.provinces, r.provinces, id, f.name)
    ensures |r.errors| <= |rd.errors| + 1
    ensures var out := ProvinceFields(Loading(NewProvince(id, f.name), rd.gen), f.entries, 0);
      && (out.Thrown? ==> r.provinces == rd.provinces && r.errors == rd.errors + [out.error])
      && (out.Done? && NoTitle(out.state.prov) ==> r.provinces == rd.provinces && r.errors == rd.errors)
      && (out.Done? && !NoTitle(out.state.prov) ==>
            r.provinces == Put(rd.provinces, id, out.state.prov) && r.errors == rd.errors
            && out.state.prov.title == LastTitle(f.entries, 0, None))
  {
    match ProvinceFields(Loading(NewProvince(id, f.name), rd.gen), f.entries, 0)
    case Thrown(s, e) => rd.(gen := s.gen, errors := rd.errors + [e])
    case Done(s) =>
      if NoTitle(s.prov) then rd.(gen := s.gen)
      else rd.(provinces := Put(rd.provinces, id, s.prov), gen := s.gen)
  }

  /** A file with no `title` entry registers nothing and records no error
      unless one of its entries fails to read. */
  lemma UntitledNotRegistered(rd: ProvinceReader, id: int, f: SourceFile)
    requires rd.provinces.Valid()
    requires forall j :: 0 <= j < |f.entries| ==> f.entries[j].tag != "title"
    ensures Load(rd, id, f).provinces == rd.provinces
  {
    LastTitleWithoutEntry(f.entries, 0, None);
  }

  // ---------------------------------------------------------------------
  // Adjacencies

  /** The neighbour lists are free of duplicates and name only registered
      provinces. */
  ghost predicate Sound(d: Dict<int, Province>)
  {
    forall k :: k in d.entries ==> NoDuplicates(d.entries[k].adjacencies) && RegisteredAll(d, d.entries[k].adjacencies)
  }

  predicate NoDuplicates(xs: seq<int>)
  {
    forall i, j :: 0 <= i < j < |xs| ==> xs[i] != xs[j]
  }

  predicate RegisteredAll(d: Dict<int, Province>, xs: seq<int>)
  {
    forall i :: 0 <= i < |xs| ==> xs[i] in d.entries
  }

  /** Every edge between registered provinces is present in both directions. */
  ghost predicate Symmetric(d: Dict<int, Province>)
  {
    forall a, b :: a in d.entries && b in d.entries ==>
      (b in d.entries[a].adjacencies <==> a in d.entries[b].adjacencies)
  }

  /** `if (!from.Adjacencies.Contains(to)) from.Adjacencies.Add(to)`. */
  function AddNeighbour(d: Dict<int, Province>, from: int, to: int): (r: Dict<int, Province>)
    requires d.Valid() && from in d.entries && to in d.entries
    ensures r.Valid() && r.keys == d.keys && r.entries.Keys == d.entries.Keys
    ensures forall k :: k in d.entries && k != from ==> r.entries[k] == d.entries[k]
    ensures r.entries[from].(adjacencies := []) == d.entries[from].(adjacencies := [])
    ensures var adj := d.entries[from].adjacencies;
      r.entries[from].adjacencies == adj + (if to in adj then [] else [to])
    ensures to in r.entries[from].adjacencies
    ensures forall x :: x in r.entries[from].adjacencies <==> x in d.entries[from].adjacencies || x == to
    ensures Sound(d) ==> Sound(r)
    ensures Extends(d, r)
  {
    var p := d.entries[from];
    if to in p.adjacencies then d
    else Put(d, from, p.(adjacencies := p.adjacencies + [to]))
  }

  /** Setting `IsCoastal` on a registered province. */
  function SetCoastal(d: Dict<int, Province>, id: int): (r: Dict<int, Province>)
    requires d.Valid() && id in d.entries
    ensures r.Valid() && r.keys == d.keys && r.entries.Keys == d.entries.Keys
    ensures Sound(d) ==> Sound(r)
    ensures r.entries[id] == d.entries[id].(isCoastal := true)
    ensures forall k :: k in d.entries && k != id ==> r.entries[k] == d.entries[k]
    ensures Extends(d, r)
  {
    Put(d, id, d.entries[id].(isCoastal := true))
  }

  /** An array index past the end of the array. */
  const IndexError := "Index was outside the bounds of the array."

  function UnknownId(id: int): string
  {
    "Adjacencies: Unable to find province ID: " + IntToString(id)
  }

  /** What the merge reads from a line of the adjacency table: nothing (a
      header `from...`, the terminator `-1...`, or a first field that is
      not an integer), a first id with no second field, or a first id and
      the second field, when that is an integer. */
  datatype TableRow = NoIds | FirstOnly(a: int) | BothFields(a: int, b: Option<int>)

  predicate IsTableHeader(line: string)
  {
    var low := ToLower(Trim(line));
    StartsWith(low, "from") || StartsWith(low, "-1")
  }

  function ReadRow(line: string): (row: TableRow)
    ensures IsTableHeader(line) ==> row.NoIds?
    ensures !IsTableHeader(line) ==> (row.NoIds? <==> ParseInt32(Trim(Split(line, ';')[0])).None?)
    ensures !row.NoIds? ==> ParseInt32(Trim(Split(line, ';')[0])) == Some(row.a)
    ensures row.FirstOnly? <==> !row.NoIds? && |Split(line, ';')| < 2
    ensures row.BothFields? ==> row.b == ParseInt32(Trim(Split(line, ';')[1]))
  {
    if IsTableHeader(line) then NoIds
    else
      var sides := Split(line, ';');
      match ParseInt32(Trim(sides[0]))
      case None => NoIds
      case Some(a) => if |sides| < 2 then FirstOnly(a) else BothFields(a, ParseInt32(Trim(sides[1])))
  }

  /** A line written as `a;b;...` with a non-negative `a` reads as the pair. */
  lemma ReadWrittenRow(a: int, b: int, rest: string)
    requires 0 <= a <= MaxInt32 && MinInt32 <= b <= MaxInt32
    ensures ReadRow(IntToString(a) + ";" + IntToString(b) + ";" + rest) == BothFields(a, Some(b))
  {
    WrittenRowNotHeader(a, IntToString(b), rest);
    SplitWritten(IntToString(a), IntToString(b), rest);
    ParseWritten(a);
    ParseWritten(b);
    ReadRowBoth(IntToString(a) + ";" + IntToString(b) + ";" + rest, a, b);
  }

  /** A line that starts with a written non-negative integer is no header. */
  lemma WrittenRowNotHeader(a: int, tail: string, rest: string)
    requires 0 <= a
    ensures !IsTableHeader(IntToString(a) + ";" + tail + ";" + rest)
  {
    var line := IntToString(a) + ";" + tail + ";" + rest;
    assert line[0] == IntToString(a)[0];
    LeadingDigitNotHeader(line);
  }

  /** A written 32-bit integer, trimmed, parses back to itself. */
  lemma ParseWritten(n: int)
    requires MinInt32 <= n <= MaxInt32
    ensures ParseInt32(Trim(IntToString(n))) == Some(n)
  {
    ParsePrintedInt(n);
    TrimUnchanged(IntToString(n));
  }

  /** A line that is no header and whose first two fields are integers
      reads as the pair. */
  lemma ReadRowBoth(line: string, a: int, b: int)
    requires !IsTableHeader(line) && |Split(line, ';')| >= 2
    requires ParseInt32(Trim(Split(line, ';')[0])) == Some(a)
    requires ParseInt32(Trim(Split(line, ';')[1])) == Some(b)
    ensures ReadRow(line) == BothFields(a, Some(b))
  {
  }

  lemma SplitWritten(sa: string, sb: string, rest: string)
    requires forall k :: 0 <= k < |sa| ==> sa[k] != ';'
    requires forall k :: 0 <= k < |sb| ==> sb[k] != ';'
    ensures var parts := Split(sa + ";" + sb + ";" + rest, ';');
      |parts| >= 2 && parts[0] == sa && parts[1] == sb
  {
    assert sa + ";" + sb + ";" + rest == sa + ([';'] + (sb + ([';'] + rest)));
    SplitFront(sa, ';', sb + ([';'] + rest));
    SplitFront(sb, ';', rest);
  }

  /** A line whose first character is a digit is neither a header nor the
      terminator. */
  lemma LeadingDigitNotHeader(line: string)
    requires |line| > 0 && IsDigit(line[0])
    ensures !IsTableHeader(line)
  {
    assert TrimStart(line) == line;
    var t := Trim(line);
    assert |t| > 0 && t == line[..|t|];
    assert ToLower(t)[0] == line[0];
  }

  /** The pair of registered provinces a table line links, if any. */
  predicate TableEdge(d: Dict<int, Province>, line: string)
  {
    var row := ReadRow(line);
    row.BothFields? && row.b.Some? && row.a in d.entries && row.b.value in d.entries
  }

  /** `e` is `d` with `b` added to the neighbours of `a` and `a` to those of
      `b`; every other province, and every other field, is as it was. */
  ghost predicate Linked(d: Dict<int, Province>, e: Dict<int, Province>, a: int, b: int)
  {
    && a in d.entries && b in d.entries && e.entries.Keys == d.entries.Keys
    && (forall k :: k in d.entries && k != a && k != b ==> e.entries[k] == d.entries[k])
    && (forall x :: x in e.entries[a].adjacencies <==> x in d.entries[a].adjacencies || x == b)
    && (forall x :: x in e.entries[b].adjacencies <==> x in d.entries[b].adjacencies || x == a)
    && e.entries[a].(adjacencies := []) == d.entries[a].(adjacencies := [])
    && e.entries[b].(adjacencies := []) == d.entries[b].(adjacencies := [])
  }

  /** Every neighbour list of `d` is kept, in order, at the front of the
      same province's list in `e`, and nothing else of the province
      changes but its coastal flag, which can only be set. */
  ghost predicate Extends(d: Dict<int, Province>, e: Dict<int, Province>)
  {
    && e.entries.Keys == d.entries.Keys
    && forall k :: k in d.entries ==>
      && |d.entries[k].adjacencies| <= |e.entries[k].adjacencies|
      && e.entries[k].adjacencies[..|d.entries[k].adjacencies|] == d.entries[k].adjacencies
      && (d.entries[k].isCoastal ==> e.entries[k].isCoastal)
      && e.entries[k].(adjacencies := [], isCoastal := false) == d.entries[k].(adjacencies := [], isCoastal := false)
  }

  lemma ExtendsTrans(d: Dict<int, Province>, e: Dict<int, Province>, f: Dict<int, Province>)
    requires Extends(d, e) && Extends(e, f)
    ensures Extends(d, f)
  {
    forall k | k in d.entries
      ensures f.entries[k].adjacencies[..|d.entries[k].adjacencies|] == d.entries[k].adjacencies
    {
      var n := |d.entries[k].adjacencies|;
      assert f.entries[k].adjacencies[..n] == f.entries[k].adjacencies[..|e.entries[k].adjacencies|][..n];
    }
  }

  /** One line of the adjacency table. Header lines and the terminator
      are skipped, as are lines whose first field is not an integer; an
      unknown id is recorded; a line without a second field fails the
      whole merge; a second field that is not an integer skips the line;
      otherwise the two provinces become neighbours of each other. */
  function AdjacencyLine(rd: ProvinceReader, line: string): (r: Outcome<ProvinceReader>)
    requires rd.provinces.Valid()
    ensures r.state.provinces.Valid() && r.state.provinces.keys == rd.provinces.keys
    ensures r.state.provinces.entries.Keys == rd.provinces.entries.Keys
    ensures Sound(rd.provinces) ==> Sound(r.state.provinces)
    ensures Symmetric(rd.provinces) ==> Symmetric(r.state.provinces)
    ensures Extends(rd.provinces, r.state.provinces)
    ensures ReadRow(line).NoIds? ==> r == Done(rd)
    ensures !ReadRow(line).NoIds? && ReadRow(line).a !in rd.provinces.entries ==>
      r == Done(rd.(errors := rd.errors + [UnknownId(ReadRow(line).a)]))
    ensures ReadRow(line).FirstOnly? && ReadRow(line).a in rd.provinces.entries ==> r == Thrown(rd, IndexError)
    ensures ReadRow(line).BothFields? && ReadRow(line).a in rd.provinces.entries && ReadRow(line).b.None? ==>
      r == Done(rd)
    ensures var row := ReadRow(line);
      row.BothFields? && row.a in rd.provinces.entries && row.b.Some? && row.b.value !in rd.provinces.entries ==>
        r == Done(rd.(errors := rd.errors + [UnknownId(row.b.value)]))
    ensures var row := ReadRow(line);
      TableEdge(rd.provinces, line) ==>
        r.Done? && r.state.errors == rd.errors && r.state.gen == rd.gen
        && Linked(rd.provinces, r.state.provinces, row.a, row.b.value)
  {
    match ReadRow(line)
    case NoIds => Done(rd)
    case FirstOnly(a) =>
      if a !in rd.provinces.entries then Done(rd.(errors := rd.errors + [UnknownId(a)]))
      else Thrown(rd, IndexError)
    case BothFields(a, b) =>
      if a !in rd.provinces.entries then Done(rd.(errors := rd.errors + [UnknownId(a)]))
      else
        match b
        case None => Done(rd)
        case Some(b) =>
          if b !in rd.provinces.entries then Done(rd.(errors := rd.errors + [UnknownId(b)]))
          else
            LinkKeepsSymmetry(rd.provinces, a, b);
            Done(rd.(provinces := Link(rd.provinces, a, b)))
  }

  /** Both directions of an edge from the adjacency table. */
  function Link(d: Dict<int, Province>, a: int, b: int): (r: Dict<int, Province>)
    requires d.Valid() && a in d.entries && b in d.entries
    ensures r.Valid() && r.keys == d.keys && r.entries.Keys == d.entries.Keys
    ensures Sound(d) ==> Sound(r)
    ensures Linked(d, r, a, b) && Extends(d, r)
  {
    var d1 := AddNeighbour(d, a, b);
    AddNeighbour(d1, b, a)
  }

  lemma LinkKeepsSymmetry(d: Dict<int, Province>, a: int, b: int)
    requires d.Valid() && a in d.entries && b in d.entries
    ensures Symmetric(d) ==> Symmetric(Link(d, a, b))
  {
    var d2 := Link(d, a, b);
    if Symmetric(d) {
      forall x, y | x in d2.entries && y in d2.entries
        ensures y in d2.entries[x].adjacencies <==> x in d2.entries[y].adjacencies
      {
        assert y in d2.entries[x].adjacencies <==>
          y in d.entries[x].adjacencies || (x == a && y == b) || (x == b && y == a);
        assert x in d2.entries[y].adjacencies <==>
          x in d.entries[y].adjacencies || (y == a && x == b) || (y == b && x == a);
      }
    }
  }

  function AdjacencyLines(rd: ProvinceReader, lines: seq<string>, i: nat): (r: Outcome<ProvinceReader>)
    requires rd.provinces.Valid() && i <= |lines|
    ensures r.state.provinces.Valid() && r.state.provinces.keys == rd.provinces.keys
    ensures r.state.provinces.entries.Keys == rd.provinces.entries.Keys
    ensures Sound(rd.provinces) ==> Sound(r.state.provinces)
    ensures Symmetric(rd.provinces) ==> Symmetric(r.state.provinces)
    ensures Extends(rd.provinces, r.state.provinces)
    decreases |lines| - i
  {
    if i == |lines| then Done(rd)
    else
      match AdjacencyLine(rd, lines[i])
      case Thrown(s, e) => Thrown(s, e)
      case Done(s) =>
        var r := AdjacencyLines(s, lines, i + 1);
        ExtendsTrans(rd.provinces, s.provinces, r.state.provinces);
        r
  }

  /** The table line `line` names the edge between `k` and `x`, in either
      direction. */
  predicate EdgeOf(line: string, k: int, x: int)
  {
    var row := ReadRow(line);
    row.BothFields? && ((row.a == k && row.b == Some(x)) || (row.a == x && row.b == Some(k)))
  }

  /** A complete merge of the table links both ends of every line that
      names two registered provinces, and every neighbour it adds comes
      from such a line. */
  lemma {:induction false} AdjacencyLinesEdges(rd: ProvinceReader, lines: seq<string>, i: nat)
    requires rd.provinces.Valid() && i <= |lines|
    ensures var r := AdjacencyLines(rd, lines, i).state.provinces;
      forall k, x :: k in rd.provinces.entries && x in r.entries[k].adjacencies ==>
        x in rd.provinces.entries[k].adjacencies || exists j :: i <= j < |lines| && EdgeOf(lines[j], k, x)
    ensures var r := AdjacencyLines(rd, lines, i);
      r.Done? ==> forall j :: i <= j < |lines| && TableEdge(rd.provinces, lines[j]) ==>
        && ReadRow(lines[j]).b.value in r.state.provinces.entries[ReadRow(lines[j]).a].adjacencies
        && ReadRow(lines[j]).a in r.state.provinces.entries[ReadRow(lines[j]).b.value].adjacencies
    decreases |lines| - i
  {
    if i < |lines| {
      var one := AdjacencyLine(rd, lines[i]);
      var d := rd.provinces;
      if one.Done? {
        var s := one.state;
        AdjacencyLinesEdges(s, lines, i + 1);
        var r := AdjacencyLines(s, lines, i + 1);
        assert AdjacencyLines(rd, lines, i) == r;
        forall k, x | k in d.entries && x in r.state.provinces.entries[k].adjacencies
          ensures x in d.entries[k].adjacencies || exists j :: i <= j < |lines| && EdgeOf(lines[j], k, x)
        {
          if x !in s.provinces.entries[k].adjacencies {
            var j :| i + 1 <= j < |lines| && EdgeOf(lines[j], k, x);
          } else if x !in d.entries[k].adjacencies {
            AdjacencyLineEdge(rd, lines[i], k, x);
          }
        }
        if r.Done? {
          forall j | i <= j < |lines| && TableEdge(d, lines[j])
            ensures ReadRow(lines[j]).b.value in r.state.provinces.entries[ReadRow(lines[j]).a].adjacencies
            ensures ReadRow(lines[j]).a in r.state.provinces.entries[ReadRow(lines[j]).b.value].adjacencies
          {
            var a := ReadRow(lines[j]).a;
            var b := ReadRow(lines[j]).b.value;
            if j == i {
              ExtendsKeeps(s.provinces, r.state.provinces, a, b);
              ExtendsKeeps(s.provinces, r.state.provinces, b, a);
            } else {
              assert TableEdge(s.provinces, lines[j]);
            }
          }
        }
      }
    }
  }

  /** A neighbour one table line adds comes from that line's edge. */
  lemma AdjacencyLineEdge(rd: ProvinceReader, line: string, k: int, x: int)
    requires rd.provinces.Valid() && k in rd.provinces.entries
    requires x in AdjacencyLine(rd, line).state.provinces.entries[k].adjacencies
    requires x !in rd.provinces.entries[k].adjacencies
    ensures EdgeOf(line, k, x)
  {
    var row := ReadRow(line);
    assert TableEdge(rd.provinces, line);
    var a := row.a;
    var b := row.b.value;
    var e := AdjacencyLine(rd, line).state.provinces;
    assert Linked(rd.provinces, e, a, b);
  }

  /** A neighbour stays a neighbour. */
  lemma ExtendsKeeps(d: Dict<int, Province>, e: Dict<int, Province>, k: int, x: int)
    requires Extends(d, e) && k in d.entries && x in d.entries[k].adjacencies
    ensures x in e.entries[k].adjacencies
  {
    var n := |d.entries[k].adjacencies|;
    assert e.entries[k].adjacencies[..n] == d.entries[k].adjacencies;
    var c :| 0 <= c < n && d.entries[k].adjacencies[c] == x;
    assert e.entries[k].adjacencies[c] == x;
  }

  /** The id a log candidate names. */
  function CandidateId(t: string): Option<int>
  {
    ParseInt32(Trim(t))
  }

  /** A candidate naming a sea zone that is not a major river. */
  predicate IsSeaCandidate(m: Map, t: string)
  {
    CandidateId(t).Some? && CandidateId(t).value !in m.majorRivers && IsSeaProvince(m, CandidateId(t).value)
  }

  /** A candidate naming a registered land province that is not a major
      river. */
  predicate IsLandCandidate(d: Dict<int, Province>, m: Map, t: string)
  {
    && CandidateId(t).Some? && CandidateId(t).value !in m.majorRivers && !IsSeaProvince(m, CandidateId(t).value)
    && CandidateId(t).value in d.entries
  }

  /** One candidate of a log listing for the province `a`: non-integers
      and major rivers are skipped, a sea zone makes `a` coastal, an unknown
      id is recorded, and any other province is appended to the neighbours
      of `a` only, unless it is there already. */
  function Candidate(rd: ProvinceReader, m: Map, a: int, t: string): (r: ProvinceReader)
    requires rd.provinces.Valid() && a in rd.provinces.entries
    ensures r.provinces.Valid() && r.provinces.keys == rd.provinces.keys
    ensures r.provinces.entries.Keys == rd.provinces.entries.Keys
    ensures Sound(rd.provinces) ==> Sound(r.provinces)
    ensures forall k :: k in rd.provinces.entries && k != a ==> r.provinces.entries[k] == rd.provinces.entries[k]
    ensures Extends(rd.provinces, r.provinces) && r.gen == rd.gen
    ensures CandidateId(t).None? || CandidateId(t).value in m.majorRivers ==> r == rd
    ensures IsSeaCandidate(m, t) ==>
      r.errors == rd.errors && r.provinces.entries[a] == rd.provinces.entries[a].(isCoastal := true)
    ensures var b := CandidateId(t);
      b.Some? && b.value !in m.majorRivers && !IsSeaProvince(m, b.value) && b.value !in rd.provinces.entries ==>
        r == rd.(errors := rd.errors + [UnknownId(b.value)])
    ensures var b := CandidateId(t); var p := rd.provinces.entries[a];
      IsLandCandidate(rd.provinces, m, t) ==>
        r.errors == rd.errors
        && r.provinces.entries[a] == p.(adjacencies := p.adjacencies + (if b.value in p.adjacencies then [] else [b.value]))
  {
    match CandidateId(t)
    case None => rd
    case Some(b) =>
      if b in m.majorRivers then rd
      else if IsSeaProvince(m, b) then rd.(provinces := SetCoastal(rd.provinces, a))
      else if b !in rd.provinces.entries then rd.(errors := rd.errors + [UnknownId(b)])
      else rd.(provinces := AddNeighbour(rd.provinces, a, b))
  }

  function Candidates(rd: ProvinceReader, m: Map, a: int, ts: seq<string>, i: nat): (r: ProvinceReader)
    requires rd.provinces.Valid() && a in rd.provinces.entries && i <= |ts|
    ensures r.provinces.Valid() && r.provinces.keys == rd.provinces.keys
    ensures r.provinces.entries.Keys == rd.provinces.entries.Keys
    ensures Sound(rd.provinces) ==> Sound(r.provinces)
    ensures forall k :: k in rd.provinces.entries && k != a ==> r.provinces.entries[k] == rd.provinces.entries[k]
    ensures Extends(rd.provinces, r.provinces)
    decreases |ts| - i
  {
    if i == |ts| then rd
    else
      var s := Candidate(rd, m, a, ts[i]);
      var r := Candidates(s, m, a, ts, i + 1);
      ExtendsTrans(rd.provinces, s.provinces, r.provinces);
      r
  }

  /** After a listing for `a`, every registered land candidate is a
      neighbour of `a`, `a` is coastal if any candidate is a sea zone, and
      every neighbour or coastal flag it gained comes from such a
      candidate. */
  lemma {:induction false} CandidatesEffect(rd: ProvinceReader, m: Map, a: int, ts: seq<string>, i: nat)
    requires rd.provinces.Valid() && a in rd.provinces.entries && i <= |ts|
    ensures var r := Candidates(rd, m, a, ts, i).provinces.entries[a];
      && (forall j :: i <= j < |ts| && IsLandCandidate(rd.provinces, m, ts[j]) ==> CandidateId(ts[j]).value in r.adjacencies)
      && (forall j :: i <= j < |ts| && IsSeaCandidate(m, ts[j]) ==> r.isCoastal)
      && (forall x :: x in r.adjacencies ==>
            (x in rd.provinces.entries[a].adjacencies
             || exists j :: i <= j < |ts| && IsLandCandidate(rd.provinces, m, ts[j]) && CandidateId(ts[j]) == Some(x)))
      && (r.isCoastal ==> rd.provinces.entries[a].isCoastal || exists j :: i <= j < |ts| && IsSeaCandidate(m, ts[j]))
    decreases |ts| - i
  {
    if i < |ts| {
      var s := Candidate(rd, m, a, ts[i]);
      CandidatesEffect(s, m, a, ts, i + 1);
      var r := Candidates(s, m, a, ts, i + 1);
      assert Candidates(rd, m, a, ts, i) == r;
      var p := r.provinces.entries[a];
      if IsLandCandidate(rd.provinces, m, ts[i]) {
        ExtendsKeeps(s.provinces, r.provinces, a, CandidateId(ts[i]).value);
      }
      forall j | i + 1 <= j < |ts| && IsLandCandidate(rd.provinces, m, ts[j])
        ensures CandidateId(ts[j]).value in p.adjacencies
      {
        assert IsLandCandidate(s.provinces, m, ts[j]);
      }
      forall x | x in p.adjacencies
        ensures x in rd.provinces.entries[a].adjacencies
          || exists j :: i <= j < |ts| && IsLandCandidate(rd.provinces, m, ts[j]) && CandidateId(ts[j]) == Some(x)
      {
        if x !in s.provinces.entries[a].adjacencies {
          var j :| i + 1 <= j < |ts| && IsLandCandidate(s.provinces, m, ts[j]) && CandidateId(ts[j]) == Some(x);
          assert IsLandCandidate(rd.provinces, m, ts[j]);
        }
      }
    }
  }

  /** What the merge reads from a line of the setup log: nothing (not a
      `[map.cpp:` line mentioning `Adjacencies for`, or a `NONE` listing),
      a line without the expected separators, or a listing: the source,
      when it is an integer, and the candidate texts. */
  datatype LogRow = NotListing | Malformed | Listing(source: Option<int>, candidates: seq<string>)

  function ReadLogRow(line: string): (row: LogRow)
    ensures !StartsWith(Trim(line), "[map.cpp:") || !Contains(line, "Adjacencies for") ==> row.NotListing?
    ensures row.Listing? ==> |Split(line, ':')| >= 3 && |NonEmpty(SplitOn(Split(line, ':')[2], "==>"))| >= 2
    ensures row.Listing? ==>
      var sides := NonEmpty(SplitOn(Split(line, ':')[2], "==>"));
      && Trim(sides[1]) != "NONE"
      && row.source == ParseInt32(Trim(Delete(sides[0], "Adjacencies for")))
      && row.candidates == NonEmpty(SplitOn(sides[1], " "))
  {
    if !StartsWith(Trim(line), "[map.cpp:") || !Contains(line, "Adjacencies for") then NotListing
    else
      var parts := Split(line, ':');
      if |parts| < 3 then Malformed
      else
        var sides := NonEmpty(SplitOn(parts[2], "==>"));
        if |sides| < 2 then Malformed
        else if Trim(sides[1]) == "NONE" then NotListing
        else Listing(ParseInt32(Trim(Delete(sides[0], "Adjacencies for"))), NonEmpty(SplitOn(sides[1], " ")))
  }

  /** One line of the setup log. Only listings are used; a listing whose
      source is not an integer or is a sea zone is skipped, an unknown
      source is recorded, a line without the expected separators fails the
      merge, and otherwise each candidate is merged in turn. */
  function LogLine(rd: ProvinceReader, m: Map, line: string): (r: Outcome<ProvinceReader>)
    requires rd.provinces.Valid()
    ensures r.state.provinces.Valid() && r.state.provinces.keys == rd.provinces.keys
    ensures r.state.provinces.entries.Keys == rd.provinces.entries.Keys
    ensures Sound(rd.provinces) ==> Sound(r.state.provinces)
    ensures Extends(rd.provinces, r.state.provinces)
    ensures ReadLogRow(line).NotListing? ==> r == Done(rd)
    ensures ReadLogRow(line).Malformed? ==> r == Thrown(rd, IndexError)
    ensures var row := ReadLogRow(line);
      row.Listing? && (row.source.None? || IsSeaProvince(m, row.source.value)) ==> r == Done(rd)
    ensures var row := ReadLogRow(line);
      row.Listing? && row.source.Some? && !IsSeaProvince(m, row.source.value) && row.source.value !in rd.provinces.entries ==>
        r == Done(rd.(errors := rd.errors + [UnknownId(row.source.value)]))
    ensures var row := ReadLogRow(line);
      row.Listing? && row.source.Some? && !IsSeaProvince(m, row.source.value) && row.source.value in rd.provinces.entries ==>
        r == Done(Candidates(rd, m, row.source.value, row.candidates, 0))
  {
    match ReadLogRow(line)
    case NotListing => Done(rd)
    case Malformed => Thrown(rd, IndexError)
    case Listing(source, ts) =>
      match source
      case None => Done(rd)
      case Some(a) =>
        if IsSeaProvince(m, a) then Done(rd)
        else if a !in rd.provinces.entries then Done(rd.(errors := rd.errors + [UnknownId(a)]))
        else Done(Candidates(rd, m, a, ts, 0))
  }

  function LogLines(rd: ProvinceReader, m: Map, lines: seq<string>, i: nat): (r: Outcome<ProvinceReader>)
    requires rd.provinces.Valid() && i <= |lines|
    ensures r.state.provinces.Valid() && r.state.provinces.keys == rd.provinces.keys
    ensures r.state.provinces.entries.Keys == rd.provinces.entries.Keys
    ensures Sound(rd.provinces) ==> Sound(r.state.provinces)
    ensures Extends(rd.provinces, r.state.provinces)
    decreases |lines| - i
  {
    if i == |lines| then Done(rd)
    else
      match LogLine(rd, m, lines[i])
      case Thrown(s, e) => Thrown(s, e)
      case Done(s) =>
        var r := LogLines(s, m, lines, i + 1);
        ExtendsTrans(rd.provinces, s.provinces, r.state.provinces);
        r
  }

  /** The log line `line` lists the registered land province `b` as a
      neighbour of the registered land province `a`. */
  predicate LogEdge(d: Dict<int, Province>, m: Map, line: string, a: int, b: int)
  {
    var row := ReadLogRow(line);
    && row.Listing? && row.source == Some(a) && !IsSeaProvince(m, a) && a in d.entries
    && exists c :: 0 <= c < |row.candidates| && IsLandCandidate(d, m, row.candidates[c]) && CandidateId(row.candidates[c]) == Some(b)
  }

  /** A complete merge of the log gives every listed source its land
      candidates as neighbours, and every neighbour it adds comes from such
      a listing. */
  lemma {:induction false} LogLinesEdges(rd: ProvinceReader, m: Map, lines: seq<string>, i: nat)
    requires rd.provinces.Valid() && i <= |lines|
    ensures var r := LogLines(rd, m, lines, i).state.provinces;
      forall k, x :: k in rd.provinces.entries && x in r.entries[k].adjacencies ==>
        x in rd.provinces.entries[k].adjacencies || exists j :: i <= j < |lines| && LogEdge(rd.provinces, m, lines[j], k, x)
    ensures var r := LogLines(rd, m, lines, i);
      r.Done? ==> forall j, a, b :: i <= j < |lines| && LogEdge(rd.provinces, m, lines[j], a, b) ==>
        b in r.state.provinces.entries[a].adjacencies
    decreases |lines| - i
  {
    if i < |lines| {
      var one := LogLine(rd, m, lines[i]);
      var d := rd.provinces;
      if one.Done? {
        var s := one.state;
        LogLinesEdges(s, m, lines, i + 1);
        var r := LogLines(s, m, lines, i + 1);
        assert LogLines(rd, m, lines, i) == r;
        LogLineEdges(rd, m, lines[i]);
        forall k, x | k in d.entries && x in r.state.provinces.entries[k].adjacencies
          ensures x in d.entries[k].adjacencies || exists j :: i <= j < |lines| && LogEdge(d, m, lines[j], k, x)
        {
          if x !in s.provinces.entries[k].adjacencies {
            var j :| i + 1 <= j < |lines| && LogEdge(s.provinces, m, lines[j], k, x);
            LogEdgeSameKeys(s.provinces, d, m, lines[j], k, x);
          } else if x !in d.entries[k].adjacencies {
            assert LogEdge(d, m, lines[i], k, x);
          }
        }
        if r.Done? {
          forall j, a, b | i <= j < |lines| && LogEdge(d, m, lines[j], a, b)
            ensures b in r.state.provinces.entries[a].adjacencies
          {
            if j == i {
              ExtendsKeeps(s.provinces, r.state.provinces, a, b);
            } else {
              LogEdgeSameKeys(d, s.provinces, m, lines[j], a, b);
            }
          }
        }
      }
    }
  }

  /** Whether a line lists an edge depends on the registered ids only. */
  lemma LogEdgeSameKeys(d: Dict<int, Province>, e: Dict<int, Province>, m: Map, line: string, a: int, b: int)
    requires d.entries.Keys == e.entries.Keys && LogEdge(d, m, line, a, b)
    ensures LogEdge(e, m, line, a, b)
  {
    var row := ReadLogRow(line);
    var c :| 0 <= c < |row.candidates| && IsLandCandidate(d, m, row.candidates[c]) && CandidateId(row.candidates[c]) == Some(b);
    assert IsLandCandidate(e, m, row.candidates[c]);
  }

  /** One log line adds exactly the edges it lists, from the source only. */
  lemma LogLineEdges(rd: ProvinceReader, m: Map, line: string)
    requires rd.provinces.Valid()
    ensures var r := LogLine(rd, m, line);
      && (forall k, x :: k in rd.provinces.entries && x in r.state.provinces.entries[k].adjacencies ==>
            x in rd.provinces.entries[k].adjacencies || LogEdge(rd.provinces, m, line, k, x))
      && (r.Done? ==> forall a, b :: LogEdge(rd.provinces, m, line, a, b) ==> b in r.state.provinces.entries[a].adjacencies)
  {
    var row := ReadLogRow(line);
    var r := LogLine(rd, m, line);
    if row.Listing? && row.source.Some? && !IsSeaProvince(m, row.source.value) && row.source.value in rd.provinces.entries {
      var a := row.source.value;
      var ts := row.candidates;
      CandidatesEffect(rd, m, a, ts, 0);
      forall k, x | k in rd.provinces.entries && x in r.state.provinces.entries[k].adjacencies
        ensures x in rd.provinces.entries[k].adjacencies || LogEdge(rd.provinces, m, line, k, x)
      {
        if k == a && x !in rd.provinces.entries[k].adjacencies {
          var j :| 0 <= j < |ts| && IsLandCandidate(rd.provinces, m, ts[j]) && CandidateId(ts[j]) == Some(x);
        }
      }
      forall a', b | LogEdge(rd.provinces, m, line, a', b)
        ensures b in r.state.provinces.entries[a'].adjacencies
      {
        var c :| 0 <= c < |ts| && IsLandCandidate(rd.provinces, m, ts[c]) && CandidateId(ts[c]) == Some(b);
      }
    }
  }

  /** `ParseAdjacencies(setupLogFile, map, adjFile)`: missing files and an
      empty registry fail before anything is read; then the adjacency
      table and the log are merged in that order. Nothing catches a
      failure, so edges merged before it stay. The registry keeps its keys
      and never gains a duplicate or unregistered neighbour. */
  function ParseAdjacencies(rd: ProvinceReader, log: Option<seq<string>>, m: Map, adj: Option<seq<string>>)
    : (r: Outcome<ProvinceReader>)
    requires rd.provinces.Valid()
    ensures r.state.provinces.Valid() && r.state.provinces.keys == rd.provinces.keys
    ensures Sound(rd.provinces) ==> Sound(r.state.provinces)
    ensures log.None? || adj.None? || |rd.provinces.keys| == 0 ==> r.Thrown? && r.state == rd
  {
    if log.None? then Thrown(rd, "Unable to find the log file.")
    else if adj.None? then Thrown(rd, "Unable to find the adjacencies file.")
    else if |rd.provinces.keys| == 0 then Thrown(rd, "No provinces have been loaded.")
    else
      match AdjacencyLines(rd, adj.value, 0)
      case Thrown(s, e) => Thrown(s, e)
      case Done(s) => LogLines(s, m, log.value, 0)
  }

  /** Every neighbour the merge adds comes from an edge of the table or a
      listing of the log. */
  lemma ParseAdjacenciesAddsOnlyListed(rd: ProvinceReader, log: Option<seq<string>>, m: Map, adj: Option<seq<string>>)
    requires rd.provinces.Valid()
    ensures var r := ParseAdjacencies(rd, log, m, adj).state.provinces;
      forall k, x :: k in rd.provinces.entries && x in r.entries[k].adjacencies ==>
        || x in rd.provinces.entries[k].adjacencies
        || (adj.Some? && exists j :: 0 <= j < |adj.value| && EdgeOf(adj.value[j], k, x))
        || (log.Some? && exists j :: 0 <= j < |log.value| && LogEdge(rd.provinces, m, log.value[j], k, x))
  {
    if log.Some? && adj.Some? && |rd.provinces.keys| > 0 {
      var t := AdjacencyLines(rd, adj.value, 0);
      if t.Done? {
        assert ParseAdjacencies(rd, log, m, adj) == LogLines(t.state, m, log.value, 0);
        MergeSources(rd, m, adj.value, log.value);
      } else {
        assert ParseAdjacencies(rd, log, m, adj) == t;
        AdjacencyLinesEdges(rd, adj.value, 0);
      }
    }
  }

  /** The sources of new neighbours after a completed table merge followed
      by the log merge. */
  lemma MergeSources(rd: ProvinceReader, m: Map, adj: seq<string>, log: seq<string>)
    requires rd.provinces.Valid() && AdjacencyLines(rd, adj, 0).Done?
    ensures var r := LogLines(AdjacencyLines(rd, adj, 0).state, m, log, 0).state.provinces;
      forall k, x :: k in rd.provinces.entries && x in r.entries[k].adjacencies ==>
        || x in rd.provinces.entries[k].adjacencies
        || (exists j :: 0 <= j < |adj| && EdgeOf(adj[j], k, x))
        || (exists j :: 0 <= j < |log| && LogEdge(rd.provinces, m, log[j], k, x))
  {
    var t := AdjacencyLines(rd, adj, 0);
    var r := LogLines(t.state, m, log, 0);
    AdjacencyLinesEdges(rd, adj, 0);
    LogLinesEdges(t.state, m, log, 0);
    TableThenLogSources(rd.provinces, t.state.provinces, r.state.provinces, m, adj, log);
  }

  /** Chains the sources of new neighbours through the two merges. */
  lemma TableThenLogSources(d: Dict<int, Province>, s: Dict<int, Province>, e: Dict<int, Province>, m: Map,
                            adj: seq<string>, log: seq<string>)
    requires s.entries.Keys == d.entries.Keys && e.entries.Keys == s.entries.Keys
    requires forall k, x :: k in d.entries && x in s.entries[k].adjacencies ==>
      x in d.entries[k].adjacencies || exists j :: 0 <= j < |adj| && EdgeOf(adj[j], k, x)
    requires forall k, x :: k in s.entries && x in e.entries[k].adjacencies ==>
      x in s.entries[k].adjacencies || exists j :: 0 <= j < |log| && LogEdge(s, m, log[j], k, x)
    ensures forall k, x :: k in d.entries && x in e.entries[k].adjacencies ==>
      || x in d.entries[k].adjacencies
      || (exists j :: 0 <= j < |adj| && EdgeOf(adj[j], k, x))
      || (exists j :: 0 <= j < |log| && LogEdge(d, m, log[j], k, x))
  {
    forall k, x | k in d.entries && x in e.entries[k].adjacencies && x !in s.entries[k].adjacencies
      ensures exists j :: 0 <= j < |log| && LogEdge(d, m, log[j], k, x)
    {
      var j :| 0 <= j < |log| && LogEdge(s, m, log[j], k, x);
      LogEdgeSameKeys(s, d, m, log[j], k, x);
    }
  }

  /** A complete merge links both ends of every table edge and gives every
      log source its listed land neighbours. */
  lemma ParseAdjacenciesLinksListed(rd: ProvinceReader, log: Option<seq<string>>, m: Map, adj: Option<seq<string>>)
    requires rd.provinces.Valid()
    ensures var r := ParseAdjacencies(rd, log, m, adj);
      r.Done? ==>
        && log.Some? && adj.Some?
        && (forall j :: 0 <= j < |adj.value| && TableEdge(rd.provinces, adj.value[j]) ==>
              && ReadRow(adj.value[j]).b.value in r.state.provinces.entries[ReadRow(adj.value[j]).a].adjacencies
              && ReadRow(adj.value[j]).a in r.state.provinces.entries[ReadRow(adj.value[j]).b.value].adjacencies)
        && (forall j, a, b :: 0 <= j < |log.value| && LogEdge(rd.provinces, m, log.value[j], a, b) ==>
              b in r.state.provinces.entries[a].adjacencies)
  {
    if log.Some? && adj.Some? && |rd.provinces.keys| > 0 {
      var t := AdjacencyLines(rd, adj.value, 0);
      if t.Done? {
        assert ParseAdjacencies(rd, log, m, adj) == LogLines(t.state, m, log.value, 0);
        MergeLinks(rd, m, adj.value, log.value);
      } else {
        assert ParseAdjacencies(rd, log, m, adj) == t;
      }
    }
  }

  /** The edges a completed table merge followed by a completed log merge
      guarantees. */
  lemma MergeLinks(rd: ProvinceReader, m: Map, adj: seq<string>, log: seq<string>)
    requires rd.provinces.Valid() && AdjacencyLines(rd, adj, 0).Done?
    ensures var r := LogLines(AdjacencyLines(rd, adj, 0).state, m, log, 0);
      r.Done? ==>
        && (forall j :: 0 <= j < |adj| && TableEdge(rd.provinces, adj[j]) ==>
              && ReadRow(adj[j]).b.value in r.state.provinces.entries[ReadRow(adj[j]).a].adjacencies
              && ReadRow(adj[j]).a in r.state.provinces.entries[ReadRow(adj[j]).b.value].adjacencies)
        && (forall j, a, b :: 0 <= j < |log| && LogEdge(rd.provinces, m, log[j], a, b) ==>
              b in r.state.provinces.entries[a].adjacencies)
  {
    var t := AdjacencyLines(rd, adj, 0);
    var r := LogLines(t.state, m, log, 0);
    if r.Done? {
      AdjacencyLinesEdges(rd, adj, 0);
      LogLinesEdges(t.state, m, log, 0);
      TableThenLogLinks(rd.provinces, t.state.provinces, r.state.provinces, m, adj, log);
    }
  }

  /** Chains the edges both merges guarantee through to the final registry. */
  lemma TableThenLogLinks(d: Dict<int, Province>, s: Dict<int, Province>, e: Dict<int, Province>, m: Map,
                          adj: seq<string>, log: seq<string>)
    requires s.entries.Keys == d.entries.Keys && Extends(s, e)
    requires forall j :: 0 <= j < |adj| && TableEdge(d, adj[j]) ==>
      && ReadRow(adj[j]).b.value in s.entries[ReadRow(adj[j]).a].adjacencies
      && ReadRow(adj[j]).a in s.entries[ReadRow(adj[j]).b.value].adjacencies
    requires forall j, a, b :: 0 <= j < |log| && LogEdge(s, m, log[j], a, b) ==> b in e.entries[a].adjacencies
    ensures forall j :: 0 <= j < |adj| && TableEdge(d, adj[j]) ==>
      && ReadRow(adj[j]).b.value in e.entries[ReadRow(adj[j]).a].adjacencies
      && ReadRow(adj[j]).a in e.entries[ReadRow(adj[j]).b.value].adjacencies
    ensures forall j, a, b :: 0 <= j < |log| && LogEdge(d, m, log[j], a, b) ==> b in e.entries[a].adjacencies
  {
    forall j | 0 <= j < |adj| && TableEdge(d, adj[j])
      ensures ReadRow(adj[j]).b.value in e.entries[ReadRow(adj[j]).a].adjacencies
      ensures ReadRow(adj[j]).a in e.entries[ReadRow(adj[j]).b.value].adjacencies
    {
      var a := ReadRow(adj[j]).a;
      var b := ReadRow(adj[j]).b.value;
      ExtendsKeeps(s, e, a, b);
      ExtendsKeeps(s, e, b, a);
    }
    forall j, a, b | 0 <= j < |log| && LogEdge(d, m, log[j], a, b)
      ensures b in e.entries[a].adjacencies
    {
      LogEdgeSameKeys(d, s, m, log[j], a, b);
    }
  }

  /** A log listing adds its edge in one direction only: the candidate
      becomes a neighbour of the source, while the candidate's own entry,
      and so its neighbour list, is left as it was. */
  lemma LogEdgeIsOneWay(rd: ProvinceReader, m: Map, a: int, b: int, t: string)
    requires rd.provinces.Valid() && a in rd.provinces.entries
    requires ParseInt32(Trim(t)) == Some(b)
    requires b != a && b in rd.provinces.entries && b !in m.majorRivers && !IsSeaProvince(m, b)
    ensures var r := Candidate(rd, m, a, t).provinces;
      b in r.entries[a].adjacencies && r.entries[b] == rd.provinces.entries[b]
  {
    var d := AddNeighbour(rd.provinces, a, b);
    assert Candidate(rd, m, a, t).provinces == d;
  }

  // ---------------------------------------------------------------------
  // Folders

  /** `ParseFolder(folder)`: a missing folder records one error naming it;
      otherwise every file it lists is read in turn. */
  function ParseFolder(rd: ProvinceReader, folderExists: bool, folder: string, files: seq<SourceFile>): (r: ProvinceReader)
    requires rd.provinces.Valid()
    ensures r.provinces.Valid()
    ensures !folderExists ==> r == rd.(errors := rd.errors + ["Unable to find folder: " + folder])
    ensures folderExists ==> |r.errors| <= |rd.errors| + |files|
    decreases |files|
  {
    if !folderExists then rd.(errors := rd.errors + ["Unable to find folder: " + folder])
    else if |files| == 0 then rd
    else ParseFolder(Parse(rd, files[0]), true, folder, files[1..])
  }

  /** Reading a folder that lists one file reads that file, and one that
      lists none changes nothing. */
  lemma ParseFolderOne(rd: ProvinceReader, folder: string, f: SourceFile)
    requires rd.provinces.Valid()
    ensures ParseFolder(rd, true, folder, [f]) == Parse(rd, f)
    ensures ParseFolder(rd, true, folder, []) == rd
  {
    assert [f][1..] == [];
  }

  /** Reading a folder whose listing is `a` then `b` reads `a`, then `b`. */
  lemma {:induction false} ParseFolderAppend(rd: ProvinceReader, folder: string, a: seq<SourceFile>, b: seq<SourceFile>)
    requires rd.provinces.Valid()
    ensures ParseFolder(rd, true, folder, a + b) == ParseFolder(ParseFolder(rd, true, folder, a), true, folder, b)
    decreases |a|
  {
    if |a| == 0 {
      assert a + b == b;
    } else {
      assert (a + b)[0] == a[0];
      assert (a + b)[1..] == a[1..] + b;
      ParseFolderAppend(Parse(rd, a[0]), folder, a[1..], b);
    }
  }
}

=== FILE: religions.dfy ===
/** `ReligionReader`: religion groups and the religions inside them, both
    registered by name with the last one read winning. A religion's
    `parent` and `reformed` entries are kept as names while reading, and
    after each file that reads through they are resolved against the
    registry. Religions and groups live in arenas addressed by handle: a
    replaced religion can still be another religion's parent, and a
    replaced group can still be some religion's group. */
module Religions {
  import opened Wrappers
  import opened Text
  import opened Tokens
  import opened Extensions
  import opened Options

  type Handle = nat

  /** A religion. The boolean fields are kept by their key in `flags`, the
      text fields in `texts`, the integer fields in `numbers`, the decimal
      fields (as literals) in `decimals` and the modifier blocks in
      `modifiers`; a key not present holds its default. */
  datatype Religion = Religion(
    name: string,
    file: string,
    group: Handle,
    colour: Colour,
    godNames: seq<string>,
    evilGodNames: seq<string>,
    interMarry: seq<string>,
    parentString: Option<string>,
    reformedString: Option<string>,
    parent: Option<Handle>,
    reformed: Option<Handle>,
    texts: map<string, string>,
    numbers: map<string, int>,
    decimals: map<string, string>,
    flags: map<string, bool>,
    modifiers: map<string, Option<Node>>,
    misc: seq<Option<Node>>)

  /** A religion group; `religions` maps each religion name to the
      religion last read under it in this group. */
  datatype ReligionGroup = ReligionGroup(
    name: string,
    file: string,
    texts: map<string, string>,
    flags: map<string, bool>,
    numbers: map<string, int>,
    maleNames: seq<string>,
    femaleNames: seq<string>,
    religions: map<string, Handle>)

  // ---------------------------------------------------------------------
  // Keys

  const GroupTextKeys: set<string> := {"graphical_culture", "crusade_cb"}
  const GroupBoolKeys: set<string> := {"has_coa_on_barony_only", "playable", "pacifist", "ai_peaceful", "hostile_within_group"}
  const GroupNumberKeys: set<string> := {"ai_convert_same_group", "ai_convert_other_group"}

  /** The keys of the group switch; every other key is a religion. */
  predicate IsGroupKey(key: string)
  {
    key in GroupTextKeys || key in GroupBoolKeys || key in GroupNumberKeys
    || key == "male_names" || key == "female_names"
  }

  /** The kinds of group key are told apart by the key alone. */
  lemma GroupKeysDisjoint()
    ensures GroupTextKeys !! GroupBoolKeys && GroupTextKeys !! GroupNumberKeys && GroupBoolKeys !! GroupNumberKeys
    ensures "male_names" !in GroupTextKeys + GroupBoolKeys + GroupNumberKeys
    ensures "female_names" !in GroupTextKeys + GroupBoolKeys + GroupNumberKeys
  {
  }

  const TextKeys: set<string> := {
    "graphical_culture", "scripture_name", "can_grant_invasion_cb", "crusade_name", "priest_title",
    "secondary_event_pictures", "piety_name", "expel_modifier"
  }

  const NumberKeys: set<string> := {
    "icon", "heresy_icon", "max_wives", "religious_clothing_head", "religious_clothing_priest",
    "max_consorts", "short_reign_opinion_year_mult", "independence_war_score_bonus", "ai_convert_other_group"
  }

  const DecimalKeys: set<string> := {"aggression", "peace_piety_gain"}

  const BoolKeys: set<string> := {
    "investiture", "can_excommunicate", "can_grant_divorce", "can_grant_claim", "can_call_crusade",
    "priests_can_marry", "psc_marriage", "autocephaly", "defensive_attrition", "allow_viking_invasion",
    "allow_looting", "allow_rivermovement", "female_temple_holders", "peace_prestige_loss",
    "raised_vassal_opinion_loss", "reformer_head_of_religion", "divine_blood", "pc_marriage",
    "priests_can_inherit", "pacifist", "feminist", "bs_marriage", "pre_reformed",
    "matrilineal_marriages", "can_hold_temples", "can_retire_to_monastery", "can_have_antipopes",
    "has_heir_designation"
  }

  const ModifierKeys: set<string> := {"unit_modifier", "unit_home_modifier", "character_modifier"}

  /** The boolean fields that start out true. */
  const TrueByDefault: set<string> := {"matrilineal_marriages", "priests_can_inherit", "raised_vassal_opinion_loss"}

  /** The keys read into a text, number, decimal or boolean field. */
  predicate IsScalarKey(key: string)
  {
    key in TextKeys || key in NumberKeys || key in DecimalKeys || key in BoolKeys
  }

  /** The keys with a case of their own in the religion switch. */
  predicate IsKnownKey(key: string)
  {
    IsScalarKey(key) || key in ModifierKeys
    || key in {"color", "god_names", "evil_god_names", "parent", "reformed", "intermarry"}
  }

  function Flag(r: Religion, key: string): bool
  {
    if key in r.flags then r.flags[key] else key in TrueByDefault
  }

  /** The value of an integer field: `max_wives` starts at 1,
      `short_reign_opinion_year_mult` at 2, the others at 0. */
  function Number(r: Religion, key: string): int
  {
    if key in r.numbers then r.numbers[key]
    else if key == "max_wives" then 1
    else if key == "short_reign_opinion_year_mult" then 2
    else 0
  }

  function NewReligion(name: string, file: string, group: Handle): (r: Religion)
    ensures r.name == name && r.file == file && r.group == group
    ensures r.parent.None? && r.reformed.None? && r.parentString.None? && r.reformedString.None?
    ensures forall key :: Flag(r, key) <==> key in TrueByDefault
    ensures Number(r, "max_wives") == 1 && Number(r, "short_reign_opinion_year_mult") == 2 && Number(r, "icon") == 0
  {
    Religion(name, file, group, Black, [], [], [], None, None, None, None,
             map[], map[], map[], map[], map[], [])
  }

  function NewGroup(name: string, file: string): ReligionGroup
  {
    ReligionGroup(name, file, map[], map[], map[], [], [], map[])
  }

  datatype ReligionReader = ReligionReader(
    groups: seq<ReligionGroup>,
    groupIndex: map<string, Handle>,
    religions: seq<Religion>,
    registry: map<string, Handle>,
    file: string,
    gen: GenState,
    errors: seq<string>)

  const NewReader := ReligionReader([], map[], [], map[], "", InitialGen, [])

  // ---------------------------------------------------------------------
  // Invariant

  /** Every registered name leads to a religion of that name. */
  ghost predicate RegistryOk(religions: seq<Religion>, registry: map<string, Handle>)
  {
    forall k :: k in registry ==> registry[k] < |religions| && religions[registry[k]].name == k
  }

  /** Every group name leads to a group and every religion's group exists. */
  ghost predicate GroupsOk(groups: seq<ReligionGroup>, groupIndex: map<string, Handle>, religions: seq<Religion>)
  {
    && (forall k :: k in groupIndex ==> groupIndex[k] < |groups|)
    && (forall i :: 0 <= i < |religions| ==> religions[i].group < |groups|)
  }

  ghost predicate Valid(rd: ReligionReader)
  {
    RegistryOk(rd.religions, rd.registry) && GroupsOk(rd.groups, rd.groupIndex, rd.religions)
  }

  /** The religion at `h` is the one registered under its name. */
  predicate Listed(religions: seq<Religion>, registry: map<string, Handle>, h: Handle)
    requires h < |religions|
  {
    religions[h].name in registry && registry[religions[h].name] == h
  }

  // ---------------------------------------------------------------------
  // Religion fields

  /** The religion being read together with the shared option state. */
  datatype Loading = Loading(rel: Religion, gen: GenState)

  /** What no case of the religion switch changes: in particular the
      links, which only `LinkReligions` sets. */
  predicate Keeps(a: Religion, b: Religion)
  {
    b.name == a.name && b.file == a.file && b.group == a.group
    && b.parent == a.parent && b.reformed == a.reformed
  }

  /** The text, number, decimal and boolean cases of the religion switch. */
  function ScalarField(r: Religion, key: string, v: Token): (u: Result<Religion>)
    requires IsScalarKey(key)
    ensures u.Ok? ==> Keeps(r, u.value)
    ensures key in TextKeys ==> (u.Ok? <==> v.Word?)
    ensures key in TextKeys && u.Ok? ==> u.value == r.(texts := r.texts[key := v.text])
    ensures key !in TextKeys && key in NumberKeys ==> (u.Ok? <==> ReadInt32(v).Ok?)
    ensures key !in TextKeys && key in NumberKeys && u.Ok? ==>
      u.value == r.(numbers := r.numbers[key := ReadInt32(v).value])
    ensures key !in TextKeys && key !in NumberKeys && key !in DecimalKeys ==> (u.Ok? <==> v.Word?)
    ensures key !in TextKeys && key !in NumberKeys && key !in DecimalKeys && u.Ok? ==>
      u.value == r.(flags := r.flags[key := v.text == "yes"])
  {
    if key in TextKeys then
      match ReadString(v)
      case Ok(s) => Ok(r.(texts := r.texts[key := s]))
      case Err(e) => Err(e)
    else if key in NumberKeys then
      match ReadInt32(v)
      case Ok(n) => Ok(r.(numbers := r.numbers[key := n]))
      case Err(e) => Err(e)
    else if key in DecimalKeys then
      match ReadDouble(v)
      case Ok(s) => Ok(r.(decimals := r.decimals[key := s]))
      case Err(e) => Err(e)
    else
      match ReadBool(v)
      case Ok(b) => Ok(r.(flags := r.flags[key := b]))
      case Err(e) => Err(e)
  }

  /** The cases that read words: the colour, the god name lists, the
      parent and reformed names, and the intermarriage list. */
  function WordField(r: Religion, key: string, v: Token): (u: Result<Religion>)
    requires key in {"color", "god_names", "evil_god_names", "parent", "reformed", "intermarry"}
    ensures u.Ok? ==> Keeps(r, u.value)
    ensures key == "parent" ==> (u.Ok? <==> v.Word?)
    ensures key == "parent" && u.Ok? ==> u.value == r.(parentString := Some(v.text))
    ensures key == "reformed" ==> (u.Ok? <==> v.Word?)
    ensures key == "reformed" && u.Ok? ==> u.value == r.(reformedString := Some(v.text))
    ensures key == "intermarry" ==> (u.Ok? <==> v.Word?)
    ensures key == "intermarry" && u.Ok? ==> u.value == r.(interMarry := r.interMarry + [v.text])
    ensures key == "god_names" ==> (u.Ok? <==> ReadStringList(v).Ok?)
    ensures key == "god_names" && u.Ok? ==> u.value == r.(godNames := r.godNames + ReadStringList(v).value)
    ensures key == "evil_god_names" ==> (u.Ok? <==> ReadStringList(v).Ok?)
    ensures key == "evil_god_names" && u.Ok? ==>
      u.value == r.(evilGodNames := r.evilGodNames + ReadStringList(v).value)
    ensures key == "color" ==> (u.Ok? <==> ReadStringList(v).Ok? && ParseColour(ReadStringList(v).value).Ok?)
    ensures key == "color" && u.Ok? ==> u.value == r.(colour := ParseColour(ReadStringList(v).value).value)
  {
    if key == "parent" || key == "reformed" || key == "intermarry" then
      match ReadString(v)
      case Err(e) => Err(e)
      case Ok(s) =>
        Ok(if key == "parent" then r.(parentString := Some(s))
           else if key == "reformed" then r.(reformedString := Some(s))
           else r.(interMarry := r.interMarry + [s]))
    else
      match ReadStringList(v)
      case Err(e) => Err(e)
      case Ok(xs) =>
        if key == "god_names" then Ok(r.(godNames := r.godNames + xs))
        else if key == "evil_god_names" then Ok(r.(evilGodNames := r.evilGodNames + xs))
        else
          match ParseColour(xs)
          case Err(e) => Err(e)
          case Ok(c) => Ok(r.(colour := c))
  }

  /** One entry of a religion's block. The modifier blocks must be groups;
      any other key is an option kept with the religion's other options. */
  function ReligionField(ld: Loading, key: string, v: Token): (u: Outcome<Loading>)
    ensures u.Done? ==> Keeps(ld.rel, u.state.rel)
    ensures u.Thrown? ==> u.state.rel == ld.rel
    ensures !IsScalarKey(key) && key !in ModifierKeys && key in {"parent", "reformed", "intermarry"} ==>
      (u.Done? <==> v.Word?) && (u.Done? ==> u.state.rel == WordField(ld.rel, key, v).value)
    ensures !IsKnownKey(key) ==> (u.Done? <==> ParseOption(ld.gen, key, v).Done?)
    ensures !IsKnownKey(key) && u.Done? ==>
      u.state.rel == ld.rel.(misc := ld.rel.misc + [ParseOption(ld.gen, key, v).state.root])
  {
    var r := ld.rel;
    if IsScalarKey(key) then
      match ScalarField(r, key, v)
      case Ok(u) => Done(ld.(rel := u))
      case Err(e) => Thrown(ld, e)
    else if key in ModifierKeys then
      match ParseOption(ld.gen, key, v)
      case Thrown(p, e) => Thrown(ld.(gen := p.gen), e)
      case Done(p) =>
        match AsGroup(p.root)
        case Err(e) => Thrown(ld.(gen := p.gen), e)
        case Ok(g) => Done(Loading(r.(modifiers := r.modifiers[key := g]), p.gen))
    else if key in {"color", "god_names", "evil_god_names", "parent", "reformed", "intermarry"} then
      match WordField(r, key, v)
      case Ok(u) => Done(ld.(rel := u))
      case Err(e) => Thrown(ld, e)
    else
      match ParseOption(ld.gen, key, v)
      case Thrown(p, e) => Thrown(ld.(gen := p.gen), e)
      case Done(p) => Done(Loading(r.(misc := r.misc + [p.root]), p.gen))
  }

  /** A text, number, decimal or boolean key reads as `ScalarField` does:
      the entry fails exactly when the value does not read, and otherwise
      the religion is the one `ScalarField` gives, with the option state
      kept. */
  lemma ScalarKeyField(ld: Loading, key: string, v: Token)
    requires IsScalarKey(key)
    ensures var u := ReligionField(ld, key, v);
      && (u.Done? <==> ScalarField(ld.rel, key, v).Ok?)
      && (u.Done? ==> u.state == ld.(rel := ScalarField(ld.rel, key, v).value))
      && (u.Thrown? ==> u.state == ld && u.error == ScalarField(ld.rel, key, v).error)
  {
  }

  /** The colour, god name, parent, reformed and intermarriage keys read
      as `WordField` does, with the option state kept. */
  lemma WordKeyField(ld: Loading, key: string, v: Token)
    requires key in {"color", "god_names", "evil_god_names", "parent", "reformed", "intermarry"}
    ensures var u := ReligionField(ld, key, v);
      && (u.Done? <==> WordField(ld.rel, key, v).Ok?)
      && (u.Done? ==> u.state == ld.(rel := WordField(ld.rel, key, v).value))
      && (u.Thrown? ==> u.state == ld && u.error == WordField(ld.rel, key, v).error)
  {
    assert !IsScalarKey(key) && key !in ModifierKeys;
  }

  /** A modifier key reads its value as an option, which must be a group;
      the group is stored under the key and the option state moves on. */
  lemma ModifierKeyField(ld: Loading, key: string, v: Token)
    requires key in ModifierKeys
    ensures var u := ReligionField(ld, key, v);
      var p := ParseOption(ld.gen, key, v);
      && (u.Done? <==> p.Done? && AsGroup(p.state.root).Ok?)
      && (u.Done? ==> u.state == Loading(ld.rel.(modifiers := ld.rel.modifiers[key := AsGroup(p.state.root).value]), p.state.gen))
      && (u.Thrown? ==> u.state == ld.(gen := p.state.gen))
  {
    assert !IsScalarKey(key);
  }

  /** `parser.Parse(getOptions)` over a religion's entries from `i` on. */
  function ReligionFields(ld: Loading, es: seq<Entry>, i: nat): (u: Outcome<Loading>)
    requires i <= |es|
    ensures Keeps(ld.rel, u.state.rel)
    ensures ld.gen.stack == [] && u.Done? ==> u.state.rel.misc == ld.rel.misc + MiscOptions(es, i)
    decreases |es| - i
  {
    if i == |es| then Done(ld)
    else
      match ReligionField(ld, es[i].tag, es[i].value)
      case Thrown(s, e) => Thrown(s, e)
      case Done(s) =>
        MiscStep(ld, es[i].tag, es[i].value);
        var u := ReligionFields(s, es, i + 1);
        FieldsMisc(ld, es, i, s, u);
        u
  }

  /** The misc options after entry `i` follow from those after the entries
      behind it. */
  lemma FieldsMisc(ld: Loading, es: seq<Entry>, i: nat, s: Loading, u: Outcome<Loading>)
    requires i < |es|
    requires ld.gen.stack == [] ==> s.gen.stack == [] && s.rel.misc == ld.rel.misc + MiscOption(es[i].tag, es[i].value)
    requires s.gen.stack == [] && u.Done? ==> u.state.rel.misc == s.rel.misc + MiscOptions(es, i + 1)
    ensures ld.gen.stack == [] && u.Done? ==> u.state.rel.misc == ld.rel.misc + MiscOptions(es, i)
  {
    assert MiscOptions(es, i) == MiscOption(es[i].tag, es[i].value) + MiscOptions(es, i + 1);
  }

  /** The option an entry adds to the misc options when it is read with an
      empty option stack: none for a known key, else its own conversion. */
  function MiscOption(key: string, v: Token): seq<Option<Node>>
  {
    if IsKnownKey(key) || Convert(key, v).Err? then [] else [Some(Convert(key, v).value)]
  }

  /** The options the entries `es[i..]` with unknown keys make, each
      converted on its own, in entry order. */
  function MiscOptions(es: seq<Entry>, i: nat): seq<Option<Node>>
    requires i <= |es|
    decreases |es| - i
  {
    if i == |es| then [] else MiscOption(es[i].tag, es[i].value) + MiscOptions(es, i + 1)
  }

  /** One entry read with an empty option stack: the stack stays empty and
      an unknown key appends its option, converted on its own. */
  lemma MiscStep(ld: Loading, key: string, v: Token)
    ensures var u := ReligionField(ld, key, v);
      ld.gen.stack == [] && u.Done? ==> u.state.gen.stack == [] && u.state.rel.misc == ld.rel.misc + MiscOption(key, v)
  {
    if ld.gen.stack == [] {
      if IsScalarKey(key) {
        ScalarKeyField(ld, key, v);
      } else if key in ModifierKeys {
        ParseOptionAtRoot(ld.gen, key, v);
        ModifierKeyField(ld, key, v);
      } else if IsKnownKey(key) {
        WordKeyField(ld, key, v);
      } else {
        ParseOptionAtRoot(ld.gen, key, v);
      }
    }
  }

  ghost predicate IsPrefix<T>(a: seq<T>, b: seq<T>)
  {
    |a| <= |b| && b[..|a|] == a
  }

  /** `intermarry` entries accumulate in the order they appear: what was
      read before a field is still the start of the list after it. */
  lemma {:induction false} InterMarryAccumulates(ld: Loading, es: seq<Entry>, i: nat)
    requires i <= |es|
    ensures IsPrefix(ld.rel.interMarry, ReligionFields(ld, es, i).state.rel.interMarry)
    decreases |es| - i
  {
    if i < |es| {
      var r1 := ReligionField(ld, es[i].tag, es[i].value);
      if r1.Done? {
        InterMarryStep(ld, es[i].tag, es[i].value);
        InterMarryAccumulates(r1.state, es, i + 1);
        var a, b, c := ld.rel.interMarry, r1.state.rel.interMarry, ReligionFields(r1.state, es, i + 1).state.rel.interMarry;
        assert c[..|a|] == c[..|b|][..|a|];
      }
    }
  }

  /** One field keeps the intermarriage list read so far as a prefix. */
  lemma InterMarryStep(ld: Loading, key: string, v: Token)
    ensures IsPrefix(ld.rel.interMarry, ReligionField(ld, key, v).state.rel.interMarry)
  {
    if key == "intermarry" {
      assert !IsScalarKey(key) && key !in ModifierKeys;
    } else {
      InterMarryOnlyThere(ld, key, v);
    }
  }

  /** Only an `intermarry` entry changes the intermarriage list. */
  lemma InterMarryOnlyThere(ld: Loading, key: string, v: Token)
    requires key != "intermarry"
    ensures ReligionField(ld, key, v).state.rel.interMarry == ld.rel.interMarry
  {
  }

  // ---------------------------------------------------------------------
  // ParseReligion

  /** `ParseReligion(rg, parser, tag)`: a new religion named `tag` in group
      `g` is registered, replacing an earlier one of that name, both in the
      group and in the global registry, before its entries are read. Its
      entries then fill it in; a failure leaves it registered as far as it
      was read. No other religion changes. */
  function ParseReligion(rd: ReligionReader, g: Handle, tag: string, v: Token): (r: Outcome<ReligionReader>)
    requires Valid(rd) && g < |rd.groups|
    ensures Valid(r.state)
    ensures var n := |rd.religions|;
      && |r.state.religions| == n + 1 && r.state.religions[..n] == rd.religions
      && r.state.registry == rd.registry[tag := n]
      && r.state.religions[n].name == tag && r.state.religions[n].group == g && r.state.religions[n].file == rd.file
      && r.state.religions[n].parent.None? && r.state.religions[n].reformed.None?
      && r.state.groups == rd.groups[g := rd.groups[g].(religions := rd.groups[g].religions[tag := n])]
    ensures r.state.groupIndex == rd.groupIndex && r.state.file == rd.file && r.state.errors == rd.errors
    ensures !IsBlock(v) ==> r.Thrown?
  {
    var n := |rd.religions|;
    var rel := NewReligion(tag, rd.file, g);
    var grp := rd.groups[g];
    var groups := rd.groups[g := grp.(religions := grp.religions[tag := n])];
    var rd1 := rd.(groups := groups, religions := rd.religions + [rel], registry := rd.registry[tag := n]);
    if !IsBlock(v) then Thrown(rd1, NotABlock)
    else
      var out := ReligionFields(Loading(rel, rd.gen), EntriesOf(v), 0);
      var rd2 := rd1.(religions := rd1.religions[n := out.state.rel], gen := out.state.gen);
      assert rd2.religions[..n] == rd.religions;
      if out.Done? then Done(rd2) else Thrown(rd2, out.error)
  }

  // ---------------------------------------------------------------------
  // ParseReligionGroup

  /** `b` extends `a`: earlier religions are unchanged and registered
      names stay registered. */
  ghost predicate Grows(a: ReligionReader, b: ReligionReader)
  {
    |a.religions| <= |b.religions| && b.religions[..|a.religions|] == a.religions
    && (forall k :: k in a.registry ==> k in b.registry)
  }

  lemma GrowsTrans(a: ReligionReader, b: ReligionReader, c: ReligionReader)
    requires Grows(a, b) && Grows(b, c)
    ensures Grows(a, c)
  {
    assert c.religions[..|a.religions|] == c.religions[..|b.religions|][..|a.religions|];
  }

  /** The cases of the group switch that set a field of the group. */
  function GroupScalar(grp: ReligionGroup, key: string, v: Token): (r: Result<ReligionGroup>)
    requires IsGroupKey(key)
    ensures r.Ok? ==> r.value.name == grp.name && r.value.file == grp.file && r.value.religions == grp.religions
    ensures key in {"male_names", "female_names"} ==> (r.Ok? <==> ReadStringList(v).Ok?)
    ensures key == "male_names" && r.Ok? ==>
      r.value == grp.(maleNames := grp.maleNames + Stems(ReadStringList(v).value))
    ensures key == "female_names" && r.Ok? ==>
      r.value == grp.(femaleNames := grp.femaleNames + Stems(ReadStringList(v).value))
    ensures key in GroupTextKeys ==> (r.Ok? <==> v.Word?) && (r.Ok? ==> r.value == grp.(texts := grp.texts[key := v.text]))
    ensures key in GroupBoolKeys ==> (r.Ok? <==> ReadBool(v).Ok?) && (r.Ok? ==> r.value == grp.(flags := grp.flags[key := ReadBool(v).value]))
    ensures key in GroupNumberKeys ==> (r.Ok? <==> ReadInt32(v).Ok?) && (r.Ok? ==> r.value == grp.(numbers := grp.numbers[key := ReadInt32(v).value]))
  {
    GroupKeysDisjoint();
    if key in GroupTextKeys then
      match ReadString(v)
      case Ok(s) => Ok(grp.(texts := grp.texts[key := s]))
      case Err(e) => Err(e)
    else if key in GroupBoolKeys then
      match ReadBool(v)
      case Ok(b) => Ok(grp.(flags := grp.flags[key := b]))
      case Err(e) => Err(e)
    else if key in GroupNumberKeys then
      match ReadInt32(v)
      case Ok(n) => Ok(grp.(numbers := grp.numbers[key := n]))
      case Err(e) => Err(e)
    else
      match ReadStringList(v)
      case Err(e) => Err(e)
      case Ok(xs) =>
        Ok(if key == "male_names" then grp.(maleNames := grp.maleNames + Stems(xs))
           else grp.(femaleNames := grp.femaleNames + Stems(xs)))
  }

  /** One entry of a group's block: a group field, or else a religion of
      the group. */
  function GroupField(rd: ReligionReader, g: Handle, key: string, v: Token): (r: Outcome<ReligionReader>)
    requires Valid(rd) && g < |rd.groups|
    ensures Valid(r.state) && Grows(rd, r.state)
    ensures |r.state.groups| == |rd.groups| && r.state.groupIndex == rd.groupIndex
    ensures forall j :: 0 <= j < |rd.groups| && j != g ==> r.state.groups[j] == rd.groups[j]
    ensures r.state.groups[g].name == rd.groups[g].name && r.state.groups[g].file == rd.groups[g].file
    ensures r.state.file == rd.file && r.state.errors == rd.errors
    ensures IsGroupKey(key) ==> r.state.religions == rd.religions && r.state.registry == rd.registry
    ensures !IsGroupKey(key) ==> r == ParseReligion(rd, g, key, v)
  {
    if IsGroupKey(key) then
      match GroupScalar(rd.groups[g], key, v)
      case Err(e) => Thrown(rd, e)
      case Ok(grp) => Done(rd.(groups := rd.groups[g := grp]))
    else
      var r := ParseReligion(rd, g, key, v);
      assert r.state.religions[..|rd.religions|] == rd.religions;
      r
  }

  function GroupFields(rd: ReligionReader, g: Handle, es: seq<Entry>, i: nat): (r: Outcome<ReligionReader>)
    requires Valid(rd) && g < |rd.groups| && i <= |es|
    ensures Valid(r.state) && Grows(rd, r.state)
    ensures |r.state.groups| == |rd.groups| && r.state.groupIndex == rd.groupIndex
    ensures forall j :: 0 <= j < |rd.groups| && j != g ==> r.state.groups[j] == rd.groups[j]
    ensures r.state.groups[g].name == rd.groups[g].name && r.state.groups[g].file == rd.groups[g].file
    ensures r.state.file == rd.file && r.state.errors == rd.errors
    decreases |es| - i
  {
    if i == |es| then Done(rd)
    else
      match GroupField(rd, g, es[i].tag, es[i].value)
      case Thrown(s, e) => Thrown(s, e)
      case Done(s) =>
        var r := GroupFields(s, g, es, i + 1);
        GrowsTrans(rd, s, r.state);
        r
  }

  /** `tag` names the same religion in group `g` and in the global
      registry, and that religion belongs to `g`. */
  ghost predicate InGroup(rd: ReligionReader, g: Handle, tag: string)
    requires Valid(rd) && g < |rd.groups|
  {
    && tag in rd.registry && tag in rd.groups[g].religions
    && rd.groups[g].religions[tag] == rd.registry[tag]
    && rd.religions[rd.registry[tag]].group == g
  }

  /** A religion entry of group `g` registers its religion in the group
      and globally. */
  lemma GroupFieldAdds(rd: ReligionReader, g: Handle, key: string, v: Token)
    requires Valid(rd) && g < |rd.groups| && !IsGroupKey(key)
    ensures InGroup(GroupField(rd, g, key, v).state, g, key)
  {
  }

  /** Any religion registered in group `g` stays registered. */
  lemma GroupFieldKeeps(rd: ReligionReader, g: Handle, key: string, v: Token, t: string)
    requires Valid(rd) && g < |rd.groups| && InGroup(rd, g, t)
    ensures InGroup(GroupField(rd, g, key, v).state, g, t)
  {
    if !IsGroupKey(key) {
      var r := ParseReligion(rd, g, key, v).state;
      if key != t {
        assert r.religions[rd.registry[t]] == rd.religions[rd.registry[t]];
      }
    } else {
      GroupKeyKeepsReligions(rd, g, key, v);
    }
  }

  /** A group field leaves the group's religions as they were. */
  lemma GroupKeyKeepsReligions(rd: ReligionReader, g: Handle, key: string, v: Token)
    requires Valid(rd) && g < |rd.groups| && IsGroupKey(key)
    ensures GroupField(rd, g, key, v).state.groups[g].religions == rd.groups[g].religions
  {
  }

  lemma {:induction false} GroupFieldsKeeps(rd: ReligionReader, g: Handle, es: seq<Entry>, i: nat, t: string)
    requires Valid(rd) && g < |rd.groups| && i <= |es| && InGroup(rd, g, t)
    ensures InGroup(GroupFields(rd, g, es, i).state, g, t)
    decreases |es| - i
  {
    if i < |es| {
      GroupFieldKeeps(rd, g, es[i].tag, es[i].value, t);
      var s := GroupField(rd, g, es[i].tag, es[i].value);
      if s.Done? {
        GroupFieldsKeeps(s.state, g, es, i + 1, t);
      }
    }
  }

  lemma GroupFieldsStep(rd: ReligionReader, g: Handle, es: seq<Entry>, i: nat)
    requires Valid(rd) && g < |rd.groups| && i < |es|
    ensures var s := GroupField(rd, g, es[i].tag, es[i].value);
      s.Done? ==> GroupFields(rd, g, es, i) == GroupFields(s.state, g, es, i + 1)
  {
  }

  /** Pure bookkeeping of the induction step below: the entry at `i` and
      the entries after it together are the entries from `i` on. */
  lemma RegistersJoin(r: ReligionReader, g: Handle, es: seq<Entry>, i: nat)
    requires Valid(r) && g < |r.groups| && i < |es|
    requires !IsGroupKey(es[i].tag) ==> InGroup(r, g, es[i].tag)
    requires forall j :: i + 1 <= j < |es| && !IsGroupKey(es[j].tag) ==> InGroup(r, g, es[j].tag)
    ensures forall j :: i <= j < |es| && !IsGroupKey(es[j].tag) ==> InGroup(r, g, es[j].tag)
  {
  }

  /** A completed read of a group's block has every religion key of the
      block registered, in the group and globally, as a religion of the
      group. */
  lemma {:induction false} GroupFieldsRegisters(rd: ReligionReader, g: Handle, es: seq<Entry>, i: nat)
    requires Valid(rd) && g < |rd.groups| && i <= |es|
    ensures var r := GroupFields(rd, g, es, i);
      r.Done? ==> forall j :: i <= j < |es| && !IsGroupKey(es[j].tag) ==> InGroup(r.state, g, es[j].tag)
    decreases |es| - i
  {
    if i < |es| {
      var s := GroupField(rd, g, es[i].tag, es[i].value);
      if s.Done? {
        GroupFieldsStep(rd, g, es, i);
        var r := GroupFields(s.state, g, es, i + 1);
        if r.Done? {
          GroupFieldsRegisters(s.state, g, es, i + 1);
          if !IsGroupKey(es[i].tag) {
            GroupFieldAdds(rd, g, es[i].tag, es[i].value);
            GroupFieldsKeeps(s.state, g, es, i + 1, es[i].tag);
          }
          RegistersJoin(r.state, g, es, i);
        }
      }
    }
  }

  /** `ParseReligionGroup(parser, tag)`: a new group named `tag` replaces
      any earlier group of that name, and its entries are read into it.
      Earlier groups and religions are never changed. */
  function ParseGroup(rd: ReligionReader, tag: string, v: Token): (r: Outcome<ReligionReader>)
    requires Valid(rd)
    ensures Valid(r.state) && Grows(rd, r.state)
    ensures var g := |rd.groups|;
      && |r.state.groups| == g + 1 && r.state.groups[..g] == rd.groups
      && r.state.groupIndex == rd.groupIndex[tag := g]
      && r.state.groups[g].name == tag && r.state.groups[g].file == rd.file
    ensures r.state.file == rd.file && r.state.errors == rd.errors
    ensures !IsBlock(v) ==> r == Thrown(rd.(groups := rd.groups + [NewGroup(tag, rd.file)],
                                            groupIndex := rd.groupIndex[tag := |rd.groups|]), NotABlock)
    ensures IsBlock(v) && r.Done? ==> forall j :: 0 <= j < |EntriesOf(v)| && !IsGroupKey(EntriesOf(v)[j].tag) ==>
      InGroup(r.state, |rd.groups|, EntriesOf(v)[j].tag)
  {
    var g := |rd.groups|;
    var rd1 := rd.(groups := rd.groups + [NewGroup(tag, rd.file)], groupIndex := rd.groupIndex[tag := g]);
    if !IsBlock(v) then Thrown(rd1, NotABlock)
    else
      var r := GroupFields(rd1, g, EntriesOf(v), 0);
      GroupFieldsRegisters(rd1, g, EntriesOf(v), 0);
      assert r.state.groups[..g] == rd.groups by {
        assert forall j :: 0 <= j < g ==> r.state.groups[j] == rd1.groups[j];
      }
      r
  }

  function TopLevel(rd: ReligionReader, es: seq<Entry>, i: nat): (r: Outcome<ReligionReader>)
    requires Valid(rd) && i <= |es|
    ensures Valid(r.state) && Grows(rd, r.state)
    ensures r.state.file == rd.file && r.state.errors == rd.errors
    decreases |es| - i
  {
    if i == |es| then Done(rd)
    else
      match ParseGroup(rd, es[i].tag, es[i].value)
      case Thrown(s, e) => Thrown(s, e)
      case Done(s) =>
        var r := TopLevel(s, es, i + 1);
        GrowsTrans(rd, s, r.state);
        r
  }

  /** `tag` names a group of that name. */
  ghost predicate GroupNamed(rd: ReligionReader, tag: string)
    requires Valid(rd)
  {
    tag in rd.groupIndex && rd.groups[rd.groupIndex[tag]].name == tag
  }

  /** Reading a group names it, and keeps every group named before. */
  lemma ParseGroupNames(rd: ReligionReader, tag: string, v: Token, t: string)
    requires Valid(rd)
    ensures GroupNamed(ParseGroup(rd, tag, v).state, tag)
    ensures GroupNamed(rd, t) ==> GroupNamed(ParseGroup(rd, tag, v).state, t)
  {
    var r := ParseGroup(rd, tag, v).state;
    if GroupNamed(rd, t) && t != tag {
      assert r.groups[rd.groupIndex[t]] == r.groups[..|rd.groups|][rd.groupIndex[t]];
    }
  }

  lemma {:induction false} TopLevelKeeps(rd: ReligionReader, es: seq<Entry>, i: nat, t: string)
    requires Valid(rd) && i <= |es| && GroupNamed(rd, t)
    ensures GroupNamed(TopLevel(rd, es, i).state, t)
    decreases |es| - i
  {
    if i < |es| {
      ParseGroupNames(rd, es[i].tag, es[i].value, t);
      var s := ParseGroup(rd, es[i].tag, es[i].value);
      if s.Done? {
        TopLevelKeeps(s.state, es, i + 1, t);
      }
    }
  }

  lemma TopLevelStep(rd: ReligionReader, es: seq<Entry>, i: nat)
    requires Valid(rd) && i < |es|
    ensures var s := ParseGroup(rd, es[i].tag, es[i].value);
      s.Done? ==> TopLevel(rd, es, i) == TopLevel(s.state, es, i + 1)
  {
  }

  /** A completed read of a file has a group under every top-level tag,
      named by it. */
  lemma {:induction false} TopLevelRegisters(rd: ReligionReader, es: seq<Entry>, i: nat)
    requires Valid(rd) && i <= |es|
    ensures var r := TopLevel(rd, es, i);
      r.Done? ==> forall j :: i <= j < |es| ==> GroupNamed(r.state, es[j].tag)
    decreases |es| - i
  {
    if i < |es| {
      var s := ParseGroup(rd, es[i].tag, es[i].value);
      if s.Done? {
        TopLevelStep(rd, es, i);
        var r := TopLevel(s.state, es, i + 1);
        if r.Done? {
          TopLevelRegisters(s.state, es, i + 1);
          ParseGroupNames(rd, es[i].tag, es[i].value, es[i].tag);
          TopLevelKeeps(s.state, es, i + 1, es[i].tag);
          assert forall j :: i <= j < |es| ==> GroupNamed(r.state, es[j].tag) by {
            forall j | i <= j < |es| ensures GroupNamed(r.state, es[j].tag) {
              if j > i {}
            }
          }
        }
      }
    }
  }

  // ---------------------------------------------------------------------
  // LinkReligions

  /** The links of one religion resolved against the registry; a name
      that is not registered leaves the link as it was. */
  function LinkOne(r: Religion, registry: map<string, Handle>): Religion
  {
    r.(parent := if r.parentString.Some? && r.parentString.value in registry
                 then Some(registry[r.parentString.value]) else r.parent,
       reformed := if r.reformedString.Some? && r.reformedString.value in registry
                   then Some(registry[r.reformedString.value]) else r.reformed)
  }

  /** `LinkReligions()`: every registered religion whose parent (reformed)
      name is registered now links to the religion registered under that
      name; every other link, and every religion no longer registered, is
      left as it was. Nothing is recorded for a name that does not
      resolve. */
  function LinkReligions(rd: ReligionReader): (r: ReligionReader)
    requires Valid(rd)
    ensures Valid(r) && |r.religions| == |rd.religions|
    ensures r.registry == rd.registry && r.groups == rd.groups && r.groupIndex == rd.groupIndex
    ensures r.file == rd.file && r.gen == rd.gen && r.errors == rd.errors
    ensures forall k :: k in rd.registry ==>
      var a := rd.religions[rd.registry[k]];
      var b := r.religions[rd.registry[k]];
      && b.(parent := a.parent, reformed := a.reformed) == a
      && (a.parentString.Some? && a.parentString.value in rd.registry ==> b.parent == Some(rd.registry[a.parentString.value]))
      && (!(a.parentString.Some? && a.parentString.value in rd.registry) ==> b.parent == a.parent)
      && (a.reformedString.Some? && a.reformedString.value in rd.registry ==> b.reformed == Some(rd.registry[a.reformedString.value]))
      && (!(a.reformedString.Some? && a.reformedString.value in rd.registry) ==> b.reformed == a.reformed)
    ensures forall i :: 0 <= i < |rd.religions| && !Listed(rd.religions, rd.registry, i) ==> r.religions[i] == rd.religions[i]
  {
    var religions := seq(|rd.religions|, i requires 0 <= i < |rd.religions| =>
      if Listed(rd.religions, rd.registry, i) then LinkOne(rd.religions[i], rd.registry) else rd.religions[i]);
    rd.(religions := religions)
  }

  /** Linking twice is linking once. */
  lemma LinkReligionsIdempotent(rd: ReligionReader)
    requires Valid(rd)
    ensures LinkReligions(LinkReligions(rd)) == LinkReligions(rd)
  {
    var r1 := LinkReligions(rd);
    var r2 := LinkReligions(r1);
    assert r2.religions == r1.religions by {
      forall i | 0 <= i < |r1.religions| ensures r2.religions[i] == r1.religions[i] {
        assert r1.religions[i].name == rd.religions[i].name;
      }
    }
  }

  // ---------------------------------------------------------------------
  // Parse

  /** `Parse(filename)`: a missing file records one error; otherwise the
      groups of the file are read and `LinkReligions` runs, and a failure
      records one error and skips it. Groups and religions read before
      the failure stay registered. */
  function ParseFile(rd: ReligionReader, f: SourceFile): (r: ReligionReader)
    requires Valid(rd)
    ensures Valid(r)
    ensures !f.found ==> r == rd.(errors := rd.errors + ["File not found: " + f.name])
    ensures f.found ==> r.file == f.name && (r.errors == rd.errors || |r.errors| == |rd.errors| + 1)
    ensures f.found && r.errors == rd.errors ==> r == LinkReligions(r)
    ensures f.found ==> var t := TopLevel(rd.(file := f.name), f.entries, 0);
      && (t.Done? ==> r == LinkReligions(t.state))
      && (t.Thrown? ==> r == t.state.(errors := t.state.errors + [t.error]))
      && (r.errors == rd.errors <==> t.Done?)
      && (t.Done? ==> forall j :: 0 <= j < |f.entries| ==> GroupNamed(r, f.entries[j].tag))
  {
    if !f.found then rd.(errors := rd.errors + ["File not found: " + f.name])
    else
      TopLevelRegisters(rd.(file := f.name), f.entries, 0);
      match TopLevel(rd.(file := f.name), f.entries, 0)
      case Done(s) =>
        LinkReligionsIdempotent(s);
        LinkReligions(s)
      case Thrown(s, e) => s.(errors := s.errors + [e])
  }

  // ---------------------------------------------------------------------
  // Folders

  /** `ParseFolder(folder)`: a missing folder records one error naming it;
      otherwise every file it lists ending in `.txt` is read in turn. */
  function ParseFolder(rd: ReligionReader, folderExists: bool, folder: string, files: seq<SourceFile>): (r: ReligionReader)
    requires Valid(rd)
    ensures Valid(r)
    ensures !folderExists ==> r == rd.(errors := rd.errors + ["Unable to find folder: " + folder])
    ensures folderExists ==> |r.errors| <= |rd.errors| + |files|
    decreases |files|
  {
    if !folderExists then rd.(errors := rd.errors + ["Unable to find folder: " + folder])
    else if |files| == 0 then rd
    else ParseFolder(ParseFile(rd, files[0]), true, folder, files[1..])
  }

  /** Reading a folder that lists one file reads that file, and one that
      lists none changes nothing. */
  lemma ParseFolderOne(rd: ReligionReader, folder: string, f: SourceFile)
    requires Valid(rd)
    ensures ParseFolder(rd, true, folder, [f]) == ParseFile(rd, f)
    ensures ParseFolder(rd, true, folder, []) == rd
  {
    assert [f][1..] == [];
  }

  /** Reading a folder whose listing is `a` then `b` reads `a`, then `b`. */
  lemma {:induction false} ParseFolderAppend(rd: ReligionReader, folder: string, a: seq<SourceFile>, b: seq<SourceFile>)
    requires Valid(rd)
    ensures ParseFolder(rd, true, folder, a + b) == ParseFolder(ParseFolder(rd, true, folder, a), true, folder, b)
    decreases |a|
  {
    if |a| == 0 {
      assert a + b == b;
    } else {
      assert (a + b)[0] == a[0];
      assert (a + b)[1..] == a[1..] + b;
      ParseFolderAppend(ParseFile(rd, a[0]), folder, a[1..], b);
    }
  }
}

=== FILE: text.dfy ===
/** String primitives of the .NET base library as the readers use them:
    searching, splitting, trimming and 32-bit integer parsing and printing. */
module Text {
  import opened Wrappers

  const MinInt32: int := -0x8000_0000
  const MaxInt32: int := 0x7FFF_FFFF

  /** `Char.IsDigit` (category Nd) on the characters a Windows-1252 text
      can hold, which are only the ASCII digits; `Int32.Parse` accepts
      those alone. */
  predicate IsDigit(c: char) { '0' <= c <= '9' }

  /** `Char.IsLetter` (Unicode categories Lu, Ll, Lt, Lm and Lo) on the
      characters a Windows-1252 text can hold: the ASCII letters, the
      Latin-1 letters, the ordinal indicators, the micro sign and the
      letters Windows-1252 places in 0x80-0x9F. Letters beyond that
      repertoire are not modelled. */
  predicate IsLetter(c: char)
  {
    || ('a' <= c <= 'z') || ('A' <= c <= 'Z')
    || c == '\U{AA}' || c == '\U{B5}' || c == '\U{BA}'
    || ('\U{C0}' <= c <= '\U{D6}') || ('\U{D8}' <= c <= '\U{F6}') || ('\U{F8}' <= c <= '\U{FF}')
    || c == '\U{152}' || c == '\U{153}' || c == '\U{160}' || c == '\U{161}'
    || c == '\U{178}' || c == '\U{17D}' || c == '\U{17E}' || c == '\U{192}' || c == '\U{2C6}'
  }

  /** The white-space set that integer parsing skips (tab, line feed,
      vertical tab, form feed, carriage return and space). */
  predicate IsWhite(c: char) { c == ' ' || ('\t' <= c <= '\r') }

  predicate AllDigits(s: string) { forall i :: 0 <= i < |s| ==> IsDigit(s[i]) }

  // ---------------------------------------------------------------------
  // Searching

  /** Index of the first occurrence of `c`, or -1. */
  function IndexOf(s: string, c: char): (r: int)
    ensures -1 <= r < |s|
    ensures r == -1 <==> c !in s
    ensures r >= 0 ==> s[r] == c && c !in s[..r]
  {
    if |s| == 0 then -1
    else if s[0] == c then 0
    else
      var k := IndexOf(s[1..], c);
      assert s[1..][..(if k < 0 then 0 else k)] == s[1..1 + (if k < 0 then 0 else k)];
      if k < 0 then -1 else k + 1
  }

  /** The first occurrence is at `k` when `s[k]` is `c` and no earlier
      character is. */
  lemma {:induction false} FirstAt(s: string, c: char, k: nat)
    requires k < |s| && s[k] == c
    requires forall j :: 0 <= j < k ==> s[j] != c
    ensures IndexOf(s, c) == k
  {
    if k > 0 {
      FirstAt(s[1..], c, k - 1);
    }
  }

  /** Index of the last occurrence of `c`, or -1. */
  function LastIndexOf(s: string, c: char): (r: int)
    ensures -1 <= r < |s|
    ensures r == -1 <==> c !in s
    ensures r >= 0 ==> s[r] == c && forall j :: r < j < |s| ==> s[j] != c
  {
    if |s| == 0 then -1
    else if s[|s| - 1] == c then |s| - 1
    else
      var k := LastIndexOf(s[..|s| - 1], c);
      assert forall j :: 0 <= j < |s| - 1 ==> s[..|s| - 1][j] == s[j];
      k
  }

  /** Number of occurrences of `c`. */
  function Count(s: string, c: char): nat
  {
    if |s| == 0 then 0 else (if s[0] == c then 1 else 0) + Count(s[1..], c)
  }

  /** `s.IndexOf(c) != s.LastIndexOf(c)`, the test the readers use for
      "two or more occurrences". */
  predicate Repeats(s: string, c: char)
  {
    IndexOf(s, c) != LastIndexOf(s, c)
  }

  lemma {:induction false} CountZero(s: string, c: char)
    ensures Count(s, c) == 0 <==> c !in s
  {
    if |s| > 0 {
      CountZero(s[1..], c);
      assert s == [s[0]] + s[1..];
    }
  }

  lemma {:induction false} CountAppend(a: string, b: string, c: char)
    ensures Count(a + b, c) == Count(a, c) + Count(b, c)
  {
    if |a| == 0 {
      assert a + b == b;
    } else {
      assert (a + b)[1..] == a[1..] + b;
      CountAppend(a[1..], b, c);
    }
  }

  lemma CountAround(s: string, i: nat, c: char)
    requires i < |s|
    ensures Count(s, c) == Count(s[..i], c) + (if s[i] == c then 1 else 0) + Count(s[i + 1..], c)
  {
    assert s == s[..i] + ([s[i]] + s[i + 1..]);
    CountAppend(s[..i], [s[i]] + s[i + 1..], c);
    CountAppend([s[i]], s[i + 1..], c);
    assert [s[i]][1..] == [];
  }

  /** The source's "first index differs from last index" test is exactly
      "the character occurs at least twice". */
  lemma RepeatsIffTwice(s: string, c: char)
    ensures Repeats(s, c) <==> Count(s, c) >= 2
  {
    var i := IndexOf(s, c);
    var j := LastIndexOf(s, c);
    if i < 0 {
      CountZero(s, c);
    } else {
      CountAround(s, i, c);
      CountZero(s[..i], c);
      if i == j {
        assert c !in s[i + 1..];
        CountZero(s[i + 1..], c);
      } else {
        assert i < j;
        assert s[i + 1..][j - i - 1] == c;
        CountZero(s[i + 1..], c);
      }
    }
  }

  /** `pat` occurs in `s` at index `k`. */
  predicate At(s: string, k: int, pat: string)
  {
    0 <= k && k + |pat| <= |s| && s[k..k + |pat|] == pat
  }

  /** Index of the first occurrence of a non-empty `pat`, or -1. */
  function Find(s: string, pat: string): (r: int)
    requires |pat| > 0
    ensures -1 <= r <= |s| - |pat| || r == -1
    ensures r >= 0 ==> At(s, r, pat)
    ensures r == -1 ==> forall k :: !At(s, k, pat)
    decreases |s|
  {
    if |s| < |pat| then -1
    else if s[..|pat|] == pat then 0
    else
      var k := Find(s[1..], pat);
      AtTail(s, pat, k);
      if k < 0 then -1 else k + 1
  }

  /** Occurrences in `s` past index 0 are the occurrences in `s[1..]`, shifted. */
  lemma AtTail(s: string, pat: string, k: int)
    requires |s| >= 1 && |pat| > 0
    requires !At(s, 0, pat)
    ensures At(s[1..], k, pat) ==> At(s, k + 1, pat)
    ensures (forall j :: !At(s[1..], j, pat)) ==> forall j :: !At(s, j, pat)
  {
    if At(s[1..], k, pat) {
      assert s[1..][k..k + |pat|] == s[k + 1..k + 1 + |pat|];
    }
    forall j | At(s, j, pat)
      ensures At(s[1..], j - 1, pat)
    {
      assert s[1..][j - 1..j - 1 + |pat|] == s[j..j + |pat|];
    }
  }

  /** Ordinal `s.Contains(pat)`. */
  predicate Contains(s: string, pat: string)
  {
    |pat| == 0 || Find(s, pat) >= 0
  }

  /** Prefix test (the model compares ordinally). */
  predicate StartsWith(s: string, p: string)
  {
    |p| <= |s| && s[..|p|] == p
  }

  // ---------------------------------------------------------------------
  // Splitting and joining

  /** `s.Split(c)`: the pieces between occurrences of `c`, empty pieces kept. */
  function Split(s: string, c: char): (parts: seq<string>)
    ensures |parts| >= 1
    ensures c in s ==> |parts| >= 2
    ensures c !in parts[0]
    decreases |s|
  {
    var i := IndexOf(s, c);
    if i < 0 then [s] else [s[..i]] + Split(s[i + 1..], c)
  }

  /** A piece without `c` in front of `c` splits off whole. */
  lemma SplitFront(d: string, c: char, rest: string)
    requires c !in d
    ensures Split(d + ([c] + rest), c) == [d] + Split(rest, c)
  {
    var t := d + ([c] + rest);
    forall j | 0 <= j < |d|
      ensures t[j] != c
    {
      assert t[j] == d[j];
    }
    FirstAt(t, c, |d|);
    assert t[..|d|] == d;
    assert t[|d| + 1..] == rest;
  }

  /** Pieces glued back together with `c` between neighbours. */
  function Join(parts: seq<string>, c: char): string
    requires |parts| >= 1
  {
    if |parts| == 1 then parts[0] else parts[0] + [c] + Join(parts[1..], c)
  }

  /** Splitting loses nothing: joining the pieces gives back the text. */
  lemma {:induction false} JoinSplit(s: string, c: char)
    ensures Join(Split(s, c), c) == s
    decreases |s|
  {
    var i := IndexOf(s, c);
    if i >= 0 {
      var rest := s[i + 1..];
      JoinSplit(rest, c);
      JoinCons(s[..i], Split(rest, c), c);
      Around(s, i);
    }
  }

  lemma JoinCons(head: string, tail: seq<string>, c: char)
    requires |tail| >= 1
    ensures Join([head] + tail, c) == head + [c] + Join(tail, c)
  {
    assert ([head] + tail)[1..] == tail;
  }

  lemma Around(s: string, i: int)
    requires 0 <= i < |s|
    ensures s[..i] + [s[i]] + s[i + 1..] == s
  {
  }

  /** `Path.GetFileName` (and `FileInfo.Name`): the text after the last directory separator. */
  function BaseName(path: string): (r: string)
    ensures '\\' !in r && '/' !in r
    ensures |r| <= |path| && r == path[|path| - |r|..]
  {
    if |path| == 0 then ""
    else if path[|path| - 1] == '\\' || path[|path| - 1] == '/' then ""
    else BaseName(path[..|path| - 1]) + [path[|path| - 1]]
  }

  /** `s.Split(c)[0]`, the text before the first `c`. */
  function Before(s: string, c: char): (r: string)
    ensures c !in r
    ensures StartsWith(s, r)
    ensures |r| < |s| ==> s[|r|] == c
    ensures c !in s ==> r == s
  {
    Split(s, c)[0]
  }

  /** `name.Split('_')[0]` for every name of a list, in order: each name
      cut at its first underscore. */
  function Stems(names: seq<string>): (r: seq<string>)
    ensures |r| == |names|
    ensures forall i :: 0 <= i < |names| ==> '_' !in r[i] && StartsWith(names[i], r[i])
    ensures forall i :: 0 <= i < |names| && |r[i]| < |names[i]| ==> names[i][|r[i]|] == '_'
    ensures forall i :: 0 <= i < |names| && '_' !in names[i] ==> r[i] == names[i]
  {
    seq(|names|, i requires 0 <= i < |names| => Before(names[i], '_'))
  }

  /** Every character of `s` that differs from `c`, in order. */
  function Remove(s: string, c: char): (r: string)
    ensures c !in r
    ensures |r| <= |s|
    ensures c !in s ==> r == s
  {
    if |s| == 0 then ""
    else (if s[0] == c then "" else [s[0]]) + Remove(s[1..], c)
  }

  /** `s.Replace(a, b)` for single characters. */
  function ReplaceChar(s: string, a: char, b: char): (r: string)
    ensures |r| == |s|
    ensures forall i :: 0 <= i < |s| ==> r[i] == (if s[i] == a then b else s[i])
  {
    seq(|s|, i requires 0 <= i < |s| => if s[i] == a then b else s[i])
  }

  /** `s.Replace(pat, "")` for a non-empty pattern: occurrences found left to
      right, without overlap, are deleted. */
  function Delete(s: string, pat: string): string
    requires |pat| > 0
    decreases |s|
  {
    if |s| < |pat| then s
    else if s[..|pat|] == pat then Delete(s[|pat|..], pat)
    else [s[0]] + Delete(s[1..], pat)
  }

  /** `s.Split(new[] { sep }, StringSplitOptions.None)` for a non-empty separator. */
  function SplitOn(s: string, sep: string): (parts: seq<string>)
    requires |sep| > 0
    ensures |parts| >= 1
    decreases |s|
  {
    var i := Find(s, sep);
    if i < 0 then [s] else [s[..i]] + SplitOn(s[i + |sep|..], sep)
  }

  /** Drops the empty pieces (`StringSplitOptions.RemoveEmptyEntries`). */
  function NonEmpty(parts: seq<string>): (r: seq<string>)
    ensures forall i :: 0 <= i < |r| ==> |r[i]| > 0
    ensures forall j :: 0 <= j < |parts| && |parts[j]| > 0 ==> parts[j] in r
  {
    if |parts| == 0 then []
    else (if |parts[0]| == 0 then [] else [parts[0]]) + NonEmpty(parts[1..])
  }

  // ---------------------------------------------------------------------
  // Trimming and case

  function TrimStart(s: string): (r: string)
    ensures |r| <= |s| && r == s[|s| - |r|..]
    ensures |r| == 0 || !IsWhite(r[0])
    ensures forall i :: 0 <= i < |s| - |r| ==> IsWhite(s[i])
  {
    if |s| > 0 && IsWhite(s[0]) then
      var r := TrimStart(s[1..]);
      assert s[1..][|s| - 1 - |r|..] == s[|s| - |r|..];
      assert forall i :: 1 <= i < |s| - |r| ==> s[i] == s[1..][i - 1];
      r
    else s
  }

  function TrimEnd(s: string): (r: string)
    ensures |r| <= |s| && r == s[..|r|]
    ensures |r| == 0 || !IsWhite(r[|r| - 1])
    ensures forall i :: |r| <= i < |s| ==> IsWhite(s[i])
  {
    if |s| > 0 && IsWhite(s[|s| - 1]) then TrimEnd(s[..|s| - 1]) else s
  }

  /** `s.Trim()` over the modelled white-space set. */
  function Trim(s: string): (r: string)
    ensures |r| == 0 || (!IsWhite(r[0]) && !IsWhite(r[|r| - 1]))
    ensures |r| <= |s|
  {
    TrimEnd(TrimStart(s))
  }

  /** `String.IsNullOrWhiteSpace` for a present string. */
  predicate IsBlank(s: string)
  {
    forall i :: 0 <= i < |s| ==> IsWhite(s[i])
  }

  function LowerChar(c: char): char
  {
    if 'A' <= c <= 'Z' then (c as int + 32) as char else c
  }

  /** `s.ToLower()` over ASCII letters. */
  function ToLower(s: string): (r: string)
    ensures |r| == |s|
  {
    seq(|s|, i requires 0 <= i < |s| => LowerChar(s[i]))
  }

  // ---------------------------------------------------------------------
  // 32-bit integers

  function DigitValue(c: char): nat
    requires IsDigit(c)
  {
    c as int - '0' as int
  }

  /** Value of a run of decimal digits, or None if some character is not a digit. */
  function DigitsValue(ds: string): Option<nat>
  {
    if |ds| == 0 then Some(0)
    else if !IsDigit(ds[|ds| - 1]) then None
    else match DigitsValue(ds[..|ds| - 1])
      case None => None
      case Some(v) => Some(v * 10 + DigitValue(ds[|ds| - 1]))
  }

  /** The sign-and-digits part of integer parsing, on already trimmed text. */
  function ParseSigned(t: string): Option<int>
  {
    if |t| == 0 then None
    else
      var body := if t[0] == '-' || t[0] == '+' then t[1..] else t;
      if |body| == 0 then None
      else match DigitsValue(body)
        case None => None
        case Some(m) =>
          var v: int := if t[0] == '-' then -(m as int) else m;
          if MinInt32 <= v <= MaxInt32 then Some(v) else None
  }

  /** `Int32.Parse` / `Int32.TryParse` with the default integer style:
      optional surrounding white space, an optional sign, one or more
      decimal digits, and a value that fits in 32 bits. */
  function ParseInt32(s: string): (r: Option<int>)
    ensures r.Some? ==> MinInt32 <= r.value <= MaxInt32
  {
    ParseSigned(Trim(s))
  }

  /** The literals accepted here as `Double.Parse` input: optional
      surrounding white space, an optional sign, then digits with at most
      one decimal point and at least one digit. Thousands separators and
      exponents are not modelled. */
  predicate IsDecimalLiteral(s: string)
  {
    var t := Trim(s);
    var body := if |t| > 0 && (t[0] == '-' || t[0] == '+') then t[1..] else t;
    && (forall i :: 0 <= i < |body| ==> IsDigit(body[i]) || body[i] == '.')
    && Count(body, '.') <= 1
    && (exists i :: 0 <= i < |body| && IsDigit(body[i]))
  }

  function DigitChar(d: nat): (c: char)
    requires d < 10
    ensures IsDigit(c) && DigitValue(c) == d
  {
    ('0' as int + d) as char
  }

  /** Decimal rendering of a natural number, most significant digit first. */
  function NatToString(n: nat): (s: string)
    ensures |s| > 0 && AllDigits(s)
  {
    if n < 10 then [DigitChar(n)] else NatToString(n / 10) + [DigitChar(n % 10)]
  }

  /** `n.ToString(CultureInfo.InvariantCulture)` for an integer. */
  function IntToString(n: int): (s: string)
    ensures |s| > 0
    ensures forall i :: 0 <= i < |s| ==> IsDigit(s[i]) || (i == 0 && s[i] == '-')
  {
    if n < 0 then "-" + NatToString(-n) else NatToString(n)
  }

  lemma {:induction false} NatToStringValue(n: nat)
    ensures DigitsValue(NatToString(n)) == Some(n)
  {
    if n >= 10 {
      var s := NatToString(n / 10) + [DigitChar(n % 10)];
      assert s[..|s| - 1] == NatToString(n / 10);
      NatToStringValue(n / 10);
    }
  }

  lemma TrimUnchanged(s: string)
    requires |s| > 0 && !IsWhite(s[0]) && !IsWhite(s[|s| - 1])
    ensures Trim(s) == s
  {
    assert TrimStart(s) == s;
  }

  /** Printing an integer and parsing the text back gives the integer. */
  lemma ParsePrintedInt(n: int)
    requires MinInt32 <= n <= MaxInt32
    ensures ParseInt32(IntToString(n)) == Some(n)
  {
    var s := IntToString(n);
    TrimUnchanged(s);
    if n < 0 {
      NatToStringValue(-n);
      assert s[1..] == NatToString(-n);
    } else {
      NatToStringValue(n);
    }
  }
}

=== FILE: titles.dfy ===
/** `TitleReader` and `Title`: the landed-title hierarchy. Titles are held
    in an arena and addressed by handle, because a title replaced in its
    tier registry can still be the `Parent` of, or a sub-title of, titles
    read earlier. The five tier registries map a title id to the handle of
    the title last read under that id. */
module Titles {
  import opened Wrappers
  import opened Text
  import opened Dicts
  import opened Tokens
  import opened Extensions
  import opened Options
  import Provinces

  type Handle = nat

  datatype Tier = Empire | Kingdom | Duchy | County | Barony

  /** The tier an id belongs to, from its first two characters. */
  function TierOf(id: string): Option<Tier>
  {
    if |id| < 2 then None
    else
      var p := id[..2];
      if p == "e_" then Some(Empire)
      else if p == "k_" then Some(Kingdom)
      else if p == "d_" then Some(Duchy)
      else if p == "c_" then Some(County)
      else if p == "b_" then Some(Barony)
      else None
  }

  /** The tier test is the `StartsWith` test of the tier dispatch. */
  lemma TierOfPrefix(id: string)
    ensures TierOf(id).Some? ==> |id| >= 2
    ensures TierOf(id) == Some(Empire) <==> StartsWith(id, "e_")
    ensures TierOf(id) == Some(Kingdom) <==> StartsWith(id, "k_")
    ensures TierOf(id) == Some(Duchy) <==> StartsWith(id, "d_")
    ensures TierOf(id) == Some(County) <==> StartsWith(id, "c_")
    ensures TierOf(id) == Some(Barony) <==> StartsWith(id, "b_")
  {
  }

  /** The tier whose sub-title lists a newly inserted title is removed from. */
  function Higher(t: Tier): Option<Tier>
  {
    match t
    case Empire => None
    case Kingdom => Some(Empire)
    case Duchy => Some(Kingdom)
    case County => Some(Duchy)
    case Barony => Some(County)
  }

  // ---------------------------------------------------------------------
  // Title

  /** A title. The boolean fields are kept by their key in `flags` and the
      text fields by their key in `texts`; a key not present holds its
      default. `strength` is the literal of `strength_growth_per_century`. */
  datatype Title = Title(
    id: string,
    file: string,
    parent: Option<Handle>,
    subTitles: map<string, Handle>,
    capital: int,
    dignity: int,
    countyId: int,
    strength: Option<string>,
    colour1: Colour,
    colour2: Colour,
    twoColours: bool,
    isTitular: bool,
    flags: map<string, bool>,
    texts: map<string, string>,
    holySites: seq<string>,
    allows: Option<Node>,
    gainEffect: Option<Node>,
    paganCoA: Option<Node>,
    misc: seq<Option<Node>>)

  /** The boolean fields set from a `yes`/`no` key. */
  const BoolKeys: set<string> := {
    "rebel", "landless", "primary", "tribe", "pirate", "short_name", "location_ruler_title",
    "caliphate", "holy_order", "independent", "mercenary", "duchy_revokation",
    "dynasty_title_names", "creation_requires_capital", "purple_born_heirs",
    "has_top_de_jure_capital", "top_de_jure_capital", "pentarchy", "used_for_dynasty_names",
    "assimilate"
  }

  /** The boolean fields that start out true. */
  const TrueByDefault: set<string> := {"creation_requires_capital", "used_for_dynasty_names", "assimilate"}

  /** Text fields stored as read, and text fields stored wrapped in quotes. */
  const PlainKeys: set<string> := {"culture", "controls_religion", "religion", "modifier"}
  const QuotedKeys: set<string> := {"title", "foa", "title_prefix", "title_female"}

  /** The fields holding a parsed option block. */
  const GroupKeys: set<string> := {"allow", "gain_effect", "pagan_coa"}

  /** The value of a boolean field. */
  function Flag(t: Title, key: string): bool
  {
    if key in t.flags then t.flags[key] else key in TrueByDefault
  }

  /** The value of a text field; `None` is null. */
  function TextOf(t: Title, key: string): Option<string>
  {
    if key in t.texts then Some(t.texts[key]) else None
  }

  /** `new Title()` with its file, id and parent set. */
  function NewTitle(id: string, file: string, parent: Option<Handle>): (t: Title)
    ensures t.id == id && t.file == file && t.parent == parent
    ensures t.capital == -1 && t.dignity == -1 && t.countyId == -1
    ensures t.subTitles == map[] && !t.isTitular && !t.twoColours
    ensures t.colour1 == Black && t.colour2 == Black
    ensures forall key :: Flag(t, key) <==> key in TrueByDefault
    ensures forall key :: TextOf(t, key).None?
    ensures t.holySites == [] && t.misc == []
  {
    Title(id, file, parent, map[], -1, -1, -1, None, Black, Black, false, false,
          map[], map[], [], None, None, None, [])
  }

  /** `ToString()`. */
  function ToString(t: Title): string
  {
    if !(t.countyId > 0) then "Title: " + t.id
    else "Title: " + t.id + ", Id: " + IntToString(t.countyId)
  }

  /** The text names the title, and a positive county id can be read back
      from it. */
  lemma ToStringReadsBack(t: Title)
    ensures t.countyId <= 0 ==> ToString(t) == "Title: " + t.id
    ensures 0 < t.countyId <= MaxInt32 ==>
      var head := "Title: " + t.id + ", Id: ";
      |ToString(t)| > |head| && ParseInt32(ToString(t)[|head|..]) == Some(t.countyId)
  {
    if 0 < t.countyId <= MaxInt32 {
      var s := IntToString(t.countyId);
      var full := "Title: " + t.id + ", Id: ";
      assert ToString(t) == full + s;
      assert ToString(t)[|full|..] == s;
      ParsePrintedInt(t.countyId);
    }
  }

  // ---------------------------------------------------------------------
  // Reader state

  /** The reader: the arena; the registry of titles by id, which holds the
      five tier dictionaries at once (a title only ever enters the tier its
      id's prefix names, so the tiers partition the ids); the stack of
      titles whose bodies are being read (top last); the file being read;
      the shared option state; the error list. */
  datatype TitleReader = TitleReader(
    arena: seq<Title>,
    titles: map<string, Handle>,
    parents: seq<Handle>,
    file: string,
    gen: GenState,
    errors: seq<string>)

  const NewReader := TitleReader([], map[], [], "", InitialGen, [])

  /** One tier dictionary: `Empires`, `Kingdoms`, `Duchies`, `Counties`
      or `Baronies`. */
  function TierTitles(rd: TitleReader, t: Tier): map<string, Handle>
  {
    Restrict(rd.titles, t)
  }

  function Restrict(titles: map<string, Handle>, t: Tier): map<string, Handle>
  {
    map k | k in titles && TierOf(k) == Some(t) :: titles[k]
  }

  /** The title at `h` is the one registered under its id. */
  predicate Listed(arena: seq<Title>, titles: map<string, Handle>, h: Handle)
    requires h < |arena|
  {
    arena[h].id in titles && titles[arena[h].id] == h
  }

  function Top(parents: seq<Handle>): Handle
    requires |parents| > 0
  {
    parents[|parents| - 1]
  }

  /** Every handle a title holds refers into an arena of `size` titles. */
  predicate Closed(t: Title, size: nat)
  {
    (t.parent.Some? ==> t.parent.value < size)
    && forall k :: k in t.subTitles ==> t.subTitles[k] < size
  }

  /** Every handle is allocated, and every registered title sits under its
      own id, which has a title prefix. */
  ghost predicate Consistent(arena: seq<Title>, titles: map<string, Handle>)
  {
    && (forall k :: k in titles ==> titles[k] < |arena| && arena[titles[k]].id == k && TierOf(k).Some?)
    && (forall i :: 0 <= i < |arena| ==> Closed(arena[i], |arena|))
  }

  /** The titles on the parent stack (those whose bodies are being read,
      or were abandoned by a failure) are allocated and not registered. */
  ghost predicate Pending(arena: seq<Title>, titles: map<string, Handle>, parents: seq<Handle>)
  {
    forall j :: 0 <= j < |parents| ==> parents[j] < |arena| && !Listed(arena, titles, parents[j])
  }

  /** The reader's invariant. */
  ghost predicate Valid(rd: TitleReader)
  {
    Consistent(rd.arena, rd.titles) && Pending(rd.arena, rd.titles, rd.parents)
  }

  /** What every step keeps: the arena only grows, ids and parent links
      never change, a title already allocated is registered afterwards
      only if it was registered before, under the same id, and an id
      registered stays registered. */
  ghost predicate Grows(a: seq<Title>, ta: map<string, Handle>, b: seq<Title>, tb: map<string, Handle>)
  {
    && |a| <= |b|
    && (forall i :: 0 <= i < |a| ==> b[i].id == a[i].id && b[i].parent == a[i].parent)
    && (forall k :: k in tb && tb[k] < |a| ==> k in ta && ta[k] == tb[k])
    && (forall k :: k in ta ==> k in tb)
  }

  /** The titles of `a` that are neither registered nor `except` are the
      same in `b`. */
  ghost predicate Untouched(a: seq<Title>, ta: map<string, Handle>, b: seq<Title>, except: Handle)
    requires |a| <= |b|
  {
    forall i :: 0 <= i < |a| && !Listed(a, ta, i) && i != except ==> b[i] == a[i]
  }

  /** One step of the reader followed by another. */
  ghost predicate Step(a: TitleReader, b: TitleReader, except: Handle)
  {
    && Grows(a.arena, a.titles, b.arena, b.titles) && Untouched(a.arena, a.titles, b.arena, except)
    && b.file == a.file && b.errors == a.errors
  }

  lemma StepTrans(a: TitleReader, b: TitleReader, c: TitleReader, except: Handle)
    requires Step(a, b, except) && Step(b, c, except)
    ensures Step(a, c, except)
  {
  }

  lemma GrowsTrans(a: seq<Title>, ta: map<string, Handle>, b: seq<Title>, tb: map<string, Handle>,
                   c: seq<Title>, tc: map<string, Handle>)
    requires Grows(a, ta, b, tb) && Grows(b, tb, c, tc)
    ensures Grows(a, ta, c, tc)
  {
  }

  // ---------------------------------------------------------------------
  // InsertTitle

  /** The titles registered in tier `up` lose their sub-title entry `id`. */
  function RemoveSub(arena: seq<Title>, titles: map<string, Handle>, up: Tier, id: string): (r: seq<Title>)
    ensures |r| == |arena|
    ensures forall i :: 0 <= i < |arena| ==>
      r[i] == if Listed(arena, titles, i) && TierOf(arena[i].id) == Some(up)
              then arena[i].(subTitles := arena[i].subTitles - {id}) else arena[i]
  {
    seq(|arena|, i requires 0 <= i < |arena| =>
      if Listed(arena, titles, i) && TierOf(arena[i].id) == Some(up)
      then arena[i].(subTitles := arena[i].subTitles - {id}) else arena[i])
  }

  /** The arena after inserting a title with id `id` into `tier`: below
      the empires, the titles registered in the next higher tier lose
      their entry `id`. */
  function Swept(arena: seq<Title>, titles: map<string, Handle>, tier: Tier, id: string): (r: seq<Title>)
    ensures |r| == |arena|
    ensures forall i :: 0 <= i < |arena| ==>
      r[i] == if Higher(tier).Some? && Listed(arena, titles, i) && TierOf(arena[i].id) == Higher(tier)
              then arena[i].(subTitles := arena[i].subTitles - {id}) else arena[i]
  {
    match Higher(tier)
    case None => arena
    case Some(up) => RemoveSub(arena, titles, up, id)
  }

  /** `InsertTitle` for the title at `n` into the tier its id names (no
      tier for an id without a title prefix): the id now registers `n`,
      and below the empires every title of the next higher tier drops its
      sub-title entry for the id, keeping all others. */
  function Insert(rd: TitleReader, n: Handle): (r: TitleReader)
    requires Valid(rd) && n < |rd.arena|
    requires forall j :: 0 <= j < |rd.parents| ==> rd.parents[j] != n
    ensures Valid(r) && |r.arena| == |rd.arena|
    ensures forall i :: 0 <= i < |rd.arena| ==> r.arena[i].id == rd.arena[i].id && r.arena[i].parent == rd.arena[i].parent
    ensures r.parents == rd.parents && r.file == rd.file && r.gen == rd.gen && r.errors == rd.errors
    ensures TierOf(rd.arena[n].id).None? ==> r == rd
    ensures TierOf(rd.arena[n].id).Some? ==>
      r.titles == rd.titles[rd.arena[n].id := n]
      && r.arena == Swept(rd.arena, rd.titles, TierOf(rd.arena[n].id).value, rd.arena[n].id)
  {
    var id := rd.arena[n].id;
    match TierOf(id)
    case None => rd
    case Some(tier) =>
      var arena := Swept(rd.arena, rd.titles, tier, id);
      InsertValid(rd, n, arena);
      rd.(arena := arena, titles := rd.titles[id := n])
  }

  lemma InsertValid(rd: TitleReader, n: Handle, arena: seq<Title>)
    requires Valid(rd) && n < |rd.arena|
    requires forall j :: 0 <= j < |rd.parents| ==> rd.parents[j] != n
    requires TierOf(rd.arena[n].id).Some?
    requires arena == Swept(rd.arena, rd.titles, TierOf(rd.arena[n].id).value, rd.arena[n].id)
    ensures Consistent(arena, rd.titles[rd.arena[n].id := n])
    ensures Pending(arena, rd.titles[rd.arena[n].id := n], rd.parents)
  {
    var titles := rd.titles[rd.arena[n].id := n];
    forall i | 0 <= i < |arena| ensures Closed(arena[i], |arena|) {
      assert Closed(rd.arena[i], |rd.arena|);
    }
    forall j | 0 <= j < |rd.parents| ensures !Listed(arena, titles, rd.parents[j]) {
      assert !Listed(rd.arena, rd.titles, rd.parents[j]);
    }
  }

  /** A title not registered is left alone by an insertion. */
  lemma InsertLeavesUnlisted(rd: TitleReader, n: Handle, i: Handle)
    requires Valid(rd) && n < |rd.arena| && i < |rd.arena| && !Listed(rd.arena, rd.titles, i)
    requires forall j :: 0 <= j < |rd.parents| ==> rd.parents[j] != n
    ensures Insert(rd, n).arena[i] == rd.arena[i]
  {
  }

  // ---------------------------------------------------------------------
  // Fields with a fixed meaning

  /** The keys the field switch handles without the option parser. */
  predicate IsScalarKey(key: string)
  {
    key in BoolKeys || key in PlainKeys || key in QuotedKeys
    || key in {"color", "color2", "male_names", "female_names", "holy_site", "capital",
               "dignity", "strength_growth_per_century"}
  }

  /** What no case of the field switch changes. */
  predicate Keeps(t: Title, u: Title)
  {
    u.id == t.id && u.file == t.file && u.parent == t.parent && u.subTitles == t.subTitles
    && u.isTitular == t.isTitular && u.countyId == t.countyId
  }

  /** A case of the field switch that reads a plain value into the title.
      The key sets are disjoint; each case is stated for keys not caught
      by an earlier one. */
  function ScalarField(t: Title, key: string, v: Token): (r: Result<Title>)
    requires IsScalarKey(key)
    ensures r.Ok? ==> Keeps(t, r.value)
    ensures key in BoolKeys ==> (r.Ok? <==> v.Word?)
    ensures key in BoolKeys && r.Ok? ==> r.value == t.(flags := t.flags[key := v.text == "yes"])
    ensures key !in BoolKeys && key in PlainKeys ==> (r.Ok? <==> v.Word?)
    ensures key !in BoolKeys && key in PlainKeys && r.Ok? ==> r.value == t.(texts := t.texts[key := v.text])
    ensures key !in BoolKeys && key !in PlainKeys && key in QuotedKeys ==> (r.Ok? <==> v.Word?)
    ensures key !in BoolKeys && key !in PlainKeys && key in QuotedKeys && r.Ok? ==>
      r.value == t.(texts := t.texts[key := "\"" + v.text + "\""])
  {
    if key in BoolKeys then
      match ReadBool(v)
      case Ok(b) => Ok(t.(flags := t.flags[key := b]))
      case Err(e) => Err(e)
    else if key in PlainKeys then
      match ReadString(v)
      case Ok(s) => Ok(t.(texts := t.texts[key := s]))
      case Err(e) => Err(e)
    else if key in QuotedKeys then
      match ReadString(v)
      case Ok(s) => Ok(t.(texts := t.texts[key := "\"" + s + "\""]))
      case Err(e) => Err(e)
    else OtherField(t, key, v)
  }

  /** The remaining cases: colours, name lists, holy sites and numbers. */
  function OtherField(t: Title, key: string, v: Token): (r: Result<Title>)
    ensures r.Ok? ==> Keeps(t, r.value)
    ensures key == "color" || key == "color2" ==>
      (r.Ok? <==> ReadStringList(v).Ok? && ParseColour(ReadStringList(v).value).Ok?)
    ensures key == "color" && r.Ok? ==>
      r.value == t.(colour1 := ParseColour(ReadStringList(v).value).value)
    ensures key == "color2" && r.Ok? ==>
      r.value == t.(colour2 := ParseColour(ReadStringList(v).value).value, twoColours := true)
    ensures key == "holy_site" ==> (r.Ok? <==> v.Word?)
    ensures key == "holy_site" && r.Ok? ==>
      v.text in r.value.holySites
      && (v.text in t.holySites ==> r.value == t)
      && (v.text !in t.holySites ==> r.value == t.(holySites := t.holySites + [v.text]))
    ensures key == "capital" ==> (r.Ok? <==> ReadInt32(v).Ok?)
    ensures key == "capital" && r.Ok? ==> r.value == t.(capital := ReadInt32(v).value)
  {
    if key == "color" || key == "color2" then
      match ReadStringList(v)
      case Err(e) => Err(e)
      case Ok(xs) =>
        match ParseColour(xs)
        case Err(e) => Err(e)
        case Ok(c) => Ok(if key == "color" then t.(colour1 := c) else t.(colour2 := c, twoColours := true))
    else if key == "male_names" || key == "female_names" then
      match ReadStringList(v)
      case Err(e) => Err(e)
      case Ok(xs) => Ok(t.(misc := t.misc + [Some(StringList(key, xs))]))
    else if key == "holy_site" then
      match ReadString(v)
      case Err(e) => Err(e)
      case Ok(s) => Ok(if s in t.holySites then t else t.(holySites := t.holySites + [s]))
    else if key == "capital" || key == "dignity" then
      match ReadInt32(v)
      case Err(e) => Err(e)
      case Ok(n) => Ok(if key == "capital" then t.(capital := n) else t.(dignity := n))
    else if key == "strength_growth_per_century" then
      match ReadDouble(v)
      case Err(e) => Err(e)
      case Ok(s) => Ok(t.(strength := Some(s)))
    else Ok(t)
  }

  predicate NoRepeats(xs: seq<string>)
  {
    forall i, j :: 0 <= i < j < |xs| ==> xs[i] != xs[j]
  }

  /** Holy sites are never listed twice. */
  lemma HolySitesStayDistinct(t: Title, v: Token)
    requires NoRepeats(t.holySites)
    ensures OtherField(t, "holy_site", v).Ok? ==> NoRepeats(OtherField(t, "holy_site", v).value.holySites)
  {
    if v.Word? && v.text !in t.holySites {
      var hs := t.holySites + [v.text];
      forall i, j | 0 <= i < j < |hs| ensures hs[i] != hs[j] {
        if j == |hs| - 1 {
          assert hs[i] == t.holySites[i];
        }
      }
    }
  }

  /** `Substring(0, 2)` on a key shorter than two characters. */
  const ShortKey := "Index and length must refer to a location within the string."

  /** `SubTitles.Add` with an id the parent already holds. */
  const DuplicateKey := "An item with the same key has already been added."

  // ---------------------------------------------------------------------
  // ParseTitle

  /** The parent a title read now receives: the top of the parent stack. */
  function ParentOf(rd: TitleReader): Option<Handle>
  {
    if |rd.parents| == 0 then None else Some(Top(rd.parents))
  }

  /** The one existing title a title read now may change besides the
      registered ones: its parent (a fresh handle when there is none). */
  function Except(rd: TitleReader): Handle
  {
    if |rd.parents| == 0 then |rd.arena| else Top(rd.parents)
  }

  /** `ParseTitle(parser, tag)` on the value `v` after the tag. The title
      is allocated at the next handle with the top of the parent stack as
      its parent and entered in that parent's sub-titles (failing if the
      id is already there); its block is read; and only then is it
      inserted into its tier. */
  function ParseTitle(rd: TitleReader, tag: string, v: Token): (r: Outcome<TitleReader>)
    requires Valid(rd)
    ensures Valid(r.state) && Step(rd, r.state, Except(rd))
    ensures |r.state.parents| >= |rd.parents| && r.state.parents[..|rd.parents|] == rd.parents
    ensures r.Done? ==> r.state.parents == rd.parents
    ensures r.Done? ==> (|r.state.arena| > |rd.arena|
      && r.state.arena[|rd.arena|].id == tag && r.state.arena[|rd.arena|].parent == ParentOf(rd))
    ensures r.Done? && TierOf(tag).Some? ==> tag in r.state.titles && r.state.titles[tag] == |rd.arena|
    ensures r.Done? && |rd.parents| > 0 ==>
      var p := Top(rd.parents);
      r.state.arena[p] == rd.arena[p].(subTitles := rd.arena[p].subTitles[tag := |rd.arena|])
    ensures (ParentOf(rd).Some? && tag in rd.arena[ParentOf(rd).value].subTitles) <==> r == Thrown(rd, DuplicateKey)
    decreases v, 2
  {
    var n := |rd.arena|;
    var parent := ParentOf(rd);
    if parent.Some? && tag in rd.arena[parent.value].subTitles then Thrown(rd, DuplicateKey)
    else
      var rd1 := Allocate(rd, tag);
      if !IsBlock(v) then Thrown(rd1, NotABlock)
      else
        match Fields(rd1, n, v, 0)
        case Thrown(s, e) =>
          AllocateThenStep(rd, rd1, s);
          Thrown(s, e)
        case Done(s) =>
          FinishTitle(rd, tag, rd1, s);
          Done(Insert(s, n))
  }

  /** The steps of a successful `ParseTitle` compose to its contract. */
  lemma FinishTitle(rd: TitleReader, tag: string, rd1: TitleReader, s: TitleReader)
    requires Valid(rd) && rd1 == Allocate(rd, tag)
    requires Valid(s) && Step(rd1, s, |rd.arena|) && s.parents == rd.parents
    ensures var r := Insert(s, |rd.arena|);
      && Step(rd, r, Except(rd))
      && |r.arena| > |rd.arena| && r.arena[|rd.arena|].id == tag && r.arena[|rd.arena|].parent == ParentOf(rd)
      && (TierOf(tag).Some? ==> tag in r.titles && r.titles[tag] == |rd.arena|)
      && (|rd.parents| > 0 ==>
            var p := Top(rd.parents);
            r.arena[p] == rd.arena[p].(subTitles := rd.arena[p].subTitles[tag := |rd.arena|]))
  {
    AllocateThenStep(rd, rd1, s);
    FinishFrame(rd, s);
    if |rd.parents| > 0 {
      var p := Top(rd.parents);
      assert !Listed(s.arena, s.titles, p);
      InsertLeavesUnlisted(s, |rd.arena|, p);
    }
  }

  lemma FinishFrame(rd: TitleReader, s: TitleReader)
    requires Valid(rd) && Valid(s) && Step(rd, s, Except(rd)) && s.parents == rd.parents
    requires |s.arena| > |rd.arena|
    ensures Step(rd, Insert(s, |rd.arena|), Except(rd))
  {
    var n := |rd.arena|;
    var r := Insert(s, n);
    forall i | 0 <= i < |rd.arena| && !Listed(rd.arena, rd.titles, i) && i != Except(rd)
      ensures r.arena[i] == rd.arena[i]
    {
      assert !Listed(s.arena, s.titles, i);
      InsertLeavesUnlisted(s, n, i);
    }
  }

  /** Changes to the new title do not count against the titles that
      existed before it. */
  lemma AllocateThenStep(rd: TitleReader, rd1: TitleReader, s: TitleReader)
    requires Step(rd, rd1, Except(rd)) && |rd1.arena| == |rd.arena| + 1 && rd1.titles == rd.titles
    requires Step(rd1, s, |rd.arena|)
    ensures Step(rd, s, Except(rd))
  {
  }

  /** The new title at the next handle, entered in its parent's sub-titles. */
  function Allocate(rd: TitleReader, tag: string): (r: TitleReader)
    requires Valid(rd)
    ensures Valid(r) && Step(rd, r, Except(rd))
    ensures r.titles == rd.titles && r.parents == rd.parents && r.file == rd.file && r.gen == rd.gen && r.errors == rd.errors
    ensures |r.arena| == |rd.arena| + 1 && r.arena[|rd.arena|] == NewTitle(tag, rd.file, ParentOf(rd))
    ensures forall i :: 0 <= i < |rd.arena| && i != Except(rd) ==> r.arena[i] == rd.arena[i]
    ensures |rd.parents| > 0 ==>
      var p := Top(rd.parents);
      r.arena[p] == rd.arena[p].(subTitles := rd.arena[p].subTitles[tag := |rd.arena|])
    ensures !Listed(r.arena, r.titles, |rd.arena|)
  {
    var n := |rd.arena|;
    var arena := rd.arena + [NewTitle(tag, rd.file, ParentOf(rd))];
    var arena1 := if |rd.parents| == 0 then arena
      else var p := Top(rd.parents); arena[p := arena[p].(subTitles := arena[p].subTitles[tag := n])];
    forall i | 0 <= i < |arena1| ensures Closed(arena1[i], |arena1|) {
      if i < n {
        assert Closed(rd.arena[i], n);
      }
    }
    rd.(arena := arena1)
  }

  /** `parser.Parse(getOptions)` over the entries of the block of the
      title at `h`. */
  function Fields(rd: TitleReader, h: Handle, block: Token, i: nat): (r: Outcome<TitleReader>)
    requires Valid(rd) && h < |rd.arena| && !Listed(rd.arena, rd.titles, h)
    requires IsBlock(block) && i <= |EntriesOf(block)|
    ensures Valid(r.state) && Step(rd, r.state, h)
    ensures |r.state.parents| >= |rd.parents| && r.state.parents[..|rd.parents|] == rd.parents
    ensures r.Done? ==> r.state.parents == rd.parents
    decreases block, 1, |EntriesOf(block)| - i
  {
    var es := EntriesOf(block);
    if i == |es| then Done(rd)
    else
      assert es[i] in block.entries;
      match Field(rd, h, es[i].tag, es[i].value)
      case Thrown(s, e) => Thrown(s, e)
      case Done(s) =>
        var r := Fields(s, h, block, i + 1);
        StepTrans(rd, s, r.state, h);
        r
  }

  /** One entry of the title's block: the switch cases with a fixed
      meaning, then (the `default` case) a sub-title when the key starts
      with a title prefix and otherwise an option kept with the title's
      other options. */
  function Field(rd: TitleReader, h: Handle, key: string, v: Token): (r: Outcome<TitleReader>)
    requires Valid(rd) && h < |rd.arena| && !Listed(rd.arena, rd.titles, h)
    ensures Valid(r.state) && Step(rd, r.state, h)
    ensures |r.state.parents| >= |rd.parents| && r.state.parents[..|rd.parents|] == rd.parents
    ensures r.Done? ==> r.state.parents == rd.parents
    ensures IsScalarKey(key) ==> (r.Done? <==> ScalarField(rd.arena[h], key, v).Ok?)
    ensures IsScalarKey(key) && r.Done? ==>
      r.state == rd.(arena := rd.arena[h := ScalarField(rd.arena[h], key, v).value])
    ensures !IsScalarKey(key) && key !in GroupKeys && |key| < 2 ==> r == Thrown(rd, ShortKey)
    decreases v, 4
  {
    if IsScalarKey(key) then
      match ScalarField(rd.arena[h], key, v)
      case Err(e) => Thrown(rd, e)
      case Ok(t1) => Done(Replace(rd, h, t1))
    else if key in GroupKeys then GroupField(rd, h, key, v)
    else if |key| < 2 then Thrown(rd, ShortKey)
    else if TierOf(key).Some? then SubTitle(rd, h, key, v)
    else MiscField(rd, h, key, v)
  }

  /** Which case of the switch reads an entry: the option blocks, then
      (the `default` case) a sub-title for a key with a title prefix and
      an option kept with the title's other options for any other key. */
  lemma FieldDispatch(rd: TitleReader, h: Handle, key: string, v: Token)
    requires Valid(rd) && h < |rd.arena| && !Listed(rd.arena, rd.titles, h)
    ensures var r := Field(rd, h, key, v);
      && (!IsScalarKey(key) && key in GroupKeys ==> r == GroupField(rd, h, key, v))
      && (!IsScalarKey(key) && key !in GroupKeys && |key| >= 2 && TierOf(key).Some? ==> r == SubTitle(rd, h, key, v))
      && (!IsScalarKey(key) && key !in GroupKeys && |key| >= 2 && TierOf(key).None? ==> r == MiscField(rd, h, key, v))
  {
  }

  /** `allow`, `gain_effect`, `pagan_coa`: the option the generic parser
      builds, which must be a group. */
  function GroupField(rd: TitleReader, h: Handle, key: string, v: Token): (r: Outcome<TitleReader>)
    requires Valid(rd) && h < |rd.arena|
    ensures Valid(r.state) && Step(rd, r.state, h) && r.state.parents == rd.parents && r.state.titles == rd.titles
    ensures forall i :: 0 <= i < |rd.arena| && i != h ==> r.state.arena[i] == rd.arena[i]
    ensures r.Done? ==> ParseOption(rd.gen, key, v).Done?
    ensures r.Done? <==> ParseOption(rd.gen, key, v).Done? && AsGroup(ParseOption(rd.gen, key, v).state.root).Ok?
    ensures r.Done? && key == "allow" ==>
      r.state.arena[h] == rd.arena[h].(allows := ParseOption(rd.gen, key, v).state.root)
    ensures r.Done? && key == "gain_effect" ==>
      r.state.arena[h] == rd.arena[h].(gainEffect := ParseOption(rd.gen, key, v).state.root)
    ensures r.Done? && key == "pagan_coa" ==>
      r.state.arena[h] == rd.arena[h].(paganCoA := ParseOption(rd.gen, key, v).state.root)
  {
    var t := rd.arena[h];
    match ParseOption(rd.gen, key, v)
    case Thrown(p, e) => Thrown(rd.(gen := p.gen), e)
    case Done(p) =>
      match AsGroup(p.root)
      case Err(e) => Thrown(rd.(gen := p.gen), e)
      case Ok(g) =>
        var t1 := if key == "allow" then t.(allows := g)
                  else if key == "gain_effect" then t.(gainEffect := g)
                  else t.(paganCoA := g);
        Done(Replace(rd, h, t1).(gen := p.gen))
  }

  /** Any other key: the generic option (or null, when the option state
      hands out nothing) is kept with the title's other options. */
  function MiscField(rd: TitleReader, h: Handle, key: string, v: Token): (r: Outcome<TitleReader>)
    requires Valid(rd) && h < |rd.arena|
    ensures Valid(r.state) && Step(rd, r.state, h) && r.state.parents == rd.parents && r.state.titles == rd.titles
    ensures forall i :: 0 <= i < |rd.arena| && i != h ==> r.state.arena[i] == rd.arena[i]
    ensures r.Done? <==> ParseOption(rd.gen, key, v).Done?
    ensures r.Done? ==>
      r.state.arena[h] == rd.arena[h].(misc := rd.arena[h].misc + [ParseOption(rd.gen, key, v).state.root])
  {
    var t := rd.arena[h];
    match ParseOption(rd.gen, key, v)
    case Thrown(p, e) => Thrown(rd.(gen := p.gen), e)
    case Done(p) => Done(Replace(rd, h, t.(misc := t.misc + [p.root])).(gen := p.gen))
  }

  /** A sub-title: the title at `h` is pushed while the sub-title is read
      and popped afterwards; a failure leaves it pushed. */
  function SubTitle(rd: TitleReader, h: Handle, key: string, v: Token): (r: Outcome<TitleReader>)
    requires Valid(rd) && h < |rd.arena| && !Listed(rd.arena, rd.titles, h)
    ensures Valid(r.state) && Step(rd, r.state, h)
    ensures |r.state.parents| >= |rd.parents| && r.state.parents[..|rd.parents|] == rd.parents
    ensures r.Thrown? ==> |r.state.parents| > |rd.parents| && r.state.parents[|rd.parents|] == h
    ensures r.Done? ==> r.state.parents == rd.parents
    ensures r.Done? ==> (|r.state.arena| > |rd.arena|
      && r.state.arena[|rd.arena|].id == key && r.state.arena[|rd.arena|].parent == Some(h)
      && r.state.arena[h].subTitles == rd.arena[h].subTitles[key := |rd.arena|])
    decreases v, 3
  {
    var pushed := rd.(parents := rd.parents + [h]);
    PendingPush(rd.arena, rd.titles, rd.parents, h);
    assert Top(pushed.parents) == h;
    match ParseTitle(pushed, key, v)
    case Thrown(s, e) =>
      PrefixOfPrefix(s.parents, rd.parents, h);
      Thrown(s, e)
    case Done(s) =>
      PendingPrefix(s.arena, s.titles, s.parents, |rd.parents|);
      assert s.parents[..|rd.parents|] == rd.parents;
      Done(s.(parents := rd.parents))
  }

  lemma PendingPush(arena: seq<Title>, titles: map<string, Handle>, parents: seq<Handle>, h: Handle)
    requires Pending(arena, titles, parents) && h < |arena| && !Listed(arena, titles, h)
    ensures Pending(arena, titles, parents + [h])
  {
  }

  lemma PendingPrefix(arena: seq<Title>, titles: map<string, Handle>, parents: seq<Handle>, k: nat)
    requires Pending(arena, titles, parents) && k <= |parents|
    ensures Pending(arena, titles, parents[..k])
  {
  }

  lemma PrefixOfPrefix(s: seq<Handle>, p: seq<Handle>, h: Handle)
    requires |s| >= |p| + 1 && s[..|p| + 1] == p + [h]
    ensures s[..|p|] == p && s[|p|] == h
  {
    assert s[..|p|] == s[..|p| + 1][..|p|];
  }

  /** The title at `h` lists `key` as a sub-title, naming a title with
      that id whose parent is `h`. */
  ghost predicate HasSub(rd: TitleReader, h: Handle, key: string)
    requires h < |rd.arena|
  {
    && key in rd.arena[h].subTitles && rd.arena[h].subTitles[key] < |rd.arena|
    && rd.arena[rd.arena[h].subTitles[key]].id == key
    && rd.arena[rd.arena[h].subTitles[key]].parent == Some(h)
  }

  /** A sub-title entry of the block is entered as a sub-title of `h`. */
  lemma FieldAddsSub(rd: TitleReader, h: Handle, key: string, v: Token)
    requires Valid(rd) && h < |rd.arena| && !Listed(rd.arena, rd.titles, h)
    requires IsSubTitleKey(key)
    ensures Field(rd, h, key, v).Done? ==> HasSub(Field(rd, h, key, v).state, h, key)
  {
    TierOfPrefix(key);
    FieldDispatch(rd, h, key, v);
  }

  /** A completed entry keeps every sub-title `h` already lists. */
  lemma FieldKeepsSub(rd: TitleReader, h: Handle, key: string, v: Token, t: string)
    requires Valid(rd) && h < |rd.arena| && !Listed(rd.arena, rd.titles, h) && HasSub(rd, h, t)
    ensures Field(rd, h, key, v).Done? ==> HasSub(Field(rd, h, key, v).state, h, t)
  {
    if IsScalarKey(key) {
      ScalarKeepsSub(rd, h, key, v, t);
    } else if key in GroupKeys {
      GroupKeepsSub(rd, h, key, v, t);
    } else {
      DefaultKeepsSub(rd, h, key, v, t);
    }
  }

  lemma GroupKeepsSub(rd: TitleReader, h: Handle, key: string, v: Token, t: string)
    requires Valid(rd) && h < |rd.arena| && !Listed(rd.arena, rd.titles, h) && HasSub(rd, h, t)
    requires !IsScalarKey(key) && key in GroupKeys
    ensures Field(rd, h, key, v).Done? ==> HasSub(Field(rd, h, key, v).state, h, t)
  {
    OptionFieldKeepsSub(rd, h, GroupField(rd, h, key, v).state, t);
  }

  /** The `default` case: a sub-title or an option. */
  lemma DefaultKeepsSub(rd: TitleReader, h: Handle, key: string, v: Token, t: string)
    requires Valid(rd) && h < |rd.arena| && !Listed(rd.arena, rd.titles, h) && HasSub(rd, h, t)
    requires !IsScalarKey(key) && key !in GroupKeys
    ensures Field(rd, h, key, v).Done? ==> HasSub(Field(rd, h, key, v).state, h, t)
  {
    if |key| >= 2 && TierOf(key).Some? {
      SubTitleKeepsSub(rd, h, key, v, t);
    } else if |key| >= 2 {
      OptionFieldKeepsSub(rd, h, MiscField(rd, h, key, v).state, t);
    }
  }

  lemma ScalarKeepsSub(rd: TitleReader, h: Handle, key: string, v: Token, t: string)
    requires Valid(rd) && h < |rd.arena| && !Listed(rd.arena, rd.titles, h) && HasSub(rd, h, t)
    requires IsScalarKey(key)
    ensures Field(rd, h, key, v).Done? ==> HasSub(Field(rd, h, key, v).state, h, t)
  {
    if ScalarField(rd.arena[h], key, v).Ok? {
      assert Keeps(rd.arena[h], ScalarField(rd.arena[h], key, v).value);
    }
  }

  /** A step that changes at most the title at `h`, keeping its
      sub-titles, keeps what they name. */
  lemma OptionFieldKeepsSub(rd: TitleReader, h: Handle, s: TitleReader, t: string)
    requires h < |rd.arena| && HasSub(rd, h, t) && Step(rd, s, h)
    requires |s.arena| == |rd.arena| && s.arena[h].subTitles == rd.arena[h].subTitles
    ensures HasSub(s, h, t)
  {
    var m := rd.arena[h].subTitles[t];
    assert s.arena[m].id == rd.arena[m].id && s.arena[m].parent == rd.arena[m].parent;
  }

  lemma SubTitleKeepsSub(rd: TitleReader, h: Handle, key: string, v: Token, t: string)
    requires Valid(rd) && h < |rd.arena| && !Listed(rd.arena, rd.titles, h) && HasSub(rd, h, t)
    ensures SubTitle(rd, h, key, v).Done? ==> HasSub(SubTitle(rd, h, key, v).state, h, t)
  {
    var r := SubTitle(rd, h, key, v);
    if r.Done? && key != t {
      var m := rd.arena[h].subTitles[t];
      assert r.state.arena[m].id == rd.arena[m].id && r.state.arena[m].parent == rd.arena[m].parent;
    }
  }

  /** A sub-title entry: a key the switch does not handle itself that
      starts with a title prefix. */
  predicate IsSubTitleKey(key: string)
  {
    !IsScalarKey(key) && key !in GroupKeys && TierOf(key).Some?
  }

  /** Pure bookkeeping of the induction step below. */
  lemma SubsJoin(r: TitleReader, h: Handle, es: seq<Entry>, i: nat)
    requires h < |r.arena| && i < |es|
    requires IsSubTitleKey(es[i].tag) ==> HasSub(r, h, es[i].tag)
    requires forall j :: i + 1 <= j < |es| && IsSubTitleKey(es[j].tag) ==> HasSub(r, h, es[j].tag)
    ensures forall j :: i <= j < |es| && IsSubTitleKey(es[j].tag) ==> HasSub(r, h, es[j].tag)
  {
  }

  /** A completed read of a title's block has every sub-title entry of the
      block listed among the title's sub-titles, naming a title of that id
      whose parent is the title. */
  lemma {:induction false} FieldsRegisters(rd: TitleReader, h: Handle, block: Token, i: nat)
    requires Valid(rd) && h < |rd.arena| && !Listed(rd.arena, rd.titles, h)
    requires IsBlock(block) && i <= |EntriesOf(block)|
    ensures var r := Fields(rd, h, block, i);
      r.Done? ==> forall j :: i <= j < |EntriesOf(block)| && IsSubTitleKey(EntriesOf(block)[j].tag) ==>
        HasSub(r.state, h, EntriesOf(block)[j].tag)
    decreases |EntriesOf(block)| - i
  {
    var es := EntriesOf(block);
    if i < |es| {
      var s := FieldsStep(rd, h, block, i, es[i].tag);
      if s.Done? {
        var r := Fields(s.state, h, block, i + 1);
        if r.Done? {
          FieldsRegisters(s.state, h, block, i + 1);
          if IsSubTitleKey(es[i].tag) {
            FieldsKeepsSub(s.state, h, block, i + 1, es[i].tag);
          }
          SubsJoin(r.state, h, es, i);
        }
      }
    }
  }

  /** The reader can go on reading the block of the title at `h`. */
  ghost predicate Open(rd: TitleReader, h: Handle)
  {
    Valid(rd) && h < |rd.arena| && !Listed(rd.arena, rd.titles, h)
  }

  /** One entry of the block read: the reader after it, what it keeps
      and adds, and how the rest of the block goes on from it. */
  lemma FieldsStep(rd: TitleReader, h: Handle, block: Token, i: nat, t: string) returns (s: Outcome<TitleReader>)
    requires Open(rd, h) && IsBlock(block) && i < |EntriesOf(block)|
    ensures var e := EntriesOf(block)[i];
      && (s.Done? ==> && Open(s.state, h)
                      && (HasSub(rd, h, t) ==> HasSub(s.state, h, t))
                      && (IsSubTitleKey(e.tag) ==> HasSub(s.state, h, e.tag))
                      && Fields(rd, h, block, i) == Fields(s.state, h, block, i + 1))
      && (s.Thrown? ==> Fields(rd, h, block, i).Thrown?)
  {
    var e := EntriesOf(block)[i];
    assert e in block.entries;
    s := Field(rd, h, e.tag, e.value);
    if HasSub(rd, h, t) {
      FieldKeepsSub(rd, h, e.tag, e.value, t);
    }
    if IsSubTitleKey(e.tag) {
      FieldAddsSub(rd, h, e.tag, e.value);
    }
  }

  lemma {:induction false} FieldsKeepsSub(rd: TitleReader, h: Handle, block: Token, i: nat, t: string)
    requires Open(rd, h) && HasSub(rd, h, t) && IsBlock(block) && i <= |EntriesOf(block)|
    ensures Fields(rd, h, block, i).Done? ==> HasSub(Fields(rd, h, block, i).state, h, t)
    decreases |EntriesOf(block)| - i
  {
    if i < |EntriesOf(block)| {
      var s := FieldsStep(rd, h, block, i, t);
      if s.Done? {
        FieldsKeepsSub(s.state, h, block, i + 1, t);
        var r := Fields(s.state, h, block, i + 1);
        assert Fields(rd, h, block, i) == r;
        assert r.Done? ==> HasSub(r.state, h, t);
      } else {
        assert Fields(rd, h, block, i).Thrown?;
      }
    } else {
      assert Fields(rd, h, block, i) == Done(rd);
    }
  }

  /** The title at `h` replaced by one that keeps its id, parent and
      sub-titles. */
  function Replace(rd: TitleReader, h: Handle, t: Title): (r: TitleReader)
    requires Valid(rd) && h < |rd.arena|
    requires t.id == rd.arena[h].id && t.parent == rd.arena[h].parent && t.subTitles == rd.arena[h].subTitles
    ensures Valid(r) && Step(rd, r, h)
    ensures r == rd.(arena := rd.arena[h := t])
  {
    assert Closed(rd.arena[h], |rd.arena|);
    rd.(arena := rd.arena[h := t])
  }

  /** For every tier, the tier dictionary after an insertion: the inserted
      id now names the new title in its own tier, and every other tier is
      as it was. */
  lemma InsertTiers(rd: TitleReader, n: Handle, t: Tier)
    requires Valid(rd) && n < |rd.arena|
    requires forall j :: 0 <= j < |rd.parents| ==> rd.parents[j] != n
    ensures var id := rd.arena[n].id;
      TierOf(id) == Some(t) ==> TierTitles(Insert(rd, n), t) == TierTitles(rd, t)[id := n]
    ensures TierOf(rd.arena[n].id) != Some(t) ==> TierTitles(Insert(rd, n), t) == TierTitles(rd, t)
  {
    var id := rd.arena[n].id;
    if TierOf(id).Some? {
      RestrictUpdate(rd.titles, id, n, t);
    }
  }

  lemma RestrictUpdate(titles: map<string, Handle>, id: string, n: Handle, t: Tier)
    ensures TierOf(id) == Some(t) ==> Restrict(titles[id := n], t) == Restrict(titles, t)[id := n]
    ensures TierOf(id) != Some(t) ==> Restrict(titles[id := n], t) == Restrict(titles, t)
  {
    if TierOf(id) == Some(t) {
      assert Restrict(titles[id := n], t).Keys == Restrict(titles, t).Keys + {id};
    } else {
      assert Restrict(titles[id := n], t).Keys == Restrict(titles, t).Keys;
    }
  }

  /** An insertion never changes a title on the parent stack: the
      enclosing titles are not yet registered, so no sweep reaches them. */
  lemma InsertSparesParents(rd: TitleReader, n: Handle, j: nat)
    requires Valid(rd) && n < |rd.arena| && j < |rd.parents|
    requires forall j :: 0 <= j < |rd.parents| ==> rd.parents[j] != n
    ensures Insert(rd, n).arena[rd.parents[j]] == rd.arena[rd.parents[j]]
  {
    InsertLeavesUnlisted(rd, n, rd.parents[j]);
  }

  // ---------------------------------------------------------------------
  // CheckLandless

  /** `CheckLandless()`: every registered county, duchy, kingdom and
      empire is titular exactly when it has no sub-titles. */
  function CheckLandless(rd: TitleReader): (r: TitleReader)
    requires Valid(rd)
    ensures Valid(r) && |r.arena| == |rd.arena|
    ensures r.titles == rd.titles && r.parents == rd.parents && r.file == rd.file
    ensures r.gen == rd.gen && r.errors == rd.errors
    ensures forall i :: 0 <= i < |rd.arena| ==>
      r.arena[i].(isTitular := rd.arena[i].isTitular) == rd.arena[i]
    ensures forall k :: k in rd.titles && TierOf(k) != Some(Barony) ==>
      (r.arena[rd.titles[k]].isTitular <==> |rd.arena[rd.titles[k]].subTitles| == 0)
    ensures forall i :: 0 <= i < |rd.arena| && !(Listed(rd.arena, rd.titles, i) && TierOf(rd.arena[i].id) != Some(Barony)) ==>
      r.arena[i] == rd.arena[i]
  {
    var arena := seq(|rd.arena|, i requires 0 <= i < |rd.arena| =>
      if Listed(rd.arena, rd.titles, i) && TierOf(rd.arena[i].id) != Some(Barony)
      then rd.arena[i].(isTitular := |rd.arena[i].subTitles| == 0) else rd.arena[i]);
    forall i | 0 <= i < |arena| ensures Closed(arena[i], |arena|) {
      assert Closed(rd.arena[i], |rd.arena|);
    }
    rd.(arena := arena)
  }

  /** Running the pass twice is running it once. */
  lemma CheckLandlessIdempotent(rd: TitleReader)
    requires Valid(rd)
    ensures CheckLandless(CheckLandless(rd)) == CheckLandless(rd)
  {
    var r1 := CheckLandless(rd);
    var r2 := CheckLandless(r1);
    assert r2.arena == r1.arena by {
      forall i | 0 <= i < |r1.arena| ensures r2.arena[i] == r1.arena[i] {
        if Listed(rd.arena, rd.titles, i) && TierOf(rd.arena[i].id) != Some(Barony) {
          assert r1.arena[i].(isTitular := rd.arena[i].isTitular) == rd.arena[i];
          assert r1.arena[i] == rd.arena[i].(isTitular := |rd.arena[i].subTitles| == 0);
        }
      }
    }
  }

  /** Baronies are never marked. */
  lemma BaroniesKeepTitular(rd: TitleReader, k: string)
    requires Valid(rd) && k in TierTitles(rd, Barony)
    ensures CheckLandless(rd).arena[rd.titles[k]] == rd.arena[rd.titles[k]]
  {
  }

  // ---------------------------------------------------------------------
  // LinkCounties

  /** `provinces.ToList().Find(p => p.Value.Title == id)`: the position, in
      enumeration order from `i` on, of the first province whose title is
      `id`. */
  function FirstTitled(d: Dict<int, Provinces.Province>, id: string, i: nat): (r: Option<nat>)
    requires d.Valid() && i <= |d.keys|
    ensures r.Some? ==> i <= r.value < |d.keys| && d.entries[d.keys[r.value]].title == Some(id)
    ensures r.Some? ==> forall j :: i <= j < r.value ==> d.entries[d.keys[j]].title != Some(id)
    ensures r.None? ==> forall j :: i <= j < |d.keys| ==> d.entries[d.keys[j]].title != Some(id)
    decreases |d.keys| - i
  {
    if i == |d.keys| then None
    else if d.entries[d.keys[i]].title == Some(id) then Some(i)
    else FirstTitled(d, id, i + 1)
  }

  /** The county link a title receives: the id of the first province
      whose title is the county's id, if any. */
  function LinkCounty(t: Title, d: Dict<int, Provinces.Province>): (u: Title)
    requires d.Valid()
  {
    match FirstTitled(d, t.id, 0)
    case None => t
    case Some(j) => t.(countyId := d.entries[d.keys[j]].id, capital := d.entries[d.keys[j]].id)
  }

  /** `LinkCounties(provinces)`: every registered county whose id is some
      province's title gets that province's id (the first such province
      in enumeration order) as its county id and capital; every other
      title is left unchanged. */
  function LinkCounties(rd: TitleReader, d: Dict<int, Provinces.Province>): (r: TitleReader)
    requires Valid(rd) && d.Valid()
    ensures Valid(r) && |r.arena| == |rd.arena|
    ensures r.titles == rd.titles && r.parents == rd.parents && r.file == rd.file
    ensures r.gen == rd.gen && r.errors == rd.errors
    ensures forall k :: k in TierTitles(rd, County) ==>
      var h := rd.titles[k];
      match FirstTitled(d, k, 0)
      case None => r.arena[h] == rd.arena[h]
      case Some(j) =>
        var p := d.entries[d.keys[j]];
        p.title == Some(k) && r.arena[h] == rd.arena[h].(countyId := p.id, capital := p.id)
    ensures forall i :: 0 <= i < |rd.arena| && !(Listed(rd.arena, rd.titles, i) && TierOf(rd.arena[i].id) == Some(County)) ==>
      r.arena[i] == rd.arena[i]
  {
    var arena := seq(|rd.arena|, i requires 0 <= i < |rd.arena| =>
      if Listed(rd.arena, rd.titles, i) && TierOf(rd.arena[i].id) == Some(County)
      then LinkCounty(rd.arena[i], d) else rd.arena[i]);
    forall i | 0 <= i < |arena| ensures Closed(arena[i], |arena|) {
      assert Closed(rd.arena[i], |rd.arena|);
    }
    rd.(arena := arena)
  }

  /** Linking twice is linking once: the link depends only on the ids. */
  lemma LinkCountiesIdempotent(rd: TitleReader, d: Dict<int, Provinces.Province>)
    requires Valid(rd) && d.Valid()
    ensures LinkCounties(LinkCounties(rd, d), d) == LinkCounties(rd, d)
  {
    var r1 := LinkCounties(rd, d);
    var r2 := LinkCounties(r1, d);
    assert r2.arena == r1.arena by {
      forall i | 0 <= i < |r1.arena| ensures r2.arena[i] == r1.arena[i] {
        assert r1.arena[i].id == rd.arena[i].id;
      }
    }
  }

  // ---------------------------------------------------------------------
  // Parse

  /** `ParadoxParser.Parse(fs, ParseTitle)`: every top-level entry is a
      title, read with the reader's parent stack as it stands. */
  function TopLevel(rd: TitleReader, es: seq<Entry>, i: nat): (r: Outcome<TitleReader>)
    requires Valid(rd) && i <= |es|
    ensures Valid(r.state) && r.state.file == rd.file && r.state.errors == rd.errors
    ensures Grows(rd.arena, rd.titles, r.state.arena, r.state.titles)
    ensures |r.state.parents| >= |rd.parents| && r.state.parents[..|rd.parents|] == rd.parents
    ensures r.Done? ==> r.state.parents == rd.parents
    decreases |es| - i
  {
    if i == |es| then Done(rd)
    else
      match ParseTitle(rd, es[i].tag, es[i].value)
      case Thrown(s, e) => Thrown(s, e)
      case Done(s) =>
        var r := TopLevel(s, es, i + 1);
        GrowsTrans(rd.arena, rd.titles, s.arena, s.titles, r.state.arena, r.state.titles);
        r
  }

  lemma TopLevelStep(rd: TitleReader, es: seq<Entry>, i: nat)
    requires Valid(rd) && i < |es|
    ensures var s := ParseTitle(rd, es[i].tag, es[i].value);
      s.Done? ==> TopLevel(rd, es, i) == TopLevel(s.state, es, i + 1)
  {
  }

  /** Pure bookkeeping of the induction step below. */
  lemma TiersJoin(r: TitleReader, es: seq<Entry>, i: nat)
    requires i < |es|
    requires TierOf(es[i].tag).Some? ==> es[i].tag in r.titles
    requires forall j :: i + 1 <= j < |es| && TierOf(es[j].tag).Some? ==> es[j].tag in r.titles
    ensures forall j :: i <= j < |es| && TierOf(es[j].tag).Some? ==> es[j].tag in r.titles
  {
  }

  /** A completed read of a file has every top-level title with a title
      prefix registered under its id. */
  lemma {:induction false} TopLevelRegisters(rd: TitleReader, es: seq<Entry>, i: nat)
    requires Valid(rd) && i <= |es|
    ensures var r := TopLevel(rd, es, i);
      r.Done? ==> forall j :: i <= j < |es| && TierOf(es[j].tag).Some? ==> es[j].tag in r.state.titles
    decreases |es| - i
  {
    if i < |es| {
      var s := ParseTitle(rd, es[i].tag, es[i].value);
      if s.Done? {
        TopLevelStep(rd, es, i);
        var r := TopLevel(s.state, es, i + 1);
        if r.Done? {
          TopLevelRegisters(s.state, es, i + 1);
          TiersJoin(r.state, es, i);
        }
      }
    }
  }

  /** `Parse(filename)`: a missing file records one error; otherwise the
      file's titles are read and `CheckLandless` runs, and a failure
      records one error and skips it. Titles read before a failure stay,
      and so do the titles the failure left on the parent stack. */
  function ParseFile(rd: TitleReader, f: SourceFile): (r: TitleReader)
    requires Valid(rd)
    ensures Valid(r)
    ensures !f.found ==> r == rd.(errors := rd.errors + ["File not found: " + f.name])
    ensures f.found ==> r.file == f.name && (|r.errors| == |rd.errors| || |r.errors| == |rd.errors| + 1)
    ensures f.found && |r.errors| == |rd.errors| ==>
      forall k :: k in r.titles && TierOf(k) != Some(Barony) ==>
        (r.arena[r.titles[k]].isTitular <==> |r.arena[r.titles[k]].subTitles| == 0)
    ensures f.found ==> var t := TopLevel(rd.(file := f.name), f.entries, 0);
      && (t.Done? ==> r == CheckLandless(t.state))
      && (t.Thrown? ==> r == t.state.(errors := t.state.errors + [t.error]))
      && (r.errors == rd.errors <==> t.Done?)
      && (t.Done? ==> forall j :: 0 <= j < |f.entries| && TierOf(f.entries[j].tag).Some? ==> f.entries[j].tag in r.titles)
  {
    if !f.found then rd.(errors := rd.errors + ["File not found: " + f.name])
    else
      TopLevelRegisters(rd.(file := f.name), f.entries, 0);
      match TopLevel(rd.(file := f.name), f.entries, 0)
      case Done(s) => CheckLandless(s)
      case Thrown(s, e) => s.(errors := s.errors + [e])
  }

  /** After a failure inside a nested title the parent stack is not
      unwound, so the next title read, even the first of the next file,
      becomes a sub-title of the abandoned title. */
  lemma StaleParentAdopts(rd: TitleReader, f: SourceFile)
    requires Valid(rd) && |rd.parents| > 0 && f.found && |f.entries| > 0
    requires ParseTitle(rd.(file := f.name), f.entries[0].tag, f.entries[0].value).Done?
    ensures var r := ParseFile(rd, f);
      |r.arena| > |rd.arena| && r.arena[|rd.arena|].parent == Some(Top(rd.parents))
  {
    var rd1 := rd.(file := f.name);
    var s := ParseTitle(rd1, f.entries[0].tag, f.entries[0].value).state;
    assert s.arena[|rd.arena|].parent == Some(Top(rd.parents));
    var r := TopLevel(s, f.entries, 1);
    assert TopLevel(rd1, f.entries, 0) == r;
    assert r.state.arena[|rd.arena|].parent == Some(Top(rd.parents));
  }

  // ---------------------------------------------------------------------
  // ShallowCopy

  /** `ShallowCopy()`: a new, unregistered title equal to the original in
      every field. */
  function ShallowCopy(rd: TitleReader, h: Handle): (r: (TitleReader, Handle))
    requires Valid(rd) && h < |rd.arena|
    ensures Valid(r.0) && r.1 == |rd.arena| && |r.0.arena| == |rd.arena| + 1
    ensures r.0.arena[r.1] == rd.arena[h] && r.0.arena[..|rd.arena|] == rd.arena
    ensures !Listed(r.0.arena, r.0.titles, r.1)
    ensures r.0.titles == rd.titles && r.0.parents == rd.parents
  {
    var arena := rd.arena + [rd.arena[h]];
    forall i | 0 <= i < |arena| ensures Closed(arena[i], |arena|) {
      if i < |rd.arena| {
        assert Closed(rd.arena[i], |rd.arena|);
      } else {
        assert Closed(rd.arena[h], |rd.arena|);
      }
    }
    assert arena[..|rd.arena|] == rd.arena;
    (rd.(arena := arena), |rd.arena|)
  }

  // ---------------------------------------------------------------------
  // Folders

  /** `ParseFolder(folder)`: a missing folder records one error naming it;
      otherwise every file it lists ending in `.txt` is read in turn. */
  function ParseFolder(rd: TitleReader, folderExists: bool, folder: string, files: seq<SourceFile>): (r: TitleReader)
    requires Valid(rd)
    ensures Valid(r)
    ensures !folderExists ==> r == rd.(errors := rd.errors + ["Unable to find folder: " + folder])
    ensures folderExists ==> |r.errors| <= |rd.errors| + |files|
    decreases |files|
  {
    if !folderExists then rd.(errors := rd.errors + ["Unable to find folder: " + folder])
    else if |files| == 0 then rd
    else ParseFolder(ParseFile(rd, files[0]), true, folder, files[1..])
  }

  /** Reading a folder that lists one file reads that file, and one that
      lists none changes nothing. */
  lemma ParseFolderOne(rd: TitleReader, folder: string, f: SourceFile)
    requires Valid(rd)
    ensures ParseFolder(rd, true, folder, [f]) == ParseFile(rd, f)
    ensures ParseFolder(rd, true, folder, []) == rd
  {
    assert [f][1..] == [];
  }

  /** Reading a folder whose listing is `a` then `b` reads `a`, then `b`. */
  lemma {:induction false} ParseFolderAppend(rd: TitleReader, folder: string, a: seq<SourceFile>, b: seq<SourceFile>)
    requires Valid(rd)
    ensures ParseFolder(rd, true, folder, a + b) == ParseFolder(ParseFolder(rd, true, folder, a), true, folder, b)
    decreases |a|
  {
    if |a| == 0 {
      assert a + b == b;
    } else {
      assert (a + b)[0] == a[0];
      assert (a + b)[1..] == a[1..] + b;
      ParseFolderAppend(ParseFile(rd, a[0]), folder, a[1..], b);
    }
  }
}

=== FILE: tokens.dfy ===
/** The already-tokenised input handed to every reader. The tokenizer
    itself (bracket and quote scanning) is outside the model: a document is
    a sequence of `tag = value` entries, where a value is a bare word, a
    bracketed list of bare words, or a bracketed block of further entries.
    Empty braces are an empty block. */
module Tokens {
  import opened Wrappers
  import opened Text

  datatype Entry = Entry(tag: string, value: Token)

  datatype Token =
    | Word(text: string)
    | Words(items: seq<string>)
    | Block(entries: seq<Entry>)

  /** `NextIsBracketed()`. */
  predicate IsBracketed(t: Token) { !t.Word? }

  /** `ReadString()`: the text of a bare word. */
  function ReadString(t: Token): (r: Result<string>)
    ensures r.Ok? <==> t.Word?
    ensures r.Ok? ==> r.value == t.text
  {
    if t.Word? then Ok(t.text) else Err("Expected a value, found a bracketed list")
  }

  /** `ReadInt32()`: a bare word holding a 32-bit integer. */
  function ReadInt32(t: Token): (r: Result<int>)
    ensures r.Ok? <==> t.Word? && ParseInt32(t.text).Some?
    ensures r.Ok? ==> Some(r.value) == ParseInt32(t.text)
  {
    if !t.Word? then Err("Expected an integer, found a bracketed list")
    else match ParseInt32(t.text)
      case Some(n) => Ok(n)
      case None => Err("Input string was not in a correct format: " + t.text)
  }

  /** `ReadBool()`: a bare word, true exactly when it is `yes`. */
  function ReadBool(t: Token): (r: Result<bool>)
    ensures r.Ok? <==> t.Word?
    ensures r.Ok? ==> (r.value <==> t.text == "yes")
  {
    if t.Word? then Ok(t.text == "yes") else Err("Expected a boolean, found a bracketed list")
  }

  /** `ReadDouble()`: a bare word holding a decimal literal, kept as text. */
  function ReadDouble(t: Token): (r: Result<string>)
    ensures r.Ok? <==> t.Word? && IsDecimalLiteral(t.text)
  {
    if t.Word? && IsDecimalLiteral(t.text) then Ok(t.text)
    else Err("Expected a number")
  }

  /** `ReadStringList()`: the words of a bracketed list. */
  function ReadStringList(t: Token): (r: Result<seq<string>>)
    ensures r.Ok? <==> t.Words? || t == Block([])
    ensures r.Ok? && t.Words? ==> r.value == t.items
    ensures r.Ok? && t.Block? ==> r.value == []
  {
    match t
    case Words(items) => Ok(items)
    case Block(entries) => if |entries| == 0 then Ok([]) else Err("Expected a list of values")
    case Word(_) => Err("Expected a bracketed list")
  }

  /** Every word parsed as a 32-bit integer, in order; the first word that
      is not one makes the whole list fail. */
  function ParseInts(ws: seq<string>): (r: Result<seq<int>>)
    ensures r.Ok? ==> |r.value| == |ws|
  {
    if |ws| == 0 then Ok([])
    else match ParseInt32(ws[0])
      case None => Err("Input string was not in a correct format: " + ws[0])
      case Some(n) =>
        match ParseInts(ws[1..])
        case Err(e) => Err(e)
        case Ok(rest) => Ok([n] + rest)
  }

  /** A successful list parse holds each word's value at its position, and
      it succeeds exactly when every word is a 32-bit integer. */
  lemma {:induction false} ParseIntsElementwise(ws: seq<string>)
    ensures ParseInts(ws).Ok? <==> forall i :: 0 <= i < |ws| ==> ParseInt32(ws[i]).Some?
    ensures ParseInts(ws).Ok? ==>
      forall i :: 0 <= i < |ws| ==> ParseInt32(ws[i]) == Some(ParseInts(ws).value[i])
  {
    if |ws| > 0 {
      var tail := ws[1..];
      ParseIntsElementwise(tail);
      forall i | 1 <= i < |ws|
        ensures tail[i - 1] == ws[i]
      {
      }
      match ParseInt32(ws[0])
      case None =>
        assert !ParseInts(ws).Ok?;
      case Some(n) =>
        assert ParseInts(ws).Ok? <==> ParseInts(tail).Ok?;
        if ParseInts(tail).Ok? {
          assert ParseInts(ws).value == [n] + ParseInts(tail).value;
        }
    }
  }

  /** `ReadIntList()`: the words of a bracketed list, as 32-bit integers. */
  function ReadIntList(t: Token): (r: Result<seq<int>>)
    ensures r.Ok? ==> t.Words? || t == Block([])
    ensures t.Words? ==> r == ParseInts(t.items)
  {
    match t
    case Words(items) => ParseInts(items)
    case Block(entries) => if |entries| == 0 then Ok([]) else Err("Expected a list of integers")
    case Word(_) => Err("Expected a bracketed list")
  }

  /** The entries that `Parse(callback)` hands to its callback, in order.
      A bare word is not a block; a non-empty word list is not either. */
  predicate IsBlock(t: Token)
  {
    t.Block? || (t.Words? && |t.items| == 0)
  }

  function EntriesOf(t: Token): seq<Entry>
    requires IsBlock(t)
  {
    if t.Block? then t.entries else []
  }

  /** A file handed to a reader: its name, whether it exists, and its
      entries once tokenised. */
  datatype SourceFile = SourceFile(name: string, found: bool, entries: seq<Entry>)
}

=== FILE: wrappers.dfy ===
/** Failure-carrying datatypes shared by every reader of the model. */
module Wrappers {

  /** The conventional Some/None datatype; stands for a nullable reference. */
  datatype Option<+T> = None | Some(value: T)

  /** A computation that either produces a value or fails with a message. */
  datatype Result<+T> = Ok(value: T) | Err(error: string)

  /** The state reached by a step that may throw. A thrown exception does
      not roll back anything the step already changed, so the state at the
      point of the throw travels with the error. */
  datatype Outcome<+S> = Done(state: S) | Thrown(state: S, error: string)
}
